=== FILE: README.md ===
# Kaede launcher-override engine in Dafny

Kaede lets a Linux desktop user choose, per application, which GPU the
application runs on. This project models the engine behind that choice:
- how GPUs are discovered;
- how installed applications are found;
- how a GPU choice becomes launcher changes.

Applications come from Steam, Heroic, Flatpak or plain desktop files. The
GUI around the engine is not modelled.

The modules follow the program's layout:

- `Models` and `Config`: the GPU choice, its label, and the per-application
  store of choices and display flags.
- `Updates`: the release check and the numeric version comparison.
- `Gpu`: GPU detection.
  - It reads the DRM card listing, the `lspci` names and the render nodes
    from sysfs and `/dev/dri`.
  - It orders the cards by card number.
  - It assigns the `DRI_PRIME` indices and asks `glxinfo`/`vulkaninfo`
    for each renderer.
- `Details`: the labels shown for GPU choices, and how a choice resolves to
  a GPU.
- `Desktop`: parsing `.desktop` files, the Steam/Heroic/Flatpak ids read
  from an `Exec` line, and the merged, name-sorted scan of the application
  directories.
- `Launcher`: the GPU profile (NVIDIA or Mesa), the environment pairs for a
  GPU, the Flatpak override arguments, and wrapping an `Exec` command.
- `Override`: rewriting or synthesizing the per-user desktop override, and
  the dispatch of `apply_launcher_override` over Steam, Heroic, Flatpak and
  native applications as a list of file and tool effects.
- `Json`, `Assoc` and `Heroic`:
  - a JSON value with objects as key-ordered association lists;
  - merging the managed variables into a Heroic game configuration
    (`enviromentOptions` and the global `envVariables`);
  - the validation read-back and the loop over candidate files.
- `Vdf`, `LaunchOptions`, `Steam` and `SteamConfig`:
  - the text scanner for Valve's KeyValues `localconfig.vdf`: brace
    matching that knows strings, and key lookup, exact or
    case-insensitive;
  - the managed launch-option prefix between its markers;
  - the upsert of one app's `LaunchOptions` line;
  - the update, read-back and validation of each config file, and the
    verdict over all of them.

File contents, directory listings, tool output and HTTP answers are
parameters. Writes and tool calls are returned as values (`Override.Effect`,
`Heroic.Written`, `SteamConfig.ConfigRun`), not performed. Byte offsets in
the source are character positions here. The source slices only at ASCII
delimiters, so the two agree.

## Model

| member | source | states |
|---|---|---|
| Models.DefaultChoice | src/models/mod.rs:39-43 | The default GPU choice is `Default`. |
| Models.Label | src/models/mod.rs:46-51 | `Default` is labelled "Default GPU"; `Gpu(n)` is labelled "GPU " followed by the decimal n. |
| Models.LabelInjective | src/models/mod.rs:46-51 | Two choices with the same label are the same choice. |
| Models.LabelHead | src/models/mod.rs:46-51 | A label is never empty, and its first letter tells the two kinds apart. |
| Models.DefaultAppConfig | src/models/mod.rs:54-58 | A fresh configuration has no assignments and every display flag off. |
| Config.GetChoice | src/config/mod.rs:23-29 | An application with no stored choice gets `Default`; otherwise it gets its stored choice. |
| Config.SetChoice | src/config/mod.rs:31-33 | Reading the id back gives the choice just set. Every other id, the path and the display flags are unchanged. |
| Config.SetGetIdempotent | src/config/mod.rs:23-33 | Storing an id's current choice again leaves the store as it was. |
| Config.FreshStoreIsDefault | src/config/mod.rs:23-29 | A store holding the default configuration answers `Default` for every application. |
| Config.SetShowSteamApps | src/config/mod.rs:48-54 | The Steam flag reads back as set. The other flags, all choices and the path are unchanged. |
| Config.SetShowHeroicApps | src/config/mod.rs:56-62 | The Heroic flag reads back as set. The other flags, all choices and the path are unchanged. |
| Config.SetShowFlatpakApps | src/config/mod.rs:64-70 | The Flatpak flag reads back as set. The other flags, all choices and the path are unchanged. |
| Updates.CompareNat | src/updates.rs:67-68 | Less exactly when a < b, and Equal exactly when a == b. |
| Updates.VersionParts | src/updates.rs:63-64 | A version has at most one numeric part per dot-separated segment, and every part fits in a u32. `Updates.CompareVersions` compares these parts. |
| Updates.ParseSegments | src/updates.rs:63-64 | Each dot-separated segment yields at most one number, and every number fits in a u32. |
| Updates.UnparsedSegmentDropped | src/updates.rs:63-64 | A segment that does not parse as a u32 has no effect on the parsed parts. |
| Updates.CompareVersions | src/updates.rs:62-72 | Two versions compare Equal exactly when their numeric parts are the same. |
| Updates.CompareReflexive | src/updates.rs:66-71 | Any list of parts compares Equal with itself. |
| Updates.CompareAntisymmetric | src/updates.rs:66-71 | Swapping the arguments reverses the ordering. |
| Updates.CompareEqualIff | src/updates.rs:66-71 | Equal holds exactly when the two part lists are identical. |
| Updates.FirstDifferenceDecides | src/updates.rs:66-69 | After a common prefix, the first differing part decides the order. |
| Updates.LongerPrefixIsGreater | src/updates.rs:71 | When one list is a proper prefix of the other, the longer list is greater. |
| Updates.CompareTransitive | src/updates.rs:66-71 | Less is transitive. |
| Updates.VersionsReflexive | src/updates.rs:62-72 | A version string compares Equal with itself. |
| Updates.VersionsAntisymmetric | src/updates.rs:62-72 | Swapping the two version strings reverses the ordering. |
| Updates.CheckForUpdates | src/updates.rs:15-60 | See the bullets under this table. |
| Updates.SameVersionIsUpToDate | src/updates.rs:39-53 | A release tagged with the running version is up to date, with or without leading `v`s. |
| Updates.TrimVs | src/updates.rs:39 | Trimming the leading `v`s removes exactly those `v`s. |
| Gpu.CardEntries | src/gpu/mod.rs:14-20 | Keeps exactly the DRM entries named `card*` without a `-`, and nothing else. |
| Gpu.CardNumber | src/gpu/mod.rs:157-161 | The sort key never exceeds `usize::MAX`. |
| Gpu.CardNumberOfRendered | src/gpu/mod.rs:157-161 | `card<n>` has sort key n. |
| Gpu.CardNumberNonNumeric | src/gpu/mod.rs:157-161 | A card whose suffix does not parse sorts as `usize::MAX`, that is, after every other card. |
| Gpu.InsertByCard | src/gpu/mod.rs:49 | Inserting one card adds exactly that card. |
| Gpu.InsertByCardSorted | src/gpu/mod.rs:49 | Inserting into a list sorted by card number keeps it sorted. |
| Gpu.SortByCard | src/gpu/mod.rs:49 | The sort is a permutation of its input. |
| Gpu.SortByCardSorted | src/gpu/mod.rs:49 | The sort's result is ordered by card number. |
| Gpu.SortByCardStable | src/gpu/mod.rs:49 | The sort is stable: cards with the same card number keep their input order, and so do their `DRI_PRIME` indices. |
| Gpu.LspciEntry | src/gpu/mod.rs:77-95 | See the bullets under this table. |
| Gpu.LspciEntries | src/gpu/mod.rs:77-96 | Each output line is read on its own, in order. |
| Gpu.LspciMap | src/gpu/mod.rs:66-75 | When `lspci` failed to start or exited unsuccessfully, there are no names. |
| Gpu.LspciLastWins | src/gpu/mod.rs:77-96 | A slot's name comes from its last GPU line. |
| Gpu.LspciAbsent | src/gpu/mod.rs:77-96 | A slot with no GPU line has no name. |
| Gpu.FirstRenderNode | src/gpu/mod.rs:119-125 | A card's render node is the `/dev/dri` path of a `renderD*` entry, and there is none exactly when no entry is `renderD*`. |
| Gpu.SysfsRenderMap | src/gpu/mod.rs:101-129 | Render nodes are recorded only under card names. |
| Gpu.SortStrings | src/gpu/mod.rs:144 | The sort is a permutation of its input. |
| Gpu.SortStringsSorted | src/gpu/mod.rs:144 | The sort's result is in lexicographic order. |
| Gpu.RenderPaths | src/gpu/mod.rs:137-142 | A path is listed exactly when it is the `/dev/dri` path of a `renderD*` name. |
| Gpu.DevRenderNodes | src/gpu/mod.rs:131-146 | An unreadable `/dev/dri` gives no nodes; otherwise the result is a permutation of the render paths. |
| Gpu.DevRenderNodesSpec | src/gpu/mod.rs:131-146 | The fallback nodes are sorted, and a path is among them exactly when it is a `renderD*` path. |
| Gpu.ApplyFallback | src/gpu/mod.rs:51-56 | Only a card without a sysfs render node takes the fallback node at its own position, when one exists. Every other card is unchanged. |
| Gpu.GlxRenderer | src/gpu/mod.rs:174-181 | See the bullets under this table. |
| Gpu.VulkanRenderer | src/gpu/mod.rs:197-209 | None exactly when no trimmed line starts with `GPU` and holds a colon; otherwise the result is the first such line, trimmed. |
| Gpu.VulkanRendererIsGpuLine | src/gpu/mod.rs:201-206 | The renderer found is itself such a line and is already trimmed. |
| Gpu.DetectRenderer | src/gpu/mod.rs:163-184 | The glxinfo renderer when glxinfo succeeded and printed one; otherwise the vulkaninfo answer when vulkaninfo succeeded; otherwise none. |
| Gpu.PciSlotFromUevent | src/gpu/mod.rs:24-29 | There is no slot without a uevent file, or when no line of the trimmed file carries `PCI_SLOT_NAME=`. |
| Gpu.CardInfo | src/gpu/mod.rs:22-45 | See the bullets under this table. |
| Gpu.CardInfos | src/gpu/mod.rs:14-47 | One record per card entry, in order. |
| Gpu.AssignIndices | src/gpu/mod.rs:58-61 | Each card gets its position as its `DRI_PRIME` index, and the renderer probed under that index. |
| Gpu.DetectGpus | src/gpu/mod.rs:7-64 | One GPU per card entry. The `DRI_PRIME` indices are 0, 1, 2, …, and each GPU's renderer is the one probed under its index. |
| Gpu.DetectGpusCards | src/gpu/mod.rs:7-64 | The detected cards are exactly the card entries, as a multiset, ordered by card number. |
| Gpu.DetectGpusOnlyCards | src/gpu/mod.rs:18-20 | Only `card*` entries become GPUs. |
| Gpu.DetectGpusRenderNodes | src/gpu/mod.rs:31-56 | Each sorted card keeps its name and sysfs node; a card without one takes the `/dev/dri` fallback at its index. |
| Gpu.StagesKeepCards | src/gpu/mod.rs:51-61 | The fallback and index passes neither reorder nor change the cards. |
| Details.FindByIndex | src/ui/details.rs:254-262 | Finds the first GPU with the given `DRI_PRIME` index, or reports that none has it. |
| Details.SelectedGpuForChoice | src/ui/details.rs:254-262 | `Default` selects nothing. `Gpu(n)` selects a GPU exactly when some GPU has index n, and the one selected is the first such GPU. |
| Details.TruncateWithDots | src/ui/details.rs:185-193 | See the bullets under this table. |
| Details.TruncateFits | src/ui/details.rs:185-193 | With a limit of at least 3, the result never exceeds the limit. |
| Details.CompactDefaultName | src/ui/details.rs:195-216 | The result is the name itself or a non-empty, whitespace-collapsed name. It is empty only for an empty name. |
| Details.CompactOfClean | src/ui/details.rs:195-216 | A collapsed name without vendor terms is kept as it is. |
| Details.PrettySource | src/ui/details.rs:218-224 | The renderer string when there is a non-blank one; otherwise the detected name. |
| Details.AfterColon | src/ui/details.rs:225-229 | A text without a colon is unchanged; otherwise it gets shorter. |
| Details.CutAt | src/ui/details.rs:230-240 | The cut keeps a slice of the text before the first splitter, and that slice no longer contains the splitter. A text without the splitter is unchanged. |
| Details.CutAll | src/ui/details.rs:230-240 | The result is a slice of the text. |
| Details.CutAllClean | src/ui/details.rs:230-240 | After all cuts, no splitter remains. |
| Details.KeepThroughSeries | src/ui/details.rs:241-246 | A name containing "Series" is cut to end with it; any other name is kept. |
| Details.PrettyGpuName | src/ui/details.rs:218-252 | The display name is never empty and has no extra whitespace. |
| Details.FallbackName | src/ui/details.rs:247-251 | The fallback name is never empty and has no extra whitespace. |
| Details.PrettyPrefersRenderer | src/ui/details.rs:218-224 | With a non-blank renderer, the detected name has no effect on the display name. |
| Details.PrettyOfCleanName | src/ui/details.rs:218-252 | A clean name with no renderer is displayed unchanged. |
| Details.HintGpu | src/ui/details.rs:174-183 | The GPU behind the hint is the one with index 0 if there is one, otherwise the first GPU; there is none exactly when the list is empty. |
| Details.DefaultGpuHint | src/ui/details.rs:174-183 | The hint is at most 18 characters. |
| Details.HintWithoutGpus | src/ui/details.rs:174-183 | With no GPUs the hint is "System". |
| Details.GpuChoiceLabel | src/ui/details.rs:163-172 | `Default` shows the default label. A choice that resolves to a GPU shows that GPU's indexed label; one that resolves to nothing shows the plain choice label. |
| Details.Indexed | src/ui/details.rs:150-159 | Only GPUs that have an index are listed, each with its own index. |
| Details.IndexedComplete | src/ui/details.rs:150-159 | Every GPU that has an index is listed. |
| Details.BuildGpuChoices | src/ui/details.rs:147-161 | `Default` comes first, then one `Gpu(i)` per indexed GPU, in order. |
| Details.ChoiceLabelAgrees | src/ui/details.rs:147-172 | With distinct indices, the label on each offered choice is the one `gpu_choice_label` gives it. |
| Details.ChoiceResolves | src/ui/details.rs:147-161 | Among the offered choices, only `Default` selects no GPU. |
| Details.IndexedResolve | src/ui/details.rs:150-159 | Every offered GPU choice resolves to a GPU. |
| Details.IndexedSelected | src/ui/details.rs:150-159 | With distinct indices, each offered choice resolves to the GPU it was built from. |
| Desktop.StripExecPlaceholders | src/desktop/mod.rs:119-126 | The cleaned command has no leading, trailing or doubled whitespace. |
| Desktop.StripClean | src/desktop/mod.rs:119-126 | A collapsed command without field codes is unchanged. |
| Desktop.KeyOf | src/desktop/mod.rs:77-86 | Each recognised key is matched exactly, case included. |
| Desktop.Classify | src/desktop/mod.rs:56-73 | See the bullets under this table. |
| Desktop.SetField | src/desktop/mod.rs:77-86 | See the bullets under this table. |
| Desktop.Step | src/desktop/mod.rs:56-87 | A header switches the group, and only key lines inside `[Desktop Entry]` change anything. |
| Desktop.LastPairWins | src/desktop/mod.rs:56-87 | A key's last assignment inside the entry group decides that field. |
| Desktop.LastNameWins | src/desktop/mod.rs:78 | The name is the one on the last `Name=` line of the entry group. |
| Desktop.NoEntryHeader | src/desktop/mod.rs:62-69 | Without a `[Desktop Entry]` header no field is set. |
| Desktop.WithoutEntryGroup | src/desktop/mod.rs:56-87 | A file without a `[Desktop Entry]` line sets no field. |
| Desktop.SteamAppIdFromExec | src/desktop/mod.rs:162-183 | A Steam id is always a non-empty string of digits. |
| Desktop.SteamUrlRoundTrip | src/desktop/mod.rs:163-171 | The digits after the first `steam://rungameid/` are the id. |
| Desktop.SteamApplaunchWord | src/desktop/mod.rs:174-180 | Without a rungameid URL, the all-digit word after the first `-applaunch` is the id. |
| Desktop.SteamApplaunchRoundTrip | src/desktop/mod.rs:174-180 | `steam -applaunch <id>` yields the id. |
| Desktop.FirstDelimiter | src/desktop/mod.rs:190 | Finds the first `/`, `?`, space or quote, or reports that there is none. |
| Desktop.HeroicPath | src/desktop/mod.rs:187-196 | The path form needs a delimiter after the platform, and yields a non-empty platform and app. |
| Desktop.QueryPair | src/desktop/mod.rs:208-215 | A query key never contains `=`. |
| Desktop.QueryValue | src/desktop/mod.rs:216-220 | Only non-empty values are taken. |
| Desktop.HeroicQuery | src/desktop/mod.rs:198-224 | The query form needs its marker and a non-empty `appName`; a runner given is non-empty. |
| Desktop.HeroicGameFromExec | src/desktop/mod.rs:185-225 | A game is found only through one of the two markers, always with a non-empty app name. |
| Desktop.HeroicPathTail | src/desktop/mod.rs:188-196 | `platform/app` after the marker yields that platform and app. |
| Desktop.HeroicPathRoundTrip | src/desktop/mod.rs:185-196 | `heroic://launch/<platform>/<app>` yields that platform and app. |
| Desktop.HeroicQueryRoundTrip | src/desktop/mod.rs:198-224 | `heroic://launch?appName=<a>&runner=<r>` yields runner r and app a. |
| Desktop.LooksLikeFlatpakAppId | src/desktop/mod.rs:155-160 | A word that looks like an app id is non-empty and holds no space, `/` or `=`. `Desktop.FirstAppId` and `Desktop.FlatpakAppIdFromExec` state where such a word is taken from. |
| Desktop.FirstAppId | src/desktop/mod.rs:143-152 | The id is the first word after `run` that does not start with `-` and looks like an app id. |
| Desktop.FlatpakAppIdFromExec | src/desktop/mod.rs:135-153 | An id is found only when the command mentions `flatpak` and `run`, and it looks like an app id. |
| Desktop.FlatpakRunRoundTrip | src/desktop/mod.rs:135-153 | `flatpak run <id>` yields the id. |
| Desktop.FlatpakIdAfterRun | src/desktop/mod.rs:140-152 | In `flatpak run <id>`, the id after `run` is the one found. |
| Desktop.FileName | src/desktop/mod.rs:93 | The desktop id is the path's last component. |
| Desktop.StripSuffix | src/desktop/mod.rs:94 | The suffix is stripped exactly when the name ends with it, and putting it back gives the name. |
| Desktop.FlatpakId | src/desktop/mod.rs:94-96 | The declared `X-Flatpak` id wins, then the id from `Exec`, then the file name without `.desktop`. |
| Desktop.IsFlatpakEntry | src/desktop/mod.rs:128-133 | An entry counts as Flatpak only when its path lies under the Flatpak exports directory or its command mentions `flatpak`. `Desktop.ParseDesktopFile` gives a Flatpak id only to such entries. |
| Desktop.ParseDesktopFile | src/desktop/mod.rs:45-117 | See the bullets under this table. |
| Desktop.NoEntryGroupRejected | src/desktop/mod.rs:45-91 | A file without `[Desktop Entry]` is not an application. |
| Desktop.EntryApp | src/desktop/mod.rs:15-24 | Only readable `.desktop` files that parse contribute an application. |
| Desktop.Keyed | src/desktop/mod.rs:21-24 | Every keyed application was parsed from a listed file, and its key is its desktop id. |
| Desktop.InsertByName | src/desktop/mod.rs:30 | Inserting one application adds exactly that application. |
| Desktop.InsertByNameSorted | src/desktop/mod.rs:30 | Inserting into a name-sorted list keeps it sorted. |
| Desktop.SortByName | src/desktop/mod.rs:29-30 | The sort is a permutation of its input. |
| Desktop.SortByNameSorted | src/desktop/mod.rs:29-30 | The sort's result is ordered by lower-cased name. |
| Desktop.SortByNameStable | src/desktop/mod.rs:29-30 | The sort is stable: applications with the same lower-cased name keep their input order. |
| Desktop.ScanDesktopEntries | src/desktop/mod.rs:6-32 | The scan is ordered by lower-cased name. `Desktop.ScanOnlyParsed`, `Desktop.ScanLaterWins` and `Desktop.ScanOneAppPerId` state which applications it holds. |
| Desktop.ScanSorted | src/desktop/mod.rs:6-32 | The scan's result is ordered by lower-cased name. |
| Desktop.ScanOnlyParsed | src/desktop/mod.rs:6-32 | Every application listed was parsed from a readable `.desktop` file of some directory. |
| Desktop.ScanLaterWins | src/desktop/mod.rs:21-24 | Under a desktop id, the application of the last file listed is shown. With `Desktop.ScanOneAppPerId`, it is the only application shown under that id. |
| Desktop.ScanOneAppPerId | src/desktop/mod.rs:21-29 | At most one application is shown per desktop id: the earlier files under that id are gone. |
| Launcher.GpuProfileOf | src/launcher/mod.rs:224-262 | No GPU means no profile. A GPU is never both NVIDIA and Mesa, and its Mesa selector comes from its PCI slot. |
| Launcher.NvidiaByName | src/launcher/mod.rs:224-262 | A GPU whose name mentions nvidia gets the NVIDIA profile. |
| Launcher.MesaByDriver | src/launcher/mod.rs:224-262 | A GPU on a Mesa driver, with no sign of NVIDIA, gets the Mesa profile. |
| Launcher.NvidiaByDriver | src/launcher/mod.rs:224-262 | A GPU on the `nvidia` driver gets the NVIDIA profile. |
| Launcher.Underscored | src/launcher/mod.rs:264-277 | Every `:` and `.` becomes `_`, and nothing else changes. |
| Launcher.MesaSelector | src/launcher/mod.rs:264-277 | There is no selector exactly when the slot is missing or blank; otherwise it is `pci-` followed by the slot, with no `:` or `.`. |
| Launcher.MesaSelectorExample | src/launcher/mod.rs:264-277 | Slot `01:00.0` gives `pci-0000_01_00_0`. |
| Launcher.MesaSelectorDomain | src/launcher/mod.rs:264-277 | A slot without a PCI domain is read as domain `0000`. |
| Launcher.BuildEnvPairs | src/launcher/mod.rs:169-208 | The first pair is `DRI_PRIME=<index>`; for Steam the last pair is the import list. |
| Launcher.EnvVarsLayout | src/launcher/mod.rs:169-208 | The pairs are `DRI_PRIME`, then the profile's vendor variables, then the import list for Steam. |
| Launcher.GpuVarNames | src/launcher/mod.rs:169-208 | See the bullets under this table. |
| Launcher.MesaPairsWhen | src/launcher/mod.rs:185-200 | Mesa's device-select variable is set exactly for Mesa with a selector; the force-default variable exactly for Mesa with index 0. |
| Launcher.ImportedCovers | src/launcher/mod.rs:201-206 | The Steam import list names every variable that is set, and starts with `DRI_PRIME`. |
| Launcher.SteamAddsImportList | src/launcher/mod.rs:201-206 | The Steam pairs are the plain pairs plus the import list. |
| Launcher.SteamEnvVars | src/launcher/mod.rs:210-215 | `Default` gives no variables. A GPU gives its `DRI_PRIME` first and the import list last. |
| Launcher.FlatpakOverrideArgs | src/launcher/mod.rs:86-125 | See the bullets under this table. |
| Launcher.DefaultClearsAll | src/launcher/mod.rs:91-100 | `Default` unsets every managed variable. |
| Launcher.FirstFlatpakRun | src/launcher/mod.rs:288-298 | Finds the first `flatpak run` pair of words, where the first word may also be a path ending in `/flatpak`, or reports that there is none. |
| Launcher.LooksLikeFlatpakRun | src/launcher/mod.rs:279-286 | Defines the `flatpak run` test. `Launcher.LooksLikeFlatpakRunFound` states that it holds exactly when `Launcher.FirstFlatpakRun` finds a pair. |
| Launcher.LooksLikeFlatpakRunFound | src/launcher/mod.rs:279-286 | `looks_like_flatpak_run` holds exactly when such a pair of words exists. |
| Launcher.InsertEach | src/launcher/mod.rs:300-306 | The arguments are inserted as a block at the position, and the words before and after are kept. |
| Launcher.WrapFlatpakRunWithEnv | src/launcher/mod.rs:288-311 | With no flatpak run, the command is prefixed with `env` and the pairs. |
| Launcher.WrapFlatpakTokens | src/launcher/mod.rs:288-311 | With a flatpak run, one `--env=` argument per pair goes right after `run`, and the other words are kept. |
| Launcher.EnvPrefixTokens | src/launcher/mod.rs:308-310 | The `env` prefix gives the words `env`, the pairs, then the original words. |
| Launcher.WrapExecForGpu | src/launcher/mod.rs:158-167 | A non-Flatpak command starts with `env DRI_PRIME=`. |
| Launcher.WrapExecTokens | src/launcher/mod.rs:158-167 | The wrapped command is the Flatpak wrap or the `env` prefix, whichever applies, using Steam-aware pairs. |
| Launcher.IsSteamExec | src/launcher/mod.rs:313-318 | Defines Steam detection. `Launcher.SteamExecIgnoresCase` and `Launcher.RungameidIsSteam` state its properties. |
| Launcher.SteamExecIgnoresCase | src/launcher/mod.rs:313-318 | Steam detection ignores ASCII case. |
| Launcher.RungameidIsSteam | src/launcher/mod.rs:313-318 | A rungameid URL marks a Steam command. |
| Override.DesktopExecValue | src/launcher/mod.rs:320-327 | There is no value exactly when no line has a non-empty `Exec=` value; otherwise the value comes from such a line. |
| Override.RewriteAfterExec | src/launcher/mod.rs:344-370 | Once the `Exec` line is placed, the remaining lines are only normalized. |
| Override.FirstExecSite | src/launcher/mod.rs:344-370 | Finds the first place the `Exec` line belongs, or reports that there is none. |
| Override.RewriteLines | src/launcher/mod.rs:344-370 | Once the `Exec` line is placed, it stays placed. `Override.RewriteLinesShape` states that the loop agrees with the index-based reference. |
| Override.RewriteLinesShape | src/launcher/mod.rs:344-370 | See the bullets under this table. |
| Override.PassMarker | src/launcher/mod.rs:344-370 | The pass notices a marker line exactly when the input has one. |
| Override.InsertAt | src/launcher/mod.rs:372-381 | The insertion point is just after the first `[Desktop Entry]` header, or the top when there is none. |
| Override.RewriteDesktopOverrideContent | src/launcher/mod.rs:329-390 | The override file always ends with a line break. |
| Override.OverrideLines | src/launcher/mod.rs:338-385 | Defines the override's lines. `Override.OverrideLinesShape` and `Override.OverrideLinesMarked` state their shape and their marker. |
| Override.OverrideLinesShape | src/launcher/mod.rs:338-385 | See the bullets under this table. |
| Override.OverrideLinesMarked | src/launcher/mod.rs:338-385 | The rewritten lines hold the new `Exec` line and the marker. |
| Override.ContentHasMarker | src/launcher/mod.rs:329-390 | Whatever the source, the written override carries the marker. |
| Override.SynthesizedRoundTrip | src/launcher/mod.rs:330-336 | Reading the `Exec` value back from a synthesized override gives the trimmed wrapped command. |
| Override.UserLauncherPath | src/launcher/mod.rs:406-411 | The override path ends with the desktop id. |
| Override.UserLauncherPathPlain | src/launcher/mod.rs:406-411 | The override path is `$HOME/.local/share/applications/<desktop id>`. |
| Override.RemoveIfMarked | src/launcher/mod.rs:392-404 | A file is removed exactly when it exists and carries the marker; there is at most one removal. |
| Override.WriteOverride | src/launcher/mod.rs:127-156 | The write is refused exactly when the target is the app's own unmanaged file. Otherwise exactly one file is written, at the target. |
| Override.HeroicEnv | src/launcher/mod.rs:36-58 | `Default` sends an empty environment, and only `Default` does. |
| Override.ApplyLauncherOverride | src/launcher/mod.rs:12-84 | Only a native GPU choice can be refused. Every file effect targets the per-user override path. |
| Override.OriginalExecPrefersSource | src/launcher/mod.rs:145-148 | The original command is the source file's `Exec` value when there is one, otherwise the parsed command. |
| Override.SteamFirst | src/launcher/mod.rs:17-34 | An app with a Steam id goes through Steam, after a managed override is removed. |
| Override.HeroicSecond | src/launcher/mod.rs:36-58 | Without a Steam id, a Heroic game goes through Heroic. |
| Override.FlatpakThird | src/launcher/mod.rs:60-76 | Next, a Flatpak with an id goes through `flatpak override`. |
| Override.NativeLast | src/launcher/mod.rs:78-83 | See the bullets under this table. |
| Override.NoUnmanagedLoss | src/launcher/mod.rs:12-156 | See the bullets under this table. |
| Override.SteamSafe | src/launcher/mod.rs:17-34 | The Steam route only removes a marked file. |
| Override.HeroicSafe | src/launcher/mod.rs:36-58 | The Heroic route touches no desktop file. |
| Override.FlatpakSafe | src/launcher/mod.rs:60-76 | The Flatpak route touches no desktop file. |
| Override.NativeSafe | src/launcher/mod.rs:78-83 | The native route writes only marked content and removes only marked files. |
| Override.WrittenMarked | src/launcher/mod.rs:127-156 | A written override carries the marker and never replaces the app's own unmanaged file. |
| Override.OtherUnmanagedOverwritten | src/launcher/mod.rs:127-156 | An unmarked file at the target is overwritten when the app was read from elsewhere. |
| Override.NativeRoundTrip | src/launcher/mod.rs:78-83 | Choosing a GPU and then `Default` removes exactly the written file, and a second `Default` does nothing. |
| Override.NativeWrites | src/launcher/mod.rs:127-156 | A native GPU choice writes one marked file at the target. |
| Override.DefaultRemoves | src/launcher/mod.rs:78-81 | A native `Default` removes the target exactly when it is managed. |
| Override.HeroicEnvIdempotent | src/launcher/mod.rs:36-58 | Applying the same choice's Heroic environment a second time reports no change. |
| Json.Field | src/heroic/mod.rs:156-184 | Only objects have fields, and a field found is one of the object's entries. |
| Json.StrField | src/heroic/mod.rs:380-391 | A string field found is a field holding that string. |
| Json.SetField | src/heroic/mod.rs:156-184 | The field set reads back, and every other field is unchanged. |
| Json.FieldOrder | src/heroic/mod.rs:380-391 | `key` sorts before `value`, and `name` before `value`. |
| Assoc.GetPutSame | src/heroic/mod.rs:226-235 | A key reads back the value just put. |
| Assoc.GetPutOther | src/heroic/mod.rs:226-235 | Putting one key leaves every other key's value unchanged. |
| Assoc.GetRemoveSame | src/heroic/mod.rs:237-257 | A removed key is absent. |
| Assoc.GetRemoveOther | src/heroic/mod.rs:237-257 | Removing one key leaves every other key's value unchanged. |
| Assoc.PutOrdered | src/heroic/mod.rs:226-235 | Putting keeps the object in key order. |
| Assoc.RemoveOrdered | src/heroic/mod.rs:237-257 | Removing keeps the object in key order. |
| Assoc.FromPairsOrdered | src/heroic/mod.rs:216-224 | Collected pairs are in key order. |
| Assoc.FromPairsLastWins | src/heroic/mod.rs:216-224 | When a key repeats, its last pair wins. |
| Assoc.FromPairsLastListed | src/desktop/mod.rs:21-24 | The last value under a key is among the collected values. |
| Assoc.FromPairsAbsent | src/heroic/mod.rs:216-224 | A key in no pair is absent. |
| Heroic.SplitPairs | src/heroic/mod.rs:216-224 | See the bullets under this table. |
| Heroic.EnvPairsToMap | src/heroic/mod.rs:216-224 | The parsed pairs form an object in key order. |
| Heroic.Desired | src/heroic/mod.rs:148-151 | The desired object is in key order. |
| Heroic.DesiredShape | src/heroic/mod.rs:148-151 | See the bullets under this table. |
| Heroic.UpsertEnvObject | src/heroic/mod.rs:226-235 | Defines the object upsert. `Heroic.UpsertObjectKeeps`, `Heroic.UpsertObjectSets` and `Heroic.UpsertObjectChanged` state its effect. |
| Heroic.UpsertObjectKeeps | src/heroic/mod.rs:226-235 | Keys that are not desired are left as they were. |
| Heroic.UpsertObjectSets | src/heroic/mod.rs:226-235 | Every desired key ends up holding its string value. |
| Heroic.UpsertObjectChanged | src/heroic/mod.rs:226-235 | The upsert reports a change exactly when some desired key differs, and otherwise returns the object unchanged. |
| Heroic.UpsertObjectChangedReal | src/heroic/mod.rs:226-235 | A reported change is a real change. |
| Heroic.RemoveAbsentManaged | src/heroic/mod.rs:237-257 | Defines the removal over the managed keys. `Heroic.RemoveManagedGet`, `Heroic.RemoveManagedChanged` and `Heroic.RemoveManagedOrdered` state its effect. |
| Heroic.RemoveManagedGet | src/heroic/mod.rs:237-257 | A managed key that is not desired is removed; every other key is kept. |
| Heroic.RemoveManagedChanged | src/heroic/mod.rs:237-257 | The removal reports a change exactly when it removed something, and otherwise returns the object unchanged. |
| Heroic.RemoveManagedOrdered | src/heroic/mod.rs:237-257 | Removing keeps the key order. |
| Heroic.NameValue | src/heroic/mod.rs:259-279 | A new array entry carries the given name and value. |
| Heroic.SetNamed | src/heroic/mod.rs:259-279 | Setting a named value keeps the array's length. |
| Heroic.SetNamedAt | src/heroic/mod.rs:259-279 | Only entries with the name get the new value; the others are unchanged. |
| Heroic.UpsertOneCarries | src/heroic/mod.rs:259-279 | Afterwards the array carries the pair. It changed exactly when it did not carry it before. |
| Heroic.UpsertEnvArray | src/heroic/mod.rs:259-279 | The array never shrinks. |
| Heroic.UpsertArrayOthers | src/heroic/mod.rs:259-279 | Entries for undesired names are unchanged. |
| Heroic.UpsertArrayAppended | src/heroic/mod.rs:259-279 | Entries appended are for desired names. |
| Heroic.UpsertArrayKeeps | src/heroic/mod.rs:259-279 | A pair for an undesired name is still carried. |
| Heroic.UpsertArraySets | src/heroic/mod.rs:259-279 | Every desired pair is carried afterwards. |
| Heroic.UpsertArrayChanged | src/heroic/mod.rs:259-279 | The upsert reports a change exactly when the array changed. |
| Heroic.FilterItems | src/heroic/mod.rs:281-305 | Only kept entries remain. |
| Heroic.FilterItemsAll | src/heroic/mod.rs:281-305 | When nothing is dropped, the array is unchanged. |
| Heroic.FilterItemsKept | src/heroic/mod.rs:281-305 | Every entry to keep remains. |
| Heroic.EntryOf | src/heroic/mod.rs:346-352 | An options entry carries its key and value. |
| Heroic.ParseEnvOptionEntry | src/heroic/mod.rs:380-391 | Defines the entry parser. `Heroic.EntryForms` and `Heroic.ParsedEntries` state which entries it reads back. |
| Heroic.EntryForms | src/heroic/mod.rs:380-391 | See the bullets under this table. |
| Heroic.ParsedEntries | src/heroic/mod.rs:346-352 | Entries written from pairs parse back to the same pairs. |
| Heroic.UpsertGameEnviromentOptions | src/heroic/mod.rs:307-356 | Defines the options rebuild over the managed keys. The `Heroic.UpsertOptions*` and `Heroic.NewOptionsParsed` rows state its effect. |
| Heroic.UpsertOptions | src/heroic/mod.rs:307-356 | With no game object, nothing changes. |
| Heroic.UpsertOptionsSets | src/heroic/mod.rs:307-356 | Only the game's `enviromentOptions` field is replaced; its other fields are kept. |
| Heroic.NewOptionsParsed | src/heroic/mod.rs:321-352 | The new options are the old ones without the listed keys, followed by the desired pairs. |
| Heroic.UpsertOptionsOthers | src/heroic/mod.rs:307-356 | Other games are unchanged. |
| Heroic.UpsertOptionsChanged | src/heroic/mod.rs:307-356 | A change is reported exactly when the game changed. |
| Heroic.UpsertOptionsIdempotent | src/heroic/mod.rs:307-356 | A second upsert changes nothing. |
| Heroic.ApplyEnvToHeroicJson | src/heroic/mod.rs:143-187 | Only an object can be updated, and the result is still an object. |
| Heroic.ApplyReplacesEnv | src/heroic/mod.rs:170-180 | When `envVariables` is neither an object nor an array, it is replaced by the desired object. |
| Heroic.ValidateEnvInHeroicJson | src/heroic/mod.rs:189-214 | Defines validation. `Heroic.ValidateNeeds`, `Heroic.ApplyThenValidate` and `Heroic.MatchedValidates` state when it passes. |
| Heroic.ValidateNeeds | src/heroic/mod.rs:189-214 | Validation needs the game object. Without `envVariables` it passes only for an empty list. |
| Heroic.SyncEnvValid | src/heroic/mod.rs:156-181 | After syncing, `envVariables` holds every desired pair. |
| Heroic.ApplyThenValidate | src/heroic/mod.rs:143-214 | For a config holding the game, the JSON the apply produces passes validation. |
| Heroic.SyncEnvOthers | src/heroic/mod.rs:156-181 | Syncing `envVariables` leaves every other top-level key unchanged. |
| Heroic.SyncEnvStable | src/heroic/mod.rs:156-181 | A second sync changes nothing. |
| Heroic.ApplyIdempotent | src/heroic/mod.rs:143-187 | With only managed variables, a second apply reports no change. |
| Heroic.DesiredManaged | src/heroic/mod.rs:148-151 | With only managed variables, every desired key is managed. |
| Heroic.ApplyUnchanged | src/heroic/mod.rs:143-187 | When no change is reported, the JSON is unchanged. |
| Heroic.HeroicConfigMatchesGame | src/heroic/mod.rs:113-141 | Defines the match. `Heroic.MatchIgnoresCase` and `Heroic.RawFallbackCaseSensitive` state how case is treated. |
| Heroic.MatchIgnoresCase | src/heroic/mod.rs:113-141 | Outside the raw-text fallback, matching ignores ASCII case. |
| Heroic.RawFallbackCaseSensitive | src/heroic/mod.rs:137-140 | The raw-text fallback is case-sensitive. |
| Heroic.ApplyHeroicLaunchEnv | src/heroic/mod.rs:9-68 | Defines the run over the candidates. `Heroic.ApplyHeroicWrites`, `Heroic.ApplyHeroicNeedsMatch` and `Heroic.ApplyHeroicSucceeds` state its writes and outcome. |
| Heroic.ApplyHeroicWrites | src/heroic/mod.rs:9-68 | Each write goes to a candidate, at most once, in order, and backs up the original only when no backup exists. |
| Heroic.ScanWrites | src/heroic/mod.rs:20-60 | The scan only adds writes, each for a candidate it visited and with that candidate's backup. |
| Heroic.ScanSucceeds | src/heroic/mod.rs:20-67 | A scan that meets no stopping candidate, and visits a game that validates, ends without error. |
| Heroic.ApplyHeroicNeedsMatch | src/heroic/mod.rs:9-68 | No candidates is an error, and success needs a matching candidate. |
| Heroic.MatchedValidates | src/heroic/mod.rs:143-214 | Applying to a matched game's config validates, both when written and when unchanged. |
| Heroic.StepOf | src/heroic/mod.rs:20-60 | A parsed object candidate never stops the scan, and a game inside it matches. |
| Heroic.ApplyHeroicSucceeds | src/heroic/mod.rs:9-68 | When all candidates parse and one holds the game, the call succeeds. |
| Vdf.QuoteFrom | src/steam/mod.rs:480-500 | The next quote in range, which is the first one there (see `QuoteFromFirst`). |
| Vdf.SkipSpace | src/steam/mod.rs:460-462 | Skips the ASCII whitespace, stopping at the first other character or at the end. |
| Vdf.SkipSpaces | src/steam/mod.rs:460-462 | The loop agrees with `SkipSpace`. |
| Vdf.MatchBrace | src/steam/mod.rs:510-554 | Only an opening brace in range can match, and a match is a `}` after it within the limit. |
| Vdf.MatchingBrace | src/steam/mod.rs:510-554 | The loop agrees with `MatchBrace`. |
| Vdf.MatchBraceFirst | src/steam/mod.rs:510-554 | The match is the first unquoted `}` that brings the depth back to zero; there is none when the depth never gets back to zero. |
| Vdf.QuotedSkipped | src/steam/mod.rs:521-538 | A quoted string without escapes is skipped whole. |
| Vdf.QuotedBraceExample | src/steam/mod.rs:521-538 | A `}` inside a string does not close the block. |
| Vdf.EscapedQuoteExample | src/steam/mod.rs:521-538 | An escaped quote does not end the string. |
| Vdf.BlockAfter | src/steam/mod.rs:463-471 | A block found after a key opens and closes with braces. |
| Vdf.KeyFrom | src/steam/mod.rs:453-472 | A key occurrence found lies in the range. |
| Vdf.FindBlock | src/steam/mod.rs:445-474 | A block found lies in the range, with braces at its open and close. |
| Vdf.KeyFromAt | src/steam/mod.rs:453-472 | At a key occurrence, the search stops there when a brace follows; otherwise it continues after the key. |
| Vdf.KeyAndBrace | src/steam/mod.rs:453-472 | The loop finds the same key and the brace position after the whitespace. |
| Vdf.FindBlockByKey | src/steam/mod.rs:445-474 | The loop agrees with `FindBlock`. |
| Vdf.FindBlockShape | src/steam/mod.rs:445-474 | A block found is the quoted key, then whitespace only, then `{`, and its close is the brace that matches. |
| Vdf.KeyFromKeyed | src/steam/mod.rs:453-472 | A key found is an occurrence followed by a brace. |
| Vdf.KeyFromFirst | src/steam/mod.rs:453-472 | No earlier keyed occurrence is missed, unless it overlaps one already skipped. |
| Vdf.KeyFromFinds | src/steam/mod.rs:453-472 | The first keyed occurrence that is not overlapped is found. |
| Vdf.TokenIsEq | src/steam/mod.rs:490-494 | The token test is ASCII case-insensitive equality. |
| Vdf.TokenEquals | src/steam/mod.rs:490-494 | The loop agrees with the token test. |
| Vdf.KeyCiFrom | src/steam/mod.rs:483-505 | A token found lies in the range. |
| Vdf.FindBlockCi | src/steam/mod.rs:476-508 | A block found lies in the range, with braces at its open and close. |
| Vdf.KeyCiFromAt | src/steam/mod.rs:483-505 | At a quoted token, the search stops there when the token is the key; otherwise it resumes after the closing quote. |
| Vdf.TokenAndBrace | src/steam/mod.rs:483-505 | The loop finds the same token and the brace position after it. |
| Vdf.FindBlockByKeyCi | src/steam/mod.rs:476-508 | The loop agrees with `FindBlockCi`. |
| Vdf.KeyCiFromKeyed | src/steam/mod.rs:483-505 | A token found opens a string and is the key, case ignored, followed by a brace. |
| Vdf.KeyCiFromFirst | src/steam/mod.rs:483-505 | No opening keyed token is skipped. |
| Vdf.FindSteamAppsBlock | src/steam/mod.rs:188-198 | The `apps` block found lies strictly inside `UserLocalConfigStore`, with braces at its open and close. |
| LaunchOptions.StripManagedPrefix | src/steam/mod.rs:327-349 | Stripping never lengthens the value, and a value without the start marker is unchanged. |
| LaunchOptions.StripBothMarkers | src/steam/mod.rs:328-337 | With both markers, the result is the trimmed text before joined with the trimmed text after. |
| LaunchOptions.StripStartOnly | src/steam/mod.rs:338-345 | With the start marker only, the marker is dropped and the rest trimmed. |
| LaunchOptions.StripUnmarked | src/steam/mod.rs:348 | A value without the start marker is unchanged. |
| LaunchOptions.DriPrime | src/steam/mod.rs:307-325 | The `DRI_PRIME` pair contains neither marker. |
| LaunchOptions.ManagedVars | src/steam/mod.rs:310-318 | At least one variable is set. |
| LaunchOptions.ManagedPart | src/steam/mod.rs:319-324 | The managed part starts with the start marker and ends with the end marker. |
| LaunchOptions.BuildManagedPrefix | src/steam/mod.rs:307-325 | There is no prefix exactly for `Default`. |
| LaunchOptions.KeptCommand | src/steam/mod.rs:287-305 | The kept command is never empty and is trimmed. |
| LaunchOptions.ApplyPrefixToExisting | src/steam/mod.rs:287-305 | The new value is trimmed, and not empty when there is a prefix. |
| LaunchOptions.ApplyPrefixShape | src/steam/mod.rs:287-305 | With a prefix, the value is the trimmed prefix joined with the kept command. |
| LaunchOptions.AppliedValue | src/steam/mod.rs:287-325 | A GPU's value is the wrapper, the managed part, a space, then the kept command. |
| LaunchOptions.ClearAfterApply | src/steam/mod.rs:287-349 | Clearing an applied value leaves the wrapper and the kept command. |
| LaunchOptions.ApplyIdempotent | src/steam/mod.rs:287-349 | Without the wrapper, applying the same GPU twice gives the same value. |
| LaunchOptions.EnvWrapperGrows | src/steam/mod.rs:287-349 | With the wrapper, each re-application adds another `env ` to the value. |
| LaunchOptions.ValidateExpectedState | src/steam/mod.rs:407-420 | A GPU's state must be present; `Default` accepts an absent value. |
| LaunchOptions.ValidAfterApply | src/steam/mod.rs:287-420 | The applied value passes validation for that GPU. |
| LaunchOptions.ValidAfterClear | src/steam/mod.rs:287-420 | A cleared value passes validation for `Default`. |
| LaunchOptions.ClearRestoresOriginal | src/steam/mod.rs:287-349 | Apply then clear gives back the original value, trimmed. |
| LaunchOptions.LaunchOptionsEntry | src/steam/mod.rs:265-269 | The written line is the indent, the quoted key, two tabs and the quoted value. |
| LaunchOptions.ValueQuotes | src/steam/mod.rs:422-435 | The value lies between the third and fourth quotes of the line. |
| LaunchOptions.ParseLaunchOptionsValue | src/steam/mod.rs:422-435 | A value is read exactly when the line has those quotes; it is trimmed and has no quote. |
| LaunchOptions.ParseNeedsFourQuotes | src/steam/mod.rs:422-435 | A value is read exactly when the line has at least four quotes. |
| LaunchOptions.ParseEntry | src/steam/mod.rs:422-435 | The entry line the upsert writes parses back to its trimmed value. |
| Steam.LeadingIndent | src/steam/mod.rs:437-443 | The indent is a prefix of the line. |
| Steam.IndentationAt | src/steam/mod.rs:437-443 | The indentation lies before the position. |
| Steam.IndentationShape | src/steam/mod.rs:437-443 | The indentation is the run of spaces and tabs at the start of the position's line. |
| Steam.FindLaunchOptionsLine | src/steam/mod.rs:351-371 | A line found lies inside the content. |
| Steam.LaunchKeyFirst | src/steam/mod.rs:351-371 | The line found is the one around the first key occurrence. |
| Steam.LineAroundShape | src/steam/mod.rs:355-369 | The line runs from the previous line break to the next one. |
| Steam.NoLineKeyFree | src/steam/mod.rs:351-371 | No line found means no key occurrence in the range. |
| Steam.EntryLineReadsBack | src/steam/mod.rs:351-371 | A written entry line is found again by the line search and reads back its value and indent. |
| Steam.Splice | src/steam/mod.rs:216-284 | The edit replaces a span, and the length changes accordingly. |
| Steam.SpliceKeeps | src/steam/mod.rs:216-284 | Text before and after the span is kept. |
| Steam.NewAppBlock | src/steam/mod.rs:216-240 | A new app block starts on a new line. |
| Steam.UpsertAppLaunchOptions | src/steam/mod.rs:208-285 | An unchanged result is the content itself. |
| Steam.UpsertPlan | src/steam/mod.rs:216-252 | A found app block lies inside the apps block, and a found line inside the content. |
| Steam.Perform | src/steam/mod.rs:216-284 | An unchanged result is the content itself. |
| Steam.AddAppBlock | src/steam/mod.rs:216-240 | Adding an app always changes the text, by the size of the new block. |
| Steam.RewriteLine | src/steam/mod.rs:254-271 | No change exactly when the value is non-empty and already there; an unchanged result is the content. |
| Steam.AddLine | src/steam/mod.rs:274-284 | A line is added exactly when the value is non-empty. |
| Steam.EditSpan | src/steam/mod.rs:216-284 | Only a rewrite replaces a non-empty span. |
| Steam.PerformSpan | src/steam/mod.rs:216-284 | Only the span is edited, and an empty value deletes exactly the found line. |
| Steam.UpsertSpan | src/steam/mod.rs:208-285 | The upsert keeps everything outside its case's span. |
| Steam.NewValue | src/steam/mod.rs:287-305 | With no existing value, there is nothing without a prefix, and the trimmed prefix plus `%command%` with one. |
| Steam.DeletedIff | src/steam/mod.rs:254-259 | A line is deleted exactly when there is no prefix and nothing of the user's own remains. |
| Steam.RewrittenLineReadsBack | src/steam/mod.rs:265-271 | A rewritten line is found again with its new value. |
| Steam.AddedLineReadsBack | src/steam/mod.rs:274-284 | An added line is found again with its value. |
| Steam.InsertedEntryReadsBack | src/steam/mod.rs:216-240 | The entry inside a new app block is found again. |
| SteamConfig.AppsBlock | src/steam/mod.rs:150-165 | The apps block found has braces at its open and close. |
| SteamConfig.UpdateLocalconfigContent | src/steam/mod.rs:150-186 | An unchanged result is the content, and a trailing line break is kept. |
| SteamConfig.UpdateShape | src/steam/mod.rs:150-186 | No apps block means no change. Otherwise the update is the upsert, with a line break restored if it was dropped. |
| SteamConfig.AppBlockIn | src/steam/mod.rs:379-405 | The app block found lies inside the content. |
| SteamConfig.AppStateInLocalconfig | src/steam/mod.rs:379-405 | The app is found exactly when its block is, and a launch value implies that the app was found. |
| SteamConfig.StateFromLine | src/steam/mod.rs:379-405 | A line that reads back in the app's block is the app's state. |
| SteamConfig.WrittenValue | src/steam/mod.rs:208-305 | A value written for a prefix is non-empty. |
| SteamConfig.UpsertReadsBack | src/steam/mod.rs:208-285 | Whatever the case, the line search finds the value written again at its place. |
| SteamConfig.PerformKeepsNewline | src/steam/mod.rs:181-183 | An edit keeps a trailing line break. |
| SteamConfig.UpdateValidates | src/steam/mod.rs:150-186 | After a GPU update, the app state read back (`app_state_in_localconfig`) is the written value and passes `validate_expected_state`. |
| SteamConfig.UpsertSettles | src/steam/mod.rs:208-305 | Without the wrapper, a second upsert of the same GPU changes nothing. |
| SteamConfig.ProcessConfig | src/steam/mod.rs:28-97 | See the bullets under this table. |
| SteamConfig.ProcessEach | src/steam/mod.rs:28-97 | Each config file is processed in turn. |
| SteamConfig.Verdict | src/steam/mod.rs:88-105 | See the bullets under this table. |
| SteamConfig.ApplySteamLaunchOptions | src/steam/mod.rs:11-106 | See the bullets under this table. |
| SteamConfig.WrittenConfigValidates | src/steam/mod.rs:28-97 | A config file the GPU choice is written into, and found again, counts as validated. |
| SteamConfig.OneValidatedSuffices | src/steam/mod.rs:88-105 | One validated file is enough for success. |

The rows marked "See the bullets under this table" state the following.

- **Updates.CheckForUpdates**:
  - a failed connection is a request error, and so is a 4xx or 5xx
    status, which the `ureq` 2 agent's `call()` returns as an error;
  - any other status besides 200 means up to date;
  - a missing tag is a parse error;
  - otherwise leading `v`s are stripped from the tag, and the comparison
    chooses between new release, beta and up to date.
- **Gpu.LspciEntry**:
  - only VGA, 3D or display controller lines count;
  - the slot is the non-empty first word;
  - the name is the rest of the line, or the whole line when there is no
    space;
  - no entry for other lines or an empty slot.
- **Gpu.GlxRenderer**:
  - none exactly when no line starts with `OpenGL renderer string:`;
  - otherwise the trimmed rest of the first such line.
- **Gpu.CardInfo**:
  - the name is the lspci name of the card's PCI slot, or the card name
    when that lookup fails;
  - the render node comes from sysfs;
  - no index or renderer is set yet.
- **Details.TruncateWithDots**:
  - a short text is kept;
  - a long one is cut to the limit (at least 3);
  - the result ends with `...` and starts with a prefix of the text.
- **Desktop.Classify**:
  - blank and `#` lines are skipped;
  - a `[...]` line is a header, and it is the entry group exactly when it
    reads `[Desktop Entry]`;
  - a key line needs an `=`.
- **Desktop.SetField**:
  - each key sets only its own field;
  - `Exec` is stored cleaned;
  - `NoDisplay` and `Hidden` are true exactly for `true`, case ignored;
  - other keys change nothing.
- **Desktop.ParseDesktopFile**:
  - hidden, no-display and non-Application entries are rejected;
  - otherwise the record holds the parsed fields;
  - the name defaults to "Unnamed Application";
  - the ids come from the Exec extractors;
  - the Flatpak id is kept only for Flatpak entries.
- **Launcher.GpuVarNames**:
  - which variables are set: `DRI_PRIME` always;
  - the three NVIDIA offload variables for NVIDIA;
  - the Mesa variables for Mesa.
- **Launcher.FlatpakOverrideArgs**:
  - the arguments are `override --user … <app id>`;
  - `Default` unsets the managed variables;
  - a GPU sets its pairs with `--env=`.
- **Override.RewriteLinesShape**:
  - the `Exec` line replaces the first `Exec` line of the entry group;
  - or it is inserted before the next header when the group has none;
  - every other line is kept, normalized.
- **Override.OverrideLinesShape**:
  - with a place in the entry group the `Exec` line goes there;
  - otherwise it goes after the first `[Desktop Entry]` header, or at the
    top;
  - the marker is appended exactly when no line carried it.
- **Override.NativeLast**:
  - a native app touches only the override file;
  - `Default` removes it exactly when it is managed;
  - a GPU choice writes it unless the target is the app's own unmanaged
    file.
- **Override.NoUnmanagedLoss**:
  - no effect removes a file without the marker;
  - every written file carries the marker;
  - the app's own unmanaged desktop file is never written.
- **Heroic.SplitPairs**:
  - only `KEY=VALUE` entries count, split at the first `=`;
  - a key never holds `=`;
  - when every entry has an `=`, nothing is dropped.
- **Heroic.DesiredShape**:
  - no variables means an empty object;
  - otherwise the marker key holds `1`;
  - every other key is as parsed.
- **Heroic.EntryForms**:
  - an options entry can be `{key, value}`, `{name, value}` or
    `"KEY=VALUE"`;
  - each form parses back to its pair.
- **SteamConfig.ProcessConfig**:
  - a file is written exactly when the update changed it;
  - a backup of the original goes first only when none exists;
  - a file is only validated once its app was matched.
- **SteamConfig.Verdict** and **SteamConfig.ApplySteamLaunchOptions** end
  with one of four results:
  - no config files;
  - the app found nowhere;
  - found but never validated;
  - validated somewhere.

## Left out

- File and directory I/O, the HOME and XDG environment variables, and the
  `read_dir` scans: contents and listings are parameters, and writes are
  returned as effects.
- The Steam and Heroic config-file discovery
  (`find_localconfig_files`, `find_heroic_game_config_candidates`): these
  are directory searches. The model starts from the files found.
- `is_steam_running` and its `pgrep` call, the spawned `flatpak` command,
  the HTTP request, TOML load and save, and all logging: these are external
  processes and I/O.
- Heroic.StepAt: a file written is taken to read back as the value
  written. This assumes that serde_json's write-then-parse round trip is
  the identity, which this model does not prove.
- SteamConfig.ProcessConfig: likewise, a written localconfig is taken to
  read back as written. Backups are values (`ConfigRun.backup`,
  `Heroic.BackupOf`), not files.
- Read and write errors that abort the source's loops with `?` are not
  modelled. Each run is assumed to succeed at I/O.
- Json.Value: objects are association lists in ascending key order. This
  matches serde_json's `Map` built without `preserve_order`, which is a
  `BTreeMap`. Number and float values are kept opaque.
- Desktop.SortByName: the sort key lower-cases ASCII letters only. The
  source uses Unicode `to_lowercase`, so names with non-ASCII capitals,
  such as "Émile", can sort differently.
- Desktop.ScanDesktopEntries: before the stable sort, the applications are
  in ascending desktop-id order. This is the order of the source's
  `BTreeMap::into_values`, so ties in the sort key keep that order.
- SteamConfig.UpdateValidates: this is stated under three assumptions.
  - The upsert's app block is found again where the value was written
    (`Refound`).
  - No `LaunchOptions` line shares a line with a brace (`OwnLine`).
  - The value holds no quote and no line break (`Writable`).

  The source re-reads without these guarantees.
- SteamConfig.UpsertSettles: stated only without the `env` wrapper, and
  under the same re-find assumption. With the wrapper the value grows on
  every run (`LaunchOptions.EnvWrapperGrows`).
- Override.ApplyLauncherOverride: takes the `env` wrapper setting as a
  parameter and passes it on to the Steam effect. In
  `src/launcher/mod.rs:28` the call to `apply_steam_launch_options` passes
  three arguments, but the function takes four (`src/steam/mod.rs:11-16`).
  The call as written does not compile, so it has no behaviour to model.
- Config.SetShowSteamApps, Config.SetShowHeroicApps,
  Config.SetShowFlatpakApps: `AppConfig` in `src/models/mod.rs:54-58`
  declares only `assignments`, but the configuration store reads and
  writes three display flags. The model gives `AppConfig` the three
  booleans.
- Updates.CheckForUpdates: the running version is a parameter instead of
  the compile-time `CARGO_PKG_VERSION`. The HTTP answer is reduced to its
  status and tag.
- Integer widths: `u32` version parts and `usize` card numbers are bounded
  explicitly (`U32_MAX`, `USIZE_MAX`). `DRI_PRIME` indices are unbounded
  naturals.
- The GUI: the GTK widgets, icons and the application list in `src/ui` are
  not part of this model, apart from the label and choice logic of
  `src/ui/details.rs`.

=== FILE: assoc.dfy ===
/** Ordered maps keyed by strings, as Rust's `BTreeMap<String, V>` (and
    `serde_json::Map`, which is one): a sequence of pairs in strictly
    ascending key order, so that iterating it visits the keys in order. */
module Assoc {
  import opened Text

  /** Keys strictly ascending; in particular no key occurs twice. */
  predicate Ordered<V>(m: seq<(string, V)>) {
    forall i, j :: 0 <= i < j < |m| ==> LexLess(m[i].0, m[j].0)
  }

  /** Every key lies strictly above `lo`. */
  predicate Above<V>(m: seq<(string, V)>, lo: string) {
    forall i :: 0 <= i < |m| ==> LexLess(lo, m[i].0)
  }

  predicate HasKey<V>(m: seq<(string, V)>, k: string) {
    exists i :: 0 <= i < |m| && m[i].0 == k
  }

  /** `map.get(k)`. */
  function Get<V>(m: seq<(string, V)>, k: string): (r: Option<V>)
    ensures r.Some? <==> HasKey(m, k)
    ensures r.Some? ==> (k, r.value) in m
  {
    if |m| == 0 then None
    else if m[0].0 == k then Some(m[0].1)
    else
      var r := Get(m[1..], k);
      assert HasKey(m, k) ==> HasKey(m[1..], k) by {
        if HasKey(m, k) {
          var i :| 0 <= i < |m| && m[i].0 == k;
          assert m[1..][i - 1].0 == k;
        }
      }
      assert r.Some? ==> HasKey(m, k) by {
        if r.Some? {
          var i :| 0 <= i < |m[1..]| && m[1..][i].0 == k;
          assert m[i + 1].0 == k;
        }
      }
      r
  }

  /** `map.insert(k, v)`: replaces the value under `k`, or adds the pair at
      its place in key order. */
  function Put<V>(m: seq<(string, V)>, k: string, v: V): (r: seq<(string, V)>)
    ensures |m| <= |r| <= |m| + 1
    ensures (k, v) in r
    ensures forall p :: p in r ==> p in m || p == (k, v)
  {
    if |m| == 0 then [(k, v)]
    else if m[0].0 == k then [(k, v)] + m[1..]
    else if LexLess(k, m[0].0) then [(k, v)] + m
    else [m[0]] + Put(m[1..], k, v)
  }

  /** `map.remove(k)`: every pair under `k` dropped. */
  function Remove<V>(m: seq<(string, V)>, k: string): (r: seq<(string, V)>)
    ensures |r| <= |m|
    ensures forall i :: 0 <= i < |r| ==> r[i].0 != k && r[i] in m
  {
    if |m| == 0 then []
    else if m[0].0 == k then Remove(m[1..], k)
    else [m[0]] + Remove(m[1..], k)
  }

  /** `map.keys()`, in order. */
  function Keys<K, V>(m: seq<(K, V)>): (r: seq<K>)
    ensures |r| == |m| && forall i :: 0 <= i < |m| ==> r[i] == m[i].0
  {
    if |m| == 0 then [] else [m[0].0] + Keys(m[1..])
  }

  /** `map.into_values()`, in key order. */
  function Values<V>(m: seq<(string, V)>): (r: seq<V>)
    ensures |r| == |m| && forall i :: 0 <= i < |m| ==> r[i] == m[i].1
  {
    if |m| == 0 then [] else [m[0].1] + Values(m[1..])
  }

  /** The map built by inserting the pairs in order: a later pair under the
      same key replaces an earlier one. */
  function FromPairs<V>(ps: seq<(string, V)>): (r: seq<(string, V)>)
  {
    if |ps| == 0 then [] else Put(FromPairs(ps[..|ps| - 1]), ps[|ps| - 1].0, ps[|ps| - 1].1)
  }

  // ---------------------------------------------------------------------------
  // Lookup after an update

  lemma {:induction false} GetPutSame<V>(m: seq<(string, V)>, k: string, v: V)
    ensures Get(Put(m, k, v), k) == Some(v)
  {
    if |m| > 0 && m[0].0 != k && !LexLess(k, m[0].0) {
      GetPutSame(m[1..], k, v);
    }
  }

  lemma {:induction false} GetPutOther<V>(m: seq<(string, V)>, k: string, v: V, other: string)
    requires other != k
    ensures Get(Put(m, k, v), other) == Get(m, other)
  {
    if |m| > 0 && m[0].0 != k && !LexLess(k, m[0].0) {
      GetPutOther(m[1..], k, v, other);
    }
  }

  /** Storing the value a key already has in an ordered map changes
      nothing. */
  lemma {:induction false} PutExisting<V>(m: seq<(string, V)>, k: string, v: V)
    requires Ordered(m) && Get(m, k) == Some(v)
    ensures Put(m, k, v) == m
  {
    if m[0].0 != k {
      var i :| 0 <= i < |m| && m[i].0 == k;
      assert LexLess(m[0].0, k);
      LexLessAsymmetric(m[0].0, k);
      OrderedTail(m);
      PutExisting(m[1..], k, v);
    }
  }

  lemma {:induction false} GetRemoveSame<V>(m: seq<(string, V)>, k: string)
    ensures Get(Remove(m, k), k).None?
  {
    if |m| > 0 {
      GetRemoveSame(m[1..], k);
    }
  }

  lemma {:induction false} GetRemoveOther<V>(m: seq<(string, V)>, k: string, other: string)
    requires other != k
    ensures Get(Remove(m, k), other) == Get(m, other)
  {
    if |m| > 0 {
      GetRemoveOther(m[1..], k, other);
    }
  }

  // ---------------------------------------------------------------------------
  // Key order is kept

  lemma {:induction false} PutAbove<V>(m: seq<(string, V)>, k: string, v: V, lo: string)
    requires Above(m, lo) && LexLess(lo, k)
    ensures Above(Put(m, k, v), lo)
  {
    if |m| > 0 && m[0].0 != k && !LexLess(k, m[0].0) {
      PutAbove(m[1..], k, v, lo);
      var r := Put(m, k, v);
      assert r == [m[0]] + Put(m[1..], k, v);
      forall i | 1 <= i < |r| ensures LexLess(lo, r[i].0) {
        assert r[i] == Put(m[1..], k, v)[i - 1];
      }
    }
  }

  lemma OrderedCons<V>(p: (string, V), m: seq<(string, V)>)
    requires Ordered(m) && Above(m, p.0)
    ensures Ordered([p] + m)
  {
    var r := [p] + m;
    forall i, j | 0 <= i < j < |r| ensures LexLess(r[i].0, r[j].0) {
      assert r[j] == m[j - 1];
      if i > 0 {
        assert r[i] == m[i - 1];
      }
    }
  }

  lemma OrderedTail<V>(m: seq<(string, V)>)
    requires Ordered(m) && |m| > 0
    ensures Ordered(m[1..]) && Above(m[1..], m[0].0)
  {
    forall i | 0 <= i < |m[1..]| ensures LexLess(m[0].0, m[1..][i].0) {
      assert m[1..][i] == m[i + 1];
    }
    forall i, j | 0 <= i < j < |m[1..]| ensures LexLess(m[1..][i].0, m[1..][j].0) {
      assert m[1..][i] == m[i + 1] && m[1..][j] == m[j + 1];
    }
  }

  lemma AboveTransitive<V>(m: seq<(string, V)>, a: string, b: string)
    requires Above(m, b) && LexLess(a, b)
    ensures Above(m, a)
  {
    forall i | 0 <= i < |m| ensures LexLess(a, m[i].0) {
      LexLessTransitive(a, b, m[i].0);
    }
  }

  /** Inserting into an ordered map keeps it ordered. */
  lemma {:induction false} PutOrdered<V>(m: seq<(string, V)>, k: string, v: V)
    requires Ordered(m)
    ensures Ordered(Put(m, k, v))
  {
    if |m| == 0 {
    } else {
      OrderedTail(m);
      if m[0].0 == k {
        OrderedCons((k, v), m[1..]);
      } else if LexLess(k, m[0].0) {
        AboveTransitive(m[1..], k, m[0].0);
        OrderedCons((k, v), m[1..]);
        OrderedCons((k, v), m);
      } else {
        LexLessTotal(k, m[0].0);
        PutOrdered(m[1..], k, v);
        PutAbove(m[1..], k, v, m[0].0);
        OrderedCons(m[0], Put(m[1..], k, v));
      }
    }
  }

  lemma RemoveAbove<V>(m: seq<(string, V)>, k: string, lo: string)
    requires Above(m, lo)
    ensures Above(Remove(m, k), lo)
  {
  }

  lemma {:induction false} RemoveOrdered<V>(m: seq<(string, V)>, k: string)
    requires Ordered(m)
    ensures Ordered(Remove(m, k))
  {
    if |m| > 0 {
      OrderedTail(m);
      RemoveOrdered(m[1..], k);
      if m[0].0 != k {
        RemoveAbove(m[1..], k, m[0].0);
        OrderedCons(m[0], Remove(m[1..], k));
      }
    }
  }

  /** In an ordered map the value stored with a key is the one `Get` reports. */
  lemma GetOrdered<V>(m: seq<(string, V)>, i: nat)
    requires Ordered(m) && i < |m|
    ensures Get(m, m[i].0) == Some(m[i].1)
  {
    if i > 0 {
      OrderedTail(m);
      assert m[0].0 != m[i].0 by {
        assert LexLess(m[0].0, m[i].0);
        LexLessIrreflexive(m[0].0);
      }
      GetOrdered(m[1..], i - 1);
    }
  }

  // ---------------------------------------------------------------------------
  // Building a map from pairs

  lemma {:induction false} FromPairsOrdered<V>(ps: seq<(string, V)>)
    ensures Ordered(FromPairs(ps))
  {
    if |ps| > 0 {
      FromPairsOrdered(ps[..|ps| - 1]);
      PutOrdered(FromPairs(ps[..|ps| - 1]), ps[|ps| - 1].0, ps[|ps| - 1].1);
    }
  }

  /** The last pair under a key decides its value. */
  lemma {:induction false} FromPairsLastWins<V>(ps: seq<(string, V)>, k: nat)
    requires k < |ps|
    requires forall j :: k < j < |ps| ==> ps[j].0 != ps[k].0
    ensures Get(FromPairs(ps), ps[k].0) == Some(ps[k].1)
  {
    var n := |ps| - 1;
    var init := ps[..n];
    if k == n {
      GetPutSame(FromPairs(init), ps[n].0, ps[n].1);
    } else {
      assert init[k] == ps[k];
      FromPairsLastWins(init, k);
      GetPutOther(FromPairs(init), ps[n].0, ps[n].1, ps[k].0);
    }
  }

  /** The last pair under a key is among the map's values. */
  lemma FromPairsLastListed<V>(ps: seq<(string, V)>, k: nat)
    requires k < |ps|
    requires forall j :: k < j < |ps| ==> ps[j].0 != ps[k].0
    ensures ps[k].1 in Values(FromPairs(ps))
  {
    var m := FromPairs(ps);
    FromPairsLastWins(ps, k);
    var i :| 0 <= i < |m| && m[i] == (ps[k].0, ps[k].1);
    assert Values(m)[i] == ps[k].1;
  }

  /** Every stored pair was given. */
  lemma {:induction false} FromPairsFrom<V>(ps: seq<(string, V)>)
    ensures forall p :: p in FromPairs(ps) ==> p in ps
  {
    if |ps| > 0 {
      var n := |ps| - 1;
      FromPairsFrom(ps[..n]);
      forall p | p in FromPairs(ps) ensures p in ps {
        if p in FromPairs(ps[..n]) {
          assert p in ps[..n];
        } else {
          assert p == ps[n];
        }
      }
    }
  }

  /** A key no pair carries is absent. */
  lemma {:induction false} FromPairsAbsent<V>(ps: seq<(string, V)>, key: string)
    requires forall j :: 0 <= j < |ps| ==> ps[j].0 != key
    ensures Get(FromPairs(ps), key).None?
  {
    if |ps| > 0 {
      var n := |ps| - 1;
      var init := ps[..n];
      assert forall j :: 0 <= j < n ==> init[j] == ps[j];
      FromPairsAbsent(init, key);
      GetPutOther(FromPairs(init), ps[n].0, ps[n].1, key);
    }
  }
}

=== FILE: config.dfy ===
/** The configuration store as operations on an immutable value: the GPU
    choice map keyed by desktop id and the list-filter flags. Loading and
    saving the TOML file are not modelled. */
module Config {
  import opened Models

  datatype ConfigStore = ConfigStore(path: string, data: AppConfig)

  /** `ConfigStore::get_choice`: the stored choice, `Default` when none. */
  function GetChoice(store: ConfigStore, desktopId: string): (c: GpuChoice)
    ensures desktopId !in store.data.assignments ==> c == Default
    ensures desktopId in store.data.assignments ==> c == store.data.assignments[desktopId]
  {
    if desktopId in store.data.assignments then store.data.assignments[desktopId] else DefaultChoice()
  }

  /** `ConfigStore::set_choice`: the choice is read back and nothing else moves. */
  function SetChoice(store: ConfigStore, desktopId: string, choice: GpuChoice): (r: ConfigStore)
    ensures GetChoice(r, desktopId) == choice
    ensures forall other :: other != desktopId ==> GetChoice(r, other) == GetChoice(store, other)
    ensures r.path == store.path
    ensures r.data.showSteamApps == store.data.showSteamApps
    ensures r.data.showHeroicApps == store.data.showHeroicApps
    ensures r.data.showFlatpakApps == store.data.showFlatpakApps
  {
    store.(data := store.data.(assignments := store.data.assignments[desktopId := choice]))
  }

  /** Setting the choice already read back is a no-op. */
  lemma SetGetIdempotent(store: ConfigStore, desktopId: string)
    requires desktopId in store.data.assignments
    ensures SetChoice(store, desktopId, GetChoice(store, desktopId)) == store
  {
    assert store.data.assignments[desktopId := GetChoice(store, desktopId)] == store.data.assignments;
  }

  /** A freshly defaulted store answers `Default` for every id. */
  lemma FreshStoreIsDefault(path: string, desktopId: string)
    ensures GetChoice(ConfigStore(path, DefaultAppConfig()), desktopId) == Default
  {
  }

  function ShowSteamApps(store: ConfigStore): bool {
    store.data.showSteamApps
  }

  function ShowHeroicApps(store: ConfigStore): bool {
    store.data.showHeroicApps
  }

  function ShowFlatpakApps(store: ConfigStore): bool {
    store.data.showFlatpakApps
  }

  /** `set_show_steam_apps`: round-trips through its getter, no other field changes. */
  function SetShowSteamApps(store: ConfigStore, value: bool): (r: ConfigStore)
    ensures ShowSteamApps(r) == value
    ensures ShowHeroicApps(r) == ShowHeroicApps(store) && ShowFlatpakApps(r) == ShowFlatpakApps(store)
    ensures forall id :: GetChoice(r, id) == GetChoice(store, id)
    ensures r.path == store.path
  {
    store.(data := store.data.(showSteamApps := value))
  }

  /** `set_show_heroic_apps`: round-trips through its getter, no other field changes. */
  function SetShowHeroicApps(store: ConfigStore, value: bool): (r: ConfigStore)
    ensures ShowHeroicApps(r) == value
    ensures ShowSteamApps(r) == ShowSteamApps(store) && ShowFlatpakApps(r) == ShowFlatpakApps(store)
    ensures forall id :: GetChoice(r, id) == GetChoice(store, id)
    ensures r.path == store.path
  {
    store.(data := store.data.(showHeroicApps := value))
  }

  /** `set_show_flatpak_apps`: round-trips through its getter, no other field changes. */
  function SetShowFlatpakApps(store: ConfigStore, value: bool): (r: ConfigStore)
    ensures ShowFlatpakApps(r) == value
    ensures ShowSteamApps(r) == ShowSteamApps(store) && ShowHeroicApps(r) == ShowHeroicApps(store)
    ensures forall id :: GetChoice(r, id) == GetChoice(store, id)
    ensures r.path == store.path
  {
    store.(data := store.data.(showFlatpakApps := value))
  }
}

=== FILE: desktop.dfy ===
/** The application scanner: the `[Desktop Entry]` group of a desktop file
    (freedesktop.org Desktop Entry Specification), the launcher its `Exec`
    line names (a Steam game, a Heroic game, a Flatpak application) and the
    merged, name-ordered list of every directory's entries. Reading the
    directories is replaced by their listings, given as values. */
module Desktop {
  import opened Text
  import opened Models
  import Assoc

  // ---------------------------------------------------------------------------
  // The Exec line

  /** The field codes a launcher substitutes into an `Exec` line. */
  const FIELD_CODES: seq<string> := ["%f", "%F", "%u", "%U", "%i", "%c", "%k"]

  /** `strip_desktop_exec_placeholders`: every field code removed (one code
      after the other), then the words re-joined with single spaces. */
  function StripExecPlaceholders(exec: string): (r: string)
    ensures Collapsed(r)
  {
    CollapseWhitespace(RemoveTerms(exec, FIELD_CODES))
  }

  /** An `Exec` line already in single-spaced form and free of field codes is
      kept as it is. */
  lemma StripClean(exec: string)
    requires Collapsed(exec)
    requires forall i :: 0 <= i < |FIELD_CODES| ==> !Contains(exec, FIELD_CODES[i])
    ensures StripExecPlaceholders(exec) == exec
  {
    RemoveAbsentTerms(exec, FIELD_CODES);
    CollapseOfCollapsed(exec);
  }

  // ---------------------------------------------------------------------------
  // Reading the key/value lines

  /** What one line says once trimmed: nothing (blank, a comment, no `=`), a
      group header (and whether it opens `[Desktop Entry]`), or a key and a
      value, both trimmed. */
  datatype LineKind = Skip | Header(isEntry: bool) | Pair(key: Key, value: string)

  /** The keys the scanner records; every other key is ignored. */
  datatype Key = Name | Icon | Exec | NoDisplay | Hidden | Type | XFlatpak | Other

  function KeyOf(k: string): (r: Key)
    ensures r == Name <==> k == "Name"
    ensures r == Icon <==> k == "Icon"
    ensures r == Exec <==> k == "Exec"
    ensures r == NoDisplay <==> k == "NoDisplay"
    ensures r == Hidden <==> k == "Hidden"
    ensures r == Type <==> k == "Type"
    ensures r == XFlatpak <==> k == "X-Flatpak"
  {
    if k == "Name" then Name
    else if k == "Icon" then Icon
    else if k == "Exec" then Exec
    else if k == "NoDisplay" then NoDisplay
    else if k == "Hidden" then Hidden
    else if k == "Type" then Type
    else if k == "X-Flatpak" then XFlatpak
    else Other
  }

  function Classify(raw: string): (k: LineKind)
    ensures k.Header? ==> (k.isEntry <==> Trim(raw) == "[Desktop Entry]")
    ensures k.Pair? ==> SplitOnce(Trim(raw), '=').Some?
                        && k.key == KeyOf(Trim(SplitOnce(Trim(raw), '=').value.0))
                        && k.value == Trim(SplitOnce(Trim(raw), '=').value.1)
    ensures Trim(raw) == [] ==> k.Skip?
    ensures |Trim(raw)| > 0 && Trim(raw)[0] == '#' ==> k.Skip?
  {
    var line := Trim(raw);
    if line == [] || line[0] == '#' then Skip
    else if line[0] == '[' && line[|line| - 1] == ']' then Header(line == "[Desktop Entry]")
    else match SplitOnce(line, '=')
      case None => Skip
      case Some(kv) => Pair(KeyOf(Trim(kv.0)), Trim(kv.1))
  }

  /** The values gathered so far, and whether the current group is
      `[Desktop Entry]`. */
  datatype Fields = Fields(
    inEntry: bool,
    name: Option<string>,
    icon: Option<string>,
    exec: Option<string>,
    noDisplay: bool,
    hidden: bool,
    typ: string,
    flatpakAppId: Option<string>)

  const NoFields: Fields := Fields(false, None, None, None, false, false, "", None)

  /** The component of `f` that `key` sets, compared between `f` and `g`
      (an ignored key always agrees). */
  predicate FieldsAgree(f: Fields, g: Fields, key: Key) {
    match key
    case Name => f.name == g.name
    case Icon => f.icon == g.icon
    case Exec => f.exec == g.exec
    case NoDisplay => f.noDisplay == g.noDisplay
    case Hidden => f.hidden == g.hidden
    case Type => f.typ == g.typ
    case XFlatpak => f.flatpakAppId == g.flatpakAppId
    case Other => true
  }

  /** One `key=value` line of `[Desktop Entry]` recorded. */
  function SetField(f: Fields, key: Key, value: string): (r: Fields)
    ensures r.inEntry == f.inEntry
    ensures forall other: Key :: other != key ==> FieldsAgree(r, f, other)
    ensures key == Name ==> r.name == Some(value)
    ensures key == Icon ==> r.icon == Some(value)
    ensures key == Exec ==> r.exec == Some(StripExecPlaceholders(value))
    ensures key == NoDisplay ==> (r.noDisplay <==> EqIgnoreAsciiCase(value, "true"))
    ensures key == Hidden ==> (r.hidden <==> EqIgnoreAsciiCase(value, "true"))
    ensures key == Type ==> r.typ == value
    ensures key == XFlatpak ==> r.flatpakAppId == Some(value)
    ensures key == Other ==> r == f
  {
    match key
    case Name => f.(name := Some(value))
    case Icon => f.(icon := Some(value))
    case Exec => f.(exec := Some(StripExecPlaceholders(value)))
    case NoDisplay => f.(noDisplay := EqIgnoreAsciiCase(value, "true"))
    case Hidden => f.(hidden := EqIgnoreAsciiCase(value, "true"))
    case Type => f.(typ := value)
    case XFlatpak => f.(flatpakAppId := Some(value))
    case Other => f
  }

  /** One classified line read: a header switches the group, a pair counts
      only inside `[Desktop Entry]`. */
  function Step(f: Fields, k: LineKind): (r: Fields)
    ensures k.Header? ==> r == f.(inEntry := k.isEntry)
    ensures !k.Header? ==> r.inEntry == f.inEntry
    ensures !(f.inEntry && k.Pair?) && !k.Header? ==> r == f
  {
    match k
    case Skip => f
    case Header(isEntry) => f.(inEntry := isEntry)
    case Pair(key, value) => if f.inEntry then SetField(f, key, value) else f
  }

  function Kinds(lines: seq<string>): (r: seq<LineKind>)
    ensures |r| == |lines| && forall i :: 0 <= i < |lines| ==> r[i] == Classify(lines[i])
  {
    if |lines| == 0 then [] else [Classify(lines[0])] + Kinds(lines[1..])
  }

  /** The fields after reading the classified lines from the top. */
  function ReadKinds(ks: seq<LineKind>): Fields {
    if |ks| == 0 then NoFields else Step(ReadKinds(ks[..|ks| - 1]), ks[|ks| - 1])
  }

  /** The fields a file's lines give. */
  function ParseFields(lines: seq<string>): Fields {
    ReadKinds(Kinds(lines))
  }

  /** Line `j` sets `key`: it is a pair under that key read inside
      `[Desktop Entry]`. */
  predicate SetsKey(ks: seq<LineKind>, j: nat, key: Key)
    requires j < |ks|
  {
    ReadKinds(ks[..j]).inEntry && ks[j].Pair? && ks[j].key == key
  }

  /** A line that does not set `key` leaves its component alone. */
  lemma StepKeeps(f: Fields, k: LineKind, key: Key)
    requires !(f.inEntry && k.Pair? && k.key == key)
    ensures FieldsAgree(Step(f, k), f, key)
  {
  }

  /** The last line that sets a key decides its value: later duplicates
      overwrite earlier ones, and nothing else touches it. */
  lemma {:induction false} LastPairWins(ks: seq<LineKind>, k: nat, key: Key)
    requires k < |ks| && SetsKey(ks, k, key)
    requires forall j :: k < j < |ks| ==> !SetsKey(ks, j, key)
    ensures FieldsAgree(ReadKinds(ks), SetField(ReadKinds(ks[..k]), key, ks[k].value), key)
  {
    var n := |ks| - 1;
    var init := ks[..n];
    if k < n {
      forall j | k < j < |init| ensures !SetsKey(init, j, key) {
        assert init[..j] == ks[..j];
        assert !SetsKey(ks, j, key);
      }
      assert init[..k] == ks[..k];
      LastPairWins(init, k, key);
      assert !SetsKey(ks, n, key);
      StepKeeps(ReadKinds(init), ks[n], key);
    }
  }

  /** A `Name` line is the name when no later `Name` line follows it. */
  lemma LastNameWins(ks: seq<LineKind>, k: nat)
    requires k < |ks| && SetsKey(ks, k, Name)
    requires forall j :: k < j < |ks| ==> !SetsKey(ks, j, Name)
    ensures ReadKinds(ks).name == Some(ks[k].value)
  {
    LastPairWins(ks, k, Name);
  }

  /** Without a header opening `[Desktop Entry]` nothing is read. */
  lemma {:induction false} NoEntryHeader(ks: seq<LineKind>)
    requires forall j :: 0 <= j < |ks| ==> ks[j] != Header(true)
    ensures ReadKinds(ks) == NoFields
  {
    if |ks| > 0 {
      var n := |ks| - 1;
      assert forall j :: 0 <= j < n ==> ks[..n][j] == ks[j];
      NoEntryHeader(ks[..n]);
    }
  }

  /** Without a `[Desktop Entry]` line no pair is ever read. */
  lemma WithoutEntryGroup(lines: seq<string>)
    requires forall j :: 0 <= j < |lines| ==> Trim(lines[j]) != "[Desktop Entry]"
    ensures ParseFields(lines) == NoFields
  {
    var ks := Kinds(lines);
    forall j | 0 <= j < |ks| ensures ks[j] != Header(true) {
      assert ks[j] == Classify(lines[j]);
    }
    NoEntryHeader(ks);
  }

  // ---------------------------------------------------------------------------
  // Steam

  const RUNGAMEID: string := "steam://rungameid/"

  /** `steam_app_id_from_exec`: the digits after `steam://rungameid/`, else
      the all-digit word after `-applaunch`. */
  function SteamAppIdFromExec(exec: string): (r: Option<string>)
    ensures r.Some? ==> |r.value| > 0 && AllDigits(r.value)
  {
    var fromUrl := match Find(exec, RUNGAMEID)
      case Some(idx) => DigitPrefix(exec[idx + |RUNGAMEID|..])
      case None => [];
    if fromUrl != [] then Some(fromUrl)
    else
      var parts := SplitWhitespace(exec);
      match IndexOf(parts, "-applaunch")
      case None => None
      case Some(i) =>
        var id := if i + 1 < |parts| then parts[i + 1] else [];
        if id != [] && AllDigits(id) then Some(id) else None
  }

  /** The id a `steam://rungameid/` URL carries is read back. */
  lemma SteamUrlRoundTrip(pre: string, id: string, post: string)
    requires Find(pre + RUNGAMEID, RUNGAMEID) == Some(|pre|)
    requires |id| > 0 && AllDigits(id)
    requires post == [] || !IsAsciiDigit(post[0])
    ensures SteamAppIdFromExec(pre + RUNGAMEID + id + post) == Some(id)
  {
    var exec := pre + RUNGAMEID + id + post;
    assert exec == (pre + RUNGAMEID) + (id + post);
    FindExtend(pre + RUNGAMEID, id + post, RUNGAMEID);
    assert exec[|pre| + |RUNGAMEID|..] == id + post;
    DigitPrefixOf(id, post);
  }

  /** Without a `steam://rungameid/` URL the id is the all-digit word
      following the first `-applaunch` word. */
  lemma SteamApplaunchWord(exec: string, i: nat)
    requires !Contains(exec, RUNGAMEID)
    requires i + 1 < |SplitWhitespace(exec)| && SplitWhitespace(exec)[i] == "-applaunch"
    requires forall j :: 0 <= j < i ==> SplitWhitespace(exec)[j] != "-applaunch"
    requires AllDigits(SplitWhitespace(exec)[i + 1])
    ensures SteamAppIdFromExec(exec) == Some(SplitWhitespace(exec)[i + 1])
  {
    var parts := SplitWhitespace(exec);
    assert IndexOf(parts, "-applaunch") == Some(i);
  }

  /** The id given to `steam -applaunch` is read back. */
  lemma SteamApplaunchRoundTrip(id: string)
    requires |id| > 0 && AllDigits(id)
    ensures SteamAppIdFromExec("steam -applaunch " + id) == Some(id)
  {
    var exec := "steam -applaunch " + id;
    assert NoChar(exec, ':') by {
      forall i | 0 <= i < |exec| ensures exec[i] != ':' {
        if i >= 17 {
          assert exec[i] == id[i - 17];
        }
      }
    }
    NoCharNotContains(exec, RUNGAMEID, 5, ':');
    ApplaunchWords(id);
    SteamApplaunchWord(exec, 1);
  }

  lemma DigitsNoWhitespace(id: string)
    requires AllDigits(id)
    ensures NoWhitespace(id)
  {
    forall i | 0 <= i < |id| ensures !IsWhitespace(id[i]) {
      assert IsAsciiDigit(id[i]);
    }
  }

  lemma ApplaunchWords(id: string)
    requires |id| > 0 && AllDigits(id)
    ensures SplitWhitespace("steam -applaunch " + id) == ["steam", "-applaunch", id]
  {
    var e := "steam" + " " + "-applaunch" + " " + id;
    assert SplitWhitespace(e) == ["steam", "-applaunch", id] by {
      DigitsNoWhitespace(id);
      LiteralWords();
      TwoWordsThen("steam", "-applaunch", id);
    }
    assert "steam -applaunch " + id == e by {
      ApplaunchSpelled(id);
    }
  }

  lemma LiteralWords()
    ensures NoWhitespace("steam") && NoWhitespace("-applaunch")
    ensures NoWhitespace("flatpak") && NoWhitespace("run")
  {
  }

  lemma ApplaunchSpelled(id: string)
    ensures "steam -applaunch " + id == "steam" + " " + "-applaunch" + " " + id
  {
  }

  // ---------------------------------------------------------------------------
  // Heroic

  const HEROIC_PATH: string := "heroic://launch/"
  const HEROIC_QUERY: string := "heroic://launch?"

  /** The separators of the path form: `/`, `?`, space and `"`. */
  predicate IsHeroicDelimiter(c: char) {
    c == '/' || c == '?' || c == ' ' || c == '"'
  }

  predicate NoDelimiter(s: string) {
    forall i :: 0 <= i < |s| ==> !IsHeroicDelimiter(s[i])
  }

  function FirstDelimiter(s: string): (r: Option<nat>)
    ensures r.Some? ==> r.value < |s| && IsHeroicDelimiter(s[r.value]) && NoDelimiter(s[..r.value])
    ensures r.None? ==> NoDelimiter(s)
  {
    if |s| == 0 then None
    else if IsHeroicDelimiter(s[0]) then Some(0)
    else match FirstDelimiter(s[1..])
      case None => None
      case Some(i) =>
        assert s[..i + 1] == [s[0]] + s[1..][..i];
        Some(i + 1)
  }

  lemma {:induction false} FirstDelimiterIs(s: string, i: nat)
    requires i < |s| && IsHeroicDelimiter(s[i]) && NoDelimiter(s[..i])
    ensures FirstDelimiter(s) == Some(i)
  {
    if i > 0 {
      assert !IsHeroicDelimiter(s[..i][0]);
      assert s[1..][..i - 1] == s[..i][1..];
      FirstDelimiterIs(s[1..], i - 1);
    }
  }

  /** The path form after `heroic://launch/`: `None` when the tail holds no
      delimiter (there is no second piece), otherwise the first two pieces,
      trimmed, when both are non-empty. */
  function HeroicPath(tail: string): (r: Option<Option<(string, string)>>)
    ensures r.None? <==> NoDelimiter(tail)
    ensures r.Some? && r.value.Some? ==> |r.value.value.0| > 0 && |r.value.value.1| > 0
  {
    match FirstDelimiter(tail)
    case None => None
    case Some(d) =>
      var platform := Trim(tail[..d]);
      var rest := tail[d + 1..];
      var app := Trim(match FirstDelimiter(rest) case None => rest case Some(e) => rest[..e]);
      if platform != [] && app != [] then Some(Some((platform, app))) else Some(None)
  }

  /** A query pair: its first whitespace-free word, quotes trimmed from both
      ends, split at the first `=`. */
  function QueryPair(raw: string): (r: Option<(string, string)>)
    ensures r.Some? ==> NoChar(r.value.0, '=')
  {
    var words := SplitWhitespace(raw);
    var first := if |words| > 0 then words[0] else [];
    SplitOnce(TrimMatchesChar(first, '"'), '=')
  }

  /** The value of the last pair under `key` whose value is non-empty. */
  function QueryValue(pairs: seq<string>, key: string): (r: Option<string>)
    ensures r.Some? ==> |r.value| > 0
  {
    if |pairs| == 0 then None
    else
      var n := |pairs| - 1;
      var last := QueryPair(pairs[n]);
      if last.Some? && last.value.0 == key && last.value.1 != [] then Some(last.value.1)
      else QueryValue(pairs[..n], key)
  }

  /** The query form `heroic://launch?appName=<id>&runner=<platform>`: the
      application name is required, the runner is optional. */
  function HeroicQuery(exec: string): (r: Option<(Option<string>, Option<string>)>)
    ensures r.Some? ==> r.value.1.Some? && |r.value.1.value| > 0
    ensures r.Some? && r.value.0.Some? ==> |r.value.0.value| > 0
    ensures !Contains(exec, HEROIC_QUERY) ==> r.None?
  {
    match Find(exec, HEROIC_QUERY)
    case None => None
    case Some(idx) =>
      var pairs := SplitChar(exec[idx + |HEROIC_QUERY|..], '&');
      match QueryValue(pairs, "appName")
      case None => None
      case Some(app) => Some((QueryValue(pairs, "runner"), Some(app)))
  }

  /** `heroic_game_from_exec`: the platform and application name of a
      Heroic launch URL, path form first, query form otherwise. */
  function HeroicGameFromExec(exec: string): (r: Option<(Option<string>, Option<string>)>)
    ensures r.Some? ==> r.value.1.Some? && |r.value.1.value| > 0
    ensures r.Some? && r.value.0.Some? ==> |r.value.0.value| > 0
    ensures !Contains(exec, HEROIC_PATH) && !Contains(exec, HEROIC_QUERY) ==> r.None?
  {
    match Find(exec, HEROIC_PATH)
    case Some(idx) =>
      (match HeroicPath(exec[idx + |HEROIC_PATH|..])
       case None => None
       case Some(Some(p)) => Some((Some(p.0), Some(p.1)))
       case Some(None) => HeroicQuery(exec))
    case None => HeroicQuery(exec)
  }

  /** A path-form tail `<platform>/<app>` gives back both pieces. */
  lemma HeroicPathTail(platform: string, app: string, post: string)
    requires |platform| > 0 && NoDelimiter(platform) && Trim(platform) == platform
    requires |app| > 0 && NoDelimiter(app) && Trim(app) == app
    requires post == [] || IsHeroicDelimiter(post[0])
    ensures HeroicPath(platform + "/" + app + post) == Some(Some((platform, app)))
  {
    var rest := app + post;
    var tail := platform + "/" + rest;
    assert tail == platform + "/" + app + post;
    assert tail[..|platform|] == platform;
    FirstDelimiterIs(tail, |platform|);
    assert tail[|platform| + 1..] == rest;
    if post == [] {
      assert rest == app;
    } else {
      assert rest[..|app|] == app;
      FirstDelimiterIs(rest, |app|);
    }
  }

  /** A path-form URL gives back its platform and application name. */
  lemma HeroicPathRoundTrip(pre: string, platform: string, app: string, post: string)
    requires Find(pre + HEROIC_PATH, HEROIC_PATH) == Some(|pre|)
    requires |platform| > 0 && NoDelimiter(platform) && Trim(platform) == platform
    requires |app| > 0 && NoDelimiter(app) && Trim(app) == app
    requires post == [] || IsHeroicDelimiter(post[0])
    ensures HeroicGameFromExec(pre + HEROIC_PATH + platform + "/" + app + post)
            == Some((Some(platform), Some(app)))
  {
    var tail := platform + "/" + app + post;
    var exec := pre + HEROIC_PATH + platform + "/" + app + post;
    assert exec == (pre + HEROIC_PATH) + tail && exec[|pre| + |HEROIC_PATH|..] == tail by {
      ConcatTail(pre + HEROIC_PATH, platform, app, post);
    }
    FindExtend(pre + HEROIC_PATH, tail, HEROIC_PATH);
    HeroicPathTail(platform, app, post);
  }

  lemma ConcatTail(h: string, platform: string, app: string, post: string)
    ensures h + platform + "/" + app + post == h + (platform + "/" + app + post)
    ensures (h + platform + "/" + app + post)[|h|..] == platform + "/" + app + post
  {
  }

  /** The query form is read when the text holds no path-form marker. */
  lemma HeroicQueryOnly(exec: string)
    requires |exec| >= 15 && NoChar(exec[15..], '/')
    ensures HeroicGameFromExec(exec) == HeroicQuery(exec)
  {
    forall i: nat | i + |HEROIC_PATH| <= |exec| ensures !OccursAt(exec, HEROIC_PATH, i) {
      assert exec[i..i + |HEROIC_PATH|][15] == exec[i + 15];
      assert exec[i + 15] == exec[15..][i];
    }
  }

  /** A query-form URL naming both keys gives back the runner and the
      application name. */
  lemma HeroicQueryRoundTrip(app: string, runner: string)
    requires |app| > 0 && |runner| > 0
    requires NoWhitespace(app) && NoWhitespace(runner)
    requires NoChar(app, '&') && NoChar(app, '"') && NoChar(app, '/')
    requires NoChar(runner, '&') && NoChar(runner, '"') && NoChar(runner, '/')
    ensures HeroicGameFromExec(HEROIC_QUERY + "appName=" + app + "&runner=" + runner)
            == Some((Some(runner), Some(app)))
  {
    var first := "appName=" + app;
    var second := "runner=" + runner;
    var exec := HEROIC_QUERY + first + "&" + second;
    assert exec == HEROIC_QUERY + "appName=" + app + "&runner=" + runner by {
      QuerySpelled(app, runner);
    }
    assert NoChar(exec[15..], '/') by {
      QueryNoSlash(app, runner);
    }
    HeroicQueryOnly(exec);
    assert HeroicQuery(exec) == Some((Some(runner), Some(app))) by {
      HeroicQueryOf(app, runner);
    }
  }

  lemma HeroicQueryOf(app: string, runner: string)
    requires |app| > 0 && |runner| > 0
    requires NoWhitespace(app) && NoWhitespace(runner)
    requires NoChar(app, '&') && NoChar(app, '"') && NoChar(runner, '&') && NoChar(runner, '"')
    ensures HeroicQuery(HEROIC_QUERY + ("appName=" + app) + "&" + ("runner=" + runner))
            == Some((Some(runner), Some(app)))
  {
    var first := "appName=" + app;
    var second := "runner=" + runner;
    assert NoChar(first, '&') by {
      forall i | 0 <= i < |first| ensures first[i] != '&' {
        if i >= 8 {
          assert first[i] == app[i - 8];
        }
      }
    }
    assert NoChar(second, '&') by {
      forall i | 0 <= i < |second| ensures second[i] != '&' {
        if i >= 7 {
          assert second[i] == runner[i - 7];
        }
      }
    }
    QueryPairs(first, second);
    QueryValues(first, second, app, runner);
  }

  lemma QueryValues(first: string, second: string, app: string, runner: string)
    requires |app| > 0 && |runner| > 0
    requires NoWhitespace(app) && NoWhitespace(runner)
    requires NoChar(app, '"') && NoChar(runner, '"')
    requires first == "appName" + "=" + app && second == "runner" + "=" + runner
    ensures QueryValue([first, second], "appName") == Some(app)
    ensures QueryValue([first, second], "runner") == Some(runner)
  {
    QueryPairNamed("appName", app, first);
    QueryPairNamed("runner", runner, second);
    QueryValuesOf(first, second, app, runner);
  }

  lemma QueryValuesOf(first: string, second: string, app: string, runner: string)
    requires |app| > 0 && |runner| > 0
    requires QueryPair(first) == Some(("appName", app)) && QueryPair(second) == Some(("runner", runner))
    ensures QueryValue([first, second], "appName") == Some(app)
    ensures QueryValue([first, second], "runner") == Some(runner)
  {
    var pairs := [first, second];
    assert QueryValue(pairs, "runner") == Some(runner) by {
      QueryValueLast(pairs, "runner", runner);
    }
    assert QueryValue(pairs, "appName") == Some(app) by {
      QueryValueSkip(pairs, "appName");
      assert pairs[..1] == [first];
      QueryValueLast([first], "appName", app);
    }
  }

  lemma QueryPairNamed(key: string, value: string, w: string)
    requires key == "appName" || key == "runner"
    requires |value| > 0 && NoWhitespace(value) && NoChar(value, '"')
    requires w == key + "=" + value
    ensures QueryPair(w) == Some((key, value))
  {
    assert NoWhitespace(key) && NoChar(key, '=') && NoChar(key, '"');
    QueryPairOf(key, value);
  }

  lemma QueryValueLast(pairs: seq<string>, key: string, v: string)
    requires |pairs| > 0 && |v| > 0 && QueryPair(pairs[|pairs| - 1]) == Some((key, v))
    ensures QueryValue(pairs, key) == Some(v)
  {
  }

  lemma QueryValueSkip(pairs: seq<string>, key: string)
    requires |pairs| > 0
    requires QueryPair(pairs[|pairs| - 1]).None? || QueryPair(pairs[|pairs| - 1]).value.0 != key
    ensures QueryValue(pairs, key) == QueryValue(pairs[..|pairs| - 1], key)
  {
  }

  lemma QuerySpelled(app: string, runner: string)
    ensures HEROIC_QUERY + ("appName=" + app) + "&" + ("runner=" + runner)
            == HEROIC_QUERY + "appName=" + app + "&runner=" + runner
  {
  }

  lemma QueryNoSlash(app: string, runner: string)
    requires NoChar(app, '/') && NoChar(runner, '/')
    ensures NoChar((HEROIC_QUERY + "appName=" + app + "&runner=" + runner)[15..], '/')
  {
    var exec := HEROIC_QUERY + "appName=" + app + "&runner=" + runner;
    forall i | 15 <= i < |exec| ensures exec[i] != '/' {
      if i >= 24 && i < 24 + |app| {
        assert exec[i] == app[i - 24];
      } else if i >= 32 + |app| {
        assert exec[i] == runner[i - 32 - |app|];
      }
    }
  }

  /** The query after the marker splits at `&` into its two pairs. */
  lemma QueryPairs(first: string, second: string)
    requires NoChar(first, '&') && NoChar(second, '&')
    ensures Find(HEROIC_QUERY + first + "&" + second, HEROIC_QUERY) == Some(0)
    ensures SplitChar((HEROIC_QUERY + first + "&" + second)[|HEROIC_QUERY|..], '&') == [first, second]
  {
    var exec := HEROIC_QUERY + first + "&" + second;
    assert OccursAt(exec, HEROIC_QUERY, 0);
    FindIs(exec, HEROIC_QUERY, 0);
    assert exec[|HEROIC_QUERY|..] == first + "&" + second;
    SplitCharCons(first, second, '&');
    SplitCharNone(second, '&');
  }

  /** A `key=value` pair without whitespace or quotes reads as itself. */
  lemma QueryPairOf(key: string, value: string)
    requires |key| > 0 && |value| > 0 && key[0] != '"'
    requires NoWhitespace(key) && NoChar(key, '=') && NoChar(key, '"')
    requires NoWhitespace(value) && NoChar(value, '"')
    ensures QueryPair(key + "=" + value) == Some((key, value))
  {
    var w := key + "=" + value;
    assert NoWhitespace(w) by {
      forall i | 0 <= i < |w| ensures !IsWhitespace(w[i]) {
        if i > |key| {
          assert w[i] == value[i - |key| - 1];
        }
      }
    }
    SplitWhitespaceWord(w);
    assert w[|w| - 1] == value[|value| - 1];
    assert TrimMatchesChar(w, '"') == w;
    assert w[..|key|] == key;
    FindCharIs(w, '=', |key|);
  }

  // ---------------------------------------------------------------------------
  // Flatpak

  /** `looks_like_flatpak_app_id`: holds a `.` and only ASCII letters,
      digits, `.` and `_`. */
  predicate LooksLikeFlatpakAppId(v: string): (r: bool)
    ensures r ==> |v| > 0 && NoChar(v, ' ') && NoChar(v, '/') && NoChar(v, '=')
  {
    !NoChar(v, '.') && forall i :: 0 <= i < |v| ==> IsAsciiAlphanumeric(v[i]) || v[i] == '.' || v[i] == '_'
  }

  /** The first word that is not an option and looks like an application id. */
  function FirstAppId(words: seq<string>): (r: Option<string>)
    ensures r.Some? ==> LooksLikeFlatpakAppId(r.value) && !StartsWith(r.value, "-")
    ensures r.Some? ==> exists i :: (0 <= i < |words| && words[i] == r.value
                         && forall j :: 0 <= j < i ==> StartsWith(words[j], "-") || !LooksLikeFlatpakAppId(words[j]))
    ensures r.None? ==> forall j :: 0 <= j < |words| ==> StartsWith(words[j], "-") || !LooksLikeFlatpakAppId(words[j])
  {
    if |words| == 0 then None
    else if !StartsWith(words[0], "-") && LooksLikeFlatpakAppId(words[0]) then Some(words[0])
    else
      var r := FirstAppId(words[1..]);
      assert r.Some? ==> exists i :: (0 <= i < |words| && words[i] == r.value
                         && forall j :: 0 <= j < i ==> StartsWith(words[j], "-") || !LooksLikeFlatpakAppId(words[j])) by {
        if r.Some? {
          var i :| 0 <= i < |words[1..]| && words[1..][i] == r.value
                   && forall j :: 0 <= j < i ==> StartsWith(words[1..][j], "-") || !LooksLikeFlatpakAppId(words[1..][j]);
          assert forall j :: 1 <= j < i + 1 ==> words[j] == words[1..][j - 1];
          assert words[i + 1] == r.value;
        }
      }
      r
  }

  /** `flatpak_app_id_from_exec`: the first id-like, non-option word after
      the first `run`, for a command that mentions both `flatpak` and `run`. */
  function FlatpakAppIdFromExec(exec: string): (r: Option<string>)
    ensures r.Some? ==> LooksLikeFlatpakAppId(r.value) && Contains(exec, "flatpak") && Contains(exec, "run")
  {
    if !Contains(exec, "flatpak") || !Contains(exec, "run") then None
    else
      var parts := SplitWhitespace(exec);
      match IndexOf(parts, "run")
      case None => None
      case Some(i) => FirstAppId(parts[i + 1..])
  }

  /** `flatpak run <id>` gives back the id. */
  lemma FlatpakRunRoundTrip(id: string)
    requires LooksLikeFlatpakAppId(id)
    ensures FlatpakAppIdFromExec("flatpak run " + id) == Some(id)
  {
    var exec := "flatpak run " + id;
    assert Contains(exec, "flatpak") && Contains(exec, "run") by {
      assert OccursAt(exec, "flatpak", 0);
      assert OccursAt(exec, "run", 8);
    }
    assert SplitWhitespace(exec) == ["flatpak", "run", id] by {
      FlatpakRunWords(id);
    }
    assert !StartsWith(id, "-") by {
      assert |id| > 0;
      assert IsAsciiAlphanumeric(id[0]) || id[0] == '.' || id[0] == '_';
    }
    FlatpakIdAfterRun(exec, id);
  }

  lemma FlatpakIdAfterRun(exec: string, id: string)
    requires Contains(exec, "flatpak") && Contains(exec, "run")
    requires SplitWhitespace(exec) == ["flatpak", "run", id]
    requires LooksLikeFlatpakAppId(id) && !StartsWith(id, "-")
    ensures FlatpakAppIdFromExec(exec) == Some(id)
  {
    var parts := ["flatpak", "run", id];
    assert parts[0] != "run";
    assert IndexOf(parts, "run") == Some(1);
    assert parts[2..] == [id];
  }

  lemma FlatpakRunWords(id: string)
    requires LooksLikeFlatpakAppId(id)
    ensures SplitWhitespace("flatpak run " + id) == ["flatpak", "run", id]
  {
    var e := "flatpak" + " " + "run" + " " + id;
    assert SplitWhitespace(e) == ["flatpak", "run", id] by {
      assert |id| > 0;
      assert NoWhitespace(id) by {
        forall i | 0 <= i < |id| ensures !IsWhitespace(id[i]) {
          assert IsAsciiAlphanumeric(id[i]) || id[i] == '.' || id[i] == '_';
        }
      }
      LiteralWords();
      TwoWordsThen("flatpak", "run", id);
    }
    assert "flatpak run " + id == e by {
      FlatpakRunSpelled(id);
    }
  }

  lemma FlatpakRunSpelled(id: string)
    ensures "flatpak run " + id == "flatpak" + " " + "run" + " " + id
  {
  }

  const FLATPAK_EXPORTS: string := "/flatpak/exports/share/applications"

  /** `is_flatpak_entry`: the file lies in a Flatpak export directory, or
      the command runs through Flatpak. */
  predicate IsFlatpakEntry(path: string, exec: string): (r: bool)
    ensures r ==> Contains(path, FLATPAK_EXPORTS) || Contains(exec, "flatpak")
  {
    FlatpakMentioned(exec);
    Contains(path, FLATPAK_EXPORTS) || Contains(exec, "flatpak run") || Contains(exec, "/flatpak")
  }

  /** Both command tests find the word `flatpak` in the command. */
  lemma FlatpakMentioned(exec: string)
    ensures Contains(exec, "flatpak run") || Contains(exec, "/flatpak") ==> Contains(exec, "flatpak")
  {
    if Contains(exec, "flatpak run") {
      var i := Find(exec, "flatpak run").value;
      assert exec[i..i + 7] == exec[i..i + 11][..7];
      ContainsAt(exec, "flatpak", i);
    } else if Contains(exec, "/flatpak") {
      var i := Find(exec, "/flatpak").value;
      assert exec[i + 1..i + 8] == exec[i..i + 8][1..];
      ContainsAt(exec, "flatpak", i + 1);
    }
  }

  // ---------------------------------------------------------------------------
  // Paths

  /** `Path::file_name`: the text after the last `/`; none when that is
      empty or `..`. */
  function FileName(path: string): (r: Option<string>)
    ensures r.Some? ==> |r.value| > 0 && NoChar(r.value, '/') && EndsWith(path, r.value) && r.value != ".."
    ensures NoChar(path, '/') && path != [] && path != ".." ==> r == Some(path)
  {
    var name := match RFindChar(path, '/') case None => path case Some(i) => path[i + 1..];
    if name == [] || name == ".." then None else Some(name)
  }

  /** `Path::extension` of a file name: the text after its last `.`, none
      when the only `.` leads the name. */
  function Extension(name: string): (r: Option<string>)
    ensures r.Some? ==> NoChar(r.value, '.') && EndsWith(name, "." + r.value)
  {
    match RFindChar(name, '.')
    case None => None
    case Some(i) =>
      if i == 0 then None
      else
        assert name[i..] == "." + name[i + 1..];
        Some(name[i + 1..])
  }

  predicate IsDesktopFile(path: string) {
    match FileName(path)
    case None => false
    case Some(n) => Extension(n) == Some("desktop")
  }

  /** `strip_suffix`. */
  function StripSuffix(s: string, suffix: string): (r: Option<string>)
    ensures r.Some? <==> EndsWith(s, suffix)
    ensures r.Some? ==> s == r.value + suffix
  {
    if EndsWith(s, suffix) then Some(s[..|s| - |suffix|]) else None
  }

  // ---------------------------------------------------------------------------
  // One desktop file

  function ExecOf(f: Fields): string {
    match f.exec case Some(e) => e case None => []
  }

  /** The Flatpak id: `X-Flatpak`, else the one the command names, else the
      file name without `.desktop`. */
  function FlatpakId(declared: Option<string>, exec: string, fileName: string): (r: Option<string>)
    ensures declared.Some? ==> r == declared
    ensures declared.None? && FlatpakAppIdFromExec(exec).Some? ==> r == FlatpakAppIdFromExec(exec)
    ensures declared.None? && FlatpakAppIdFromExec(exec).None? ==> r == StripSuffix(fileName, ".desktop")
  {
    if declared.Some? then declared
    else if FlatpakAppIdFromExec(exec).Some? then FlatpakAppIdFromExec(exec)
    else StripSuffix(fileName, ".desktop")
  }

  /** `parse_desktop_file`, given the file's path and its text. */
  function ParseDesktopFile(path: string, content: string): (r: Option<DesktopApp>)
    ensures var f := ParseFields(Lines(content));
      r.Some? <==> !f.noDisplay && !f.hidden && f.typ == "Application" && FileName(path).Some?
    ensures r.Some? ==>
      var f := ParseFields(Lines(content));
      var a := r.value;
      && a.desktopId == FileName(path).value
      && a.path == path
      && a.name == (match f.name case Some(n) => n case None => "Unnamed Application")
      && a.icon == f.icon
      && a.exec == ExecOf(f)
      && a.steamAppId == SteamAppIdFromExec(a.exec)
      && (a.isSteamGame <==> a.steamAppId.Some?)
      && (a.isHeroicGame <==> a.heroicPlatform.Some? && a.heroicAppName.Some?)
      && (HeroicGameFromExec(a.exec).None? ==> a.heroicPlatform.None? && a.heroicAppName.None?)
      && (HeroicGameFromExec(a.exec).Some? ==>
            (a.heroicPlatform, a.heroicAppName) == HeroicGameFromExec(a.exec).value)
      && (a.isFlatpak <==> IsFlatpakEntry(path, a.exec))
      && a.flatpakAppId == (if a.isFlatpak then FlatpakId(f.flatpakAppId, a.exec, a.desktopId) else None)
  {
    var f := ParseFields(Lines(content));
    if f.noDisplay || f.hidden || f.typ != "Application" then None
    else match FileName(path)
      case None => None
      case Some(desktopId) =>
        var exec := ExecOf(f);
        var flatpak := IsFlatpakEntry(path, exec);
        var steamId := SteamAppIdFromExec(exec);
        var heroic := match HeroicGameFromExec(exec) case Some(h) => h case None => (None, None);
        Some(DesktopApp(
          desktopId,
          path,
          match f.name case Some(n) => n case None => "Unnamed Application",
          f.icon,
          exec,
          steamId.Some?,
          steamId,
          heroic.0.Some? && heroic.1.Some?,
          heroic.0,
          heroic.1,
          flatpak,
          if flatpak then FlatpakId(f.flatpakAppId, exec, desktopId) else None))
  }

  /** A file without a `[Desktop Entry]` group is never listed. */
  lemma NoEntryGroupRejected(path: string, content: string)
    requires forall j :: 0 <= j < |Lines(content)| ==> Trim(Lines(content)[j]) != "[Desktop Entry]"
    ensures ParseDesktopFile(path, content).None?
  {
    WithoutEntryGroup(Lines(content));
  }

  // ---------------------------------------------------------------------------
  // Scanning the application directories

  /** One file of an application directory: its path and its text, or none
      when it could not be read. */
  datatype DirEntry = DirEntry(path: string, content: Option<string>)

  /** The application a directory entry yields: only readable `.desktop`
      files that parse. */
  function EntryApp(e: DirEntry): (r: Option<DesktopApp>)
    ensures r.Some? ==> IsDesktopFile(e.path) && e.content.Some?
                        && r == ParseDesktopFile(e.path, e.content.value)
  {
    if !IsDesktopFile(e.path) then None
    else match e.content
      case None => None
      case Some(c) => ParseDesktopFile(e.path, c)
  }

  function Flatten(dirs: seq<seq<DirEntry>>): (r: seq<DirEntry>)
    ensures forall e :: e in r <==> exists d :: d in dirs && e in d
  {
    if |dirs| == 0 then [] else Flatten(dirs[..|dirs| - 1]) + dirs[|dirs| - 1]
  }

  /** The parsed applications in listing order, keyed by desktop id. */
  function Keyed(es: seq<DirEntry>): (r: seq<(string, DesktopApp)>)
    ensures forall p :: p in r ==> p.0 == p.1.desktopId && exists e :: e in es && EntryApp(e) == Some(p.1)
  {
    if |es| == 0 then []
    else
      var last := es[|es| - 1];
      var init := Keyed(es[..|es| - 1]);
      assert forall e :: e in es[..|es| - 1] ==> e in es;
      match EntryApp(last)
      case None => init
      case Some(a) => init + [(a.desktopId, a)]
  }

  function NameKey(a: DesktopApp): string {
    ToAsciiLower(a.name)
  }

  predicate SortedByName(apps: seq<DesktopApp>) {
    forall i, j :: 0 <= i < j < |apps| ==> LexLeq(NameKey(apps[i]), NameKey(apps[j]))
  }

  /** Stable insertion: before the first application whose key is not below. */
  function InsertByName(a: DesktopApp, apps: seq<DesktopApp>): (r: seq<DesktopApp>)
    ensures multiset(r) == multiset(apps) + multiset{a}
  {
    if |apps| == 0 || LexLeq(NameKey(a), NameKey(apps[0])) then [a] + apps
    else
      assert apps == [apps[0]] + apps[1..];
      [apps[0]] + InsertByName(a, apps[1..])
  }

  /** `sort_by_key` on the lower-cased name: each application goes before
      the first later-sorted one whose key is not below its own, so equal
      keys keep their order. */
  function SortByName(apps: seq<DesktopApp>): (r: seq<DesktopApp>)
    ensures multiset(r) == multiset(apps)
  {
    if |apps| == 0 then []
    else
      assert apps == [apps[0]] + apps[1..];
      InsertByName(apps[0], SortByName(apps[1..]))
  }

  /** The applications of `apps` whose sort key is `k`, in their order in
      `apps`. */
  function WithNameKey(apps: seq<DesktopApp>, k: string): seq<DesktopApp> {
    if |apps| == 0 then []
    else (if NameKey(apps[0]) == k then [apps[0]] else []) + WithNameKey(apps[1..], k)
  }

  lemma WithNameKeyCons(a: DesktopApp, apps: seq<DesktopApp>, k: string)
    ensures WithNameKey([a] + apps, k) == (if NameKey(a) == k then [a] else []) + WithNameKey(apps, k)
  {
    assert ([a] + apps)[1..] == apps;
  }

  /** Insertion passes only applications with a key strictly below, so
      among the applications with `a`'s key, `a` comes first. */
  lemma {:induction false} InsertByNameStable(a: DesktopApp, apps: seq<DesktopApp>, k: string)
    ensures WithNameKey(InsertByName(a, apps), k)
      == (if NameKey(a) == k then [a] else []) + WithNameKey(apps, k)
  {
    if |apps| == 0 || LexLeq(NameKey(a), NameKey(apps[0])) {
      WithNameKeyCons(a, apps, k);
    } else {
      InsertByNameStable(a, apps[1..], k);
      assert apps == [apps[0]] + apps[1..];
      PassedKeyStable(a, apps[0], apps[1..], InsertByName(a, apps[1..]), k);
    }
  }

  /** Passing an application with another key keeps `a` first among the
      applications with its key. */
  lemma PassedKeyStable(a: DesktopApp, b: DesktopApp, t: seq<DesktopApp>, rest: seq<DesktopApp>, k: string)
    requires NameKey(a) != NameKey(b)
    requires WithNameKey(rest, k) == (if NameKey(a) == k then [a] else []) + WithNameKey(t, k)
    ensures WithNameKey([b] + rest, k) == (if NameKey(a) == k then [a] else []) + WithNameKey([b] + t, k)
  {
    WithNameKeyCons(b, rest, k);
    WithNameKeyCons(b, t, k);
  }

  /** `sort_by_key` is stable: applications with the same lower-cased name
      keep their input order. */
  lemma {:induction false} SortByNameStable(apps: seq<DesktopApp>, k: string)
    ensures WithNameKey(SortByName(apps), k) == WithNameKey(apps, k)
  {
    if |apps| > 0 {
      SortByNameStable(apps[1..], k);
      InsertByNameStable(apps[0], SortByName(apps[1..]), k);
    }
  }

  lemma LexLeqTransitive(a: string, b: string, c: string)
    requires LexLeq(a, b) && LexLeq(b, c)
    ensures LexLeq(a, c)
  {
    if a != b && b != c {
      LexLessTransitive(a, b, c);
    }
  }

  /** Every key of `apps` is at or above `lo`. */
  predicate AllAbove(lo: string, apps: seq<DesktopApp>) {
    forall j :: 0 <= j < |apps| ==> LexLeq(lo, NameKey(apps[j]))
  }

  lemma SortedCons(x: DesktopApp, t: seq<DesktopApp>)
    requires SortedByName(t) && AllAbove(NameKey(x), t)
    ensures SortedByName([x] + t)
  {
    var r := [x] + t;
    forall i, j | 0 <= i < j < |r| ensures LexLeq(NameKey(r[i]), NameKey(r[j])) {
      assert r[j] == t[j - 1];
      if i > 0 {
        assert r[i] == t[i - 1];
      }
    }
  }

  lemma SortedTail(apps: seq<DesktopApp>)
    requires SortedByName(apps) && |apps| > 0
    ensures SortedByName(apps[1..]) && AllAbove(NameKey(apps[0]), apps[1..])
  {
    var t := apps[1..];
    forall i, j | 0 <= i < j < |t| ensures LexLeq(NameKey(t[i]), NameKey(t[j])) {
      assert t[i] == apps[i + 1] && t[j] == apps[j + 1];
    }
    forall j | 0 <= j < |t| ensures LexLeq(NameKey(apps[0]), NameKey(t[j])) {
      assert t[j] == apps[j + 1];
    }
  }

  lemma AllAboveLower(lo: string, mid: string, apps: seq<DesktopApp>)
    requires LexLeq(lo, mid) && AllAbove(mid, apps)
    ensures AllAbove(lo, apps)
  {
    forall j | 0 <= j < |apps| ensures LexLeq(lo, NameKey(apps[j])) {
      LexLeqTransitive(lo, mid, NameKey(apps[j]));
    }
  }

  lemma {:induction false} InsertAbove(a: DesktopApp, apps: seq<DesktopApp>, lo: string)
    requires AllAbove(lo, apps) && LexLeq(lo, NameKey(a))
    ensures AllAbove(lo, InsertByName(a, apps))
  {
    if |apps| > 0 && !LexLeq(NameKey(a), NameKey(apps[0])) {
      var t := apps[1..];
      assert AllAbove(lo, t) by {
        forall j | 0 <= j < |t| ensures LexLeq(lo, NameKey(t[j])) {
          assert t[j] == apps[j + 1];
        }
      }
      InsertAbove(a, t, lo);
      var r := InsertByName(a, apps);
      forall j | 0 <= j < |r| ensures LexLeq(lo, NameKey(r[j])) {
        if j > 0 {
          assert r[j] == InsertByName(a, t)[j - 1];
        }
      }
    }
  }

  lemma {:induction false} InsertByNameSorted(a: DesktopApp, apps: seq<DesktopApp>)
    requires SortedByName(apps)
    ensures SortedByName(InsertByName(a, apps))
  {
    if |apps| == 0 {
    } else {
      SortedTail(apps);
      if LexLeq(NameKey(a), NameKey(apps[0])) {
        AllAboveLower(NameKey(a), NameKey(apps[0]), apps[1..]);
        assert AllAbove(NameKey(a), apps);
        SortedCons(a, apps);
        assert [a] + apps == InsertByName(a, apps);
      } else {
        LexLessTotal(NameKey(a), NameKey(apps[0]));
        InsertByNameSorted(a, apps[1..]);
        InsertAbove(a, apps[1..], NameKey(apps[0]));
        SortedCons(apps[0], InsertByName(a, apps[1..]));
      }
    }
  }

  lemma {:induction false} SortByNameSorted(apps: seq<DesktopApp>)
    ensures SortedByName(SortByName(apps))
  {
    if |apps| > 0 {
      SortByNameSorted(apps[1..]);
      InsertByNameSorted(apps[0], SortByName(apps[1..]));
    }
  }

  /** `scan_desktop_entries` over the directory listings, in directory
      order: later listings override earlier ones under the same desktop id,
      and the result is ordered by lower-cased name. */
  function ScanDesktopEntries(dirs: seq<seq<DirEntry>>): (r: seq<DesktopApp>)
    ensures SortedByName(r)
  {
    var vs := Assoc.Values(Assoc.FromPairs(Keyed(Flatten(dirs))));
    SortByNameSorted(vs);
    SortByName(vs)
  }

  lemma ScanSorted(dirs: seq<seq<DirEntry>>)
    ensures SortedByName(ScanDesktopEntries(dirs))
  {
    SortByNameSorted(Assoc.Values(Assoc.FromPairs(Keyed(Flatten(dirs)))));
  }

  /** Every listed application was parsed from a readable `.desktop` file
      of some directory. */
  lemma ScanOnlyParsed(dirs: seq<seq<DirEntry>>, a: DesktopApp)
    requires a in ScanDesktopEntries(dirs)
    ensures exists e :: e in Flatten(dirs) && EntryApp(e) == Some(a)
  {
    var ps := Keyed(Flatten(dirs));
    var m := Assoc.FromPairs(ps);
    var vs := Assoc.Values(m);
    assert a in multiset(vs);
    var i :| 0 <= i < |vs| && vs[i] == a;
    Assoc.FromPairsFrom(ps);
    assert m[i] in ps;
  }

  /** The last listed file under a desktop id is the one shown. */
  lemma ScanLaterWins(dirs: seq<seq<DirEntry>>, k: nat)
    requires k < |Keyed(Flatten(dirs))|
    requires forall j :: k < j < |Keyed(Flatten(dirs))| ==> Keyed(Flatten(dirs))[j].0 != Keyed(Flatten(dirs))[k].0
    ensures Keyed(Flatten(dirs))[k].1 in ScanDesktopEntries(dirs)
  {
    var ps := Keyed(Flatten(dirs));
    var vs := Assoc.Values(Assoc.FromPairs(ps));
    Assoc.FromPairsLastListed(ps, k);
    assert ps[k].1 in multiset(vs);
    assert ps[k].1 in multiset(SortByName(vs));
  }

  /** At most one application is shown under a desktop id: the earlier
      files under that id are gone from the scan. */
  lemma ScanOneAppPerId(dirs: seq<seq<DirEntry>>, a: DesktopApp, b: DesktopApp)
    requires a in ScanDesktopEntries(dirs) && b in ScanDesktopEntries(dirs)
    requires a.desktopId == b.desktopId
    ensures a == b
  {
    var ps := Keyed(Flatten(dirs));
    var m := Assoc.FromPairs(ps);
    var vs := Assoc.Values(m);
    assert a in multiset(vs) && b in multiset(vs);
    var i :| 0 <= i < |vs| && vs[i] == a;
    var j :| 0 <= j < |vs| && vs[j] == b;
    Assoc.FromPairsFrom(ps);
    Assoc.FromPairsOrdered(ps);
    assert m[i] in ps && m[j] in ps;
    if i < j {
      assert LexLess(m[i].0, m[j].0);
      LexLessIrreflexive(m[i].0);
    } else if j < i {
      assert LexLess(m[j].0, m[i].0);
      LexLessIrreflexive(m[j].0);
    }
  }
}

=== FILE: details.dfy ===
/** The GPU display helpers of the details pane: compact names, the
    default-GPU hint and the labelled list of choices. They are pure string
    functions over the enumerated GPUs. */
module Details {
  import opened Text
  import opened Models

  // ---------------------------------------------------------------------------
  // Looking up a GPU by index

  /** The position of the first GPU whose DRI_PRIME index is `idx`. */
  function FindByIndex(gpus: seq<GpuInfo>, idx: nat): (r: Option<nat>)
    ensures r.Some? ==> r.value < |gpus| && gpus[r.value].driPrimeIndex == Some(idx)
    ensures r.Some? ==> forall j :: 0 <= j < r.value ==> gpus[j].driPrimeIndex != Some(idx)
    ensures r.None? ==> forall j :: 0 <= j < |gpus| ==> gpus[j].driPrimeIndex != Some(idx)
  {
    if |gpus| == 0 then None
    else if gpus[0].driPrimeIndex == Some(idx) then Some(0)
    else match FindByIndex(gpus[1..], idx)
      case None => None
      case Some(k) => Some(k + 1)
  }

  /** `selected_gpu_for_choice`: no GPU for `Default`, else the first GPU
      carrying the chosen index. */
  function SelectedGpuForChoice(gpus: seq<GpuInfo>, choice: GpuChoice): (r: Option<GpuInfo>)
    ensures choice.Default? ==> r.None?
    ensures choice.Gpu? ==> (r.Some? <==> exists j :: 0 <= j < |gpus| && gpus[j].driPrimeIndex == Some(choice.index))
    ensures r.Some? ==> r.value in gpus && r.value.driPrimeIndex == Some(choice.index)
    ensures r.Some? ==> exists j :: (0 <= j < |gpus| && gpus[j] == r.value
      && forall i :: 0 <= i < j ==> gpus[i].driPrimeIndex != Some(choice.index))
  {
    match choice
    case Default => None
    case Gpu(idx) =>
      match FindByIndex(gpus, idx)
      case None => None
      case Some(k) => Some(gpus[k])
  }

  // ---------------------------------------------------------------------------
  // Truncation and compaction

  /** `truncate_with_dots`: text of at most `max` chars is kept; longer text
      keeps its first `max - 3` chars (none when `max < 3`) followed by `...`. */
  function TruncateWithDots(text: string, max: nat): (r: string)
    ensures |text| <= max ==> r == text
    ensures |text| > max ==> |r| == (if max >= 3 then max else 3)
    ensures |text| > max ==> EndsWith(r, "...") && StartsWith(text, r[..|r| - 3])
  {
    if |text| <= max then text
    else
      var keep := if max >= 3 then max - 3 else 0;
      text[..keep] + "..."
  }

  /** A truncated text never exceeds its budget once the budget can hold the dots. */
  lemma TruncateFits(text: string, max: nat)
    requires max >= 3
    ensures |TruncateWithDots(text, max)| <= max
  {
  }

  const VENDOR_TERMS: seq<string> :=
    ["Radeon", "GeForce", "Graphics", "Series", "Integrated", "Discrete", "AMD", "NVIDIA", "Intel"]

  /** `compact_default_name`: vendor words removed and whitespace collapsed;
      the name itself when nothing is left. */
  function CompactDefaultName(name: string): (r: string)
    ensures r == name || (r != [] && Collapsed(r))
    ensures r == [] ==> name == []
  {
    var compact := CollapseWhitespace(RemoveTerms(name, VENDOR_TERMS));
    if compact == [] then name else compact
  }

  /** A collapsed name without vendor words is shown as it is. */
  lemma CompactOfClean(name: string)
    requires Collapsed(name)
    requires forall i :: 0 <= i < |VENDOR_TERMS| ==> !Contains(name, VENDOR_TERMS[i])
    ensures CompactDefaultName(name) == name
  {
    RemoveAbsentTerms(name, VENDOR_TERMS);
    CollapseOfCollapsed(name);
  }

  // ---------------------------------------------------------------------------
  // Pretty GPU names

  /** The text a GPU is named from: its renderer unless that is blank. */
  function PrettySource(g: GpuInfo): (r: string)
    ensures g.renderer.Some? && !IsBlank(g.renderer.value) ==> r == g.renderer.value
    ensures g.renderer.None? || IsBlank(g.renderer.value) ==> r == g.name
  {
    match g.renderer
    case Some(v) => if IsBlank(v) then g.name else v
    case None => g.name
  }

  /** The trimmed text after the first colon, or the text when it has none. */
  function AfterColon(s: string): (r: string)
    ensures NoChar(s, ':') ==> r == s
    ensures !NoChar(s, ':') ==> |r| < |s|
  {
    match SplitOnce(s, ':')
    case None => s
    case Some(p) => Trim(p.1)
  }

  /** `r` sits in `s` at offset `a`. */
  predicate SliceFrom(s: string, a: nat, r: string) {
    a + |r| <= |s| && s[a..a + |r|] == r
  }

  predicate IsSliceOf(r: string, s: string) {
    exists a: nat :: a <= |s| && SliceFrom(s, a, r)
  }

  lemma SliceOfSlice(r: string, t: string, s: string)
    requires IsSliceOf(r, t) && IsSliceOf(t, s)
    ensures IsSliceOf(r, s)
  {
    var a: nat :| a <= |t| && SliceFrom(t, a, r);
    var b: nat :| b <= |s| && SliceFrom(s, b, t);
    forall k | 0 <= k < |r| ensures r[k] == s[b + a + k] {
      assert r[k] == t[a + k];
    }
    assert s[b + a..b + a + |r|] == r;
    assert SliceFrom(s, b + a, r);
  }

  lemma SliceKeepsAbsent(r: string, s: string, p: string)
    requires IsSliceOf(r, s) && !Contains(s, p)
    ensures !Contains(r, p)
  {
    var a: nat :| a <= |s| && SliceFrom(s, a, r);
    SliceNotContains(s, p, a, a + |r|);
  }

  /** The trimmed text before the first `splitter`, or the text when it has none. */
  function CutAt(s: string, splitter: string): (r: string)
    requires |splitter| > 0
    ensures !Contains(s, splitter) ==> r == s
    ensures !Contains(r, splitter)
    ensures IsSliceOf(r, s)
    ensures Find(s, splitter).Some? ==> IsSliceOf(r, s[..Find(s, splitter).value])
  {
    match Find(s, splitter)
    case None =>
      assert SliceFrom(s, 0, s);
      s
    case Some(i) =>
      var before := s[..i];
      var r := Trim(before);
      BeforeFirstNotContains(s, splitter);
      TrimIsSlice(before);
      var a := |before| - |TrimStart(before)|;
      SliceNotContains(before, splitter, a, a + |r|);
      assert SliceFrom(before, a, r);
      assert SliceFrom(s, 0, before);
      SliceOfSlice(r, before, s);
      r
  }

  /** Cut at every splitter in turn. */
  function CutAll(s: string, splitters: seq<string>): (r: string)
    requires NonEmptyAll(splitters)
    ensures IsSliceOf(r, s)
    decreases |splitters|
  {
    if |splitters| == 0 then
      assert SliceFrom(s, 0, s);
      s
    else
      var t := CutAt(s, splitters[0]);
      var r := CutAll(t, splitters[1..]);
      SliceOfSlice(r, t, s);
      r
  }

  /** After the cuts none of the splitters occurs. */
  lemma {:induction false} CutAllClean(s: string, splitters: seq<string>)
    requires NonEmptyAll(splitters)
    ensures forall k :: 0 <= k < |splitters| ==> !Contains(CutAll(s, splitters), splitters[k])
    decreases |splitters|
  {
    if |splitters| > 0 {
      var t := CutAt(s, splitters[0]);
      var tl := splitters[1..];
      var r := CutAll(t, tl);
      assert r == CutAll(s, splitters);
      CutAllClean(t, tl);
      SliceKeepsAbsent(r, t, splitters[0]);
      forall k | 1 <= k < |splitters| ensures !Contains(r, splitters[k]) {
        assert splitters[k] == tl[k - 1];
      }
    }
  }

  /** The trimmed text up to and including the first `Series`. */
  function KeepThroughSeries(s: string): (r: string)
    ensures !Contains(s, "Series") ==> r == s
    ensures Contains(s, "Series") ==> EndsWith(r, "Series") && |r| <= |s|
  {
    match Find(s, "Series")
    case None => s
    case Some(pos) =>
      var cut := s[..pos + 6];
      assert cut[pos..] == "Series";
      TrimEndsWithWord(cut, "Series");
      Trim(cut)
  }

  /** Trimming keeps a trailing word that starts and ends without whitespace. */
  lemma TrimEndsWithWord(s: string, w: string)
    requires EndsWith(s, w) && |w| > 0 && !IsWhitespace(w[0]) && !IsWhitespace(w[|w| - 1])
    ensures EndsWith(Trim(s), w)
  {
    TrimStartSuffix(s);
    var t := TrimStart(s);
    var a := |s| - |t|;
    assert s[|s| - |w|] == w[0];
    assert a <= |s| - |w|;
    assert t == s[a..];
    assert t[|t| - 1] == w[|w| - 1];
    assert TrimEnd(t) == t;
  }

  const MARKS: seq<string> := ["(TM)", "(tm)", "(R)", "(r)", "Corporation", "Inc."]
  const SPLITTERS: seq<string> := [" (", ", ", " [", " / "]

  /** `pretty_gpu_name`: the renderer (or name) after its first colon, with
      trademark and company marks removed, cut before any qualifier and after
      `Series`, whitespace collapsed; `GPU <index>` when nothing is left. */
  function PrettyGpuName(g: GpuInfo): (r: string)
    ensures |r| > 0 && Collapsed(r)
  {
    var cleaned := AfterColon(Trim(PrettySource(g)));
    var unmarked := RemoveTerms(cleaned, MARKS);
    var cut := KeepThroughSeries(CutAll(unmarked, SPLITTERS));
    var compact := CollapseWhitespace(cut);
    if compact == [] then FallbackName(g) else compact
  }

  function FallbackName(g: GpuInfo): (r: string)
    ensures |r| > 0 && Collapsed(r)
  {
    var n := match g.driPrimeIndex case Some(i) => i case None => 0;
    var r := "GPU " + NatToString(n);
    assert forall k :: 4 <= k < |r| ==> r[k] == NatToString(n)[k - 4];
    r
  }

  /** A non-blank renderer decides the name; the `name` field is then ignored. */
  lemma PrettyPrefersRenderer(g: GpuInfo, otherName: string)
    requires g.renderer.Some? && !IsBlank(g.renderer.value)
    ensures PrettyGpuName(g.(name := otherName)) == PrettyGpuName(g)
  {
    var h := g.(name := otherName);
    assert PrettySource(h) == PrettySource(g);
    assert h.driPrimeIndex == g.driPrimeIndex;
  }

  /** A clean, already compact name is shown unchanged. */
  lemma PrettyOfCleanName(g: GpuInfo)
    requires g.renderer.None?
    requires |g.name| > 0 && Collapsed(g.name) && NoChar(g.name, ':')
    requires forall i :: 0 <= i < |MARKS| ==> !Contains(g.name, MARKS[i])
    requires forall i :: 0 <= i < |SPLITTERS| ==> !Contains(g.name, SPLITTERS[i])
    requires !Contains(g.name, "Series")
    ensures PrettyGpuName(g) == g.name
  {
    TrimOfTrimmed(g.name);
    RemoveAbsentTerms(g.name, MARKS);
    CutAllAbsent(g.name, SPLITTERS);
    CollapseOfCollapsed(g.name);
  }

  lemma {:induction false} CutAllAbsent(s: string, splitters: seq<string>)
    requires NonEmptyAll(splitters)
    requires forall i :: 0 <= i < |splitters| ==> !Contains(s, splitters[i])
    ensures CutAll(s, splitters) == s
  {
    if |splitters| > 0 {
      CutAllAbsent(s, splitters[1..]);
    }
  }

  // ---------------------------------------------------------------------------
  // Hints, labels and the choice list

  /** The GPU the default hint names: the one with index 0, else the first. */
  function HintGpu(gpus: seq<GpuInfo>): (r: Option<GpuInfo>)
    ensures gpus == [] <==> r.None?
    ensures r.Some? ==> r.value in gpus
    ensures (exists j :: 0 <= j < |gpus| && gpus[j].driPrimeIndex == Some(0)) ==>
      r.Some? && r.value.driPrimeIndex == Some(0)
    ensures (forall j :: 0 <= j < |gpus| ==> gpus[j].driPrimeIndex != Some(0)) && gpus != [] ==>
      r == Some(gpus[0])
  {
    match FindByIndex(gpus, 0)
    case Some(k) => Some(gpus[k])
    case None => if |gpus| > 0 then Some(gpus[0]) else None
  }

  /** `default_gpu_hint`: the compacted name of the hinted GPU, `System`
      without GPUs, cut to 18 chars. */
  function DefaultGpuHint(gpus: seq<GpuInfo>): (r: string)
    ensures |r| <= 18
  {
    var name := match HintGpu(gpus) case Some(g) => PrettyGpuName(g) case None => "System";
    TruncateWithDots(CompactDefaultName(name), 18)
  }

  /** With no GPU the hint reads `System`. */
  lemma HintWithoutGpus()
    ensures DefaultGpuHint([]) == "System"
  {
    CompactSystem();
  }

  lemma CompactSystem()
    ensures CompactDefaultName("System") == "System"
  {
    assert Collapsed("System");
    SystemHasNoVendorTerm();
    CompactOfClean("System");
  }

  lemma SystemHasNoVendorTerm()
    ensures forall i :: 0 <= i < |VENDOR_TERMS| ==> !Contains("System", VENDOR_TERMS[i])
  {
    var s := "System";
    forall i | 0 <= i < |VENDOR_TERMS| ensures !Contains(s, VENDOR_TERMS[i]) {
      var t := VENDOR_TERMS[i];
      forall j: nat | j + |t| <= |s| ensures !OccursAt(s, t, j) {
        assert t[0] != s[j] || t[1] != s[j + 1];
      }
    }
  }

  function DefaultLabel(gpus: seq<GpuInfo>): string {
    "Default GPU (" + DefaultGpuHint(gpus) + ")"
  }

  function IndexedLabel(g: GpuInfo, idx: nat): string {
    PrettyGpuName(g) + " (#" + NatToString(idx) + ")"
  }

  /** `gpu_choice_label`: the default label with its hint, the first GPU
      carrying the chosen index, or the bare choice label when none does. */
  function GpuChoiceLabel(gpus: seq<GpuInfo>, choice: GpuChoice): (r: string)
    ensures choice.Default? ==> r == DefaultLabel(gpus)
    ensures choice.Gpu? && SelectedGpuForChoice(gpus, choice).None? ==> r == Label(choice)
    ensures choice.Gpu? && SelectedGpuForChoice(gpus, choice).Some? ==>
      r == IndexedLabel(SelectedGpuForChoice(gpus, choice).value, choice.index)
  {
    match choice
    case Default => DefaultLabel(gpus)
    case Gpu(idx) =>
      match FindByIndex(gpus, idx)
      case Some(k) => IndexedLabel(gpus[k], idx)
      case None => "GPU " + NatToString(idx)
  }

  /** The GPUs that carry an index, paired with it, in input order. */
  function Indexed(gpus: seq<GpuInfo>): (r: seq<(GpuInfo, nat)>)
    ensures |r| <= |gpus|
    ensures forall k :: 0 <= k < |r| ==> r[k].0 in gpus && r[k].0.driPrimeIndex == Some(r[k].1)
  {
    if |gpus| == 0 then []
    else
      var rest := Indexed(gpus[1..]);
      match gpus[0].driPrimeIndex
      case Some(idx) => [(gpus[0], idx)] + rest
      case None => rest
  }

  /** No indexed GPU is left out. */
  lemma {:induction false} IndexedComplete(gpus: seq<GpuInfo>)
    ensures forall j :: 0 <= j < |gpus| && gpus[j].driPrimeIndex.Some? ==>
      (gpus[j], gpus[j].driPrimeIndex.value) in Indexed(gpus)
  {
    if |gpus| > 0 {
      IndexedComplete(gpus[1..]);
      assert forall j :: 1 <= j < |gpus| ==> gpus[j] == gpus[1..][j - 1];
    }
  }

  /** Input order is kept: a GPU appended to the input is listed last. */
  lemma {:induction false} IndexedAppend(gpus: seq<GpuInfo>, g: GpuInfo)
    ensures Indexed(gpus + [g]) == Indexed(gpus) + (if g.driPrimeIndex.Some? then [(g, g.driPrimeIndex.value)] else [])
  {
    if |gpus| == 0 {
      assert gpus + [g] == [g];
    } else {
      assert (gpus + [g])[1..] == gpus[1..] + [g];
      IndexedAppend(gpus[1..], g);
    }
  }

  /** One `Gpu` choice per indexed GPU, labelled by `labelOf`. */
  function LabelChoices(es: seq<(GpuInfo, nat)>, labelOf: (GpuInfo, nat) -> string): (r: seq<(string, GpuChoice)>)
    ensures |r| == |es|
    ensures forall k :: 0 <= k < |r| ==> r[k] == (labelOf(es[k].0, es[k].1), Gpu(es[k].1))
  {
    if |es| == 0 then [] else [(labelOf(es[0].0, es[0].1), Gpu(es[0].1))] + LabelChoices(es[1..], labelOf)
  }

  /** `build_gpu_choices`: `Default` with its hint first, then one choice
      per GPU that has an index, in input order. */
  function BuildGpuChoices(gpus: seq<GpuInfo>): (r: seq<(string, GpuChoice)>)
    ensures |r| == 1 + |Indexed(gpus)|
    ensures r[0] == (DefaultLabel(gpus), Default)
    ensures forall k :: 1 <= k < |r| ==> r[k].1 == Gpu(Indexed(gpus)[k - 1].1)
  {
    WithDefault(DefaultLabel(gpus), LabelChoices(Indexed(gpus), IndexedLabel))
  }

  /** The `Default` entry labelled `head`, then `rest`. */
  function WithDefault(head: string, rest: seq<(string, GpuChoice)>): (r: seq<(string, GpuChoice)>)
    ensures |r| == 1 + |rest| && r[0] == (head, Default)
    ensures forall k :: 1 <= k < |r| ==> r[k] == rest[k - 1]
  {
    [(head, Default)] + rest
  }

  predicate DistinctIndices(gpus: seq<GpuInfo>) {
    forall i, j :: 0 <= i < j < |gpus| && gpus[i].driPrimeIndex.Some? ==> gpus[i].driPrimeIndex != gpus[j].driPrimeIndex
  }

  /** With distinct indices each listed index selects the GPU it was listed for. */
  lemma IndexedSelected(gpus: seq<GpuInfo>)
    requires DistinctIndices(gpus)
    ensures forall k :: 0 <= k < |Indexed(gpus)| ==>
      SelectedGpuForChoice(gpus, Gpu(Indexed(gpus)[k].1)) == Some(Indexed(gpus)[k].0)
  {
    var es := Indexed(gpus);
    forall k | 0 <= k < |es| ensures SelectedGpuForChoice(gpus, Gpu(es[k].1)) == Some(es[k].0) {
      var idx := es[k].1;
      var j :| 0 <= j < |gpus| && gpus[j] == es[k].0;
      var m := FindByIndex(gpus, idx).value;
      SameIndexSamePosition(gpus, m, j);
    }
  }

  lemma SameIndexSamePosition(gpus: seq<GpuInfo>, a: nat, b: nat)
    requires DistinctIndices(gpus)
    requires a < |gpus| && b < |gpus| && gpus[a].driPrimeIndex.Some?
    requires gpus[a].driPrimeIndex == gpus[b].driPrimeIndex
    ensures a == b
  {
  }

  /** When indices are distinct (as enumeration makes them), every listed
      choice carries the label `gpu_choice_label` gives it on its own. */
  lemma ChoiceLabelAgrees(gpus: seq<GpuInfo>, k: nat)
    requires DistinctIndices(gpus)
    requires k < |BuildGpuChoices(gpus)|
    ensures BuildGpuChoices(gpus)[k].0 == GpuChoiceLabel(gpus, BuildGpuChoices(gpus)[k].1)
  {
    ListedChoiceSelects(gpus, DefaultLabel(gpus), IndexedLabel, k);
  }

  /** The listing with any labelling: a `Gpu` entry selects a GPU and is
      labelled after it. */
  lemma ListedChoiceSelects(gpus: seq<GpuInfo>, head: string, labelOf: (GpuInfo, nat) -> string, k: nat)
    requires DistinctIndices(gpus)
    requires k < 1 + |Indexed(gpus)|
    ensures var r := WithDefault(head, LabelChoices(Indexed(gpus), labelOf));
      && (r[k].1.Default? ==> r[k].0 == head)
      && (r[k].1.Gpu? ==>
            SelectedGpuForChoice(gpus, r[k].1).Some?
            && r[k].0 == labelOf(SelectedGpuForChoice(gpus, r[k].1).value, r[k].1.index))
  {
    if k > 0 {
      IndexedSelected(gpus);
    }
  }

  /** Every listed GPU choice resolves to a GPU carrying that index, and
      `Default` resolves to none. */
  lemma ChoiceResolves(gpus: seq<GpuInfo>, k: nat)
    requires k < |BuildGpuChoices(gpus)|
    ensures BuildGpuChoices(gpus)[k].1.Default? <==> SelectedGpuForChoice(gpus, BuildGpuChoices(gpus)[k].1).None?
  {
    if k > 0 {
      IndexedResolve(gpus);
    }
  }

  lemma IndexedResolve(gpus: seq<GpuInfo>)
    ensures forall k :: 0 <= k < |Indexed(gpus)| ==> SelectedGpuForChoice(gpus, Gpu(Indexed(gpus)[k].1)).Some?
  {
    var es := Indexed(gpus);
    forall k | 0 <= k < |es| ensures SelectedGpuForChoice(gpus, Gpu(es[k].1)).Some? {
      var j :| 0 <= j < |gpus| && gpus[j] == es[k].0;
      assert gpus[j].driPrimeIndex == Some(es[k].1);
    }
  }
}

=== FILE: gpu.dfy ===
/** GPU enumeration: which DRM entries are cards, how they are ordered and
    indexed for DRI_PRIME, where their render nodes and display names come
    from. Directory listings, file contents and command outputs are inputs. */
module Gpu {
  import opened Text
  import opened Models

  /** `usize::MAX` on a 64-bit target: the sort key of a non-numeric card. */
  const USIZE_MAX: nat := 0xFFFF_FFFF_FFFF_FFFF

  /** The outcome of running an external command: it could not be spawned,
      or it exited with a success flag and its standard output. */
  datatype ToolOutput = Failed | Exited(success: bool, stdout: string)

  /** One entry of `/sys/class/drm`: its name, the `device/driver` link
      target's file name, the trimmable `device/uevent` text and the names
      listed in `device/drm` (`None` when a read fails). */
  datatype DrmEntry = DrmEntry(
    fileName: string,
    driver: Option<string>,
    uevent: Option<string>,
    renderEntries: Option<seq<string>>)

  // ---------------------------------------------------------------------------
  // Card filter and ordering

  /** A DRM entry names a card (`card0`) rather than a connector (`card0-DP-1`). */
  predicate IsCardName(name: string) {
    StartsWith(name, "card") && NoChar(name, '-')
  }

  function CardEntries(entries: seq<DrmEntry>): (r: seq<DrmEntry>)
    ensures |r| <= |entries|
    ensures forall i :: 0 <= i < |r| ==> IsCardName(r[i].fileName)
    ensures forall e :: e in entries && IsCardName(e.fileName) ==> e in r
    ensures forall e :: e in r ==> e in entries
  {
    if |entries| == 0 then []
    else if IsCardName(entries[0].fileName) then [entries[0]] + CardEntries(entries[1..])
    else CardEntries(entries[1..])
  }

  /** `card_number`: the number after the `card` prefix(es), `usize::MAX`
      when it is not a decimal `usize`. */
  function CardNumber(card: string): (n: nat)
    ensures n <= USIZE_MAX
  {
    match ParseUnsigned(TrimStartMatches(card, "card"), USIZE_MAX)
    case Some(n) => n
    case None => USIZE_MAX
  }

  /** `card<n>` sorts at position `n`. */
  lemma CardNumberOfRendered(n: nat)
    requires n <= USIZE_MAX
    ensures CardNumber("card" + NatToString(n)) == n
  {
    var s := "card" + NatToString(n);
    assert s[4..] == NatToString(n);
    assert StartsWith(s, "card");
    assert TrimStartMatches(s, "card") == TrimStartMatches(NatToString(n), "card");
    assert !StartsWith(NatToString(n), "card") by {
      assert IsAsciiDigit(NatToString(n)[0]);
    }
    ParseRendered(n, USIZE_MAX);
  }

  /** A card whose suffix is not a decimal `usize` sorts after every numbered one. */
  lemma CardNumberNonNumeric(card: string)
    requires ParseUnsigned(TrimStartMatches(card, "card"), USIZE_MAX).None?
    ensures CardNumber(card) == USIZE_MAX
    ensures forall other :: CardNumber(other) <= CardNumber(card)
  {
  }

  predicate SortedByCard(s: seq<GpuInfo>) {
    forall i, j :: 0 <= i < j < |s| ==> CardNumber(s[i].card) <= CardNumber(s[j].card)
  }

  /** Insert `g` before the first element whose key is not smaller, so that
      equal keys keep their input order. */
  function InsertByCard(g: GpuInfo, s: seq<GpuInfo>): (r: seq<GpuInfo>)
    ensures |r| == |s| + 1
    ensures multiset(r) == multiset(s) + multiset{g}
  {
    if |s| == 0 || CardNumber(g.card) <= CardNumber(s[0].card) then [g] + s
    else
      assert s == [s[0]] + s[1..];
      [s[0]] + InsertByCard(g, s[1..])
  }

  /** Every card number in `s` is at least `lo`. */
  predicate CardsFrom(lo: nat, s: seq<GpuInfo>) {
    forall j :: 0 <= j < |s| ==> lo <= CardNumber(s[j].card)
  }

  lemma {:induction false} InsertCardsFrom(g: GpuInfo, s: seq<GpuInfo>, lo: nat)
    requires CardsFrom(lo, s) && lo <= CardNumber(g.card)
    ensures CardsFrom(lo, InsertByCard(g, s))
  {
    if |s| > 0 && CardNumber(g.card) > CardNumber(s[0].card) {
      var t := s[1..];
      assert CardsFrom(lo, t) by {
        forall j | 0 <= j < |t| ensures lo <= CardNumber(t[j].card) {
          assert t[j] == s[j + 1];
        }
      }
      InsertCardsFrom(g, t, lo);
      var r := InsertByCard(g, s);
      forall j | 0 <= j < |r| ensures lo <= CardNumber(r[j].card) {
        if j > 0 {
          assert r[j] == InsertByCard(g, t)[j - 1];
        }
      }
    }
  }

  lemma SortedByCardCons(g: GpuInfo, s: seq<GpuInfo>)
    requires SortedByCard(s) && CardsFrom(CardNumber(g.card), s)
    ensures SortedByCard([g] + s)
  {
    var r := [g] + s;
    forall i, j | 0 <= i < j < |r| ensures CardNumber(r[i].card) <= CardNumber(r[j].card) {
      assert r[j] == s[j - 1];
      if i > 0 {
        assert r[i] == s[i - 1];
      }
    }
  }

  lemma SortedByCardTail(s: seq<GpuInfo>)
    requires SortedByCard(s) && |s| > 0
    ensures SortedByCard(s[1..]) && CardsFrom(CardNumber(s[0].card), s[1..]) && CardsFrom(CardNumber(s[0].card), s)
  {
    var t := s[1..];
    forall i, j | 0 <= i < j < |t| ensures CardNumber(t[i].card) <= CardNumber(t[j].card) {
      assert t[i] == s[i + 1] && t[j] == s[j + 1];
    }
    forall j | 0 <= j < |t| ensures CardNumber(s[0].card) <= CardNumber(t[j].card) {
      assert t[j] == s[j + 1];
    }
  }

  lemma {:induction false} InsertByCardSorted(g: GpuInfo, s: seq<GpuInfo>)
    requires SortedByCard(s)
    ensures SortedByCard(InsertByCard(g, s))
  {
    if |s| == 0 {
      assert InsertByCard(g, s) == [g];
    } else {
      SortedByCardTail(s);
      if CardNumber(g.card) <= CardNumber(s[0].card) {
        assert CardsFrom(CardNumber(g.card), s);
        SortedByCardCons(g, s);
      } else {
        InsertByCardSorted(g, s[1..]);
        InsertCardsFrom(g, s[1..], CardNumber(s[0].card));
        SortedByCardCons(s[0], InsertByCard(g, s[1..]));
      }
    }
  }

  /** The stable sort of `sort_by_key(card_number)`. */
  function SortByCard(s: seq<GpuInfo>): (r: seq<GpuInfo>)
    ensures |r| == |s|
    ensures multiset(r) == multiset(s)
  {
    if |s| == 0 then []
    else
      assert s == [s[0]] + s[1..];
      InsertByCard(s[0], SortByCard(s[1..]))
  }

  lemma {:induction false} SortByCardSorted(s: seq<GpuInfo>)
    ensures SortedByCard(SortByCard(s))
  {
    if |s| > 0 {
      SortByCardSorted(s[1..]);
      InsertByCardSorted(s[0], SortByCard(s[1..]));
    }
  }

  /** The cards of `s` whose sort key is `n`, in their order in `s`. */
  function WithCardNumber(s: seq<GpuInfo>, n: nat): seq<GpuInfo> {
    if |s| == 0 then []
    else (if CardNumber(s[0].card) == n then [s[0]] else []) + WithCardNumber(s[1..], n)
  }

  lemma WithCardNumberCons(g: GpuInfo, s: seq<GpuInfo>, n: nat)
    ensures WithCardNumber([g] + s, n) == (if CardNumber(g.card) == n then [g] else []) + WithCardNumber(s, n)
  {
    assert ([g] + s)[1..] == s;
  }

  /** Insertion passes only cards with a smaller key, so among the cards
      with `g`'s key, `g` comes first. */
  lemma {:induction false} InsertByCardStable(g: GpuInfo, s: seq<GpuInfo>, n: nat)
    ensures WithCardNumber(InsertByCard(g, s), n)
      == (if CardNumber(g.card) == n then [g] else []) + WithCardNumber(s, n)
  {
    if |s| == 0 || CardNumber(g.card) <= CardNumber(s[0].card) {
      WithCardNumberCons(g, s, n);
    } else {
      InsertByCardStable(g, s[1..], n);
      assert s == [s[0]] + s[1..];
      PassedCardStable(g, s[0], s[1..], InsertByCard(g, s[1..]), n);
    }
  }

  /** Passing a card with another number keeps `g` first among the cards
      with its number. */
  lemma PassedCardStable(g: GpuInfo, h: GpuInfo, t: seq<GpuInfo>, rest: seq<GpuInfo>, n: nat)
    requires CardNumber(g.card) != CardNumber(h.card)
    requires WithCardNumber(rest, n) == (if CardNumber(g.card) == n then [g] else []) + WithCardNumber(t, n)
    ensures WithCardNumber([h] + rest, n) == (if CardNumber(g.card) == n then [g] else []) + WithCardNumber([h] + t, n)
  {
    WithCardNumberCons(h, rest, n);
    WithCardNumberCons(h, t, n);
  }

  /** `sort_by_key` is stable: cards with the same number keep their input
      order, which fixes their `DRI_PRIME` indices. */
  lemma {:induction false} SortByCardStable(s: seq<GpuInfo>, n: nat)
    ensures WithCardNumber(SortByCard(s), n) == WithCardNumber(s, n)
  {
    if |s| > 0 {
      SortByCardStable(s[1..], n);
      InsertByCardStable(s[0], SortByCard(s[1..]), n);
    }
  }

  // ---------------------------------------------------------------------------
  // lspci names

  predicate IsGpuLine(line: string) {
    Contains(line, "VGA compatible controller") || Contains(line, "3D controller")
    || Contains(line, "Display controller")
  }

  /** `splitn(2, ' ')` on a GPU line: the slot and the rest of the line (the
      whole line when there is no space); `None` when the line is not a GPU
      line or the slot is empty. */
  function LspciEntry(line: string): (r: Option<(string, string)>)
    ensures r.Some? ==> IsGpuLine(line) && |r.value.0| > 0 && NoChar(r.value.0, ' ')
    ensures r.Some? ==> line == r.value.0 + " " + r.value.1 || (line == r.value.0 && r.value.1 == line)
    ensures r.None? ==> !IsGpuLine(line) || StartsWith(line, " ") || line == []
  {
    if !IsGpuLine(line) then None
    else match SplitOnce(line, ' ')
      case None => if |line| > 0 then Some((line, line)) else None
      case Some(p) => if |p.0| > 0 then Some(p) else None
  }

  /** The slot-to-name map built from `lspci -nn` lines, later lines
      overwriting earlier ones. */
  function LspciMapOfLines(lines: seq<string>): map<string, string> {
    EntriesMap(LspciEntries(lines))
  }

  /** The parsed entry of every line, in order. */
  function LspciEntries(lines: seq<string>): (r: seq<Option<(string, string)>>)
    ensures |r| == |lines|
    ensures forall k :: 0 <= k < |r| ==> r[k] == LspciEntry(lines[k])
  {
    if |lines| == 0 then [] else [LspciEntry(lines[0])] + LspciEntries(lines[1..])
  }

  /** Insert the entries in order, a later slot overwriting an earlier one. */
  function EntriesMap(es: seq<Option<(string, string)>>): map<string, string> {
    if |es| == 0 then map[]
    else
      var m := EntriesMap(es[..|es| - 1]);
      match es[|es| - 1]
      case None => m
      case Some(e) => m[e.0 := e.1]
  }

  /** `read_lspci_gpu_names`: empty unless the command ran and succeeded. */
  function LspciMap(out: ToolOutput): (m: map<string, string>)
    ensures !(out.Exited? && out.success) ==> m == map[]
  {
    if out.Exited? && out.success then LspciMapOfLines(Lines(out.stdout)) else map[]
  }

  predicate HasSlot(lines: seq<string>, k: nat, slot: string)
    requires k < |lines|
  {
    LspciEntry(lines[k]).Some? && LspciEntry(lines[k]).value.0 == slot
  }

  /** The last GPU line naming a slot decides that slot's name. */
  lemma LspciLastWins(lines: seq<string>, k: nat, slot: string)
    requires k < |lines| && HasSlot(lines, k, slot)
    requires forall j :: k < j < |lines| ==> !HasSlot(lines, j, slot)
    ensures slot in LspciMapOfLines(lines)
    ensures LspciMapOfLines(lines)[slot] == LspciEntry(lines[k]).value.1
  {
    var es := LspciEntries(lines);
    forall j | k < j < |es| ensures es[j].None? || es[j].value.0 != slot {
      assert !HasSlot(lines, j, slot);
    }
    EntriesLastWins(es, k, slot);
  }

  lemma {:induction false} EntriesLastWins(es: seq<Option<(string, string)>>, k: nat, slot: string)
    requires k < |es| && es[k].Some? && es[k].value.0 == slot
    requires forall j :: k < j < |es| ==> es[j].None? || es[j].value.0 != slot
    ensures slot in EntriesMap(es) && EntriesMap(es)[slot] == es[k].value.1
  {
    var n := |es| - 1;
    if k < n {
      var init := es[..n];
      assert forall j :: k <= j < n ==> init[j] == es[j];
      EntriesLastWins(init, k, slot);
    }
  }

  /** A slot no GPU line names has no entry. */
  lemma LspciAbsent(lines: seq<string>, slot: string)
    requires forall j :: 0 <= j < |lines| ==> !HasSlot(lines, j, slot)
    ensures slot !in LspciMapOfLines(lines)
  {
    var es := LspciEntries(lines);
    forall j | 0 <= j < |es| ensures es[j].None? || es[j].value.0 != slot {
      assert !HasSlot(lines, j, slot);
    }
    EntriesAbsent(es, slot);
  }

  lemma {:induction false} EntriesAbsent(es: seq<Option<(string, string)>>, slot: string)
    requires forall j :: 0 <= j < |es| ==> es[j].None? || es[j].value.0 != slot
    ensures slot !in EntriesMap(es)
  {
    if |es| > 0 {
      var init := es[..|es| - 1];
      assert forall j :: 0 <= j < |init| ==> init[j] == es[j];
      EntriesAbsent(init, slot);
    }
  }

  // ---------------------------------------------------------------------------
  // Render nodes

  predicate IsRenderNodeName(name: string) {
    StartsWith(name, "renderD")
  }

  function DevPath(name: string): string {
    "/dev/dri/" + name
  }

  /** The `/dev/dri` path of the first `renderD*` entry listed, if any. */
  function FirstRenderNode(names: seq<string>): (r: Option<string>)
    ensures r.Some? ==> exists k :: 0 <= k < |names| && IsRenderNodeName(names[k]) && r.value == DevPath(names[k])
    ensures r.None? <==> forall k :: 0 <= k < |names| ==> !IsRenderNodeName(names[k])
  {
    match FirstWhere(names, IsRenderNodeName)
    case None => None
    case Some(k) => Some(DevPath(names[k]))
  }

  /** `read_render_nodes_from_sysfs`: card name to its first render node. */
  function SysfsRenderMap(entries: seq<DrmEntry>): (m: map<string, string>)
    ensures forall c :: c in m ==> IsCardName(c)
  {
    if |entries| == 0 then map[]
    else
      var m := SysfsRenderMap(entries[..|entries| - 1]);
      var e := entries[|entries| - 1];
      if !IsCardName(e.fileName) || e.renderEntries.None? then m
      else match FirstRenderNode(e.renderEntries.value)
        case None => m
        case Some(node) => m[e.fileName := node]
  }

  predicate SortedStrings(s: seq<string>) {
    forall i, j :: 0 <= i < j < |s| ==> LexLeq(s[i], s[j])
  }

  function InsertString(x: string, s: seq<string>): (r: seq<string>)
    ensures |r| == |s| + 1
    ensures multiset(r) == multiset(s) + multiset{x}
  {
    if |s| == 0 || LexLeq(x, s[0]) then [x] + s
    else
      assert s == [s[0]] + s[1..];
      [s[0]] + InsertString(x, s[1..])
  }

  /** Every string of `s` is at or above `lo`. */
  predicate StringsFrom(lo: string, s: seq<string>) {
    forall j :: 0 <= j < |s| ==> LexLeq(lo, s[j])
  }

  lemma {:induction false} InsertStringsFrom(x: string, s: seq<string>, lo: string)
    requires StringsFrom(lo, s) && LexLeq(lo, x)
    ensures StringsFrom(lo, InsertString(x, s))
  {
    if |s| > 0 && !LexLeq(x, s[0]) {
      var t := s[1..];
      assert StringsFrom(lo, t) by {
        forall j | 0 <= j < |t| ensures LexLeq(lo, t[j]) {
          assert t[j] == s[j + 1];
        }
      }
      InsertStringsFrom(x, t, lo);
      var r := InsertString(x, s);
      forall j | 0 <= j < |r| ensures LexLeq(lo, r[j]) {
        if j > 0 {
          assert r[j] == InsertString(x, t)[j - 1];
        }
      }
    }
  }

  lemma SortedStringsCons(x: string, s: seq<string>)
    requires SortedStrings(s) && StringsFrom(x, s)
    ensures SortedStrings([x] + s)
  {
    var r := [x] + s;
    forall i, j | 0 <= i < j < |r| ensures LexLeq(r[i], r[j]) {
      assert r[j] == s[j - 1];
      if i > 0 {
        assert r[i] == s[i - 1];
      }
    }
  }

  lemma SortedStringsTail(s: seq<string>)
    requires SortedStrings(s) && |s| > 0
    ensures SortedStrings(s[1..]) && StringsFrom(s[0], s[1..])
  {
    var t := s[1..];
    forall i, j | 0 <= i < j < |t| ensures LexLeq(t[i], t[j]) {
      assert t[i] == s[i + 1] && t[j] == s[j + 1];
    }
    forall j | 0 <= j < |t| ensures LexLeq(s[0], t[j]) {
      assert t[j] == s[j + 1];
    }
  }

  lemma StringsFromLower(lo: string, mid: string, s: seq<string>)
    requires LexLeq(lo, mid) && StringsFrom(mid, s)
    ensures StringsFrom(lo, s)
  {
    forall j | 0 <= j < |s| ensures LexLeq(lo, s[j]) {
      if lo != mid && mid != s[j] {
        LexLessTransitive(lo, mid, s[j]);
      }
    }
  }

  lemma {:induction false} InsertStringSorted(x: string, s: seq<string>)
    requires SortedStrings(s)
    ensures SortedStrings(InsertString(x, s))
  {
    if |s| == 0 {
      assert InsertString(x, s) == [x];
    } else {
      SortedStringsTail(s);
      if LexLeq(x, s[0]) {
        StringsFromLower(x, s[0], s[1..]);
        assert StringsFrom(x, s) by {
          forall j | 0 <= j < |s| ensures LexLeq(x, s[j]) {
            if j > 0 {
              assert s[j] == s[1..][j - 1];
            }
          }
        }
        SortedStringsCons(x, s);
      } else {
        LexLessTotal(x, s[0]);
        InsertStringSorted(x, s[1..]);
        InsertStringsFrom(x, s[1..], s[0]);
        SortedStringsCons(s[0], InsertString(x, s[1..]));
      }
    }
  }

  /** Rust `Vec<String>::sort`. */
  function SortStrings(s: seq<string>): (r: seq<string>)
    ensures multiset(r) == multiset(s)
  {
    if |s| == 0 then []
    else
      assert s == [s[0]] + s[1..];
      InsertString(s[0], SortStrings(s[1..]))
  }

  lemma {:induction false} SortStringsSorted(s: seq<string>)
    ensures SortedStrings(SortStrings(s))
  {
    if |s| > 0 {
      SortStringsSorted(s[1..]);
      InsertStringSorted(s[0], SortStrings(s[1..]));
    }
  }

  function RenderPaths(names: seq<string>): (r: seq<string>)
    ensures forall x :: x in r <==> exists k :: 0 <= k < |names| && IsRenderNodeName(names[k]) && x == DevPath(names[k])
  {
    if |names| == 0 then []
    else
      var rest := RenderPaths(names[1..]);
      assert forall k :: 0 < k < |names| ==> names[1..][k - 1] == names[k];
      if IsRenderNodeName(names[0]) then [DevPath(names[0])] + rest else rest
  }

  /** `read_render_nodes_from_dev`: the `renderD*` entries of `/dev/dri` as
      full paths in sorted order; empty when the directory cannot be read. */
  function DevRenderNodes(listing: Option<seq<string>>): (r: seq<string>)
    ensures listing.None? ==> r == []
    ensures listing.Some? ==> multiset(r) == multiset(RenderPaths(listing.value))
  {
    match listing
    case None => []
    case Some(names) => SortStrings(RenderPaths(names))
  }

  /** The fallback list is sorted and holds exactly the `renderD*` entries. */
  lemma DevRenderNodesSpec(listing: Option<seq<string>>)
    ensures SortedStrings(DevRenderNodes(listing))
    ensures listing.Some? ==> forall x :: x in DevRenderNodes(listing) <==>
      exists k :: 0 <= k < |listing.value| && IsRenderNodeName(listing.value[k]) && x == DevPath(listing.value[k])
  {
    if listing.Some? {
      var paths := RenderPaths(listing.value);
      SortStringsSorted(paths);
      var r := DevRenderNodes(listing);
      forall x ensures x in r <==> x in paths {
        assert x in r <==> x in multiset(r);
        assert x in paths <==> x in multiset(paths);
      }
    }
  }

  /** A card without a sysfs render node takes the fallback node at its own
      position; every other card is left as it is. */
  function ApplyFallback(cards: seq<GpuInfo>, nodes: seq<string>, offset: nat): (r: seq<GpuInfo>)
    ensures |r| == |cards|
    ensures forall i :: 0 <= i < |cards| ==>
      r[i] == (if cards[i].renderNode.None? && offset + i < |nodes|
               then cards[i].(renderNode := Some(nodes[offset + i])) else cards[i])
  {
    if |cards| == 0 then []
    else
      var g := cards[0];
      var g' := if g.renderNode.None? && offset < |nodes| then g.(renderNode := Some(nodes[offset])) else g;
      [g'] + ApplyFallback(cards[1..], nodes, offset + 1)
  }

  // ---------------------------------------------------------------------------
  // Renderer detection

  predicate IsGlxRendererLine(line: string) {
    StartsWith(line, "OpenGL renderer string:")
  }

  predicate IsVulkanGpuLine(line: string) {
    var t := Trim(line);
    StartsWith(t, "GPU") && !NoChar(t, ':')
  }

  /** The trimmed text after the first `OpenGL renderer string:` line of
      `glxinfo -B` output. */
  function GlxRenderer(stdout: string): (r: Option<string>)
    ensures r.None? <==> forall j :: 0 <= j < |Lines(stdout)| ==> !IsGlxRendererLine(Lines(stdout)[j])
    ensures r.Some? ==> exists j :: (0 <= j < |Lines(stdout)| && IsGlxRendererLine(Lines(stdout)[j])
      && r.value == Trim(Lines(stdout)[j][|"OpenGL renderer string:"|..])
      && forall i :: 0 <= i < j ==> !IsGlxRendererLine(Lines(stdout)[i]))
  {
    var ls := Lines(stdout);
    match FirstWhere(ls, IsGlxRendererLine)
    case None => None
    case Some(j) => Some(Trim(ls[j][|"OpenGL renderer string:"|..]))
  }

  /** The first trimmed line of `vulkaninfo --summary` output that starts with
      `GPU` and holds a colon. */
  function VulkanRenderer(stdout: string): (r: Option<string>)
    ensures r.None? <==> forall j :: 0 <= j < |Lines(stdout)| ==> !IsVulkanGpuLine(Lines(stdout)[j])
    ensures r.Some? ==> StartsWith(r.value, "GPU") && !NoChar(r.value, ':')
    ensures r.Some? ==> exists j :: (0 <= j < |Lines(stdout)| && IsVulkanGpuLine(Lines(stdout)[j])
      && r.value == Trim(Lines(stdout)[j])
      && forall i :: 0 <= i < j ==> !IsVulkanGpuLine(Lines(stdout)[i]))
  {
    var ls := Lines(stdout);
    match FirstWhere(ls, IsVulkanGpuLine)
    case None => None
    case Some(j) => Some(Trim(ls[j]))
  }

  /** The vulkaninfo renderer is a GPU line in its own right, already
      trimmed. */
  lemma VulkanRendererIsGpuLine(stdout: string)
    requires VulkanRenderer(stdout).Some?
    ensures IsVulkanGpuLine(VulkanRenderer(stdout).value)
    ensures Trim(VulkanRenderer(stdout).value) == VulkanRenderer(stdout).value
  {
    var ls := Lines(stdout);
    var j :| 0 <= j < |ls| && IsVulkanGpuLine(ls[j]) && VulkanRenderer(stdout).value == Trim(ls[j]);
    TrimIdempotent(ls[j]);
  }

  /** `detect_renderer`: glxinfo's renderer when glxinfo succeeded and printed
      one, otherwise vulkaninfo's GPU line when vulkaninfo succeeded. */
  function DetectRenderer(glx: ToolOutput, vulkan: ToolOutput): (r: Option<string>)
    ensures glx.Exited? && glx.success && GlxRenderer(glx.stdout).Some? ==> r == GlxRenderer(glx.stdout)
    ensures !(glx.Exited? && glx.success && GlxRenderer(glx.stdout).Some?) ==>
      r == (if vulkan.Exited? && vulkan.success then VulkanRenderer(vulkan.stdout) else None)
  {
    var fromGlx := if glx.Exited? && glx.success then GlxRenderer(glx.stdout) else None;
    if fromGlx.Some? then fromGlx
    else if vulkan.Exited? && vulkan.success then VulkanRenderer(vulkan.stdout)
    else None
  }

  // ---------------------------------------------------------------------------
  // Assembly

  /** The record built for one card before ordering: its name comes from the
      lspci entry of its PCI slot, or is the card name when that misses. */
  function CardInfo(e: DrmEntry, lspci: map<string, string>, render: map<string, string>): (g: GpuInfo)
    ensures g.card == e.fileName && g.driver == e.driver
    ensures g.pciSlot == PciSlotFromUevent(e.uevent)
    ensures g.pciSlot.Some? && g.pciSlot.value in lspci ==> g.name == lspci[g.pciSlot.value]
    ensures !(g.pciSlot.Some? && g.pciSlot.value in lspci) ==> g.name == e.fileName
    ensures g.renderNode == (if e.fileName in render then Some(render[e.fileName]) else None)
    ensures g.driPrimeIndex.None? && g.renderer.None?
  {
    var slot := PciSlotFromUevent(e.uevent);
    var name := if slot.Some? && slot.value in lspci then lspci[slot.value] else e.fileName;
    var node := if e.fileName in render then Some(render[e.fileName]) else None;
    GpuInfo(e.fileName, name, e.driver, slot, node, None, None)
  }

  predicate IsSlotLine(line: string) {
    StartsWith(line, "PCI_SLOT_NAME=")
  }

  /** The value of the first `PCI_SLOT_NAME=` line of the trimmed uevent text. */
  function PciSlotFromUevent(uevent: Option<string>): (r: Option<string>)
    ensures uevent.None? ==> r.None?
    ensures uevent.Some? ==> (r.None? <==> forall j :: 0 <= j < |Lines(Trim(uevent.value))| ==> !IsSlotLine(Lines(Trim(uevent.value))[j]))
  {
    match uevent
    case None => None
    case Some(u) =>
      var ls := Lines(Trim(u));
      match FirstWhere(ls, IsSlotLine)
      case None => None
      case Some(j) => Some(ls[j][|"PCI_SLOT_NAME="|..])
  }

  function CardInfos(cards: seq<DrmEntry>, lspci: map<string, string>, render: map<string, string>): (r: seq<GpuInfo>)
    ensures |r| == |cards|
    ensures forall i :: 0 <= i < |cards| ==> r[i] == CardInfo(cards[i], lspci, render)
  {
    if |cards| == 0 then [] else [CardInfo(cards[0], lspci, render)] + CardInfos(cards[1..], lspci, render)
  }

  /** Every card gets its position as DRI_PRIME index and the renderer
      reported under that index. */
  function AssignIndices(cards: seq<GpuInfo>, rendererAt: nat -> Option<string>, offset: nat): (r: seq<GpuInfo>)
    ensures |r| == |cards|
    ensures forall i :: 0 <= i < |cards| ==>
      r[i] == cards[i].(driPrimeIndex := Some(offset + i), renderer := rendererAt(offset + i))
  {
    if |cards| == 0 then []
    else
      var g := cards[0].(driPrimeIndex := Some(offset), renderer := rendererAt(offset));
      [g] + AssignIndices(cards[1..], rendererAt, offset + 1)
  }

  /** The renderer the probes report for each DRI_PRIME index. */
  function ProbeRenderer(glx: nat -> ToolOutput, vulkan: nat -> ToolOutput): nat -> Option<string> {
    (i: nat) => DetectRenderer(glx(i), vulkan(i))
  }

  /** `detect_gpus`, over the DRM listing, the lspci output, the `/dev/dri`
      listing and the renderer probes (glxinfo and vulkaninfo output for a
      given DRI_PRIME index). */
  function DetectGpus(entries: seq<DrmEntry>, lspci: ToolOutput, devDri: Option<seq<string>>,
                      glx: nat -> ToolOutput, vulkan: nat -> ToolOutput): (r: seq<GpuInfo>)
    ensures |r| == |CardEntries(entries)|
    ensures forall i :: 0 <= i < |r| ==> r[i].driPrimeIndex == Some(i)
    ensures forall i :: 0 <= i < |r| ==> r[i].renderer == DetectRenderer(glx(i), vulkan(i))
  {
    var sorted := SortByCard(CardInfos(CardEntries(entries), LspciMap(lspci), SysfsRenderMap(entries)));
    AssignIndices(ApplyFallback(sorted, DevRenderNodes(devDri), 0), ProbeRenderer(glx, vulkan), 0)
  }

  function Cards(s: seq<GpuInfo>): (r: seq<string>)
    ensures |r| == |s| && forall i :: 0 <= i < |s| ==> r[i] == s[i].card
  {
    if |s| == 0 then [] else [s[0].card] + Cards(s[1..])
  }

  function FileNames(s: seq<DrmEntry>): (r: seq<string>)
    ensures |r| == |s| && forall i :: 0 <= i < |s| ==> r[i] == s[i].fileName
  {
    if |s| == 0 then [] else [s[0].fileName] + FileNames(s[1..])
  }

  lemma {:induction false} InsertByCardCards(g: GpuInfo, s: seq<GpuInfo>)
    ensures multiset(Cards(InsertByCard(g, s))) == multiset(Cards(s)) + multiset{g.card}
  {
    var r := InsertByCard(g, s);
    if |s| == 0 || CardNumber(g.card) <= CardNumber(s[0].card) {
      assert Cards(r) == [g.card] + Cards(s);
    } else {
      InsertByCardCards(g, s[1..]);
      assert Cards(r) == [s[0].card] + Cards(InsertByCard(g, s[1..]));
      assert Cards(s) == [s[0].card] + Cards(s[1..]);
    }
  }

  lemma {:induction false} SortByCardCards(s: seq<GpuInfo>)
    ensures multiset(Cards(SortByCard(s))) == multiset(Cards(s))
  {
    if |s| > 0 {
      SortByCardCards(s[1..]);
      InsertByCardCards(s[0], SortByCard(s[1..]));
      assert Cards(s) == [s[0].card] + Cards(s[1..]);
    }
  }

  /** Fallback and indexing leave every card where sorting put it. */
  lemma StagesKeepCards(s: seq<GpuInfo>, nodes: seq<string>, rendererAt: nat -> Option<string>)
    ensures Cards(AssignIndices(ApplyFallback(s, nodes, 0), rendererAt, 0)) == Cards(s)
  {
    var r := AssignIndices(ApplyFallback(s, nodes, 0), rendererAt, 0);
    assert forall i :: 0 <= i < |s| ==> r[i].card == s[i].card;
  }

  lemma SortedByCards(a: seq<GpuInfo>, b: seq<GpuInfo>)
    requires Cards(a) == Cards(b) && SortedByCard(a)
    ensures SortedByCard(b)
  {
    forall i, j | 0 <= i < j < |b| ensures CardNumber(b[i].card) <= CardNumber(b[j].card) {
      assert b[i].card == Cards(b)[i] == a[i].card;
      assert b[j].card == Cards(b)[j] == a[j].card;
    }
  }

  /** Sorting, fallback and indexing neither lose nor duplicate a card: the
      result lists exactly the card entries of the DRM listing, ordered by
      card number. */
  lemma DetectGpusCards(entries: seq<DrmEntry>, lspci: ToolOutput, devDri: Option<seq<string>>,
                        glx: nat -> ToolOutput, vulkan: nat -> ToolOutput)
    ensures multiset(Cards(DetectGpus(entries, lspci, devDri, glx, vulkan))) == multiset(FileNames(CardEntries(entries)))
    ensures SortedByCard(DetectGpus(entries, lspci, devDri, glx, vulkan))
  {
    var cards := CardEntries(entries);
    var infos := CardInfos(cards, LspciMap(lspci), SysfsRenderMap(entries));
    var sorted := SortByCard(infos);
    assert Cards(infos) == FileNames(cards);
    SortByCardCards(infos);
    SortByCardSorted(infos);
    StagesKeepCards(sorted, DevRenderNodes(devDri), ProbeRenderer(glx, vulkan));
    SortedByCards(sorted, DetectGpus(entries, lspci, devDri, glx, vulkan));
  }

  /** Only card entries become GPUs. */
  lemma DetectGpusOnlyCards(entries: seq<DrmEntry>, lspci: ToolOutput, devDri: Option<seq<string>>,
                            glx: nat -> ToolOutput, vulkan: nat -> ToolOutput)
    ensures forall g :: g in DetectGpus(entries, lspci, devDri, glx, vulkan) ==> IsCardName(g.card)
  {
    DetectGpusCards(entries, lspci, devDri, glx, vulkan);
    CardsOfCardNames(DetectGpus(entries, lspci, devDri, glx, vulkan), CardEntries(entries));
  }

  lemma CardsOfCardNames(r: seq<GpuInfo>, cards: seq<DrmEntry>)
    requires forall i :: 0 <= i < |cards| ==> IsCardName(cards[i].fileName)
    requires multiset(Cards(r)) == multiset(FileNames(cards))
    ensures forall g :: g in r ==> IsCardName(g.card)
  {
    var names := FileNames(cards);
    forall g | g in r ensures IsCardName(g.card) {
      var i :| 0 <= i < |r| && r[i] == g;
      assert g.card == Cards(r)[i];
      assert g.card in multiset(names);
      var k :| 0 <= k < |names| && names[k] == g.card;
    }
  }

  /** Positional fallback: a card keeps its sysfs render node, and one
      without takes the sorted `/dev/dri` node at its index when there is one. */
  lemma DetectGpusRenderNodes(entries: seq<DrmEntry>, lspci: ToolOutput, devDri: Option<seq<string>>,
                              glx: nat -> ToolOutput, vulkan: nat -> ToolOutput, i: nat)
    requires i < |CardEntries(entries)|
    ensures var sorted := SortByCard(CardInfos(CardEntries(entries), LspciMap(lspci), SysfsRenderMap(entries)));
      var nodes := DevRenderNodes(devDri);
      var r := DetectGpus(entries, lspci, devDri, glx, vulkan);
      r[i].card == sorted[i].card && r[i].name == sorted[i].name &&
      r[i].renderNode == (if sorted[i].renderNode.None? && i < |nodes| then Some(nodes[i]) else sorted[i].renderNode)
  {
  }
}

=== FILE: heroic.dfy ===
/** Heroic Games Launcher per-game configuration: the GPU environment is
    written into the game's JSON file twice, as the top-level
    `envVariables` (an object, or an array of `{name, value}` items) and as
    the per-game `enviromentOptions` array of `{key, value}` entries (the
    misspelling is the launcher's own). Keys written by this program are
    tagged with `KAEDE_GPU_MANAGED=1`; managed keys no longer wanted are
    removed. */
module Heroic {
  import opened Text
  import opened Assoc
  import opened Json

  /** The key that tags an environment written by this program. */
  const MARKER_KEY: string := "KAEDE_GPU_MANAGED"

  /** The keys this program owns: any of them not wanted any more is removed. */
  const MANAGED_KEYS: seq<string> := [
    "DRI_PRIME", "PRESSURE_VESSEL_IMPORT_VARS", "__NV_PRIME_RENDER_OFFLOAD",
    "__GLX_VENDOR_LIBRARY_NAME", "__VK_LAYER_NV_optimus", "MESA_VK_DEVICE_SELECT",
    "MESA_VK_DEVICE_SELECT_FORCE_DEFAULT_DEVICE", "DXVK_FILTER_DEVICE_NAME", MARKER_KEY]

  /** An environment as an ordered map from name to value. */
  type Env = seq<(string, string)>

  /** The result of an in-place edit and whether it changed anything. */
  datatype Edit<T> = Edit(result: T, changed: bool)

  // ---------------------------------------------------------------------------
  // The wanted environment

  /** Each `KEY=VALUE` entry split at its first `=`; entries without one are
      dropped. */
  function SplitPairs(envVars: seq<string>): (r: Env)
    ensures |r| <= |envVars|
    ensures forall i :: 0 <= i < |r| ==> NoChar(r[i].0, '=')
    ensures (forall i :: 0 <= i < |envVars| ==> SplitOnce(envVars[i], '=').Some?) ==>
              |r| == |envVars| && forall i :: 0 <= i < |r| ==> SplitOnce(envVars[i], '=') == Some(r[i])
  {
    if |envVars| == 0 then []
    else
      var rest := SplitPairs(envVars[1..]);
      match SplitOnce(envVars[0], '=')
      case None => rest
      case Some(kv) =>
        assert forall i :: 1 <= i < |envVars| ==> envVars[1..][i - 1] == envVars[i];
        [kv] + rest
  }

  /** `env_pairs_to_map`: the split entries inserted in order, so a later
      entry under the same key wins. */
  function EnvPairsToMap(envVars: seq<string>): (r: Env)
    ensures Ordered(r)
  {
    FromPairsOrdered(SplitPairs(envVars));
    FromPairs(SplitPairs(envVars))
  }

  /** The wanted environment: the entries' map, plus the marker whenever
      any entry was given. */
  function Desired(envVars: seq<string>): (r: Env)
    ensures Ordered(r)
  {
    var m := EnvPairsToMap(envVars);
    if |envVars| == 0 then m
    else
      PutOrdered(m, MARKER_KEY, "1");
      Put(m, MARKER_KEY, "1")
  }

  /** Nothing is wanted exactly when no entry is given; the marker is
      wanted whenever one is; every other key is wanted with the value of
      its last entry. */
  lemma DesiredShape(envVars: seq<string>)
    ensures Desired(envVars) == [] <==> |envVars| == 0
    ensures |envVars| > 0 ==> Get(Desired(envVars), MARKER_KEY) == Some("1")
    ensures forall k :: k != MARKER_KEY ==> Get(Desired(envVars), k) == Get(EnvPairsToMap(envVars), k)
  {
    var m := EnvPairsToMap(envVars);
    if |envVars| > 0 {
      GetPutSame(m, MARKER_KEY, "1");
      forall k | k != MARKER_KEY ensures Get(Desired(envVars), k) == Get(m, k) {
        GetPutOther(m, MARKER_KEY, "1", k);
      }
    } else {
      assert SplitPairs(envVars) == [];
    }
  }

  /** The entry `k=v` (with no `=` in `k`) splits back into `k` and `v`. */
  lemma SplitPair(k: string, v: string)
    requires NoChar(k, '=')
    ensures SplitOnce(k + "=" + v, '=') == Some((k, v))
  {
    var r := SplitOnce(k + "=" + v, '=');
    assert k + "=" + v == k + ['='] + v;
    assert r.Some? by {
      assert (k + "=" + v)[|k|] == '=';
    }
    SplitUnique(r.value.0, r.value.1, k, v, '=');
  }

  // ---------------------------------------------------------------------------
  // `envVariables` as an object

  /** `upsert_env_object`: every wanted pair stored, in key order of the
      wanted map; changed when some stored value differed. */
  function UpsertEnvObject(m: seq<(string, Value)>, d: Env): (r: Edit<seq<(string, Value)>>)
    decreases |d|
  {
    if |d| == 0 then Edit(m, false)
    else
      var k := d[0].0;
      var differs := Get(m, k) != Some(Str(d[0].1));
      var m1 := if differs then Put(m, k, Str(d[0].1)) else m;
      var rest := UpsertEnvObject(m1, d[1..]);
      Edit(rest.result, differs || rest.changed)
  }

  predicate Keyed<V>(d: seq<(string, V)>, k: string) {
    exists i :: 0 <= i < |d| && d[i].0 == k
  }

  /** A key no wanted pair names keeps its value. */
  lemma {:induction false} UpsertObjectKeeps(m: seq<(string, Value)>, d: Env, o: string)
    requires !Keyed(d, o)
    ensures Get(UpsertEnvObject(m, d).result, o) == Get(m, o)
    decreases |d|
  {
    if |d| > 0 {
      var k := d[0].0;
      var m1 := if Get(m, k) != Some(Str(d[0].1)) then Put(m, k, Str(d[0].1)) else m;
      assert d[0].0 != o;
      GetPutOther(m, k, Str(d[0].1), o);
      forall i | 0 <= i < |d[1..]| ensures d[1..][i].0 != o {
        assert d[1..][i] == d[i + 1];
      }
      UpsertObjectKeeps(m1, d[1..], o);
    }
  }

  /** Every wanted pair is stored afterwards. */
  lemma {:induction false} UpsertObjectSets(m: seq<(string, Value)>, d: Env, i: nat)
    requires Ordered(d) && i < |d|
    ensures Get(UpsertEnvObject(m, d).result, d[i].0) == Some(Str(d[i].1))
    decreases |d|
  {
    var k := d[0].0;
    var m1 := if Get(m, k) != Some(Str(d[0].1)) then Put(m, k, Str(d[0].1)) else m;
    OrderedTail(d);
    if i == 0 {
      GetPutSame(m, k, Str(d[0].1));
      forall j | 0 <= j < |d[1..]| ensures d[1..][j].0 != k {
        assert d[1..][j] == d[j + 1];
        LexLessIrreflexive(k);
      }
      UpsertObjectKeeps(m1, d[1..], k);
    } else {
      assert d[1..][i - 1] == d[i];
      UpsertObjectSets(m1, d[1..], i - 1);
    }
  }

  /** The edit reports a change exactly when some wanted pair was not
      stored before, and then the object did change. */
  lemma {:induction false} UpsertObjectChanged(m: seq<(string, Value)>, d: Env)
    requires Ordered(d)
    ensures UpsertEnvObject(m, d).changed
      <==> exists i :: 0 <= i < |d| && Get(m, d[i].0) != Some(Str(d[i].1))
    ensures !UpsertEnvObject(m, d).changed ==> UpsertEnvObject(m, d).result == m
    decreases |d|
  {
    if |d| > 0 {
      var k := d[0].0;
      var differs := Get(m, k) != Some(Str(d[0].1));
      var m1 := if differs then Put(m, k, Str(d[0].1)) else m;
      OrderedTail(d);
      UpsertObjectChanged(m1, d[1..]);
      forall i | 1 <= i < |d| ensures Get(m1, d[i].0) == Get(m, d[i].0) {
        assert LexLess(k, d[i].0);
        LexLessIrreflexive(k);
        GetPutOther(m, k, Str(d[0].1), d[i].0);
      }
      if UpsertEnvObject(m1, d[1..]).changed {
        var j :| 0 <= j < |d[1..]| && Get(m1, d[1..][j].0) != Some(Str(d[1..][j].1));
        assert d[1..][j] == d[j + 1];
      }
      if !differs {
        forall i | 1 <= i < |d| && Get(m, d[i].0) != Some(Str(d[i].1))
          ensures UpsertEnvObject(m1, d[1..]).changed
        {
          assert d[1..][i - 1] == d[i];
        }
      }
    }
  }

  /** A reported change is a real one: some wanted key's value moved. */
  lemma UpsertObjectChangedReal(m: seq<(string, Value)>, d: Env)
    requires Ordered(d) && UpsertEnvObject(m, d).changed
    ensures UpsertEnvObject(m, d).result != m
  {
    UpsertObjectChanged(m, d);
    var i :| 0 <= i < |d| && Get(m, d[i].0) != Some(Str(d[i].1));
    UpsertObjectSets(m, d, i);
  }

  /** `remove_absent_managed` over the listed keys: each key not wanted is
      removed; changed when one was present. */
  function RemoveManaged(m: seq<(string, Value)>, keys: seq<string>, d: Env): (r: Edit<seq<(string, Value)>>)
    decreases |keys|
  {
    if |keys| == 0 then Edit(m, false)
    else
      var hit := Get(d, keys[0]).None? && Get(m, keys[0]).Some?;
      var m1 := if hit then Remove(m, keys[0]) else m;
      var rest := RemoveManaged(m1, keys[1..], d);
      Edit(rest.result, hit || rest.changed)
  }

  function RemoveAbsentManaged(m: seq<(string, Value)>, d: Env): Edit<seq<(string, Value)>> {
    RemoveManaged(m, MANAGED_KEYS, d)
  }

  /** Exactly the listed keys that are not wanted are gone; every other key
      keeps its value. */
  lemma {:induction false} RemoveManagedGet(m: seq<(string, Value)>, keys: seq<string>, d: Env, o: string)
    ensures Get(RemoveManaged(m, keys, d).result, o)
      == if o in keys && Get(d, o).None? then None else Get(m, o)
    decreases |keys|
  {
    if |keys| > 0 {
      var k := keys[0];
      var hit := Get(d, k).None? && Get(m, k).Some?;
      var m1 := if hit then Remove(m, k) else m;
      RemoveManagedGet(m1, keys[1..], d, o);
      if o == k {
        if hit {
          GetRemoveSame(m, k);
        }
      } else {
        if hit {
          GetRemoveOther(m, k, o);
        }
        assert o in keys <==> o in keys[1..];
      }
    }
  }

  /** The edit reports a change exactly when a listed key not wanted was
      present. */
  lemma {:induction false} RemoveManagedChanged(m: seq<(string, Value)>, keys: seq<string>, d: Env)
    ensures RemoveManaged(m, keys, d).changed
      <==> exists i :: 0 <= i < |keys| && Get(d, keys[i]).None? && Get(m, keys[i]).Some?
    ensures !RemoveManaged(m, keys, d).changed ==> RemoveManaged(m, keys, d).result == m
    decreases |keys|
  {
    if |keys| > 0 {
      var k := keys[0];
      var hit := Get(d, k).None? && Get(m, k).Some?;
      var m1 := if hit then Remove(m, k) else m;
      RemoveManagedChanged(m1, keys[1..], d);
      if RemoveManaged(m1, keys[1..], d).changed {
        var j :| 0 <= j < |keys[1..]| && Get(d, keys[1..][j]).None? && Get(m1, keys[1..][j]).Some?;
        assert keys[1..][j] == keys[j + 1];
        if hit {
          if keys[j + 1] == k {
            GetRemoveSame(m, k);
          } else {
            GetRemoveOther(m, k, keys[j + 1]);
          }
        }
      }
      if !hit {
        forall i | 1 <= i < |keys| && Get(d, keys[i]).None? && Get(m, keys[i]).Some?
          ensures RemoveManaged(m1, keys[1..], d).changed
        {
          assert keys[1..][i - 1] == keys[i];
        }
      }
    }
  }

  lemma {:induction false} RemoveManagedOrdered(m: seq<(string, Value)>, keys: seq<string>, d: Env)
    requires Ordered(m)
    ensures Ordered(RemoveManaged(m, keys, d).result)
    decreases |keys|
  {
    if |keys| > 0 {
      var hit := Get(d, keys[0]).None? && Get(m, keys[0]).Some?;
      if hit {
        RemoveOrdered(m, keys[0]);
      }
      RemoveManagedOrdered(if hit then Remove(m, keys[0]) else m, keys[1..], d);
    }
  }

  // ---------------------------------------------------------------------------
  // `envVariables` as an array of `{ "name": …, "value": … }` items

  function ItemName(item: Value): Option<string> {
    StrField(item, "name")
  }

  function ItemValue(item: Value): Option<string> {
    StrField(item, "value")
  }

  /** The item `{ "name": k, "value": v }`. */
  function NameValue(k: string, v: string): (r: Value)
    ensures ItemName(r) == Some(k) && ItemValue(r) == Some(v)
  {
    FieldOrder();
    Pair("name", k, "value", v)
  }

  /** One wanted pair's pass over the items: every item named `k` whose
      value differs gets the value `v`. */
  function SetNamed(items: seq<Value>, k: string, v: string): (r: Edit<seq<Value>>)
    ensures |r.result| == |items|
  {
    if |items| == 0 then Edit([], false)
    else
      var rest := SetNamed(items[1..], k, v);
      var item := items[0];
      if ItemName(item) == Some(k) && ItemValue(item) != Some(v) then
        Edit([SetField(item, "value", Str(v))] + rest.result, true)
      else
        Edit([item] + rest.result, rest.changed)
  }

  /** Every item keeps its name; an item named `k` ends with the value `v`
      and any other item is untouched. */
  lemma {:induction false} SetNamedAt(items: seq<Value>, k: string, v: string, i: nat)
    requires i < |items|
    ensures ItemName(SetNamed(items, k, v).result[i]) == ItemName(items[i])
    ensures ItemName(items[i]) == Some(k) ==> ItemValue(SetNamed(items, k, v).result[i]) == Some(v)
    ensures ItemName(items[i]) != Some(k) ==> SetNamed(items, k, v).result[i] == items[i]
    decreases |items|
  {
    if i > 0 {
      assert items[1..][i - 1] == items[i];
      assert SetNamed(items, k, v).result[1..] == SetNamed(items[1..], k, v).result;
      SetNamedAt(items[1..], k, v, i - 1);
    }
  }

  /** The pass reports a change exactly when an item named `k` had another
      value; otherwise it leaves the items as they were. */
  lemma {:induction false} SetNamedChanged(items: seq<Value>, k: string, v: string)
    ensures SetNamed(items, k, v).changed
      <==> exists i :: 0 <= i < |items| && ItemName(items[i]) == Some(k) && ItemValue(items[i]) != Some(v)
    ensures !SetNamed(items, k, v).changed ==> SetNamed(items, k, v).result == items
    decreases |items|
  {
    if |items| > 0 {
      SetNamedChanged(items[1..], k, v);
      if SetNamed(items[1..], k, v).changed {
        var j :| 0 <= j < |items[1..]| && ItemName(items[1..][j]) == Some(k) && ItemValue(items[1..][j]) != Some(v);
        assert items[1..][j] == items[j + 1];
      }
      forall i | 1 <= i < |items| && ItemName(items[i]) == Some(k) && ItemValue(items[i]) != Some(v)
        ensures SetNamed(items[1..], k, v).changed
      {
        assert items[1..][i - 1] == items[i];
      }
    }
  }

  predicate Named(items: seq<Value>, k: string) {
    exists i :: 0 <= i < |items| && ItemName(items[i]) == Some(k)
  }

  /** Some item is named `k`, and every item named `k` has the value `v`. */
  predicate Carries(items: seq<Value>, k: string, v: string) {
    Named(items, k) && forall i :: 0 <= i < |items| && ItemName(items[i]) == Some(k) ==> ItemValue(items[i]) == Some(v)
  }

  /** One wanted pair: the named items updated, or a new item appended
      when none is named `k`. */
  function UpsertOne(items: seq<Value>, k: string, v: string): (r: Edit<seq<Value>>)
    ensures |items| <= |r.result|
  {
    var s := SetNamed(items, k, v);
    if Named(items, k) then s else Edit(s.result + [NameValue(k, v)], true)
  }

  /** Afterwards the items carry `k = v`, and a change is reported
      exactly when they did not before; no change means the items are as
      they were. */
  lemma UpsertOneCarries(items: seq<Value>, k: string, v: string)
    ensures Carries(UpsertOne(items, k, v).result, k, v)
    ensures UpsertOne(items, k, v).changed <==> !Carries(items, k, v)
    ensures !UpsertOne(items, k, v).changed ==> UpsertOne(items, k, v).result == items
  {
    var r := UpsertOne(items, k, v).result;
    SetNamedChanged(items, k, v);
    forall i | 0 <= i < |r| && ItemName(r[i]) == Some(k) ensures ItemValue(r[i]) == Some(v) {
      if i < |items| {
        SetNamedAt(items, k, v, i);
      }
    }
    if Named(items, k) {
      var j :| 0 <= j < |items| && ItemName(items[j]) == Some(k);
      SetNamedAt(items, k, v, j);
    } else {
      assert ItemName(r[|items|]) == Some(k);
    }
  }

  /** Items keep their names, and those not named `k` stay where and what
      they were; an appended item is named `k`. */
  lemma UpsertOneAt(items: seq<Value>, k: string, v: string, i: nat)
    requires i < |UpsertOne(items, k, v).result|
    ensures i < |items| ==> ItemName(UpsertOne(items, k, v).result[i]) == ItemName(items[i])
    ensures i < |items| && ItemName(items[i]) != Some(k) ==> UpsertOne(items, k, v).result[i] == items[i]
    ensures |items| <= i ==> ItemName(UpsertOne(items, k, v).result[i]) == Some(k)
  {
    if i < |items| {
      SetNamedAt(items, k, v, i);
    }
  }

  /** `upsert_env_array`: each wanted pair in turn. */
  function UpsertEnvArray(items: seq<Value>, d: Env): (r: Edit<seq<Value>>)
    ensures |items| <= |r.result|
    decreases |d|
  {
    if |d| == 0 then Edit(items, false)
    else
      var one := UpsertOne(items, d[0].0, d[0].1);
      var rest := UpsertEnvArray(one.result, d[1..]);
      Edit(rest.result, one.changed || rest.changed)
  }

  /** Items not named by any wanted pair stay where and what they were. */
  lemma {:induction false} UpsertArrayOthers(items: seq<Value>, d: Env, i: nat)
    requires i < |items| && (ItemName(items[i]).None? || !Keyed(d, ItemName(items[i]).value))
    ensures UpsertEnvArray(items, d).result[i] == items[i]
    decreases |d|
  {
    if |d| > 0 {
      var one := UpsertOne(items, d[0].0, d[0].1).result;
      UpsertOneAt(items, d[0].0, d[0].1, i);
      assert one[i] == items[i];
      if ItemName(items[i]).Some? {
        forall j | 0 <= j < |d[1..]| ensures d[1..][j].0 != ItemName(items[i]).value {
          assert d[1..][j] == d[j + 1];
        }
      }
      UpsertArrayOthers(one, d[1..], i);
    }
  }

  /** Every appended item is named by a wanted pair. */
  lemma {:induction false} UpsertArrayAppended(items: seq<Value>, d: Env, i: nat)
    requires |items| <= i < |UpsertEnvArray(items, d).result|
    ensures ItemName(UpsertEnvArray(items, d).result[i]).Some?
    ensures Keyed(d, ItemName(UpsertEnvArray(items, d).result[i]).value)
    decreases |d|
  {
    var one := UpsertOne(items, d[0].0, d[0].1).result;
    var r := UpsertEnvArray(items, d).result;
    if i < |one| {
      UpsertOneAt(items, d[0].0, d[0].1, i);
      assert ItemName(one[i]) == Some(d[0].0);
      if Keyed(d[1..], d[0].0) {
        UpsertArrayNamedStays(one, d[1..], i);
      } else {
        UpsertArrayOthers(one, d[1..], i);
      }
      assert ItemName(r[i]) == Some(d[0].0);
    } else {
      UpsertArrayAppended(one, d[1..], i);
      var j :| 0 <= j < |d[1..]| && d[1..][j].0 == ItemName(r[i]).value;
      assert d[j + 1].0 == ItemName(r[i]).value;
    }
  }

  /** Item names never change. */
  lemma {:induction false} UpsertArrayNamedStays(items: seq<Value>, d: Env, i: nat)
    requires i < |items|
    ensures ItemName(UpsertEnvArray(items, d).result[i]) == ItemName(items[i])
    decreases |d|
  {
    if |d| > 0 {
      var one := UpsertOne(items, d[0].0, d[0].1).result;
      SetNamedAt(items, d[0].0, d[0].1, i);
      UpsertArrayNamedStays(one, d[1..], i);
    }
  }

  /** Carrying `k = v` survives the wanted pairs for other keys. */
  lemma {:induction false} UpsertArrayKeeps(items: seq<Value>, d: Env, k: string, v: string)
    requires Carries(items, k, v) && !Keyed(d, k)
    ensures Carries(UpsertEnvArray(items, d).result, k, v)
    decreases |d|
  {
    if |d| > 0 {
      var one := UpsertOne(items, d[0].0, d[0].1).result;
      assert d[0].0 != k;
      var j :| 0 <= j < |items| && ItemName(items[j]) == Some(k);
      UpsertOneAt(items, d[0].0, d[0].1, j);
      forall i | 0 <= i < |one| && ItemName(one[i]) == Some(k) ensures ItemValue(one[i]) == Some(v) {
        UpsertOneAt(items, d[0].0, d[0].1, i);
        if i < |items| {
          assert ItemName(items[i]) == Some(k);
        }
      }
      forall i | 0 <= i < |d[1..]| ensures d[1..][i].0 != k {
        assert d[1..][i] == d[i + 1];
      }
      UpsertArrayKeeps(one, d[1..], k, v);
    }
  }

  /** Every wanted pair is carried afterwards. */
  lemma {:induction false} UpsertArraySets(items: seq<Value>, d: Env, i: nat)
    requires Ordered(d) && i < |d|
    ensures Carries(UpsertEnvArray(items, d).result, d[i].0, d[i].1)
    decreases |d|
  {
    var one := UpsertOne(items, d[0].0, d[0].1).result;
    UpsertOneCarries(items, d[0].0, d[0].1);
    OrderedTail(d);
    if i == 0 {
      forall j | 0 <= j < |d[1..]| ensures d[1..][j].0 != d[0].0 {
        assert d[1..][j] == d[j + 1];
        LexLessIrreflexive(d[0].0);
      }
      UpsertArrayKeeps(one, d[1..], d[0].0, d[0].1);
    } else {
      assert d[1..][i - 1] == d[i];
      UpsertArraySets(one, d[1..], i - 1);
    }
  }

  /** A change is reported exactly when some wanted pair was not carried
      before; a reported change is a real one, and no change means the
      items are as they were. */
  lemma {:induction false} UpsertArrayChanged(items: seq<Value>, d: Env)
    requires Ordered(d)
    ensures UpsertEnvArray(items, d).changed
      <==> exists i :: 0 <= i < |d| && !Carries(items, d[i].0, d[i].1)
    ensures !UpsertEnvArray(items, d).changed ==> UpsertEnvArray(items, d).result == items
    ensures UpsertEnvArray(items, d).changed ==> UpsertEnvArray(items, d).result != items
    decreases |d|
  {
    if |d| > 0 {
      var k := d[0].0;
      var one := UpsertOne(items, k, d[0].1);
      UpsertOneCarries(items, k, d[0].1);
      OrderedTail(d);
      UpsertArrayChanged(one.result, d[1..]);
      if !one.changed {
        forall i | 1 <= i < |d| && !Carries(items, d[i].0, d[i].1)
          ensures UpsertEnvArray(one.result, d[1..]).changed
        {
          assert d[1..][i - 1] == d[i];
        }
        if UpsertEnvArray(one.result, d[1..]).changed {
          var j :| 0 <= j < |d[1..]| && !Carries(one.result, d[1..][j].0, d[1..][j].1);
          assert d[1..][j] == d[j + 1];
        }
      } else {
        UpsertArraySets(items, d, 0);
      }
    }
  }

  /** `remove_absent_managed_array`'s rule: an item with no string name, or
      whose name is not listed or is wanted, stays. */
  predicate KeepItem(item: Value, keys: seq<string>, d: Env) {
    match ItemName(item)
    case None => true
    case Some(n) => !(n in keys) || Get(d, n).Some?
  }

  /** The items that pass the rule, in their order. */
  function FilterItems(items: seq<Value>, keys: seq<string>, d: Env): (r: seq<Value>)
    ensures |r| <= |items|
    ensures forall i :: 0 <= i < |r| ==> KeepItem(r[i], keys, d)
  {
    if |items| == 0 then []
    else
      var rest := FilterItems(items[1..], keys, d);
      if KeepItem(items[0], keys, d) then [items[0]] + rest else rest
  }

  /** `remove_absent_managed_array`: changed when an item was dropped. */
  function RemoveAbsentManagedArray(items: seq<Value>, d: Env): Edit<seq<Value>> {
    var r := FilterItems(items, MANAGED_KEYS, d);
    Edit(r, |r| != |items|)
  }

  /** Nothing is dropped exactly when every item passes the rule, and then
      the items are as they were. */
  lemma {:induction false} FilterItemsAll(items: seq<Value>, keys: seq<string>, d: Env)
    ensures |FilterItems(items, keys, d)| == |items|
      <==> forall i :: 0 <= i < |items| ==> KeepItem(items[i], keys, d)
    ensures |FilterItems(items, keys, d)| == |items| ==> FilterItems(items, keys, d) == items
    decreases |items|
  {
    if |items| > 0 {
      FilterItemsAll(items[1..], keys, d);
      forall i | 1 <= i < |items| ensures items[i] == items[1..][i - 1] { }
    }
  }

  /** An item that passes the rule is still there. */
  lemma {:induction false} FilterItemsKept(items: seq<Value>, keys: seq<string>, d: Env, j: nat)
    returns (i: nat)
    requires j < |items| && KeepItem(items[j], keys, d)
    ensures i < |FilterItems(items, keys, d)| && FilterItems(items, keys, d)[i] == items[j]
    decreases |items|
  {
    if j == 0 {
      i := 0;
    } else {
      assert items[1..][j - 1] == items[j];
      var i' := FilterItemsKept(items[1..], keys, d, j - 1);
      i := if KeepItem(items[0], keys, d) then i' + 1 else i';
    }
  }

  // ---------------------------------------------------------------------------
  // The per-game `enviromentOptions` array

  const OPTIONS_KEY: string := "enviromentOptions"

  /** `parse_env_option_entry`: a `"KEY=VALUE"` string split at its first
      `=`, or an object with a string `key` (else a string `name`) and a
      string `value`. */
  function ParseEnvOptionEntry(item: Value): Option<(string, string)> {
    if item.Str? then SplitOnce(item.s, '=')
    else
      var k := if StrField(item, "key").Some? then StrField(item, "key") else StrField(item, "name");
      match (k, StrField(item, "value"))
      case (Some(key), Some(value)) => Some((key, value))
      case _ => None
  }

  /** The entry `{ "key": k, "value": v }` written for a pair. */
  function EntryOf(p: (string, string)): (r: Value)
    ensures StrField(r, "key") == Some(p.0) && StrField(r, "value") == Some(p.1)
  {
    FieldOrder();
    Pair("key", p.0, "value", p.1)
  }

  /** Every accepted entry form parses back to its pair. */
  lemma EntryForms(k: string, v: string)
    ensures ParseEnvOptionEntry(EntryOf((k, v))) == Some((k, v))
    ensures ParseEnvOptionEntry(NameValue(k, v)) == Some((k, v))
    ensures NoChar(k, '=') ==> ParseEnvOptionEntry(Str(k + "=" + v)) == Some((k, v))
  {
    FieldOrder();
    assert StrField(NameValue(k, v), "key") == None;
    if NoChar(k, '=') {
      SplitPair(k, v);
    }
  }

  /** The parseable entries' pairs, in order. */
  function ParsedPairs(items: seq<Value>): Env {
    if |items| == 0 then []
    else
      match ParseEnvOptionEntry(items[0])
      case Some(p) => [p] + ParsedPairs(items[1..])
      case None => ParsedPairs(items[1..])
  }

  /** The pairs whose key is not listed, in order. */
  function Unlisted(ps: Env, keys: seq<string>): (r: Env)
    ensures forall i :: 0 <= i < |r| ==> r[i].0 !in keys
  {
    if |ps| == 0 then []
    else if ps[0].0 in keys then Unlisted(ps[1..], keys)
    else [ps[0]] + Unlisted(ps[1..], keys)
  }

  function Entries(ps: Env): (r: seq<Value>)
    ensures |r| == |ps| && forall i :: 0 <= i < |ps| ==> r[i] == EntryOf(ps[i])
  {
    if |ps| == 0 then [] else [EntryOf(ps[0])] + Entries(ps[1..])
  }

  /** Entries written for pairs parse back to those pairs. */
  lemma {:induction false} ParsedEntries(ps: Env)
    ensures ParsedPairs(Entries(ps)) == ps
  {
    if |ps| > 0 {
      EntryForms(ps[0].0, ps[0].1);
      assert Entries(ps)[1..] == Entries(ps[1..]);
      ParsedEntries(ps[1..]);
    }
  }

  lemma {:induction false} UnlistedAppend(a: Env, b: Env, keys: seq<string>)
    ensures Unlisted(a + b, keys) == Unlisted(a, keys) + Unlisted(b, keys)
  {
    if |a| > 0 {
      assert (a + b)[1..] == a[1..] + b;
      UnlistedAppend(a[1..], b, keys);
    } else {
      assert a + b == b;
    }
  }

  /** Dropping listed keys twice drops nothing more. */
  lemma {:induction false} UnlistedIdempotent(ps: Env, keys: seq<string>)
    ensures Unlisted(Unlisted(ps, keys), keys) == Unlisted(ps, keys)
  {
    if |ps| > 0 {
      UnlistedIdempotent(ps[1..], keys);
      if ps[0].0 !in keys {
        assert ([ps[0]] + Unlisted(ps[1..], keys))[1..] == Unlisted(ps[1..], keys);
      }
    }
  }

  /** When every pair's key is listed, nothing is left. */
  lemma {:induction false} UnlistedAllListed(ps: Env, keys: seq<string>)
    requires forall i :: 0 <= i < |ps| ==> ps[i].0 in keys
    ensures Unlisted(ps, keys) == []
  {
    if |ps| > 0 {
      assert forall i :: 1 <= i < |ps| ==> ps[1..][i - 1] == ps[i];
      UnlistedAllListed(ps[1..], keys);
    }
  }

  /** The game object's current options, when they are an array. */
  function CurrentOptions(game: Value): seq<Value> {
    match Field(game, OPTIONS_KEY)
    case Some(Arr(items)) => items
    case _ => []
  }

  /** The rebuilt options: the parseable existing pairs with unlisted keys,
      in order, then the wanted pairs, as `{key, value}` entries. */
  function NewOptions(game: Value, keys: seq<string>, d: Env): seq<Value> {
    Entries(Unlisted(ParsedPairs(CurrentOptions(game)), keys) + d)
  }

  /** The rebuild over the given listed keys. */
  function UpsertOptions(root: seq<(string, Value)>, appName: string, keys: seq<string>, d: Env): (r: Edit<seq<(string, Value)>>)
    ensures !(Get(root, appName).Some? && Get(root, appName).value.Obj?) ==> r == Edit(root, false)
  {
    match Get<Value>(root, appName)
    case Some(Obj(fs)) =>
      var arr := NewOptions(Obj(fs), keys, d);
      if Field(Obj(fs), OPTIONS_KEY) != Some(Arr(arr)) then
        Edit(Put(root, appName, SetField(Obj(fs), OPTIONS_KEY, Arr(arr))), true)
      else Edit(root, false)
    case _ => Edit(root, false)
  }

  /** `upsert_game_enviroment_options`. */
  function UpsertGameEnviromentOptions(root: seq<(string, Value)>, appName: string, d: Env): Edit<seq<(string, Value)>> {
    UpsertOptions(root, appName, MANAGED_KEYS, d)
  }

  /** The game object as the rebuild leaves it. */
  function GameAfter(root: seq<(string, Value)>, appName: string, keys: seq<string>, d: Env): Option<Value> {
    Get(UpsertOptions(root, appName, keys, d).result, appName)
  }

  /** With a game object, afterwards its options are exactly the rebuilt
      array, and the rest of the game object keeps its fields. */
  lemma UpsertOptionsSets(root: seq<(string, Value)>, appName: string, keys: seq<string>, d: Env)
    requires Get(root, appName).Some? && Get(root, appName).value.Obj?
    ensures GameAfter(root, appName, keys, d).Some? && GameAfter(root, appName, keys, d).value.Obj?
    ensures Field(GameAfter(root, appName, keys, d).value, OPTIONS_KEY)
      == Some(Arr(NewOptions(Get(root, appName).value, keys, d)))
    ensures forall o :: o != OPTIONS_KEY ==> Field(GameAfter(root, appName, keys, d).value, o) == Field(Get(root, appName).value, o)
  {
    var game := Get(root, appName).value;
    var arr := NewOptions(game, keys, d);
    if Field(game, OPTIONS_KEY) != Some(Arr(arr)) {
      GetPutSame(root, appName, SetField(game, OPTIONS_KEY, Arr(arr)));
    }
  }

  /** The rebuilt entries parse to the kept existing pairs followed by the
      wanted ones. */
  lemma NewOptionsParsed(game: Value, keys: seq<string>, d: Env)
    ensures ParsedPairs(NewOptions(game, keys, d)) == Unlisted(ParsedPairs(CurrentOptions(game)), keys) + d
  {
    ParsedEntries(Unlisted(ParsedPairs(CurrentOptions(game)), keys) + d);
  }

  /** Every other root key keeps its value. */
  lemma UpsertOptionsOthers(root: seq<(string, Value)>, appName: string, keys: seq<string>, d: Env, o: string)
    requires o != appName
    ensures Get(UpsertOptions(root, appName, keys, d).result, o) == Get(root, o)
  {
    if Get(root, appName).Some? && Get(root, appName).value.Obj? {
      var game := Get(root, appName).value;
      GetPutOther(root, appName, SetField(game, OPTIONS_KEY, Arr(NewOptions(game, keys, d))), o);
    }
  }

  /** A change is reported exactly when the game object had other options,
      and then the game object did change. */
  lemma UpsertOptionsChanged(root: seq<(string, Value)>, appName: string, keys: seq<string>, d: Env)
    requires Get(root, appName).Some? && Get(root, appName).value.Obj?
    ensures UpsertOptions(root, appName, keys, d).changed
      <==> Field(Get(root, appName).value, OPTIONS_KEY) != Some(Arr(NewOptions(Get(root, appName).value, keys, d)))
    ensures UpsertOptions(root, appName, keys, d).changed <==> GameAfter(root, appName, keys, d) != Get(root, appName)
  {
    UpsertOptionsSets(root, appName, keys, d);
  }

  /** Rebuilding from rebuilt options gives the same options when every
      wanted key is listed. */
  lemma NewOptionsFixpoint(game: Value, game1: Value, keys: seq<string>, d: Env)
    requires forall i :: 0 <= i < |d| ==> d[i].0 in keys
    requires CurrentOptions(game1) == NewOptions(game, keys, d)
    ensures NewOptions(game1, keys, d) == NewOptions(game, keys, d)
  {
    var kept := Unlisted(ParsedPairs(CurrentOptions(game)), keys);
    ParsedEntries(kept + d);
    UnlistedAppend(kept, d, keys);
    UnlistedIdempotent(ParsedPairs(CurrentOptions(game)), keys);
    UnlistedAllListed(d, keys);
    assert Unlisted(kept + d, keys) == kept;
  }

  /** When every wanted key is listed, a second rebuild changes nothing. */
  lemma UpsertOptionsIdempotent(root: seq<(string, Value)>, appName: string, keys: seq<string>, d: Env)
    requires forall i :: 0 <= i < |d| ==> d[i].0 in keys
    ensures !UpsertOptions(UpsertOptions(root, appName, keys, d).result, appName, keys, d).changed
  {
    if Get(root, appName).Some? && Get(root, appName).value.Obj? {
      var game := Get(root, appName).value;
      UpsertOptionsSets(root, appName, keys, d);
      var root1 := UpsertOptions(root, appName, keys, d).result;
      var game1 := GameAfter(root, appName, keys, d).value;
      assert CurrentOptions(game1) == NewOptions(game, keys, d);
      NewOptionsFixpoint(game, game1, keys, d);
      UpsertOptionsChanged(root1, appName, keys, d);
    }
  }

  // ---------------------------------------------------------------------------
  // The whole configuration

  const ENV_KEY: string := "envVariables"

  /** The wanted pairs as an object of strings. */
  function StrValues(d: Env): (r: seq<(string, Value)>)
    ensures |r| == |d| && forall i :: 0 <= i < |d| ==> r[i] == (d[i].0, Str(d[i].1))
  {
    if |d| == 0 then [] else [(d[0].0, Str(d[0].1))] + StrValues(d[1..])
  }

  lemma {:induction false} GetStrValues(d: Env, k: string)
    ensures Get(StrValues(d), k) == if Get(d, k).Some? then Some(Str(Get(d, k).value)) else None
  {
    if |d| > 0 {
      assert StrValues(d)[1..] == StrValues(d[1..]);
      GetStrValues(d[1..], k);
    }
  }

  /** The top-level `envVariables` brought in line with the wanted pairs. */
  function SyncEnvVariables(root: seq<(string, Value)>, d: Env): Edit<seq<(string, Value)>> {
    match Get<Value>(root, ENV_KEY)
    case Some(Obj(e)) =>
      var u := UpsertEnvObject(e, d);
      var rm := RemoveAbsentManaged(u.result, d);
      Edit(Put(root, ENV_KEY, Obj(rm.result)), u.changed || rm.changed)
    case Some(Arr(items)) =>
      var u := UpsertEnvArray(items, d);
      var rm := RemoveAbsentManagedArray(u.result, d);
      Edit(Put(root, ENV_KEY, Arr(rm.result)), u.changed || rm.changed)
    case _ => Edit(Put(root, ENV_KEY, Obj(StrValues(d))), true)
  }

  datatype Applied = Applied(json: Value, changed: bool) | NotAnObject

  /** `apply_env_to_heroic_json`: a root that is not an object is refused;
      otherwise `envVariables` and then the game's options are updated, and
      the change flags of both steps are combined. */
  function ApplyEnvToHeroicJson(json: Value, appName: string, envVars: seq<string>): (r: Applied)
    ensures r.NotAnObject? <==> !json.Obj?
    ensures r.Applied? ==> r.json.Obj?
  {
    if !json.Obj? then NotAnObject
    else
      var d := Desired(envVars);
      var env := SyncEnvVariables(json.fields, d);
      var game := UpsertGameEnviromentOptions(env.result, appName, d);
      Applied(Obj(game.result), env.changed || game.changed)
  }

  /** An absent or wrong-typed `envVariables` becomes an object holding
      exactly the wanted pairs, and that counts as a change. */
  lemma ApplyReplacesEnv(json: Value, appName: string, envVars: seq<string>)
    requires json.Obj? && appName != ENV_KEY
    requires !(Field(json, ENV_KEY).Some? && (Field(json, ENV_KEY).value.Obj? || Field(json, ENV_KEY).value.Arr?))
    ensures ApplyEnvToHeroicJson(json, appName, envVars).changed
    ensures Field(ApplyEnvToHeroicJson(json, appName, envVars).json, ENV_KEY) == Some(Obj(StrValues(Desired(envVars))))
  {
    var d := Desired(envVars);
    var env := SyncEnvVariables(json.fields, d);
    GetPutSame(json.fields, ENV_KEY, Obj(StrValues(d)));
    if Get(env.result, appName).Some? && Get(env.result, appName).value.Obj? {
      UpsertOptionsOthers(env.result, appName, MANAGED_KEYS, d, ENV_KEY);
    }
  }

  // ---------------------------------------------------------------------------
  // Validation

  /** Some item is named `k` with the value `v`. */
  predicate Lists(items: seq<Value>, k: string, v: string) {
    exists j :: 0 <= j < |items| && ItemName(items[j]) == Some(k) && ItemValue(items[j]) == Some(v)
  }

  /** `top_ok`: every wanted pair is in `envVariables`; an absent one
      passes only when nothing is wanted. */
  function EnvVariablesOk(json: Value, d: Env): bool {
    match Field(json, ENV_KEY)
    case None => |d| == 0
    case Some(Obj(m)) => forall i :: 0 <= i < |d| ==> StrField(Obj(m), d[i].0) == Some(d[i].1)
    case Some(Arr(items)) => forall i :: 0 <= i < |d| ==> Lists(items, d[i].0, d[i].1)
    case Some(_) => false
  }

  /** Some entry parses to the pair `p`. */
  predicate HasEntry(items: seq<Value>, p: (string, string)) {
    exists j :: 0 <= j < |items| && ParseEnvOptionEntry(items[j]) == Some(p)
  }

  /** `validate_game_enviroment_options`: the game object must exist, and
      its options must hold every wanted pair; options that are not an
      array pass only when nothing is wanted. */
  function GameOptionsOk(json: Value, appName: string, d: Env): bool {
    match Field(json, appName)
    case Some(Obj(g)) =>
      (match Field(Obj(g), OPTIONS_KEY)
       case Some(Arr(items)) => forall i :: 0 <= i < |d| ==> HasEntry(items, d[i])
       case _ => |d| == 0)
    case _ => false
  }

  /** `validate_env_in_heroic_json`. */
  function ValidateEnvInHeroicJson(json: Value, appName: string, envVars: seq<string>): bool {
    var d := Desired(envVars);
    EnvVariablesOk(json, d) && GameOptionsOk(json, appName, d)
  }

  /** A configuration without the game's object never validates, and one
      without `envVariables` validates only when no entry is given. */
  lemma ValidateNeeds(json: Value, appName: string, envVars: seq<string>)
    ensures !(Field(json, appName).Some? && Field(json, appName).value.Obj?) ==> !ValidateEnvInHeroicJson(json, appName, envVars)
    ensures Field(json, ENV_KEY).None? && ValidateEnvInHeroicJson(json, appName, envVars) ==> |envVars| == 0
  {
    DesiredShape(envVars);
  }

  // ---------------------------------------------------------------------------
  // Applying then validating

  /** After the object edits every wanted pair is stored. */
  lemma EnvObjectHolds(e: seq<(string, Value)>, d: Env, i: nat)
    requires Ordered(d) && i < |d|
    ensures StrField(Obj(RemoveAbsentManaged(UpsertEnvObject(e, d).result, d).result), d[i].0) == Some(d[i].1)
  {
    UpsertObjectSets(e, d, i);
    GetOrdered(d, i);
    RemoveManagedGet(UpsertEnvObject(e, d).result, MANAGED_KEYS, d, d[i].0);
  }

  /** After the array edits every wanted pair is listed. */
  lemma EnvArrayHolds(items: seq<Value>, d: Env, i: nat)
    requires Ordered(d) && i < |d|
    ensures Lists(RemoveAbsentManagedArray(UpsertEnvArray(items, d).result, d).result, d[i].0, d[i].1)
  {
    var u := UpsertEnvArray(items, d).result;
    UpsertArraySets(items, d, i);
    var j :| 0 <= j < |u| && ItemName(u[j]) == Some(d[i].0);
    GetOrdered(d, i);
    assert KeepItem(u[j], MANAGED_KEYS, d);
    var k := FilterItemsKept(u, MANAGED_KEYS, d, j);
    assert RemoveAbsentManagedArray(u, d).result[k] == u[j];
  }

  /** A replaced `envVariables` stores every wanted pair. */
  lemma StrValuesHolds(d: Env, i: nat)
    requires Ordered(d) && i < |d|
    ensures StrField(Obj(StrValues(d)), d[i].0) == Some(d[i].1)
  {
    GetOrdered(d, i);
    GetStrValues(d, d[i].0);
  }

  /** Whatever `envVariables` held, afterwards it passes `top_ok`. */
  lemma SyncEnvValid(root: seq<(string, Value)>, d: Env)
    requires Ordered(d)
    ensures EnvVariablesOk(Obj(SyncEnvVariables(root, d).result), d)
  {
    var r := SyncEnvVariables(root, d).result;
    match Get<Value>(root, ENV_KEY)
    case Some(Obj(e)) =>
      var m := RemoveAbsentManaged(UpsertEnvObject(e, d).result, d).result;
      GetPutSame(root, ENV_KEY, Obj(m));
      forall i | 0 <= i < |d| ensures StrField(Obj(m), d[i].0) == Some(d[i].1) {
        EnvObjectHolds(e, d, i);
      }
    case Some(Arr(items)) =>
      var a := RemoveAbsentManagedArray(UpsertEnvArray(items, d).result, d).result;
      GetPutSame(root, ENV_KEY, Arr(a));
      forall i | 0 <= i < |d| ensures Lists(a, d[i].0, d[i].1) {
        EnvArrayHolds(items, d, i);
      }
    case _ =>
      GetPutSame(root, ENV_KEY, Obj(StrValues(d)));
      forall i | 0 <= i < |d| ensures StrField(Obj(StrValues(d)), d[i].0) == Some(d[i].1) {
        StrValuesHolds(d, i);
      }
  }

  /** The rebuilt options hold an entry for every wanted pair. */
  lemma NewOptionsHold(game: Value, keys: seq<string>, d: Env, i: nat)
    requires i < |d|
    ensures HasEntry(NewOptions(game, keys, d), d[i])
  {
    var kept := Unlisted(ParsedPairs(CurrentOptions(game)), keys);
    var n := NewOptions(game, keys, d);
    assert (kept + d)[|kept| + i] == d[i];
    EntryForms(d[i].0, d[i].1);
    assert ParseEnvOptionEntry(n[|kept| + i]) == Some(d[i]);
  }

  /** Applying the environment to a configuration that holds the game's
      object gives one that validates: both the top-level `envVariables`
      and the game's options then hold every wanted pair. */
  lemma ApplyThenValidate(json: Value, appName: string, envVars: seq<string>)
    requires json.Obj? && appName != ENV_KEY
    requires Field(json, appName).Some? && Field(json, appName).value.Obj?
    ensures ValidateEnvInHeroicJson(ApplyEnvToHeroicJson(json, appName, envVars).json, appName, envVars)
  {
    var d := Desired(envVars);
    var env := SyncEnvVariables(json.fields, d).result;
    var out := ApplyEnvToHeroicJson(json, appName, envVars).json;
    SyncEnvValid(json.fields, d);
    UpsertOptionsOthers(env, appName, MANAGED_KEYS, d, ENV_KEY);
    assert Field(out, ENV_KEY) == Field(Obj(env), ENV_KEY);
    SyncEnvOthers(json.fields, d, appName);
    var game := Get(json.fields, appName).value;
    UpsertOptionsSets(env, appName, MANAGED_KEYS, d);
    forall i | 0 <= i < |d| ensures HasEntry(NewOptions(game, MANAGED_KEYS, d), d[i]) {
      NewOptionsHold(game, MANAGED_KEYS, d, i);
    }
  }

  /** The `envVariables` step touches no other root key. */
  lemma SyncEnvOthers(root: seq<(string, Value)>, d: Env, o: string)
    requires o != ENV_KEY
    ensures Get(SyncEnvVariables(root, d).result, o) == Get(root, o)
  {
    match Get<Value>(root, ENV_KEY)
    case Some(Obj(e)) =>
      GetPutOther(root, ENV_KEY, Obj(RemoveAbsentManaged(UpsertEnvObject(e, d).result, d).result), o);
    case Some(Arr(items)) =>
      GetPutOther(root, ENV_KEY, Arr(RemoveAbsentManagedArray(UpsertEnvArray(items, d).result, d).result), o);
    case _ =>
      GetPutOther(root, ENV_KEY, Obj(StrValues(d)), o);
  }

  // ---------------------------------------------------------------------------
  // Applying twice

  /** An object already holding every wanted pair and no unwanted managed
      key is left alone by both object edits. */
  lemma EnvObjectStable(m: seq<(string, Value)>, d: Env)
    requires Ordered(d)
    requires forall i :: 0 <= i < |d| ==> Get(m, d[i].0) == Some(Str(d[i].1))
    requires forall j :: 0 <= j < |MANAGED_KEYS| && Get(d, MANAGED_KEYS[j]).None? ==> Get(m, MANAGED_KEYS[j]).None?
    ensures !UpsertEnvObject(m, d).changed && !RemoveAbsentManaged(UpsertEnvObject(m, d).result, d).changed
  {
    UpsertObjectChanged(m, d);
    RemoveManagedChanged(m, MANAGED_KEYS, d);
  }

  /** After the object edits no unwanted managed key is left. */
  lemma EnvObjectClean(e: seq<(string, Value)>, d: Env, j: nat)
    requires j < |MANAGED_KEYS| && Get(d, MANAGED_KEYS[j]).None?
    ensures Get(RemoveAbsentManaged(UpsertEnvObject(e, d).result, d).result, MANAGED_KEYS[j]).None?
  {
    RemoveManagedGet(UpsertEnvObject(e, d).result, MANAGED_KEYS, d, MANAGED_KEYS[j]);
  }

  /** An item left by the filter was among its input. */
  lemma {:induction false} FilterItemsFrom(items: seq<Value>, keys: seq<string>, d: Env, i: nat)
    returns (j: nat)
    requires i < |FilterItems(items, keys, d)|
    ensures j < |items| && items[j] == FilterItems(items, keys, d)[i]
    decreases |items|
  {
    var rest := FilterItems(items[1..], keys, d);
    if KeepItem(items[0], keys, d) && i == 0 {
      j := 0;
    } else {
      var i' := if KeepItem(items[0], keys, d) then i - 1 else i;
      var j' := FilterItemsFrom(items[1..], keys, d, i');
      j := j' + 1;
    }
  }

  /** Items already carrying every wanted pair, all passing the rule, are
      left alone by both array edits. */
  lemma EnvArrayStable(a: seq<Value>, d: Env)
    requires Ordered(d)
    requires forall i :: 0 <= i < |d| ==> Carries(a, d[i].0, d[i].1)
    requires forall j :: 0 <= j < |a| ==> KeepItem(a[j], MANAGED_KEYS, d)
    ensures !UpsertEnvArray(a, d).changed && !RemoveAbsentManagedArray(UpsertEnvArray(a, d).result, d).changed
  {
    UpsertArrayChanged(a, d);
    FilterItemsAll(a, MANAGED_KEYS, d);
  }

  /** After the array edits every wanted pair is carried. */
  lemma EnvArrayCarries(items: seq<Value>, d: Env, i: nat)
    requires Ordered(d) && i < |d|
    ensures Carries(RemoveAbsentManagedArray(UpsertEnvArray(items, d).result, d).result, d[i].0, d[i].1)
  {
    var u := UpsertEnvArray(items, d).result;
    var a := RemoveAbsentManagedArray(u, d).result;
    EnvArrayHolds(items, d, i);
    UpsertArraySets(items, d, i);
    forall j | 0 <= j < |a| && ItemName(a[j]) == Some(d[i].0) ensures ItemValue(a[j]) == Some(d[i].1) {
      var j' := FilterItemsFrom(u, MANAGED_KEYS, d, j);
    }
  }

  /** The `envVariables` step's change flag depends only on what
      `envVariables` holds. */
  lemma SyncEnvLocal(r1: seq<(string, Value)>, r2: seq<(string, Value)>, d: Env)
    requires Get(r1, ENV_KEY) == Get(r2, ENV_KEY)
    ensures SyncEnvVariables(r1, d).changed == SyncEnvVariables(r2, d).changed
  {
  }

  /** A second `envVariables` step after the object edits changes nothing. */
  lemma SyncEnvStableObj(root: seq<(string, Value)>, e: seq<(string, Value)>, d: Env)
    requires Ordered(d) && Get(root, ENV_KEY) == Some(Obj(e))
    ensures !SyncEnvVariables(SyncEnvVariables(root, d).result, d).changed
  {
    var m := RemoveAbsentManaged(UpsertEnvObject(e, d).result, d).result;
    GetPutSame(root, ENV_KEY, Obj(m));
    forall i | 0 <= i < |d| ensures Get(m, d[i].0) == Some(Str(d[i].1)) {
      EnvObjectHolds(e, d, i);
    }
    forall j | 0 <= j < |MANAGED_KEYS| && Get(d, MANAGED_KEYS[j]).None? ensures Get(m, MANAGED_KEYS[j]).None? {
      EnvObjectClean(e, d, j);
    }
    EnvObjectStable(m, d);
  }

  /** A second `envVariables` step after the array edits changes nothing. */
  lemma SyncEnvStableArr(root: seq<(string, Value)>, items: seq<Value>, d: Env)
    requires Ordered(d) && Get(root, ENV_KEY) == Some(Arr(items))
    ensures !SyncEnvVariables(SyncEnvVariables(root, d).result, d).changed
  {
    var a := RemoveAbsentManagedArray(UpsertEnvArray(items, d).result, d).result;
    GetPutSame(root, ENV_KEY, Arr(a));
    forall i | 0 <= i < |d| ensures Carries(a, d[i].0, d[i].1) {
      EnvArrayCarries(items, d, i);
    }
    EnvArrayStable(a, d);
  }

  /** A second `envVariables` step after a replacement changes nothing. */
  lemma SyncEnvStableNew(root: seq<(string, Value)>, d: Env)
    requires Ordered(d) && SyncEnvVariables(root, d).result == Put(root, ENV_KEY, Obj(StrValues(d)))
    ensures !SyncEnvVariables(SyncEnvVariables(root, d).result, d).changed
  {
    var m := StrValues(d);
    GetPutSame(root, ENV_KEY, Obj(m));
    forall i | 0 <= i < |d| ensures Get(m, d[i].0) == Some(Str(d[i].1)) {
      StrValuesHolds(d, i);
    }
    forall j | 0 <= j < |MANAGED_KEYS| && Get(d, MANAGED_KEYS[j]).None? ensures Get(m, MANAGED_KEYS[j]).None? {
      GetStrValues(d, MANAGED_KEYS[j]);
    }
    EnvObjectStable(m, d);
  }

  /** A second `envVariables` step changes nothing. */
  lemma SyncEnvStable(root: seq<(string, Value)>, d: Env)
    requires Ordered(d)
    ensures !SyncEnvVariables(SyncEnvVariables(root, d).result, d).changed
  {
    match Get<Value>(root, ENV_KEY)
    case Some(Obj(e)) => SyncEnvStableObj(root, e, d);
    case Some(Arr(items)) => SyncEnvStableArr(root, items, d);
    case _ => SyncEnvStableNew(root, d);
  }

  /** The options step's change flag depends only on the game's object. */
  lemma UpsertOptionsLocal(r1: seq<(string, Value)>, r2: seq<(string, Value)>, appName: string, keys: seq<string>, d: Env)
    requires Get(r1, appName) == Get(r2, appName)
    ensures UpsertOptions(r1, appName, keys, d).changed == UpsertOptions(r2, appName, keys, d).changed
  {
  }

  /** Every wanted key is a managed one. */
  predicate AllManaged(d: Env) {
    forall i :: 0 <= i < |d| ==> d[i].0 in MANAGED_KEYS
  }

  /** When every wanted key is managed, applying the same environment to
      the configuration it produced reports no change: the edit reaches a
      fixed point in one step. */
  lemma ApplyIdempotent(json: Value, appName: string, envVars: seq<string>)
    requires json.Obj? && appName != ENV_KEY && AllManaged(Desired(envVars))
    ensures !ApplyEnvToHeroicJson(ApplyEnvToHeroicJson(json, appName, envVars).json, appName, envVars).changed
  {
    var d := Desired(envVars);
    var env1 := SyncEnvVariables(json.fields, d).result;
    var root1 := UpsertOptions(env1, appName, MANAGED_KEYS, d).result;
    var env2 := SyncEnvVariables(root1, d).result;
    UpsertOptionsOthers(env1, appName, MANAGED_KEYS, d, ENV_KEY);
    SyncEnvLocal(root1, env1, d);
    SyncEnvStable(json.fields, d);
    SyncEnvOthers(root1, d, appName);
    UpsertOptionsLocal(env2, root1, appName, MANAGED_KEYS, d);
    UpsertOptionsIdempotent(env1, appName, MANAGED_KEYS, d);
  }

  /** When every entry names a listed key and the marker is listed, the
      wanted map names listed keys only. */
  lemma DesiredListed(envVars: seq<string>, keys: seq<string>)
    requires MARKER_KEY in keys
    requires forall i :: 0 <= i < |SplitPairs(envVars)| ==> SplitPairs(envVars)[i].0 in keys
    ensures forall i :: 0 <= i < |Desired(envVars)| ==> Desired(envVars)[i].0 in keys
  {
    var ps := SplitPairs(envVars);
    var m := FromPairs(ps);
    FromPairsFrom(ps);
    forall i | 0 <= i < |m| ensures m[i].0 in keys {
      assert m[i] in m;
      var j :| 0 <= j < |ps| && ps[j] == m[i];
    }
    var d := Desired(envVars);
    if |envVars| > 0 {
      forall i | 0 <= i < |d| ensures d[i].0 in keys {
        assert d[i] in Put(m, MARKER_KEY, "1");
        if d[i] != (MARKER_KEY, "1") {
          var j :| 0 <= j < |m| && m[j] == d[i];
        }
      }
    }
  }

  /** When every entry names a managed key, so does the wanted map. */
  lemma DesiredManaged(envVars: seq<string>)
    requires forall i :: 0 <= i < |SplitPairs(envVars)| ==> SplitPairs(envVars)[i].0 in MANAGED_KEYS
    ensures AllManaged(Desired(envVars))
  {
    assert MANAGED_KEYS[8] == MARKER_KEY;
    DesiredListed(envVars, MANAGED_KEYS);
  }

  // ---------------------------------------------------------------------------
  // No change reported means nothing changed

  /** When the edits report no change, the configuration is returned as it
      was, so skipping the write loses nothing. */
  lemma ApplyUnchanged(json: Value, appName: string, envVars: seq<string>)
    requires json.Obj? && Ordered(json.fields)
    requires !ApplyEnvToHeroicJson(json, appName, envVars).changed
    ensures ApplyEnvToHeroicJson(json, appName, envVars).json == json
  {
    var d := Desired(envVars);
    var root := json.fields;
    match Get<Value>(root, ENV_KEY)
    case Some(Obj(e)) =>
      UpsertObjectChanged(e, d);
      RemoveManagedChanged(UpsertEnvObject(e, d).result, MANAGED_KEYS, d);
      PutExisting(root, ENV_KEY, Obj(e));
    case Some(Arr(items)) =>
      UpsertArrayChanged(items, d);
      FilterItemsAll(items, MANAGED_KEYS, d);
      PutExisting(root, ENV_KEY, Arr(items));
    case _ =>
  }

  // ---------------------------------------------------------------------------
  // Which configuration belongs to the game

  /** A string field equal to `appName` up to ASCII case. */
  predicate FieldNames(json: Value, k: string, appName: string) {
    StrField(json, k).Some? && EqIgnoreAsciiCase(StrField(json, k).value, appName)
  }

  /** `heroic_config_matches_game`, given the file's stem: the trimmed stem,
      `appName`, `gameId` or `title` equal to the game's name up to ASCII
      case, or else the raw text containing the name exactly. */
  function HeroicConfigMatchesGame(json: Value, raw: string, stem: string, appName: string): bool {
    EqIgnoreAsciiCase(Trim(stem), appName)
    || FieldNames(json, "appName", appName)
    || FieldNames(json, "gameId", appName)
    || FieldNames(json, "title", appName)
    || Contains(raw, appName)
  }

  /** Names that agree up to ASCII case agree on every match except the
      raw-text fallback. */
  lemma MatchIgnoresCase(json: Value, raw: string, stem: string, a: string, b: string)
    requires EqIgnoreAsciiCase(a, b)
    requires !Contains(raw, a) && !Contains(raw, b)
    ensures HeroicConfigMatchesGame(json, raw, stem, a) == HeroicConfigMatchesGame(json, raw, stem, b)
  {
  }

  /** The raw-text fallback is case-sensitive: a file that mentions only
      `Game` does not match the name `game`. */
  lemma RawFallbackCaseSensitive()
    ensures !HeroicConfigMatchesGame(Null, "Game", "", "game")
    ensures HeroicConfigMatchesGame(Null, "Game", "", "Game")
  {
    assert Contains("Game", "Game") by {
      ContainsAt("Game", "Game", 0);
    }
    assert !Contains("Game", "game") by {
      NotContainsGame();
    }
  }

  lemma NotContainsGame()
    ensures !Contains("Game", "game")
  {
    assert !OccursAt("Game", "game", 0) by {
      assert "Game"[0] != "game"[0];
    }
  }

  // ---------------------------------------------------------------------------
  // Over the candidate configuration files

  /** A candidate configuration file: its stem, its text, the value the text
      parses to (`None` when it is not JSON), and whether its backup file
      already exists. */
  datatype Candidate = Candidate(stem: string, raw: string, parsed: Option<Value>, hasBackup: bool)

  /** A configuration written back: the candidate's position, the new value,
      and the backup written first (`None` when one already existed). */
  datatype Written = Written(at: nat, json: Value, backup: Option<string>)

  datatype Failure =
    | NoCandidates
    | Unparseable(at: nat)
    | RootNotObject(at: nat)
    | NotMatched
    | NotValidated

  /** The writes made, and the error the run ends with, if any; writes made
      before an error stay made. */
  datatype Run = Run(writes: seq<Written>, error: Option<Failure>)

  /** What one candidate contributes: skipped as another game's, an error
      that ends the run, or visited, with the write it made (if any) and
      whether the configuration on disk afterwards validated. */
  datatype Step = Skip | Stop(failure: Failure) | Visit(write: Option<Written>, valid: bool)

  /** The body of `apply_heroic_launch_env`'s loop for the candidate at
      position `at`. The value read back after a write is taken to be the
      value written. */
  function StepAt(c: Candidate, at: nat, appName: string, envVars: seq<string>): Step {
    match c.parsed
    case None => Stop(Unparseable(at))
    case Some(json) =>
      if !HeroicConfigMatchesGame(json, c.raw, c.stem, appName) then Skip
      else
        match ApplyEnvToHeroicJson(json, appName, envVars)
        case NotAnObject => Stop(RootNotObject(at))
        case Applied(out, changed) =>
          Visit(if changed then Some(Written(at, out, if c.hasBackup then None else Some(c.raw))) else None,
                ValidateEnvInHeroicJson(if changed then out else json, appName, envVars))
  }

  function StepFor(appName: string, envVars: seq<string>): (Candidate, nat) -> Step {
    (c: Candidate, at: nat) => StepAt(c, at, appName, envVars)
  }

  /** The loop from candidate `from` on, with the steps given by `step`;
      after the last candidate, nothing matched or nothing validated is an
      error. */
  function Scan(cs: seq<Candidate>, from: nat, step: (Candidate, nat) -> Step,
                matched: bool, validated: bool, writes: seq<Written>): Run
    requires from <= |cs|
    decreases |cs| - from
  {
    if from == |cs| then
      Run(writes, if !matched then Some(NotMatched) else if !validated then Some(NotValidated) else None)
    else
      match step(cs[from], from)
      case Stop(f) => Run(writes, Some(f))
      case Skip => Scan(cs, from + 1, step, matched, validated, writes)
      case Visit(w, ok) =>
        Scan(cs, from + 1, step, true, validated || ok, if w.Some? then writes + [w.value] else writes)
  }

  /** `apply_heroic_launch_env` over the candidates found for the game. */
  function ApplyHeroicLaunchEnv(cs: seq<Candidate>, appName: string, envVars: seq<string>): Run {
    if |cs| == 0 then Run([], Some(NoCandidates))
    else Scan(cs, 0, StepFor(appName, envVars), false, false, [])
  }

  /** The backup a write to `c` makes: its text as read, unless a backup
      already exists. */
  function BackupOf(c: Candidate): Option<string> {
    if c.hasBackup then None else Some(c.raw)
  }

  /** Every write is to a candidate, after the earlier writes, with the
      candidate's backup. */
  predicate WritesWellFormed(cs: seq<Candidate>, writes: seq<Written>) {
    && (forall i :: 0 <= i < |writes| ==> writes[i].at < |cs| && writes[i].backup == BackupOf(cs[writes[i].at]))
    && (forall i, j :: 0 <= i < j < |writes| ==> writes[i].at < writes[j].at)
  }

  /** Each candidate's step writes, if at all, to that candidate with its
      backup. */
  predicate WritesOwn(cs: seq<Candidate>, step: (Candidate, nat) -> Step) {
    forall i :: 0 <= i < |cs| && step(cs[i], i).Visit? && step(cs[i], i).write.Some? ==>
      step(cs[i], i).write.value.at == i && step(cs[i], i).write.value.backup == BackupOf(cs[i])
  }

  lemma {:induction false} ScanWrites(cs: seq<Candidate>, from: nat, step: (Candidate, nat) -> Step,
                                      matched: bool, validated: bool, writes: seq<Written>)
    requires from <= |cs| && WritesOwn(cs, step) && WritesWellFormed(cs, writes)
    requires forall i :: 0 <= i < |writes| ==> writes[i].at < from
    ensures WritesWellFormed(cs, Scan(cs, from, step, matched, validated, writes).writes)
    ensures writes <= Scan(cs, from, step, matched, validated, writes).writes
    decreases |cs| - from
  {
    if from < |cs| {
      match step(cs[from], from)
      case Stop(f) =>
      case Skip => ScanWrites(cs, from + 1, step, matched, validated, writes);
      case Visit(w, ok) =>
        var w' := if w.Some? then writes + [w.value] else writes;
        ScanWrites(cs, from + 1, step, true, validated || ok, w');
    }
  }

  lemma StepWritesOwn(cs: seq<Candidate>, appName: string, envVars: seq<string>)
    ensures WritesOwn(cs, StepFor(appName, envVars))
  {
  }

  /** Each configuration is written at most once, in candidate order, and a
      backup is written only when none existed and then holds the file's
      text as it was read. */
  lemma ApplyHeroicWrites(cs: seq<Candidate>, appName: string, envVars: seq<string>)
    ensures WritesWellFormed(cs, ApplyHeroicLaunchEnv(cs, appName, envVars).writes)
  {
    if |cs| > 0 {
      StepWritesOwn(cs, appName, envVars);
      ScanWrites(cs, 0, StepFor(appName, envVars), false, false, []);
    }
  }

  /** Some candidate at or after `from` is visited. */
  predicate VisitsFrom(cs: seq<Candidate>, from: nat, step: (Candidate, nat) -> Step) {
    exists i :: from <= i < |cs| && step(cs[i], i).Visit?
  }

  /** A run without error visited some candidate. */
  lemma {:induction false} ScanOk(cs: seq<Candidate>, from: nat, step: (Candidate, nat) -> Step,
                                  matched: bool, validated: bool, writes: seq<Written>)
    requires from <= |cs|
    requires Scan(cs, from, step, matched, validated, writes).error.None?
    ensures matched || VisitsFrom(cs, from, step)
    decreases |cs| - from
  {
    if from < |cs| && step(cs[from], from).Skip? {
      ScanOk(cs, from + 1, step, matched, validated, writes);
      if VisitsFrom(cs, from + 1, step) {
        var i :| from + 1 <= i < |cs| && step(cs[i], i).Visit?;
      }
    }
  }

  /** Some candidate's configuration matches the game. */
  predicate SomeMatch(cs: seq<Candidate>, appName: string) {
    exists i :: 0 <= i < |cs| && cs[i].parsed.Some?
      && HeroicConfigMatchesGame(cs[i].parsed.value, cs[i].raw, cs[i].stem, appName)
  }

  /** The run fails when there are no candidates, and succeeds only when
      some candidate's configuration matched the game. */
  lemma ApplyHeroicNeedsMatch(cs: seq<Candidate>, appName: string, envVars: seq<string>)
    ensures |cs| == 0 ==> ApplyHeroicLaunchEnv(cs, appName, envVars).error == Some(NoCandidates)
    ensures ApplyHeroicLaunchEnv(cs, appName, envVars).error.None? ==> SomeMatch(cs, appName)
  {
    var step := StepFor(appName, envVars);
    if |cs| > 0 && ApplyHeroicLaunchEnv(cs, appName, envVars).error.None? {
      ScanOk(cs, 0, step, false, false, []);
      var i :| 0 <= i < |cs| && step(cs[i], i).Visit?;
      assert cs[i].parsed.Some? && HeroicConfigMatchesGame(cs[i].parsed.value, cs[i].raw, cs[i].stem, appName);
    }
  }

  /** With no candidate stopping the run and one visited with a valid
      result, the run ends without error. */
  lemma {:induction false} ScanSucceeds(cs: seq<Candidate>, from: nat, step: (Candidate, nat) -> Step,
                                       matched: bool, validated: bool, writes: seq<Written>, g: nat)
    requires from <= |cs|
    requires forall i :: from <= i < |cs| ==> !step(cs[i], i).Stop?
    requires (matched && validated) || (from <= g < |cs| && step(cs[g], g).Visit? && step(cs[g], g).valid)
    ensures Scan(cs, from, step, matched, validated, writes).error.None?
    decreases |cs| - from
  {
    if from < |cs| {
      match step(cs[from], from)
      case Skip => ScanSucceeds(cs, from + 1, step, matched, validated, writes, g);
      case Visit(w, ok) =>
        var w' := if w.Some? then writes + [w.value] else writes;
        ScanSucceeds(cs, from + 1, step, true, validated || ok, w', g);
    }
  }

  /** Every candidate parses to an ordered object. */
  predicate AllParsed(cs: seq<Candidate>) {
    forall i :: 0 <= i < |cs| ==> cs[i].parsed.Some? && cs[i].parsed.value.Obj? && Ordered(cs[i].parsed.value.fields)
  }

  /** The candidate at `i` matches and holds the game's object. */
  predicate GameAt(cs: seq<Candidate>, i: nat, appName: string) {
    i < |cs| && cs[i].parsed.Some?
    && HeroicConfigMatchesGame(cs[i].parsed.value, cs[i].raw, cs[i].stem, appName)
    && Field(cs[i].parsed.value, appName).Some? && Field(cs[i].parsed.value, appName).value.Obj?
  }

  /** A matching candidate that holds the game's object validates after the
      edit, whether or not it had to be written. */
  lemma MatchedValidates(json: Value, appName: string, envVars: seq<string>)
    requires json.Obj? && Ordered(json.fields) && appName != ENV_KEY
    requires Field(json, appName).Some? && Field(json, appName).value.Obj?
    ensures var a := ApplyEnvToHeroicJson(json, appName, envVars);
            ValidateEnvInHeroicJson(if a.changed then a.json else json, appName, envVars)
  {
    ApplyThenValidate(json, appName, envVars);
    if !ApplyEnvToHeroicJson(json, appName, envVars).changed {
      ApplyUnchanged(json, appName, envVars);
    }
  }

  /** A candidate that parses to an object never stops the run, and one
      that matches and holds the game's object is visited and valid. */
  lemma StepOf(c: Candidate, at: nat, appName: string, envVars: seq<string>)
    requires c.parsed.Some? && c.parsed.value.Obj? && Ordered(c.parsed.value.fields) && appName != ENV_KEY
    ensures !StepAt(c, at, appName, envVars).Stop?
    ensures HeroicConfigMatchesGame(c.parsed.value, c.raw, c.stem, appName)
      && Field(c.parsed.value, appName).Some? && Field(c.parsed.value, appName).value.Obj?
      ==> StepAt(c, at, appName, envVars).Visit? && StepAt(c, at, appName, envVars).valid
  {
    var json := c.parsed.value;
    if HeroicConfigMatchesGame(json, c.raw, c.stem, appName) && Field(json, appName).Some? && Field(json, appName).value.Obj? {
      MatchedValidates(json, appName, envVars);
    }
  }

  /** When every candidate is an object and one of them matches and holds
      the game's object, the run ends without error. */
  lemma ApplyHeroicSucceeds(cs: seq<Candidate>, appName: string, envVars: seq<string>, g: nat)
    requires AllParsed(cs) && appName != ENV_KEY && GameAt(cs, g, appName)
    ensures ApplyHeroicLaunchEnv(cs, appName, envVars).error.None?
  {
    var step := StepFor(appName, envVars);
    forall i | 0 <= i < |cs| ensures !step(cs[i], i).Stop? {
      StepOf(cs[i], i, appName, envVars);
    }
    StepOf(cs[g], g, appName, envVars);
    ScanSucceeds(cs, 0, step, false, false, [], g);
  }
}

=== FILE: json.dfy ===
/** JSON values as `serde_json::Value` holds them once parsed. Objects are
    `serde_json::Map`s, which without the `preserve_order` feature are
    ordered by key: they are sorted association lists here. Numbers are
    kept as integers; nothing in this model reads them. */
module Json {
  import opened Text
  import opened Assoc

  datatype Value =
    | Null
    | Bool(b: bool)
    | Num(n: int)
    | Str(s: string)
    | Arr(items: seq<Value>)
    | Obj(fields: seq<(string, Value)>)

  /** `Value::get` with a string index: an object's field, nothing for any
      other value. */
  function Field(v: Value, k: string): (r: Option<Value>)
    ensures !v.Obj? ==> r.None?
    ensures v.Obj? && r.Some? ==> (k, r.value) in v.fields
  {
    if v.Obj? then Get(v.fields, k) else None
  }

  /** `Value::as_str`. */
  function AsStr(v: Value): (r: Option<string>)
    ensures r.Some? <==> v.Str?
  {
    if v.Str? then Some(v.s) else None
  }

  /** `v.get(k).and_then(|x| x.as_str())`. */
  function StrField(v: Value, k: string): (r: Option<string>)
    ensures r.Some? ==> v.Obj? && Field(v, k) == Some(Str(r.value))
  {
    match Field(v, k)
    case Some(Str(s)) => Some(s)
    case _ => None
  }

  /** `v[k] = x` on an object: the field replaced or added. */
  function SetField(v: Value, k: string, x: Value): (r: Value)
    requires v.Obj?
    ensures r.Obj? && Field(r, k) == Some(x)
    ensures forall o :: o != k ==> Field(r, o) == Field(v, o)
  {
    GetPutSame(v.fields, k, x);
    forall o | o != k ensures Get(Put(v.fields, k, x), o) == Get(v.fields, o) {
      GetPutOther(v.fields, k, x, o);
    }
    Obj(Put(v.fields, k, x))
  }

  /** A two-field object `{a: x, b: y}` with `a` before `b` in key order. */
  function Pair(a: string, x: string, b: string, y: string): (r: Value)
    requires LexLess(a, b)
    ensures r.Obj? && Ordered(r.fields)
    ensures StrField(r, a) == Some(x) && StrField(r, b) == Some(y)
  {
    var fs := [(a, Str(x)), (b, Str(y))];
    assert Get(fs, b) == Some(Str(y)) by {
      LexLessIrreflexive(a);
      assert a != b;
    }
    Obj(fs)
  }

  /** `"key" < "value"` and `"name" < "value"` in key order. */
  lemma FieldOrder()
    ensures LexLess("key", "value") && LexLess("name", "value")
  {
  }
}

=== FILE: launch_options.dfy ===
/** The Steam `LaunchOptions` value Kaede manages: the marked prefix it
    writes in front of the user's own options, stripping that prefix back
    out, reading the value from its line in `localconfig.vdf`, and the check
    that a value matches the chosen GPU. */
module LaunchOptions {
  import opened Text
  import opened Models
  import Vdf

  /** The marker opening Kaede's part of a value. */
  const ManagedStart := "KAEDE_GPU_MANAGED=1"

  /** The marker closing Kaede's part of a value. */
  const ManagedEnd := "KAEDE_GPU_MANAGED_END=1"

  /** What Steam runs when a value names no command: the game itself. */
  const CommandPlaceholder := "%command%"

  // ---------------------------------------------------------------------------
  // The markers

  /** `c` opens `m` and appears nowhere else in it. */
  predicate LeadsOnly(m: string, c: char) {
    |m| > 0 && m[0] == c && forall k :: 0 < k < |m| ==> m[k] != c
  }

  lemma StartMarkerFacts()
    ensures |ManagedStart| == 19 && LeadsOnly(ManagedStart, 'K') && ManagedStart[17] == '='
    ensures NoChar(ManagedStart, ' ') && !IsWhitespace(ManagedStart[18])
  {
  }

  lemma EndMarkerFacts()
    ensures |ManagedEnd| == 23 && LeadsOnly(ManagedEnd, 'K') && ManagedEnd[17] == '_'
    ensures NoChar(ManagedEnd, ' ') && !IsWhitespace(ManagedEnd[22])
  {
  }

  /** A copy of a marker that its lead char opens cannot hold that char
      anywhere past its start. */
  lemma LeadNotInside(s: string, m: string, c: char, j: nat, q: nat)
    requires LeadsOnly(m, c) && OccursAt(s, m, j) && j < q < j + |m|
    ensures s[q] != c
  {
    OccursAtChar(s, m, j, q - j);
  }

  /** A marker that `a` does not contain is first found right after `a`. */
  lemma FindAfter(a: string, m: string, c: char, rest: string)
    requires LeadsOnly(m, c) && !Contains(a, m)
    ensures Find(a + m + rest, m) == Some(|a|)
  {
    var s := a + m + rest;
    assert s[|a|..|a| + |m|] == m;
    forall j | 0 <= j < |a| ensures !OccursAt(s, m, j) {
      if OccursAt(s, m, j) {
        if j + |m| <= |a| {
          assert s[..|a|] == a;
          OccursInSlice(s, m, 0, |a|, j);
          assert s[..|a|][j..j + |m|] == s[j..j + |m|];
          ContainsAt(a, m, j);
        } else {
          LeadNotInside(s, m, c, j, |a|);
        }
      }
    }
    FindIs(s, m, |a|);
  }

  /** No end marker starts inside a start marker at `p`. */
  lemma NoEndInStart(s: string, p: nat, j: nat)
    requires OccursAt(s, ManagedStart, p) && p <= j < p + |ManagedStart|
    ensures !OccursAt(s, ManagedEnd, j)
  {
    StartMarkerFacts();
    EndMarkerFacts();
    if OccursAt(s, ManagedEnd, j) {
      if j == p {
        OccursAtChar(s, ManagedStart, p, 17);
        OccursAtChar(s, ManagedEnd, j, 17);
      } else {
        OccursAtChar(s, ManagedEnd, j, 0);
        LeadNotInside(s, ManagedStart, 'K', p, j);
      }
    }
  }

  /** After a start marker, the first end marker is the one right after a
      stretch `m` that holds none. */
  lemma FindEndAfter(a: string, m: string, b: string)
    requires !Contains(m, ManagedEnd)
    ensures FindFrom(a + ManagedStart + m + ManagedEnd + b, ManagedEnd, |a|)
      == Some(|a| + |ManagedStart| + |m|)
  {
    var s := a + ManagedStart + m + ManagedEnd + b;
    var p, q := |a|, |a| + |ManagedStart| + |m|;
    assert s[q..q + |ManagedEnd|] == ManagedEnd;
    forall j | p <= j < q ensures !OccursAt(s, ManagedEnd, j) {
      NoEndBefore(a, m, b, j);
    }
    FindFromIs(s, ManagedEnd, p, q);
  }

  /** Between the start of the start marker and the end marker after `m`
      no end marker begins. */
  lemma NoEndBefore(a: string, m: string, b: string, j: nat)
    requires !Contains(m, ManagedEnd)
    requires |a| <= j < |a| + |ManagedStart| + |m|
    ensures !OccursAt(a + ManagedStart + m + ManagedEnd + b, ManagedEnd, j)
  {
    var s := a + ManagedStart + m + ManagedEnd + b;
    var p, q := |a|, |a| + |ManagedStart| + |m|;
    if j < p + |ManagedStart| {
      assert s[p..p + |ManagedStart|] == ManagedStart;
      NoEndInStart(s, p, j);
    } else if j + |ManagedEnd| <= q {
      NoEndInMiddle(a, m, b, j);
    } else {
      assert s[q..q + |ManagedEnd|] == ManagedEnd;
      EndMarkerFacts();
      if OccursAt(s, ManagedEnd, j) {
        LeadNotInside(s, ManagedEnd, 'K', j, q);
      }
    }
  }

  /** No end marker lies wholly inside a stretch `m` that holds none. */
  lemma NoEndInMiddle(a: string, m: string, b: string, j: nat)
    requires !Contains(m, ManagedEnd)
    requires |a| + |ManagedStart| <= j && j + |ManagedEnd| <= |a| + |ManagedStart| + |m|
    ensures !OccursAt(a + ManagedStart + m + ManagedEnd + b, ManagedEnd, j)
  {
    var x := a + ManagedStart + m;
    if OccursAt(x + ManagedEnd + b, ManagedEnd, j) {
      OccursInPrefix(x + ManagedEnd, b, ManagedEnd, j);
      OccursInPrefix(x, ManagedEnd, ManagedEnd, j);
      OccursInSuffix(a + ManagedStart, m, ManagedEnd, j);
    }
  }

  /** After a start marker, no end marker is found when the rest `b` holds
      none. */
  lemma NoEndAfter(a: string, b: string)
    requires !Contains(b, ManagedEnd)
    ensures FindFrom(a + ManagedStart + b, ManagedEnd, |a|).None?
  {
    var s := a + ManagedStart + b;
    var p := |a|;
    assert s[p..p + |ManagedStart|] == ManagedStart;
    forall j | p <= j ensures !OccursAt(s, ManagedEnd, j) {
      if j < p + |ManagedStart| {
        NoEndInStart(s, p, j);
      } else if OccursAt(s, ManagedEnd, j) {
        OccursInSuffix(a + ManagedStart, b, ManagedEnd, j);
      }
    }
  }

  // ---------------------------------------------------------------------------
  // Stripping the managed part

  /** `strip_managed_prefix`: the text from the first start marker through
      the first end marker after it is cut out and the two sides are joined
      with a single space; with no end marker only the start marker itself
      is cut out; with no start marker the value is kept as it is. */
  function StripManagedPrefix(value: string): (r: string)
    ensures |r| <= |value|
    ensures !Contains(value, ManagedStart) ==> r == value
  {
    match Find(value, ManagedStart)
    case None => value
    case Some(st) =>
      match FindFrom(value, ManagedEnd, st)
      case Some(e) =>
        var before := TrimEnd(value[..st]);
        var after := value[e + |ManagedEnd|..];
        Trim(before + (if |before| > 0 && !IsBlank(after) then " " else "") + TrimStart(after))
      case None => Trim(value[..st] + value[st + |ManagedStart|..])
  }

  /** With both markers present, the value loses everything between and
      including them, and what stood before and after is joined by one
      space. */
  lemma StripBothMarkers(a: string, m: string, b: string)
    requires !Contains(a, ManagedStart) && !Contains(m, ManagedEnd)
    ensures StripManagedPrefix(a + ManagedStart + m + ManagedEnd + b) == SpaceJoin(Trim(a), Trim(b))
  {
    var s := a + ManagedStart + m + ManagedEnd + b;
    StartMarkerFacts();
    assert s == a + ManagedStart + (m + ManagedEnd + b);
    FindAfter(a, ManagedStart, 'K', m + ManagedEnd + b);
    FindEndAfter(a, m, b);
    var e := |a| + |ManagedStart| + |m|;
    assert s[..|a|] == a;
    assert s[e + |ManagedEnd|..] == b;
    TrimSpaceJoin(a, b);
  }

  /** A start marker without an end marker after it is cut out alone. */
  lemma StripStartOnly(a: string, b: string)
    requires !Contains(a, ManagedStart) && !Contains(b, ManagedEnd)
    ensures StripManagedPrefix(a + ManagedStart + b) == Trim(a + b)
  {
    var s := a + ManagedStart + b;
    StartMarkerFacts();
    FindAfter(a, ManagedStart, 'K', b);
    NoEndAfter(a, b);
    assert s[..|a|] == a;
    assert s[|a| + |ManagedStart|..] == b;
  }

  /** A value that holds no start marker is left alone. */
  lemma StripUnmarked(value: string)
    requires !Contains(value, ManagedStart)
    ensures StripManagedPrefix(value) == value
  {
  }

  // ---------------------------------------------------------------------------
  // Building and applying the managed prefix

  /** `DRI_PRIME=<index>`. */
  function DriPrime(index: nat): (r: string)
    ensures NoChar(r, 'K') && !Contains(r, ManagedEnd)
  {
    var r := "DRI_PRIME=" + NatToString(index);
    NoCharConcat("DRI_PRIME=", NatToString(index), 'K');
    EndMarkerFacts();
    NoCharNotContains(r, ManagedEnd, 0, 'K');
    r
  }

  /** The variables the managed part sets: the configured ones, or
      `DRI_PRIME=<index>` alone when none are configured. */
  function ManagedVars(index: nat, managedEnv: seq<string>): (r: seq<string>)
    ensures |r| > 0
  {
    if |managedEnv| == 0 then [DriPrime(index)] else managedEnv
  }

  /** The variables between the two markers. */
  function ManagedPart(vars: seq<string>): (r: string)
    ensures |r| > 0 && r[0] == 'K' && r[|r| - 1] == '1'
  {
    ManagedStart + " " + Join(vars, " ") + " " + ManagedEnd
  }

  /** `build_managed_prefix`: nothing for the default GPU; otherwise the
      managed part, behind `env ` when the wrapper is asked for. */
  function BuildManagedPrefix(choice: GpuChoice, managedEnv: seq<string>, useEnvWrapper: bool): (r: Option<string>)
    ensures r.None? <==> choice.Default?
  {
    match choice
    case Default => None
    case Gpu(i) => Some(Wrapper(useEnvWrapper) + ManagedPart(ManagedVars(i, managedEnv)))
  }

  function Wrapper(useEnvWrapper: bool): (r: string)
    ensures !Contains(r, ManagedStart)
  {
    if useEnvWrapper then "env " else ""
  }

  /** The user's own part of an existing value: the value trimmed, its
      managed part stripped, and trimmed again; nothing when there is no
      value (an absent value reads as the empty one, which all three steps
      keep empty). */
  function ExistingTail(existing: Option<string>): (r: string)
    ensures |r| <= |ValueOrEmpty(existing)|
  {
    Trim(StripManagedPrefix(Trim(ValueOrEmpty(existing))))
  }

  /** `unwrap_or_default`: the value, or the empty one when there is
      none. */
  function ValueOrEmpty(existing: Option<string>): (r: string)
    ensures existing.None? ==> r == []
  {
    if existing.Some? then existing.value else ""
  }

  /** The command a new prefix goes in front of: the user's own part, or
      `%command%` when nothing of it is left. */
  function KeptCommand(existing: Option<string>): (r: string)
    ensures |r| > 0 && !IsWhitespace(r[0]) && !IsWhitespace(r[|r| - 1])
  {
    var t := ExistingTail(existing);
    if |t| == 0 then CommandPlaceholder else t
  }

  /** `apply_prefix_to_existing`: the user's own part of the existing value,
      behind the trimmed prefix when there is one. The result is trimmed, and
      never empty when a prefix is given. */
  function ApplyPrefixToExisting(existing: Option<string>, desiredPrefix: Option<string>): (r: string)
    ensures r == [] || (!IsWhitespace(r[0]) && !IsWhitespace(r[|r| - 1]))
    ensures desiredPrefix.Some? ==> |r| > 0
  {
    match desiredPrefix
    case None => ExistingTail(existing)
    case Some(p) =>
      PrefixedValue(Trim(p), KeptCommand(existing));
      Trim(Trim(p) + " " + KeptCommand(existing))
  }

  /** A trimmed head, a space and a trimmed non-empty tail need no more
      trimming, except for the space when the head is empty. */
  lemma PrefixedValue(x: string, t: string)
    requires x == [] || (!IsWhitespace(x[0]) && !IsWhitespace(x[|x| - 1]))
    requires |t| > 0 && !IsWhitespace(t[0]) && !IsWhitespace(t[|t| - 1])
    ensures Trim(x + " " + t) == SpaceJoin(x, t)
  {
    var s := x + " " + t;
    if |x| == 0 {
      assert s[1..] == t;
      assert TrimStart(s) == t;
    } else {
      assert s[0] == x[0] && s[|s| - 1] == t[|t| - 1];
      TrimOfTrimmed(s);
    }
  }

  /** The value written is the trimmed prefix, one space, and the user's
      own part or `%command%`. */
  lemma ApplyPrefixShape(existing: Option<string>, prefix: string)
    ensures ApplyPrefixToExisting(existing, Some(prefix)) == SpaceJoin(Trim(prefix), KeptCommand(existing))
  {
    PrefixedValue(Trim(prefix), KeptCommand(existing));
  }

  /** No configured variable mentions the end marker. */
  predicate EndFree(managedEnv: seq<string>) {
    forall k :: 0 <= k < |managedEnv| ==> !Contains(managedEnv[k], ManagedEnd)
  }

  /** The variables of an end-free configuration do not close the managed
      part early. */
  lemma VarsEndFree(index: nat, managedEnv: seq<string>)
    requires EndFree(managedEnv)
    ensures !Contains(" " + Join(ManagedVars(index, managedEnv), " ") + " ", ManagedEnd)
  {
    var j := Join(ManagedVars(index, managedEnv), " ");
    EndMarkerFacts();
    JoinNotContains(ManagedVars(index, managedEnv), ManagedEnd);
    var s := " " + j + " ";
    forall i: nat ensures !OccursAt(s, ManagedEnd, i) {
      if OccursAt(s, ManagedEnd, i) {
        assert s == ("" + " " + j) + " " + "";
        SpaceSplitOccurs("" + " " + j, "", ManagedEnd, i);
        SpaceSplitOccurs("", j, ManagedEnd, i);
      }
    }
  }

  /** Stripping undoes prefixing: whatever stood in front of the managed
      part and whatever follows it are all that is left. */
  lemma StripManagedPart(front: string, index: nat, managedEnv: seq<string>, t: string)
    requires !Contains(front, ManagedStart) && EndFree(managedEnv)
    ensures StripManagedPrefix(front + ManagedPart(ManagedVars(index, managedEnv)) + " " + t)
      == SpaceJoin(Trim(front), Trim(t))
  {
    var vars := ManagedVars(index, managedEnv);
    var m := " " + Join(vars, " ") + " ";
    VarsEndFree(index, managedEnv);
    assert front + ManagedPart(vars) + " " + t == front + ManagedStart + m + ManagedEnd + (" " + t);
    StripBothMarkers(front, m, " " + t);
    assert (" " + t)[1..] == t;
  }

  lemma EnvTrimmed()
    ensures Trim("env ") == "env"
  {
    assert TrimStart("env ") == "env ";
    assert "env "[..3] == "env";
  }

  /** The value written for a GPU choice: the prefix, one space, and the
      kept command. */
  lemma AppliedValue(existing: Option<string>, index: nat, managedEnv: seq<string>, useEnvWrapper: bool)
    ensures ApplyPrefixToExisting(existing, BuildManagedPrefix(Gpu(index), managedEnv, useEnvWrapper))
      == Wrapper(useEnvWrapper) + ManagedPart(ManagedVars(index, managedEnv)) + " " + KeptCommand(existing)
  {
    var p := Wrapper(useEnvWrapper) + ManagedPart(ManagedVars(index, managedEnv));
    assert p[0] == (if useEnvWrapper then 'e' else 'K') && p[|p| - 1] == '1';
    TrimOfTrimmed(p);
    ApplyPrefixShape(existing, p);
  }

  /** Text that starts and ends in non-whitespace chars, joined by a space,
      is already trimmed. */
  lemma JoinedTrimmed(x: string, t: string)
    requires |x| > 0 && !IsWhitespace(x[0])
    requires |t| > 0 && !IsWhitespace(t[|t| - 1])
    ensures Trim(x + " " + t) == x + " " + t
  {
    var v := x + " " + t;
    assert v[0] == x[0] && v[|v| - 1] == t[|t| - 1];
    TrimOfTrimmed(v);
  }

  /** The wrapper in front of a trimmed command: already trimmed, and what
      joining the trimmed wrapper to the command gives. */
  lemma WrapperJoin(useEnvWrapper: bool, t: string)
    requires |t| > 0 && !IsWhitespace(t[0]) && !IsWhitespace(t[|t| - 1])
    ensures SpaceJoin(Trim(Wrapper(useEnvWrapper)), Trim(t)) == Wrapper(useEnvWrapper) + t
    ensures Trim(Wrapper(useEnvWrapper) + t) == Wrapper(useEnvWrapper) + t
  {
    TrimOfTrimmed(t);
    if useEnvWrapper {
      EnvTrimmed();
      assert "env" + " " + t == "env " + t;
      JoinedTrimmed("env", t);
    } else {
      assert "" + t == t;
    }
  }

  /** What stripping leaves of a prefixed value: the wrapper, if any, and
      the command behind the prefix. */
  lemma TailOfPrefixed(useEnvWrapper: bool, index: nat, managedEnv: seq<string>, t: string)
    requires EndFree(managedEnv)
    requires |t| > 0 && !IsWhitespace(t[0]) && !IsWhitespace(t[|t| - 1])
    ensures ExistingTail(Some(Wrapper(useEnvWrapper) + ManagedPart(ManagedVars(index, managedEnv)) + " " + t))
      == Wrapper(useEnvWrapper) + t
  {
    var w := Wrapper(useEnvWrapper);
    var x := w + ManagedPart(ManagedVars(index, managedEnv));
    assert Trim(x + " " + t) == x + " " + t by {
      assert x[0] == (if useEnvWrapper then 'e' else 'K');
      JoinedTrimmed(x, t);
    }
    assert StripManagedPrefix(x + " " + t) == SpaceJoin(Trim(w), Trim(t)) by {
      StripManagedPart(w, index, managedEnv, t);
    }
    WrapperJoin(useEnvWrapper, t);
  }

  /** Clearing a value Kaede prefixed for a GPU gives back the user's own
      part, or `%command%` when there was none, behind `env` when the
      wrapper was used: the wrapper sits outside the markers and stays. */
  lemma ClearAfterApply(existing: Option<string>, index: nat, managedEnv: seq<string>, useEnvWrapper: bool)
    requires EndFree(managedEnv)
    ensures var v := ApplyPrefixToExisting(existing, BuildManagedPrefix(Gpu(index), managedEnv, useEnvWrapper));
      ApplyPrefixToExisting(Some(v), None) == Wrapper(useEnvWrapper) + KeptCommand(existing)
  {
    AppliedValue(existing, index, managedEnv, useEnvWrapper);
    TailOfPrefixed(useEnvWrapper, index, managedEnv, KeptCommand(existing));
  }

  /** Without the wrapper, applying the same GPU choice twice changes
      nothing the second time. */
  lemma ApplyIdempotent(existing: Option<string>, index: nat, managedEnv: seq<string>)
    requires EndFree(managedEnv)
    ensures var p := BuildManagedPrefix(Gpu(index), managedEnv, false);
      ApplyPrefixToExisting(Some(ApplyPrefixToExisting(existing, p)), p) == ApplyPrefixToExisting(existing, p)
  {
    var t := KeptCommand(existing);
    var v := ApplyPrefixToExisting(existing, BuildManagedPrefix(Gpu(index), managedEnv, false));
    AppliedValue(existing, index, managedEnv, false);
    TailOfPrefixed(false, index, managedEnv, t);
    assert "" + t == t;
    assert KeptCommand(Some(v)) == t;
    AppliedValue(Some(v), index, managedEnv, false);
  }

  /** With the wrapper, applying the same GPU choice again does not settle:
      the `env` left behind by stripping is kept as the user's own part, so
      every run adds another `env ` to the value. */
  lemma EnvWrapperGrows(existing: Option<string>, index: nat, managedEnv: seq<string>)
    requires EndFree(managedEnv)
    ensures var p := BuildManagedPrefix(Gpu(index), managedEnv, true);
      var v := ApplyPrefixToExisting(existing, p);
      var again := ApplyPrefixToExisting(Some(v), p);
      again == p.value + " " + ("env " + KeptCommand(existing)) && |again| == |v| + 4
  {
    var t := KeptCommand(existing);
    var p := Wrapper(true) + ManagedPart(ManagedVars(index, managedEnv));
    var v := ApplyPrefixToExisting(existing, BuildManagedPrefix(Gpu(index), managedEnv, true));
    assert v == p + " " + t by {
      AppliedValue(existing, index, managedEnv, true);
    }
    assert KeptCommand(Some(v)) == "env " + t by {
      TailOfPrefixed(true, index, managedEnv, t);
    }
    assert ApplyPrefixToExisting(Some(v), Some(p)) == p + " " + ("env " + t) by {
      AppliedValue(Some(v), index, managedEnv, true);
    }
  }

  // ---------------------------------------------------------------------------
  // Validation

  /** `validate_expected_state`: for the default GPU the value is absent or
      free of both markers; for a GPU it is present and holds both markers
      and that GPU's `DRI_PRIME=<index>`. */
  function ValidateExpectedState(launchOptions: Option<string>, choice: GpuChoice): (r: bool)
    ensures choice.Gpu? && r ==> launchOptions.Some?
    ensures choice.Default? && launchOptions.None? ==> r
  {
    match choice
    case Default =>
      launchOptions.None? || (!Contains(launchOptions.value, ManagedStart) && !Contains(launchOptions.value, ManagedEnd))
    case Gpu(i) =>
      && launchOptions.Some?
      && Contains(launchOptions.value, ManagedStart)
      && Contains(launchOptions.value, ManagedEnd)
      && Contains(launchOptions.value, DriPrime(i))
  }

  /** The prefix for a GPU holds both markers and, when the configured
      variables are empty or carry it, that GPU's `DRI_PRIME`. */
  lemma PrefixHolds(index: nat, managedEnv: seq<string>, useEnvWrapper: bool, k: nat)
    requires |managedEnv| == 0 || (k < |managedEnv| && managedEnv[k] == DriPrime(index))
    ensures var p := Wrapper(useEnvWrapper) + ManagedPart(ManagedVars(index, managedEnv));
      Contains(p, ManagedStart) && Contains(p, ManagedEnd) && Contains(p, DriPrime(index))
  {
    var vars := ManagedVars(index, managedEnv);
    JoinContainsPart(vars, " ", if |managedEnv| == 0 then 0 else k);
    PartHolds(Wrapper(useEnvWrapper), Join(vars, " "), DriPrime(index));
  }

  /** The managed part holds both markers and whatever its variables
      hold. */
  lemma PartHolds(w: string, j: string, x: string)
    requires Contains(j, x)
    ensures var p := w + (ManagedStart + " " + j + " " + ManagedEnd);
      Contains(p, ManagedStart) && Contains(p, ManagedEnd) && Contains(p, x)
  {
    var a := ManagedStart + " ";
    assert OccursAt(ManagedStart, ManagedStart, 0) && OccursAt(ManagedEnd, ManagedEnd, 0);
    ContainsLeft(ManagedStart, " ", ManagedStart);
    ContainsLeft(a, j, ManagedStart);
    ContainsRight(a, j, x);
    ContainsLeft(a + j, " ", ManagedStart);
    ContainsLeft(a + j, " ", x);
    ContainsLeft(a + j + " ", ManagedEnd, ManagedStart);
    ContainsLeft(a + j + " ", ManagedEnd, x);
    ContainsRight(a + j + " ", ManagedEnd, ManagedEnd);
    var m := a + j + " " + ManagedEnd;
    ContainsRight(w, m, ManagedStart);
    ContainsRight(w, m, ManagedEnd);
    ContainsRight(w, m, x);
  }

  /** The value written for a GPU choice passes validation when the
      configured variables are empty or carry that GPU's `DRI_PRIME`. */
  lemma ValidAfterApply(existing: Option<string>, index: nat, managedEnv: seq<string>, useEnvWrapper: bool, k: nat)
    requires |managedEnv| == 0 || (k < |managedEnv| && managedEnv[k] == DriPrime(index))
    ensures ValidateExpectedState(
      Some(ApplyPrefixToExisting(existing, BuildManagedPrefix(Gpu(index), managedEnv, useEnvWrapper))), Gpu(index))
  {
    var p := Wrapper(useEnvWrapper) + ManagedPart(ManagedVars(index, managedEnv));
    var t := KeptCommand(existing);
    AppliedValue(existing, index, managedEnv, useEnvWrapper);
    PrefixHolds(index, managedEnv, useEnvWrapper, k);
    ContainsLeft(p, " ", ManagedStart);
    ContainsLeft(p, " ", ManagedEnd);
    ContainsLeft(p, " ", DriPrime(index));
    ContainsLeft(p + " ", t, ManagedStart);
    ContainsLeft(p + " ", t, ManagedEnd);
    ContainsLeft(p + " ", t, DriPrime(index));
  }

  /** Neither marker appears in `v`. */
  predicate MarkerFree(v: string) {
    !Contains(v, ManagedStart) && !Contains(v, ManagedEnd)
  }

  /** Trimming keeps a marker-free value marker-free. */
  lemma TrimMarkerFree(v: string)
    requires MarkerFree(v)
    ensures MarkerFree(Trim(v))
  {
    var a := |v| - |TrimStart(v)|;
    var b := a + |Trim(v)|;
    assert b <= |v| && Trim(v) == v[a..b] by {
      TrimIsSlice(v);
    }
    SliceNotContains(v, ManagedStart, a, b);
    SliceNotContains(v, ManagedEnd, a, b);
  }

  /** The wrapper adds no marker. */
  lemma WrapperMarkerFree(useEnvWrapper: bool, x: string)
    requires MarkerFree(x)
    ensures MarkerFree(Wrapper(useEnvWrapper) + x)
  {
    if useEnvWrapper {
      var s := "env " + x;
      StartMarkerFacts();
      EndMarkerFacts();
      forall j: nat ensures !OccursAt(s, ManagedStart, j) && !OccursAt(s, ManagedEnd, j) {
        if j < 4 {
          assert s[j] != 'K';
          FirstCharDiffers(s, ManagedStart, j);
          FirstCharDiffers(s, ManagedEnd, j);
        } else {
          if OccursAt(s, ManagedStart, j) {
            OccursInSuffix("env ", x, ManagedStart, j);
          }
          if OccursAt(s, ManagedEnd, j) {
            OccursInSuffix("env ", x, ManagedEnd, j);
          }
        }
      }
    } else {
      assert "" + x == x;
    }
  }

  /** The command kept from a marker-free value is marker-free. */
  lemma KeptCommandMarkerFree(existing: Option<string>)
    requires existing.Some? ==> MarkerFree(existing.value)
    ensures MarkerFree(KeptCommand(existing))
  {
    var e := if existing.Some? then existing.value else "";
    assert MarkerFree(e);
    TrimMarkerFree(e);
    TrimMarkerFree(Trim(e));
  }

  /** Going back to the default GPU after a GPU choice passes the default
      GPU's validation, as long as the original value held no marker. */
  lemma ValidAfterClear(existing: Option<string>, index: nat, managedEnv: seq<string>, useEnvWrapper: bool)
    requires EndFree(managedEnv)
    requires existing.Some? ==> MarkerFree(existing.value)
    ensures var v := ApplyPrefixToExisting(existing, BuildManagedPrefix(Gpu(index), managedEnv, useEnvWrapper));
      ValidateExpectedState(Some(ApplyPrefixToExisting(Some(v), None)), Default)
  {
    ClearAfterApply(existing, index, managedEnv, useEnvWrapper);
    KeptCommandMarkerFree(existing);
    WrapperMarkerFree(useEnvWrapper, KeptCommand(existing));
  }

  /** Clearing a GPU choice made without the wrapper gives back the
      original value, trimmed, when it held no start marker and was not
      blank. */
  lemma ClearRestoresOriginal(original: string, index: nat, managedEnv: seq<string>)
    requires EndFree(managedEnv) && !Contains(original, ManagedStart) && !IsBlank(original)
    ensures var v := ApplyPrefixToExisting(Some(original), BuildManagedPrefix(Gpu(index), managedEnv, false));
      ApplyPrefixToExisting(Some(v), None) == Trim(original)
  {
    var t := Trim(original);
    ClearAfterApply(Some(original), index, managedEnv, false);
    assert KeptCommand(Some(original)) == t by {
      TrimNotContains(original, ManagedStart);
      StripUnmarked(t);
      TrimIdempotent(original);
    }
    assert Wrapper(false) + t == t;
  }

  // ---------------------------------------------------------------------------
  // The LaunchOptions line

  /** The line `upsert_app_launch_options` writes, without its line break:
      `<indent>"LaunchOptions"<tab><tab>"<value>"`. */
  function LaunchOptionsEntry(indent: string, value: string): (r: string)
    ensures |r| == |indent| + |value| + 19
  {
    indent + "\"LaunchOptions\"\t\t\"" + value + "\""
  }

  /** The position of the quote that comes `k` quotes after the first one
      from `i` on, if the line has that many. */
  function NthQuote(line: string, i: nat, k: nat): (r: Option<nat>)
    ensures r.Some? ==> i <= r.value < |line| && line[r.value] == '"'
    decreases k
  {
    match Vdf.QuoteFrom(line, i, |line|)
    case None => None
    case Some(q) => if k == 0 then Some(q) else NthQuote(line, q + 1, k - 1)
  }

  /** Where the third and the fourth quote of a line are, if it has four. */
  function ValueQuotes(line: string): (r: Option<(nat, nat)>)
    ensures r.Some? ==> r.value.0 < r.value.1 < |line| && line[r.value.0] == '"' && line[r.value.1] == '"'
  {
    match NthQuote(line, 0, 2)
    case None => None
    case Some(q2) =>
      match Vdf.QuoteFrom(line, q2 + 1, |line|)
      case None => None
      case Some(q3) => Some((q2, q3))
  }

  /** `parse_launch_options_value`: the text between the third and the
      fourth quote of the line, trimmed; nothing when the line has fewer
      than four quotes. (The source also refuses a fourth quote before the
      third or past the end of the line, which cannot happen.) */
  function ParseLaunchOptionsValue(line: string): (r: Option<string>)
    ensures r.Some? <==> ValueQuotes(line).Some?
    ensures r.Some? ==> r.value == [] || (!IsWhitespace(r.value[0]) && !IsWhitespace(r.value[|r.value| - 1]))
    ensures r.Some? ==> NoChar(r.value, '"')
  {
    match ValueQuotes(line)
    case None => None
    case Some((q2, q3)) =>
      var inner := line[q2 + 1..q3];
      assert NoChar(inner, '"') by {
        ValueQuotesBetween(line);
        forall k | 0 <= k < |inner| ensures inner[k] != '"' {
          assert inner[k] == line[q2 + 1 + k];
        }
      }
      TrimNoChar(inner, '"');
      Some(Trim(inner))
  }

  /** No quote lies between the third and the fourth. */
  lemma ValueQuotesBetween(line: string)
    requires ValueQuotes(line).Some?
    ensures forall k :: ValueQuotes(line).value.0 < k < ValueQuotes(line).value.1 ==> line[k] != '"'
  {
    Vdf.QuoteFromFirst(line, NthQuote(line, 0, 2).value + 1, |line|);
  }

  /** Counting quotes up to what `QuoteFrom` finds from `i` on: one more
      than before `i`, or, when it finds none, no more up to the end. */
  lemma QuoteFromCount(s: string, i: nat, n: nat)
    requires i <= n <= |s|
    ensures var r := Vdf.QuoteFrom(s, i, n);
      && (r.Some? ==> Vdf.QuotesIn(s, 0, r.value + 1) == Vdf.QuotesIn(s, 0, i) + 1)
      && (r.None? ==> Vdf.QuotesIn(s, 0, n) == Vdf.QuotesIn(s, 0, i))
  {
    Vdf.QuoteFromFirst(s, i, n);
    match Vdf.QuoteFrom(s, i, n)
    case Some(q) =>
      Vdf.QuotesInSkip(s, 0, i, q);
    case None =>
      Vdf.QuotesInSkip(s, 0, i, n);
  }

  /** Counting quotes over a longer stretch finds at least as many. */
  lemma {:induction false} QuotesInMono(s: string, b: nat, c: nat)
    requires b <= c <= |s|
    ensures Vdf.QuotesIn(s, 0, b) <= Vdf.QuotesIn(s, 0, c)
    decreases c
  {
    if b < c {
      QuotesInMono(s, b, c - 1);
    }
  }

  /** Quotes counted from the start: the `k`-th quote after the first one
      from `i` on exists exactly when the line holds more than `k` quotes
      past those before `i`, and it is the next one counted. */
  lemma {:induction false} NthQuoteCount(line: string, i: nat, k: nat)
    requires i <= |line|
    ensures NthQuote(line, i, k).Some? <==> Vdf.QuotesIn(line, 0, |line|) > Vdf.QuotesIn(line, 0, i) + k
    ensures NthQuote(line, i, k).Some? ==>
      Vdf.QuotesIn(line, 0, NthQuote(line, i, k).value + 1) == Vdf.QuotesIn(line, 0, i) + k + 1
    decreases k
  {
    var n := |line|;
    QuoteFromCount(line, i, n);
    match Vdf.QuoteFrom(line, i, n)
    case None =>
    case Some(q) =>
      QuotesInMono(line, q + 1, n);
      if k > 0 {
        NthQuoteCount(line, q + 1, k - 1);
      }
  }

  /** A line yields a value exactly when it holds at least four quotes. */
  lemma ParseNeedsFourQuotes(line: string)
    ensures ValueQuotes(line).Some? <==> Vdf.QuotesIn(line, 0, |line|) >= 4
  {
    assert Vdf.QuotesIn(line, 0, 0) == 0;
    NthQuoteCount(line, 0, 2);
    if NthQuote(line, 0, 2).Some? {
      NthQuoteCount(line, NthQuote(line, 0, 2).value + 1, 0);
    }
  }

  /** The literal between the indent and the value of a LaunchOptions
      line, and where its quotes are. */
  lemma EntryLiteral()
    ensures var l := "\"LaunchOptions\"\t\t\"";
      && |l| == 18 && l[0] == '"' && l[14] == '"' && l[17] == '"'
      && (forall j :: 1 <= j < 14 ==> l[j] != '"')
      && l[15] != '"' && l[16] != '"'
  {
  }

  /** Where the quotes of a LaunchOptions line Kaede writes are: around
      the key and around the value, and nowhere else before the value's
      closing quote. */
  lemma EntryChars(indent: string, value: string, rest: string)
    requires NoChar(indent, '"') && NoChar(value, '"')
    ensures var s, a := LaunchOptionsEntry(indent, value) + rest, |indent|;
      && s[a] == '"' && s[a + 14] == '"' && s[a + 17] == '"' && s[a + 18 + |value|] == '"'
      && (forall k :: 0 <= k < a ==> s[k] != '"')
      && (forall k :: a < k < a + 14 ==> s[k] != '"')
      && s[a + 15] != '"' && s[a + 16] != '"'
      && (forall k :: a + 18 <= k < a + 18 + |value| ==> s[k] != '"')
  {
    var l := "\"LaunchOptions\"\t\t\"";
    var s := LaunchOptionsEntry(indent, value) + rest;
    var a := |indent|;
    EntryLiteral();
    assert s == indent + l + value + "\"" + rest;
    assert forall k :: 0 <= k < a ==> s[k] == indent[k];
    assert forall k :: a <= k < a + 18 ==> s[k] == l[k - a];
    assert forall k :: a + 18 <= k < a + 18 + |value| ==> s[k] == value[k - a - 18];
  }

  /** The third and fourth quotes of a LaunchOptions line Kaede writes are
      the ones around the value. */
  lemma EntryQuotes(indent: string, value: string, rest: string)
    requires NoChar(indent, '"') && NoChar(value, '"')
    ensures ValueQuotes(LaunchOptionsEntry(indent, value) + rest)
      == Some((|indent| + 17, |indent| + 18 + |value|))
  {
    var s := LaunchOptionsEntry(indent, value) + rest;
    var a, n := |indent|, |s|;
    EntryChars(indent, value, rest);
    Vdf.QuoteFromIs(s, 0, n, a);
    Vdf.QuoteFromIs(s, a + 1, n, a + 14);
    Vdf.QuoteFromIs(s, a + 15, n, a + 17);
    Vdf.QuoteFromIs(s, a + 18, n, a + 18 + |value|);
    assert NthQuote(s, a + 15, 0) == Some(a + 17);
    assert NthQuote(s, a + 1, 1) == Some(a + 17);
  }

  /** A LaunchOptions line Kaede writes reads back as its value, trimmed,
      whatever follows it on the line. */
  lemma ParseEntry(indent: string, value: string, rest: string)
    requires NoChar(indent, '"') && NoChar(value, '"')
    ensures ParseLaunchOptionsValue(LaunchOptionsEntry(indent, value) + rest) == Some(Trim(value))
  {
    var s := LaunchOptionsEntry(indent, value) + rest;
    EntryQuotes(indent, value, rest);
    assert s[|indent| + 18..|indent| + 18 + |value|] == value;
  }
}

=== FILE: launcher.dfy ===
/** The environment a GPU choice puts around an application: the vendor
    profile of the selected GPU, the `KEY=VALUE` pairs that pin a process to
    it, the `flatpak override` arguments that set or clear them, and the two
    ways an `Exec` line is wrapped (`flatpak run --env=…` tokens, or an `env`
    prefix). */
module Launcher {
  import opened Text
  import opened Models
  import Assoc

  // ---------------------------------------------------------------------------
  // Vendor profile

  /** What the environment builder needs to know about the selected GPU. */
  datatype GpuProfile = GpuProfile(isNvidia: bool, isMesa: bool, mesaSelector: Option<string>)

  /** The lower-cased name, driver and renderer of a GPU, space separated. */
  function Haystack(gpu: GpuInfo): string {
    ToAsciiLower(gpu.name) + Described(gpu.driver) + Described(gpu.renderer)
  }

  /** A space and the lower-cased text, or nothing. */
  function Described(d: Option<string>): string {
    if d.Some? then " " + ToAsciiLower(d.value) else ""
  }

  /** The lower-cased kernel driver, empty when unknown. */
  function DriverName(gpu: GpuInfo): string {
    if gpu.driver.Some? then ToAsciiLower(gpu.driver.value) else ""
  }

  /** The kernel drivers whose Vulkan stack is Mesa's. */
  predicate MesaDriver(driver: string) {
    || Contains(driver, "amdgpu")
    || Contains(driver, "radeon")
    || Contains(driver, "i915")
    || Contains(driver, "iris")
    || Contains(driver, "nouveau")
  }

  /** `gpu_profile`: NVIDIA when the driver is `nvidia` or any of the GPU's
      descriptions mentions it; Mesa only when not NVIDIA. */
  function GpuProfileOf(gpu: Option<GpuInfo>): (p: GpuProfile)
    ensures gpu.None? ==> p == GpuProfile(false, false, None)
    ensures !(p.isNvidia && p.isMesa)
    ensures gpu.Some? ==> p.mesaSelector == MesaSelector(gpu.value.pciSlot)
  {
    match gpu
    case None => GpuProfile(false, false, None)
    case Some(g) =>
      var hay := Haystack(g);
      var driver := DriverName(g);
      var nvidia := driver == "nvidia" || Contains(hay, "nvidia");
      var mesa := !nvidia && (Contains(hay, "mesa") || MesaDriver(driver));
      GpuProfile(nvidia, mesa, MesaSelector(g.pciSlot))
  }

  /** The GPU's own name is part of what is searched. */
  lemma HaystackHasName(gpu: GpuInfo, w: string)
    requires Contains(ToAsciiLower(gpu.name), w)
    ensures Contains(Haystack(gpu), w)
  {
    var tail := Described(gpu.driver) + Described(gpu.renderer);
    assert Haystack(gpu) == ToAsciiLower(gpu.name) + tail;
    FindExtend(ToAsciiLower(gpu.name), tail, w);
  }

  /** A GPU whose name mentions NVIDIA, in any letter case, is treated as an
      NVIDIA GPU and never as a Mesa one. */
  lemma NvidiaByName(gpu: GpuInfo)
    requires Contains(ToAsciiLower(gpu.name), "nvidia")
    ensures GpuProfileOf(Some(gpu)).isNvidia && !GpuProfileOf(Some(gpu)).isMesa
  {
    HaystackHasName(gpu, "nvidia");
  }

  /** A GPU on a Mesa kernel driver is a Mesa GPU unless something names it
      NVIDIA. */
  lemma MesaByDriver(gpu: GpuInfo)
    requires MesaDriver(DriverName(gpu))
    requires DriverName(gpu) != "nvidia" && !Contains(Haystack(gpu), "nvidia")
    ensures GpuProfileOf(Some(gpu)).isMesa && !GpuProfileOf(Some(gpu)).isNvidia
  {
  }

  /** The driver `NVIDIA` (any case) alone makes the GPU an NVIDIA one. */
  lemma NvidiaByDriver(gpu: GpuInfo, d: string)
    requires gpu.driver == Some(d) && ToAsciiLower(d) == "nvidia"
    ensures GpuProfileOf(Some(gpu)).isNvidia && !GpuProfileOf(Some(gpu)).isMesa
  {
    assert DriverName(gpu) == "nvidia";
  }

  // ---------------------------------------------------------------------------
  // The Mesa device selector

  /** `:` and `.` both become `_`. */
  function Underscored(s: string): (r: string)
    ensures |r| == |s| && NoChar(r, ':') && NoChar(r, '.')
    ensures forall i :: 0 <= i < |s| ==> r[i] == (if s[i] == ':' || s[i] == '.' then '_' else s[i])
  {
    ReplaceChar(ReplaceChar(s, ':', '_'), '.', '_')
  }

  /** `mesa_vk_device_select_from_pci`: `pci-` and the PCI address with its
      separators turned into `_`; an address without a PCI domain (one `:`)
      gets the domain `0000`. None for a missing or blank slot. */
  function MesaSelector(pci: Option<string>): (r: Option<string>)
    ensures r.None? <==> pci.None? || IsBlank(pci.value)
    ensures r.Some? ==> StartsWith(r.value, "pci-") && NoChar(r.value[4..], ':') && NoChar(r.value[4..], '.')
  {
    if pci.None? then None
    else
      var slot := Trim(pci.value);
      if |slot| == 0 then None
      else
        var full := if CountChar(slot, ':') == 1 then "0000:" + slot else slot;
        var r := "pci-" + Underscored(full);
        assert r[4..] == Underscored(full);
        Some(r)
  }

  /** The worked example of the selector format. */
  lemma MesaSelectorExample()
    ensures MesaSelector(Some("01:00.0")) == Some("pci-0000_01_00_0")
  {
    var s := "01:00.0";
    ExampleSlot();
    var u := Underscored("0000:" + s);
    assert u == "0000_01_00_0" by {
      ExampleUnderscored();
    }
    assert MesaSelector(Some(s)) == Some("pci-" + u);
    assert "pci-" + u == "pci-0000_01_00_0";
  }

  lemma ExampleSlot()
    ensures Trim("01:00.0") == "01:00.0" && CountChar("01:00.0", ':') == 1
  {
    var s := "01:00.0";
    assert TrimStart(s) == s;
    assert TrimEnd(s) == s;
  }

  lemma ExampleUnderscored()
    ensures Underscored("0000:" + "01:00.0") == "0000_01_00_0"
  {
    var full := "0000:" + "01:00.0";
    assert full == "0000:01:00.0";
    var u := Underscored(full);
    assert |u| == 12;
    forall i | 0 <= i < 12 ensures u[i] == "0000_01_00_0"[i] {
    }
  }

  /** A short address and the same address with domain `0000` select the
      same device. */
  lemma MesaSelectorDomain(slot: string)
    requires Trim(slot) == slot && CountChar(slot, ':') == 1
    ensures MesaSelector(Some(slot)) == MesaSelector(Some("0000:" + slot))
  {
    var full := "0000:" + slot;
    assert |slot| > 0;
    assert Trim(full) == full by {
      assert !IsWhitespace(slot[|slot| - 1]);
      assert full[|full| - 1] == slot[|slot| - 1];
      TrimStartNoLead(full);
    }
    assert CountChar(full, ':') == 2 by {
      CountCharAppend("0000:", slot, ':');
    }
  }

  // ---------------------------------------------------------------------------
  // Environment pairs

  /** The variables the launcher sets or clears. */
  datatype Var =
    | DriPrime
    | NvPrimeRenderOffload
    | GlxVendorLibraryName
    | VkLayerNvOptimus
    | MesaVkDeviceSelect
    | MesaVkDeviceSelectForceDefault
    | PressureVesselImportVars

  function VarName(v: Var): string {
    match v
    case DriPrime => "DRI_PRIME"
    case NvPrimeRenderOffload => "__NV_PRIME_RENDER_OFFLOAD"
    case GlxVendorLibraryName => "__GLX_VENDOR_LIBRARY_NAME"
    case VkLayerNvOptimus => "__VK_LAYER_NV_optimus"
    case MesaVkDeviceSelect => "MESA_VK_DEVICE_SELECT"
    case MesaVkDeviceSelectForceDefault => "MESA_VK_DEVICE_SELECT_FORCE_DEFAULT_DEVICE"
    case PressureVesselImportVars => "PRESSURE_VESSEL_IMPORT_VARS"
  }

  function VarNames(vs: seq<Var>): (r: seq<string>)
    ensures |r| == |vs| && forall i :: 0 <= i < |vs| ==> r[i] == VarName(vs[i])
  {
    if |vs| == 0 then [] else [VarName(vs[0])] + VarNames(vs[1..])
  }

  /** One environment variable and its value. */
  type EnvVar = (Var, string)

  /** `NAME=value`. */
  function Render(v: EnvVar): string {
    VarName(v.0) + "=" + v.1
  }

  function RenderAll(vs: seq<EnvVar>): (r: seq<string>)
    ensures |r| == |vs| && forall i :: 0 <= i < |vs| ==> r[i] == Render(vs[i])
  {
    if |vs| == 0 then [] else [Render(vs[0])] + RenderAll(vs[1..])
  }

  /** The PRIME render-offload triple of the proprietary NVIDIA driver. */
  const NVIDIA_VARS: seq<EnvVar> := [
    (NvPrimeRenderOffload, "1"),
    (GlxVendorLibraryName, "nvidia"),
    (VkLayerNvOptimus, "NVIDIA_only")]

  const NVIDIA_NAMES: seq<Var> := [NvPrimeRenderOffload, GlxVendorLibraryName, VkLayerNvOptimus]

  /** Mesa's device selection: the selector when the slot gave one, and the
      force-default flag for GPU 0. */
  function MesaVars(index: nat, selector: Option<string>): seq<EnvVar> {
    (if selector.Some? then [(MesaVkDeviceSelect, selector.value)] else [])
    + (if index == 0 then [(MesaVkDeviceSelectForceDefault, "1")] else [])
  }

  /** The variables that select the GPU itself. */
  function GpuVars(index: nat, p: GpuProfile): seq<EnvVar> {
    [(DriPrime, NatToString(index))]
    + (if p.isNvidia then NVIDIA_VARS else [])
    + (if p.isMesa then MesaVars(index, p.mesaSelector) else [])
  }

  /** The variables Steam's container runtime is told to import. */
  function Imported(index: nat, p: GpuProfile): seq<Var> {
    [DriPrime]
    + (if p.isNvidia then NVIDIA_NAMES else [])
    + (if p.isMesa then [MesaVkDeviceSelect] + (if index == 0 then [MesaVkDeviceSelectForceDefault] else []) else [])
  }

  /** The comma list of imported names. */
  function ImportList(index: nat, p: GpuProfile): string {
    Join(VarNames(Imported(index, p)), ",")
  }

  /** The variables of `build_env_pairs`, in the order it pushes them. */
  function EnvVars(index: nat, isSteam: bool, p: GpuProfile): seq<EnvVar> {
    GpuVars(index, p)
    + (if isSteam then [(PressureVesselImportVars, ImportList(index, p))] else [])
  }

  /** `build_env_pairs`. */
  function BuildEnvPairs(index: nat, isSteam: bool, gpu: Option<GpuInfo>): (r: seq<string>)
    ensures |r| > 0 && r[0] == "DRI_PRIME=" + NatToString(index)
    ensures isSteam ==> r[|r| - 1] == "PRESSURE_VESSEL_IMPORT_VARS=" + ImportList(index, GpuProfileOf(gpu))
  {
    RenderAll(EnvVars(index, isSteam, GpuProfileOf(gpu)))
  }

  /** The variables a profile sets, by vendor: the count and the place of
      each group. */
  lemma EnvVarsLayout(index: nat, isSteam: bool, p: GpuProfile)
    requires !(p.isNvidia && p.isMesa)
    ensures var vs := EnvVars(index, isSteam, p);
      && |vs| == 1 + (if p.isNvidia then 3 else 0)
                 + (if p.isMesa then (if p.mesaSelector.Some? then 1 else 0) + (if index == 0 then 1 else 0) else 0)
                 + (if isSteam then 1 else 0)
      && vs[0] == (DriPrime, NatToString(index))
      && (p.isNvidia ==> vs[1..4] == NVIDIA_VARS)
      && (isSteam ==> vs[|vs| - 1].0 == PressureVesselImportVars)
  {
    var vs := EnvVars(index, isSteam, p);
    if p.isNvidia {
      var tail := if isSteam then [(PressureVesselImportVars, ImportList(index, p))] else [];
      assert vs == [(DriPrime, NatToString(index))] + NVIDIA_VARS + tail;
      assert vs[1..4] == NVIDIA_VARS;
    }
  }

  lemma NamesAppend(a: seq<EnvVar>, b: seq<EnvVar>)
    ensures Assoc.Keys(a + b) == Assoc.Keys(a) + Assoc.Keys(b)
  {
    assert |Assoc.Keys(a + b)| == |Assoc.Keys(a) + Assoc.Keys(b)|;
    forall i | 0 <= i < |a + b| ensures Assoc.Keys(a + b)[i] == (Assoc.Keys(a) + Assoc.Keys(b))[i] {
      if i >= |a| {
        assert (a + b)[i] == b[i - |a|];
      }
    }
  }

  /** The variables set for a GPU, group by group. */
  lemma GpuVarNames(index: nat, p: GpuProfile)
    ensures Assoc.Keys(GpuVars(index, p)) == [DriPrime]
      + (if p.isNvidia then NVIDIA_NAMES else [])
      + (if p.isMesa then (if p.mesaSelector.Some? then [MesaVkDeviceSelect] else [])
           + (if index == 0 then [MesaVkDeviceSelectForceDefault] else []) else [])
  {
    var own := [(DriPrime, NatToString(index))];
    var nv := if p.isNvidia then NVIDIA_VARS else [];
    var me := if p.isMesa then MesaVars(index, p.mesaSelector) else [];
    assert GpuVars(index, p) == own + nv + me;
    assert Assoc.Keys(own + nv + me) == Assoc.Keys(own) + Assoc.Keys(nv) + Assoc.Keys(me) by {
      NamesAppend(own, nv);
      NamesAppend(own + nv, me);
    }
    assert Assoc.Keys(own) == [DriPrime];
    assert Assoc.Keys(nv) == (if p.isNvidia then NVIDIA_NAMES else []);
    assert Assoc.Keys(me) == (if p.isMesa then (if p.mesaSelector.Some? then [MesaVkDeviceSelect] else [])
           + (if index == 0 then [MesaVkDeviceSelectForceDefault] else []) else []) by {
      if p.isMesa {
        var sel := if p.mesaSelector.Some? then [(MesaVkDeviceSelect, p.mesaSelector.value)] else [];
        var force := if index == 0 then [(MesaVkDeviceSelectForceDefault, "1")] else [];
        assert me == sel + force;
        NamesAppend(sel, force);
      }
    }
  }

  /** The Mesa selector pair is set exactly when the GPU is a Mesa one with
      a selector, the force-default pair exactly when it is a Mesa one and
      GPU 0. */
  lemma MesaPairsWhen(index: nat, p: GpuProfile)
    ensures MesaVkDeviceSelect in Assoc.Keys(GpuVars(index, p)) <==> p.isMesa && p.mesaSelector.Some?
    ensures MesaVkDeviceSelectForceDefault in Assoc.Keys(GpuVars(index, p)) <==> p.isMesa && index == 0
  {
    GpuVarNames(index, p);
  }

  /** Steam's import list names every variable the GPU selection sets, and
      one more exactly when the GPU is a Mesa one without a selector: the
      selector is listed though its pair was never set. */
  lemma ImportedCovers(index: nat, p: GpuProfile)
    ensures forall v :: v in Assoc.Keys(GpuVars(index, p)) ==> v in Imported(index, p)
    ensures forall v :: v in Imported(index, p) ==>
      v in Assoc.Keys(GpuVars(index, p)) || (v == MesaVkDeviceSelect && p.isMesa && p.mesaSelector.None?)
    ensures Imported(index, p)[0] == DriPrime
  {
    GpuVarNames(index, p);
  }

  /** For Steam the same pairs come first, then the import list, last; the
      list starts with `DRI_PRIME`. */
  lemma SteamAddsImportList(index: nat, gpu: Option<GpuInfo>)
    ensures BuildEnvPairs(index, true, gpu) == BuildEnvPairs(index, false, gpu)
      + ["PRESSURE_VESSEL_IMPORT_VARS=" + ImportList(index, GpuProfileOf(gpu))]
    ensures StartsWith(ImportList(index, GpuProfileOf(gpu)), "DRI_PRIME")
  {
    var p := GpuProfileOf(gpu);
    var last := (PressureVesselImportVars, ImportList(index, p));
    RenderAllAppend(GpuVars(index, p), [last]);
    assert EnvVars(index, false, p) == GpuVars(index, p);
    JoinHead(VarNames(Imported(index, p)), ",");
  }

  lemma RenderAllAppend(a: seq<EnvVar>, b: seq<EnvVar>)
    ensures RenderAll(a + b) == RenderAll(a) + RenderAll(b)
  {
    assert |RenderAll(a + b)| == |RenderAll(a) + RenderAll(b)|;
    forall i | 0 <= i < |a + b| ensures RenderAll(a + b)[i] == (RenderAll(a) + RenderAll(b))[i] {
      if i >= |a| {
        assert (a + b)[i] == b[i - |a|];
      }
    }
  }

  /** `steam_env_vars`: nothing for the default GPU; otherwise the Steam
      flavour of the pairs, which ends in the import list. */
  function SteamEnvVars(choice: GpuChoice, gpu: Option<GpuInfo>): (r: seq<string>)
    ensures r == [] <==> choice.Default?
    ensures choice.Gpu? ==> |r| >= 2 && r[0] == "DRI_PRIME=" + NatToString(choice.index)
    ensures choice.Gpu? ==> StartsWith(r[|r| - 1], "PRESSURE_VESSEL_IMPORT_VARS=DRI_PRIME")
  {
    match choice
    case Default => []
    case Gpu(i) =>
      var r := BuildEnvPairs(i, true, gpu);
      SteamAddsImportList(i, gpu);
      ImportListSpelled(ImportList(i, GpuProfileOf(gpu)));
      r
  }

  lemma ImportListSpelled(list: string)
    requires StartsWith(list, "DRI_PRIME")
    ensures StartsWith("PRESSURE_VESSEL_IMPORT_VARS=" + list, "PRESSURE_VESSEL_IMPORT_VARS=DRI_PRIME")
  {
    var s := "PRESSURE_VESSEL_IMPORT_VARS=" + list;
    assert s[..28] == "PRESSURE_VESSEL_IMPORT_VARS=";
    assert s[28..37] == list[..9];
  }
  // ---------------------------------------------------------------------------
  // Flatpak override arguments

  /** Every variable a GPU choice can set, in the order the default choice
      clears them. */
  const CLEARED: seq<Var> := [
    DriPrime, PressureVesselImportVars, NvPrimeRenderOffload, GlxVendorLibraryName,
    VkLayerNvOptimus, MesaVkDeviceSelect, MesaVkDeviceSelectForceDefault]

  /** Each string with `p` in front. */
  function Prefixed(p: string, xs: seq<string>): (r: seq<string>)
    ensures |r| == |xs| && forall i :: 0 <= i < |xs| ==> r[i] == p + xs[i]
  {
    if |xs| == 0 then [] else [p + xs[0]] + Prefixed(p, xs[1..])
  }

  /** The arguments of the `flatpak` command `apply_flatpak_override` runs:
      `override --user`, then one `--unset-env=` per variable for the default
      GPU or one `--env=` per pair for a GPU, then the application id. */
  function FlatpakOverrideArgs(appId: string, choice: GpuChoice, gpu: Option<GpuInfo>): (r: seq<string>)
    ensures |r| >= 3 && r[0] == "override" && r[1] == "--user" && r[|r| - 1] == appId
    ensures choice.Default? ==> |r| == 3 + |CLEARED|
    ensures choice.Gpu? ==> var pairs := BuildEnvPairs(choice.index, false, gpu);
      |r| == 3 + |pairs| && forall k :: 0 <= k < |pairs| ==> r[2 + k] == "--env=" + pairs[k]
  {
    match choice
    case Default => OverrideArgs(appId, Prefixed("--unset-env=", VarNames(CLEARED)))
    case Gpu(i) => OverrideArgs(appId, Prefixed("--env=", BuildEnvPairs(i, false, gpu)))
  }

  /** `override --user`, the given arguments, the application id. */
  function OverrideArgs(appId: string, middle: seq<string>): (r: seq<string>)
    ensures |r| == 3 + |middle| && r[0] == "override" && r[1] == "--user" && r[|r| - 1] == appId
    ensures forall k :: 0 <= k < |middle| ==> r[2 + k] == middle[k]
  {
    ["override", "--user"] + middle + [appId]
  }

  /** Going back to the default GPU clears every variable any GPU choice may
      have set, the Steam import list included. */
  lemma DefaultClearsAll(appId: string, gpu: Option<GpuInfo>, v: Var)
    ensures "--unset-env=" + VarName(v) in FlatpakOverrideArgs(appId, Default, gpu)
  {
    var k := ClearedAt(v);
    var middle := Prefixed("--unset-env=", VarNames(CLEARED));
    assert middle[k] == "--unset-env=" + VarName(v);
    assert FlatpakOverrideArgs(appId, Default, gpu)[2 + k] == middle[k];
  }

  /** Where `v` stands in the list of cleared variables. */
  function ClearedAt(v: Var): (k: nat)
    ensures k < |CLEARED| && CLEARED[k] == v
  {
    match v
    case DriPrime => 0
    case PressureVesselImportVars => 1
    case NvPrimeRenderOffload => 2
    case GlxVendorLibraryName => 3
    case VkLayerNvOptimus => 4
    case MesaVkDeviceSelect => 5
    case MesaVkDeviceSelectForceDefault => 6
  }

  // ---------------------------------------------------------------------------
  // Wrapping an Exec line

  /** `flatpak` itself or a path to it. */
  predicate IsFlatpakCommand(w: string) {
    w == "flatpak" || EndsWith(w, "/flatpak")
  }

  /** Words `i` and `i + 1` are `flatpak run`. */
  predicate FlatpakRunAt(parts: seq<string>, i: nat) {
    i + 1 < |parts| && IsFlatpakCommand(parts[i]) && parts[i + 1] == "run"
  }

  /** `looks_like_flatpak_run`: some two adjacent words are `flatpak run`. */
  predicate LooksLikeFlatpakRun(exec: string) {
    var parts := SplitWhitespace(exec);
    exists i :: 0 <= i < |parts| && FlatpakRunAt(parts, i)
  }

  /** The first `flatpak run` at or after `from`. */
  function FirstFlatpakRunFrom(parts: seq<string>, from: nat): (r: Option<nat>)
    ensures r.Some? ==> from <= r.value && FlatpakRunAt(parts, r.value)
    ensures r.Some? ==> forall j: nat :: from <= j < r.value ==> !FlatpakRunAt(parts, j)
    ensures r.None? ==> forall j: nat :: from <= j ==> !FlatpakRunAt(parts, j)
    decreases |parts| - from
  {
    if from + 1 >= |parts| then None
    else if FlatpakRunAt(parts, from) then Some(from)
    else FirstFlatpakRunFrom(parts, from + 1)
  }

  /** The `position` of the first `flatpak run` window. */
  function FirstFlatpakRun(parts: seq<string>): (r: Option<nat>)
    ensures r.Some? ==> FlatpakRunAt(parts, r.value) && forall j: nat :: j < r.value ==> !FlatpakRunAt(parts, j)
    ensures r.None? ==> forall j: nat :: !FlatpakRunAt(parts, j)
  {
    FirstFlatpakRunFrom(parts, 0)
  }

  /** The test and the search agree. */
  lemma LooksLikeFlatpakRunFound(exec: string)
    ensures LooksLikeFlatpakRun(exec) <==> FirstFlatpakRun(SplitWhitespace(exec)).Some?
  {
    var parts := SplitWhitespace(exec);
    if FirstFlatpakRun(parts).Some? {
      assert FlatpakRunAt(parts, FirstFlatpakRun(parts).value);
    }
  }

  /** `--env=KV` per pair, in order. */
  function EnvArgs(pairs: seq<string>): (r: seq<string>)
    ensures |r| == |pairs|
  {
    Prefixed("--env=", pairs)
  }

  /** The `env` prefix form: `env <pairs> <exec>`. */
  function EnvPrefixed(exec: string, pairs: seq<string>): string {
    "env " + Join(pairs, " ") + " " + exec
  }

  /** `parts` with `args` inserted at `at`. */
  function Splice(parts: seq<string>, at: nat, args: seq<string>): (r: seq<string>)
    requires at <= |parts|
    ensures |r| == |parts| + |args|
  {
    parts[..at] + args + parts[at..]
  }

  /** The insertion loop of `wrap_flatpak_run_with_env`: argument `k` is
      inserted at `at + k`, one after the other. */
  method InsertEach(parts: seq<string>, at: nat, args: seq<string>) returns (out: seq<string>)
    requires at <= |parts|
    ensures |out| == |parts| + |args|
    ensures out[..at] == parts[..at] && out[at..at + |args|] == args && out[at + |args|..] == parts[at..]
  {
    out := parts;
    var offset := 0;
    while offset < |args|
      invariant 0 <= offset <= |args|
      invariant out == parts[..at] + args[..offset] + parts[at..]
    {
      assert out[..at + offset] == parts[..at] + args[..offset];
      assert out[at + offset..] == parts[at..];
      assert args[..offset + 1] == args[..offset] + [args[offset]];
      out := out[..at + offset] + [args[offset]] + out[at + offset..];
      offset := offset + 1;
    }
    assert args[..|args|] == args;
  }

  /** `wrap_flatpak_run_with_env`: the `--env=` arguments go right after the
      first `flatpak run`, and the words are re-joined with single spaces;
      without `flatpak run`, the `env` prefix form. */
  function WrapFlatpakRunWithEnv(exec: string, pairs: seq<string>): (r: string)
    ensures FirstFlatpakRun(SplitWhitespace(exec)).None? ==> r == EnvPrefixed(exec, pairs)
  {
    var parts := SplitWhitespace(exec);
    match FirstFlatpakRun(parts)
    case Some(i) => Join(Splice(parts, i + 2, EnvArgs(pairs)), " ")
    case None => EnvPrefixed(exec, pairs)
  }

  lemma EnvArgWord(kv: string)
    requires NoWhitespace(kv)
    ensures |"--env=" + kv| > 0 && NoWhitespace("--env=" + kv)
  {
    var w := "--env=" + kv;
    forall i | 0 <= i < |w| ensures !IsWhitespace(w[i]) {
      if i >= 6 {
        assert w[i] == kv[i - 6];
      }
    }
  }

  /** The words of the wrapped line: the original words with the `--env=`
      arguments, in order, right after the first `flatpak run`, which stays
      the first. */
  lemma WrapFlatpakTokens(exec: string, pairs: seq<string>)
    requires FirstFlatpakRun(SplitWhitespace(exec)).Some?
    requires forall k :: 0 <= k < |pairs| ==> NoWhitespace(pairs[k])
    ensures var parts := SplitWhitespace(exec);
      var i := FirstFlatpakRun(parts).value;
      var words := SplitWhitespace(WrapFlatpakRunWithEnv(exec, pairs));
      && words == Splice(parts, i + 2, EnvArgs(pairs))
      && FirstFlatpakRun(words) == Some(i)
  {
    var parts := SplitWhitespace(exec);
    var i := FirstFlatpakRun(parts).value;
    var args := EnvArgs(pairs);
    var spliced := Splice(parts, i + 2, args);
    forall k | 0 <= k < |args| ensures |args[k]| > 0 && NoWhitespace(args[k]) {
      EnvArgWord(pairs[k]);
    }
    forall k | 0 <= k < |spliced| ensures |spliced[k]| > 0 && NoWhitespace(spliced[k]) {
      if k < i + 2 {
        assert spliced[k] == parts[k];
      } else if k < i + 2 + |args| {
        assert spliced[k] == args[k - i - 2];
      } else {
        assert spliced[k] == parts[k - |args|];
      }
    }
    SplitJoinWords(spliced);
    assert spliced[..i + 2] == parts[..i + 2];
    FirstRunKept(parts, spliced, i);
  }

  /** A list that agrees with `parts` up to the first `flatpak run` has its
      first `flatpak run` at the same place. */
  lemma FirstRunKept(parts: seq<string>, other: seq<string>, i: nat)
    requires FirstFlatpakRun(parts) == Some(i)
    requires i + 2 <= |other| && other[..i + 2] == parts[..i + 2]
    ensures FirstFlatpakRun(other) == Some(i)
  {
    assert other[i] == parts[i] && other[i + 1] == parts[i + 1];
    forall j: nat | j < i ensures !FlatpakRunAt(other, j) {
      assert other[j] == parts[j] && other[j + 1] == parts[j + 1];
      assert !FlatpakRunAt(parts, j);
    }
    assert FlatpakRunAt(other, i);
  }

  /** The words of the `env` prefix form: `env`, the pairs, then the line's
      own words. */
  lemma EnvPrefixTokens(exec: string, pairs: seq<string>)
    requires |pairs| > 0
    requires forall k :: 0 <= k < |pairs| ==> |pairs[k]| > 0 && NoWhitespace(pairs[k])
    ensures SplitWhitespace(EnvPrefixed(exec, pairs)) == ["env"] + pairs + SplitWhitespace(exec)
  {
    var ws := ["env"] + pairs;
    assert NoWhitespace("env");
    forall k | 0 <= k < |ws| ensures |ws[k]| > 0 && NoWhitespace(ws[k]) {
      if k > 0 {
        assert ws[k] == pairs[k - 1];
      }
    }
    assert EnvPrefixed(exec, pairs) == Join(ws, " ") + " " + exec by {
      JoinCons("env", pairs, " ");
    }
    SplitJoinThen(ws, exec);
  }

  /** `is_steam_exec`, on the lower-cased line. */
  predicate IsSteamExec(exec: string) {
    var lower := ToAsciiLower(exec);
    Contains(lower, "steam")
      && (Contains(lower, "rungameid") || Contains(lower, "-applaunch") || Contains(lower, "steam://run"))
  }

  /** `wrap_exec_for_gpu`: the Steam flavour of the pairs for a Steam line,
      put after `flatpak run` when there is one, else in front via `env`. */
  function WrapExecForGpu(exec: string, index: nat, gpu: Option<GpuInfo>): (r: string)
    ensures !LooksLikeFlatpakRun(exec) ==> StartsWith(r, "env DRI_PRIME=")
  {
    var pairs := BuildEnvPairs(index, IsSteamExec(exec), gpu);
    if LooksLikeFlatpakRun(exec) then WrapFlatpakRunWithEnv(exec, pairs)
    else
      EnvPrefixHead(exec, pairs, NatToString(index));
      EnvPrefixed(exec, pairs)
  }

  lemma EnvPrefixHead(exec: string, pairs: seq<string>, n: string)
    requires |pairs| > 0 && pairs[0] == "DRI_PRIME=" + n
    ensures StartsWith(EnvPrefixed(exec, pairs), "env DRI_PRIME=")
  {
    JoinHead(pairs, " ");
    var j := Join(pairs, " ");
    var r := EnvPrefixed(exec, pairs);
    assert r[..4] == "env " && r[4..14] == j[..10];
  }

  /** The words of a wrapped line: for `flatpak run`, the original words
      with `--env=` arguments after the first `flatpak run`; otherwise `env`,
      the pairs and the original words. */
  lemma WrapExecTokens(exec: string, index: nat, gpu: Option<GpuInfo>)
    requires var pairs := BuildEnvPairs(index, IsSteamExec(exec), gpu);
      forall k :: 0 <= k < |pairs| ==> NoWhitespace(pairs[k])
    ensures var pairs := BuildEnvPairs(index, IsSteamExec(exec), gpu);
      var parts := SplitWhitespace(exec);
      var words := SplitWhitespace(WrapExecForGpu(exec, index, gpu));
      match FirstFlatpakRun(parts)
      case Some(i) => words == Splice(parts, i + 2, EnvArgs(pairs))
      case None => words == ["env"] + pairs + parts
  {
    var pairs := BuildEnvPairs(index, IsSteamExec(exec), gpu);
    LooksLikeFlatpakRunFound(exec);
    if LooksLikeFlatpakRun(exec) {
      WrapFlatpakTokens(exec, pairs);
    } else {
      forall k | 0 <= k < |pairs| ensures |pairs[k]| > 0 {
        assert |RenderAll(EnvVars(index, IsSteamExec(exec), GpuProfileOf(gpu)))[k]| > 0;
      }
      EnvPrefixTokens(exec, pairs);
    }
  }

  /** The Steam test ignores letter case. */
  lemma SteamExecIgnoresCase(exec: string)
    ensures IsSteamExec(ToAsciiLower(exec)) <==> IsSteamExec(exec)
  {
    ToAsciiLowerIdempotent(exec);
  }

  /** A line holding a `steam://rungameid/` URL, in any case, is a Steam line. */
  lemma RungameidIsSteam(exec: string)
    requires Contains(ToAsciiLower(exec), "steam://rungameid/")
    ensures IsSteamExec(exec)
  {
    var lower := ToAsciiLower(exec);
    var i := Find(lower, "steam://rungameid/").value;
    RungameidSpelled();
    OccursInside(lower, "steam://rungameid/", i, "steam", 0);
    OccursInside(lower, "steam://rungameid/", i, "rungameid", 8);
  }

  lemma RungameidSpelled()
    ensures OccursAt("steam://rungameid/", "steam", 0)
    ensures OccursAt("steam://rungameid/", "rungameid", 8)
  {
  }

  /** An occurrence inside an occurrence. */
  lemma OccursInside(s: string, big: string, i: nat, small: string, j: nat)
    requires OccursAt(s, big, i) && OccursAt(big, small, j)
    ensures OccursAt(s, small, i + j) && Contains(s, small)
  {
    assert s[i..i + |big|] == big;
    forall k | 0 <= k < |small| ensures s[i + j + k] == small[k] {
      assert s[i + j + k] == s[i..i + |big|][j + k] == big[j + k];
      assert big[j..j + |small|][k] == small[k];
    }
    assert s[i + j..i + j + |small|] == small;
    ContainsAt(s, small, i + j);
  }
}

=== FILE: models.dfy ===
/** The records shared by every component: a GPU as enumerated, an
    application as found in a desktop entry, the per-application GPU choice
    and the persisted configuration. */
module Models {
  import opened Text

  /** `Default` leaves the application alone; `Gpu(i)` pins it to the GPU
      whose DRI_PRIME index is `i`. */
  datatype GpuChoice = Default | Gpu(index: nat)

  /** `GpuChoice::default()`. */
  function DefaultChoice(): (c: GpuChoice)
    ensures c.Default?
  {
    Default
  }

  /** `GpuChoice::label`: the short human label of a choice. */
  function Label(c: GpuChoice): (r: string)
    ensures c.Default? ==> r == "Default GPU"
    ensures c.Gpu? ==> r == "GPU " + NatToString(c.index)
  {
    match c
    case Default => "Default GPU"
    case Gpu(i) => "GPU " + NatToString(i)
  }

  /** Distinct choices have distinct labels, so a label names its choice. */
  lemma LabelInjective(a: GpuChoice, b: GpuChoice)
    requires Label(a) == Label(b)
    ensures a == b
  {
    LabelHead(a);
    LabelHead(b);
    if a.Gpu? && b.Gpu? {
      assert NatToString(a.index) == Label(a)[4..];
      assert NatToString(b.index) == Label(b)[4..];
      NatToStringInjective(a.index, b.index);
    }
  }

  lemma LabelHead(c: GpuChoice)
    ensures |Label(c)| > 0 && Label(c)[0] == (if c.Default? then 'D' else 'G')
  {
  }

  /** One render-capable GPU as enumerated from the DRM device tree. */
  datatype GpuInfo = GpuInfo(
    card: string,
    name: string,
    driver: Option<string>,
    pciSlot: Option<string>,
    renderNode: Option<string>,
    driPrimeIndex: Option<nat>,
    renderer: Option<string>)

  /** One application found in a desktop entry, with its launch surface. */
  datatype DesktopApp = DesktopApp(
    desktopId: string,
    path: string,
    name: string,
    icon: Option<string>,
    exec: string,
    isSteamGame: bool,
    steamAppId: Option<string>,
    isHeroicGame: bool,
    heroicPlatform: Option<string>,
    heroicAppName: Option<string>,
    isFlatpak: bool,
    flatpakAppId: Option<string>)

  /** The persisted configuration: the GPU choice per desktop id and the
      three list-filter flags the configuration store exposes. */
  datatype AppConfig = AppConfig(
    assignments: map<string, GpuChoice>,
    showSteamApps: bool,
    showHeroicApps: bool,
    showFlatpakApps: bool)

  /** `AppConfig::default()`. */
  function DefaultAppConfig(): (c: AppConfig)
    ensures c.assignments == map[]
    ensures !c.showSteamApps && !c.showHeroicApps && !c.showFlatpakApps
  {
    AppConfig(map[], false, false, false)
  }
}

=== FILE: override.dfy ===
/** The per-user desktop-file override and the choice of how a GPU choice is
    applied: Steam launch options, Heroic game environment, a Flatpak
    override, or a rewritten copy of the application's desktop file carrying
    the wrapped `Exec` line and the `X-Kaede-Managed=true` marker. Files are
    given as a map from path to readable content. */
module Override {
  import opened Text
  import opened Models
  import opened Launcher
  import Heroic
  import Json

  /** The line that marks a desktop file as written by the launcher. */
  const MARKER: string := "X-Kaede-Managed=true"

  /** Any line starting with this is a marker line, whatever its value. */
  const MARKER_KEY: string := "X-Kaede-Managed="

  // ---------------------------------------------------------------------------
  // Line shapes

  /** A group header: its first non-blank char is `[`. */
  predicate IsHeaderLine(line: string) {
    var t := TrimStart(line);
    |t| > 0 && t[0] == '['
  }

  /** The header that opens the `[Desktop Entry]` group. */
  predicate IsEntryHeader(line: string) {
    Trim(line) == "[Desktop Entry]"
  }

  lemma EntryHeaderIsHeader(line: string)
    requires IsEntryHeader(line)
    ensures IsHeaderLine(line)
  {
    var t := TrimStart(line);
    TrimEndPrefix(t);
    assert Trim(line)[0] == t[0];
  }

  /** A line starting with a key is not a header. */
  lemma KeyLineNotHeader(line: string, key: string)
    requires StartsWith(line, key) && |key| > 0 && !IsWhitespace(key[0]) && key[0] != '['
    ensures !IsHeaderLine(line)
  {
    assert line[0] == key[0];
    TrimStartNoLead(line);
  }

  /** `Exec=…` and marker lines are neither headers nor each other. */
  lemma ExecLineShape(line: string)
    ensures StartsWith(line, "Exec=") ==> !IsHeaderLine(line) && !StartsWith(line, MARKER_KEY)
    ensures StartsWith(line, MARKER_KEY) ==> !IsHeaderLine(line)
  {
    if StartsWith(line, "Exec=") {
      KeyLineNotHeader(line, "Exec=");
      assert line[0] == 'E';
    }
    if StartsWith(line, MARKER_KEY) {
      KeyLineNotHeader(line, MARKER_KEY);
    }
  }

  /** Marker lines become the canonical marker; other lines stay. */
  function Normalize(line: string): string {
    if StartsWith(line, MARKER_KEY) then MARKER else line
  }

  function Normalized(ls: seq<string>): (r: seq<string>)
    ensures |r| == |ls| && forall i :: 0 <= i < |ls| ==> r[i] == Normalize(ls[i])
  {
    if |ls| == 0 then [] else [Normalize(ls[0])] + Normalized(ls[1..])
  }

  lemma NormalizedAppend(a: seq<string>, b: seq<string>)
    ensures Normalized(a + b) == Normalized(a) + Normalized(b)
  {
    assert |Normalized(a + b)| == |Normalized(a) + Normalized(b)|;
    forall i | 0 <= i < |a + b| ensures Normalized(a + b)[i] == (Normalized(a) + Normalized(b))[i] {
      if i >= |a| {
        assert (a + b)[i] == b[i - |a|];
      }
    }
  }

  function ExecLine(wrapped: string): string {
    "Exec=" + wrapped
  }

  // ---------------------------------------------------------------------------
  // Reading the Exec value

  /** The trimmed value of an `Exec=` line, unless blank. */
  function ExecValueOf(line: string): (r: Option<string>)
    ensures r.Some? ==> StartsWith(line, "Exec=") && |r.value| > 0
  {
    if StartsWith(line, "Exec=") && !IsBlank(line[5..]) then Some(Trim(line[5..])) else None
  }

  predicate HasExecValue(line: string) {
    ExecValueOf(line).Some?
  }

  /** `desktop_exec_value`: the value of the first `Exec=` line whose value
      is not blank, in whatever group it stands. */
  function DesktopExecValue(content: string): (r: Option<string>)
    ensures r.None? <==> forall j :: 0 <= j < |Lines(content)| ==> !HasExecValue(Lines(content)[j])
    ensures r.Some? ==> exists j :: 0 <= j < |Lines(content)| && ExecValueOf(Lines(content)[j]) == r
  {
    var ls := Lines(content);
    match FirstWhere(ls, HasExecValue)
    case None => None
    case Some(k) => ExecValueOf(ls[k])
  }

  // ---------------------------------------------------------------------------
  // Rewriting a desktop file

  /** What the line loop leaves behind: the output lines, whether the `Exec`
      line was written, and whether a marker line was seen. */
  datatype Pass = Pass(lines: seq<string>, replaced: bool, hasMarker: bool)

  /** The line loop of `rewrite_desktop_override_content`, from the state
      before `ls[0]`: inside `[Desktop Entry]` or not, `Exec` written or not,
      `Exec` inserted or not. A header ends the entry group, and if no `Exec`
      was written there the new one goes before the header; the first
      `Exec=` line of the entry group is replaced; marker lines are
      normalised; everything else is copied. */
  function RewriteLines(ls: seq<string>, wrapped: string, inEntry: bool, replaced: bool, inserted: bool): (p: Pass)
    ensures replaced ==> p.replaced
    decreases |ls|
  {
    if |ls| == 0 then Pass([], replaced, false)
    else
      var line := ls[0];
      if IsHeaderLine(line) then
        var emit := inEntry && !replaced && !inserted;
        var rest := RewriteLines(ls[1..], wrapped, IsEntryHeader(line), replaced || emit, inserted || emit);
        Pass((if emit then [ExecLine(wrapped)] else []) + [line] + rest.lines, rest.replaced, rest.hasMarker)
      else if StartsWith(line, MARKER_KEY) then
        var rest := RewriteLines(ls[1..], wrapped, inEntry, replaced, inserted);
        Pass([MARKER] + rest.lines, rest.replaced, true)
      else if inEntry && StartsWith(line, "Exec=") && !replaced then
        var rest := RewriteLines(ls[1..], wrapped, inEntry, true, true);
        Pass([ExecLine(wrapped)] + rest.lines, rest.replaced, rest.hasMarker)
      else
        var rest := RewriteLines(ls[1..], wrapped, inEntry, replaced, inserted);
        Pass([line] + rest.lines, rest.replaced, rest.hasMarker)
  }

  /** Once the `Exec` line is written the loop only normalises markers. */
  lemma {:induction false} RewriteAfterExec(ls: seq<string>, wrapped: string, inEntry: bool)
    ensures RewriteLines(ls, wrapped, inEntry, true, true).lines == Normalized(ls)
    decreases |ls|
  {
    if |ls| > 0 {
      var line := ls[0];
      ExecLineShape(line);
      var e := if IsHeaderLine(line) then IsEntryHeader(line) else inEntry;
      RewriteAfterExec(ls[1..], wrapped, e);
      assert ls == [line] + ls[1..];
      NormalizedAppend([line], ls[1..]);
    }
  }

  /** The group state after a line. */
  function NextInEntry(inEntry: bool, line: string): bool {
    if IsHeaderLine(line) then IsEntryHeader(line) else inEntry
  }

  /** Line `k` lies in the `[Desktop Entry]` group: the nearest header above
      it opens that group (or, with no header above, the group `e0` the
      lines start in). */
  predicate InEntryAt(ls: seq<string>, k: nat, e0: bool)
    requires k <= |ls|
    decreases k
  {
    if k == 0 then e0
    else if IsHeaderLine(ls[k - 1]) then IsEntryHeader(ls[k - 1])
    else InEntryAt(ls, k - 1, e0)
  }

  lemma {:induction false} InEntryShift(ls: seq<string>, k: nat, e0: bool)
    requires 0 < |ls| && k < |ls|
    ensures InEntryAt(ls, k + 1, e0) == InEntryAt(ls[1..], k, NextInEntry(e0, ls[0]))
    decreases k
  {
    if k > 0 {
      assert ls[1..][k - 1] == ls[k];
      InEntryShift(ls, k - 1, e0);
    }
  }

  /** Where the `Exec` line goes: a line of the entry group that is either
      its first `Exec=` line or the header that ends the group. */
  predicate ExecSite(ls: seq<string>, k: nat, e0: bool)
    requires k < |ls|
  {
    InEntryAt(ls, k, e0) && (IsHeaderLine(ls[k]) || StartsWith(ls[k], "Exec="))
  }

  /** The first such place at or after `from`. */
  function FirstExecSiteFrom(ls: seq<string>, e0: bool, from: nat): (r: Option<nat>)
    ensures r.Some? ==> from <= r.value < |ls| && ExecSite(ls, r.value, e0)
    ensures r.Some? ==> forall j :: from <= j < r.value ==> !ExecSite(ls, j, e0)
    ensures r.None? ==> forall j :: from <= j < |ls| ==> !ExecSite(ls, j, e0)
    decreases |ls| - from
  {
    if from >= |ls| then None
    else if ExecSite(ls, from, e0) then Some(from)
    else FirstExecSiteFrom(ls, e0, from + 1)
  }

  function FirstExecSite(ls: seq<string>, e0: bool): (r: Option<nat>)
    ensures r.Some? ==> r.value < |ls| && ExecSite(ls, r.value, e0)
    ensures r.Some? ==> forall j :: 0 <= j < r.value ==> !ExecSite(ls, j, e0)
    ensures r.None? ==> forall j :: 0 <= j < |ls| ==> !ExecSite(ls, j, e0)
  {
    FirstExecSiteFrom(ls, e0, 0)
  }

  /** The loop's output: every line normalised and the `Exec` line put at
      the first place of the entry group that takes it, before a header or
      instead of an `Exec=` line; with no such place, nothing is written. */
  function PassLines(ls: seq<string>, wrapped: string, e0: bool): seq<string> {
    match FirstExecSite(ls, e0)
    case None => Normalized(ls)
    case Some(k) =>
      var after := if IsHeaderLine(ls[k]) then k else k + 1;
      Normalized(ls[..k]) + [ExecLine(wrapped)] + Normalized(ls[after..])
  }

  /** The first place of the whole list is the first place of the tail,
      one further on, when the head is not one. */
  lemma FirstSiteShift(ls: seq<string>, e0: bool)
    requires |ls| > 0 && !ExecSite(ls, 0, e0)
    ensures match FirstExecSite(ls[1..], NextInEntry(e0, ls[0]))
      case None => FirstExecSite(ls, e0).None?
      case Some(k) => FirstExecSite(ls, e0) == Some(k + 1)
  {
    var e1 := NextInEntry(e0, ls[0]);
    forall j | 0 <= j < |ls| - 1 ensures ExecSite(ls, j + 1, e0) == ExecSite(ls[1..], j, e1) {
      InEntryShift(ls, j, e0);
      assert ls[1..][j] == ls[j + 1];
    }
    match FirstExecSite(ls[1..], e1)
    case None =>
      forall j | 0 <= j < |ls| ensures !ExecSite(ls, j, e0) {
        if j > 0 {
          assert ExecSite(ls, (j - 1) + 1, e0) == ExecSite(ls[1..], j - 1, e1);
        }
      }
    case Some(k) =>
      assert ExecSite(ls, k + 1, e0);
      forall j | 0 <= j < k + 1 ensures !ExecSite(ls, j, e0) {
        if j > 0 {
          assert ExecSite(ls, (j - 1) + 1, e0) == ExecSite(ls[1..], j - 1, e1);
        }
      }
      FirstSiteIs(ls, e0, k + 1);
  }

  lemma FirstSiteIs(ls: seq<string>, e0: bool, k: nat)
    requires k < |ls| && ExecSite(ls, k, e0)
    requires forall j :: 0 <= j < k ==> !ExecSite(ls, j, e0)
    ensures FirstExecSite(ls, e0) == Some(k)
  {
  }

  /** A line that is no place for the `Exec` line is copied or normalised,
      and the loop goes on in the group state after it. */
  lemma RewriteStepCopies(ls: seq<string>, wrapped: string, e0: bool)
    requires |ls| > 0 && !ExecSite(ls, 0, e0)
    ensures var rest := RewriteLines(ls[1..], wrapped, NextInEntry(e0, ls[0]), false, false);
      RewriteLines(ls, wrapped, e0, false, false)
        == Pass([Normalize(ls[0])] + rest.lines, rest.replaced, rest.hasMarker || StartsWith(ls[0], MARKER_KEY))
  {
    ExecLineShape(ls[0]);
  }

  /** Where the place is the first line, the loop writes the `Exec` line
      there and then only normalises. */
  lemma RewriteAtSite(ls: seq<string>, wrapped: string, e0: bool)
    requires |ls| > 0 && ExecSite(ls, 0, e0)
    ensures var p := RewriteLines(ls, wrapped, e0, false, false);
      p.lines == PassLines(ls, wrapped, e0) && p.replaced && FirstExecSite(ls, e0) == Some(0)
  {
    FirstSiteIs(ls, e0, 0);
    if IsHeaderLine(ls[0]) {
      RewriteAtHeader(ls, wrapped);
    } else {
      RewriteAtExec(ls, wrapped);
    }
  }

  lemma RewriteAtHeader(ls: seq<string>, wrapped: string)
    requires |ls| > 0 && IsHeaderLine(ls[0])
    ensures RewriteLines(ls, wrapped, true, false, false).lines
      == Normalized(ls[..0]) + [ExecLine(wrapped)] + Normalized(ls[0..])
    ensures RewriteLines(ls, wrapped, true, false, false).replaced
  {
    var line := ls[0];
    var x := ExecLine(wrapped);
    ExecLineShape(line);
    RewriteAfterExec(ls[1..], wrapped, IsEntryHeader(line));
    HeaderSpliced(ls, x);
  }

  lemma RewriteAtExec(ls: seq<string>, wrapped: string)
    requires |ls| > 0 && StartsWith(ls[0], "Exec=")
    ensures RewriteLines(ls, wrapped, true, false, false).lines
      == Normalized(ls[..0]) + [ExecLine(wrapped)] + Normalized(ls[1..])
    ensures RewriteLines(ls, wrapped, true, false, false).replaced
  {
    ExecLineShape(ls[0]);
    RewriteAfterExec(ls[1..], wrapped, true);
    assert ls[..0] == [];
  }

  lemma HeaderSpliced(ls: seq<string>, x: string)
    requires |ls| > 0 && !StartsWith(ls[0], MARKER_KEY)
    ensures Normalized(ls[..0]) + [x] + Normalized(ls[0..]) == [x] + [ls[0]] + Normalized(ls[1..])
  {
    assert ls[..0] == [] && ls[0..] == ls;
    assert ls == [ls[0]] + ls[1..];
    NormalizedAppend([ls[0]], ls[1..]);
  }

  /** `PassLines` of a list whose first line is no place for `Exec`. */
  lemma PassLinesShift(ls: seq<string>, wrapped: string, e0: bool)
    requires |ls| > 0 && !ExecSite(ls, 0, e0)
    ensures PassLines(ls, wrapped, e0) == [Normalize(ls[0])] + PassLines(ls[1..], wrapped, NextInEntry(e0, ls[0]))
  {
    var tl := ls[1..];
    var e1 := NextInEntry(e0, ls[0]);
    var x := ExecLine(wrapped);
    FirstSiteShift(ls, e0);
    match FirstExecSite(tl, e1)
    case None =>
      assert PassLines(ls, wrapped, e0) == Normalized(ls);
      assert ls == [ls[0]] + tl;
      NormalizedAppend([ls[0]], tl);
    case Some(k) =>
      var after := if IsHeaderLine(tl[k]) then k else k + 1;
      assert ls[k + 1] == tl[k];
      assert PassLines(ls, wrapped, e0) == Normalized(ls[..k + 1]) + [x] + Normalized(ls[after + 1..]);
      assert PassLines(tl, wrapped, e1) == Normalized(tl[..k]) + [x] + Normalized(tl[after..]);
      SpliceShift(ls, k, after, x);
  }

  lemma SpliceShift(ls: seq<string>, k: nat, after: nat, x: string)
    requires k <= after < |ls|
    ensures Normalized(ls[..k + 1]) + [x] + Normalized(ls[after + 1..])
      == [Normalize(ls[0])] + (Normalized(ls[1..][..k]) + [x] + Normalized(ls[1..][after..]))
  {
    assert ls[..k + 1] == [ls[0]] + ls[1..][..k];
    assert ls[after + 1..] == ls[1..][after..];
    NormalizedAppend([ls[0]], ls[1..][..k]);
  }

  /** The line loop, started with nothing written, has the output
      `PassLines` describes, and has written the `Exec` line exactly when
      the entry group offered a place for it. */
  lemma {:induction false} RewriteLinesShape(ls: seq<string>, wrapped: string, e0: bool)
    ensures var p := RewriteLines(ls, wrapped, e0, false, false);
      p.lines == PassLines(ls, wrapped, e0) && (p.replaced <==> FirstExecSite(ls, e0).Some?)
    decreases |ls|
  {
    if |ls| > 0 {
      if ExecSite(ls, 0, e0) {
        RewriteAtSite(ls, wrapped, e0);
      } else {
        var e1 := NextInEntry(e0, ls[0]);
        RewriteLinesShape(ls[1..], wrapped, e1);
        RewriteStepCopies(ls, wrapped, e0);
        PassLinesShift(ls, wrapped, e0);
        FirstSiteShift(ls, e0);
      }
    }
  }

  // ---------------------------------------------------------------------------
  // Markers seen by the loop

  predicate HasMarkerLine(ls: seq<string>) {
    exists j :: 0 <= j < |ls| && StartsWith(ls[j], MARKER_KEY)
  }

  /** The loop reports a marker exactly when some line starts with the
      marker key, and then the canonical marker is among its output. */
  lemma {:induction false} PassMarker(ls: seq<string>, wrapped: string, inEntry: bool, replaced: bool, inserted: bool)
    ensures var p := RewriteLines(ls, wrapped, inEntry, replaced, inserted);
      (p.hasMarker <==> HasMarkerLine(ls)) && (p.hasMarker ==> MARKER in p.lines)
    decreases |ls|
  {
    if |ls| > 0 {
      var line := ls[0];
      ExecLineShape(line);
      var emit := inEntry && !replaced && !inserted;
      if IsHeaderLine(line) {
        PassMarker(ls[1..], wrapped, IsEntryHeader(line), replaced || emit, inserted || emit);
      } else if StartsWith(line, MARKER_KEY) {
        PassMarker(ls[1..], wrapped, inEntry, replaced, inserted);
      } else if inEntry && StartsWith(line, "Exec=") && !replaced {
        PassMarker(ls[1..], wrapped, inEntry, true, true);
      } else {
        PassMarker(ls[1..], wrapped, inEntry, replaced, inserted);
      }
      TailMarker(ls);
    }
  }

  lemma TailMarker(ls: seq<string>)
    requires |ls| > 0
    ensures HasMarkerLine(ls) <==> StartsWith(ls[0], MARKER_KEY) || HasMarkerLine(ls[1..])
  {
    if HasMarkerLine(ls) && !StartsWith(ls[0], MARKER_KEY) {
      var j :| 0 <= j < |ls| && StartsWith(ls[j], MARKER_KEY);
      assert ls[1..][j - 1] == ls[j];
    }
    if HasMarkerLine(ls[1..]) {
      var j :| 0 <= j < |ls[1..]| && StartsWith(ls[1..][j], MARKER_KEY);
      assert ls[j + 1] == ls[1..][j];
    }
  }

  // ---------------------------------------------------------------------------
  // The rewritten file

  /** The icon of a synthesized entry when the application has none. */
  const DEFAULT_ICON: string := "application-x-executable"

  /** Where an `Exec` line goes when the loop wrote none: just after the
      first `[Desktop Entry]` header, or at the top without one. */
  function InsertAt(ls: seq<string>): (r: nat)
    ensures r <= |ls|
    ensures r > 0 ==> IsEntryHeader(ls[r - 1]) && forall j :: 0 <= j < r - 1 ==> !IsEntryHeader(ls[j])
    ensures r == 0 ==> forall j :: 0 <= j < |ls| ==> !IsEntryHeader(ls[j])
  {
    match FirstWhere(ls, IsEntryHeader)
    case None => 0
    case Some(k) => k + 1
  }

  function Insert(ls: seq<string>, at: nat, x: string): (r: seq<string>)
    requires at <= |ls|
    ensures |r| == |ls| + 1 && r[at] == x
    ensures forall j :: 0 <= j < |ls| ==> ls[j] in r
  {
    var r := ls[..at] + [x] + ls[at..];
    assert forall j :: 0 <= j < at ==> r[j] == ls[j];
    assert forall j :: at <= j < |ls| ==> r[j + 1] == ls[j];
    r
  }

  /** The entry written when the application's desktop file is blank or
      unreadable. */
  function SynthesizedLines(name: string, icon: Option<string>, wrapped: string): seq<string> {
    ["[Desktop Entry]", "Type=Application", "Name=" + name,
     "Icon=" + (if icon.Some? then icon.value else DEFAULT_ICON),
     ExecLine(wrapped), "Terminal=false", MARKER]
  }

  /** The lines written for a non-blank source: the loop's output, the
      `Exec` line inserted if the loop wrote none, the marker appended if
      the source had none. */
  function OverrideLines(source: string, wrapped: string): seq<string> {
    var p := RewriteLines(Lines(source), wrapped, false, false, false);
    var withExec := if p.replaced then p.lines else Insert(p.lines, InsertAt(p.lines), ExecLine(wrapped));
    if p.hasMarker then withExec else withExec + [MARKER]
  }

  /** `rewrite_desktop_override_content`. */
  function RewriteDesktopOverrideContent(source: string, wrapped: string, app: DesktopApp): (r: string)
    ensures |r| > 0 && r[|r| - 1] == '\n'
  {
    if IsBlank(source) then Unlines(SynthesizedLines(app.name, app.icon, wrapped))
    else
      var ls := OverrideLines(source, wrapped);
      JoinUnlines(ls);
      Join(ls, "\n") + "\n"
  }

  /** The rewritten lines, stated through the reference definition: with a
      place in the entry group the `Exec` line goes there; otherwise it goes
      just after the first `[Desktop Entry]` header, or at the top; the
      marker is appended exactly when no line carried the marker key. */
  lemma OverrideLinesShape(source: string, wrapped: string)
    ensures var ls := Lines(source);
      var body := if FirstExecSite(ls, false).Some? then PassLines(ls, wrapped, false)
        else Insert(Normalized(ls), InsertAt(Normalized(ls)), ExecLine(wrapped));
      OverrideLines(source, wrapped) == body + (if HasMarkerLine(ls) then [] else [MARKER])
  {
    var ls := Lines(source);
    RewriteLinesShape(ls, wrapped, false);
    PassMarker(ls, wrapped, false, false, false);
  }

  /** The rewritten lines hold the new `Exec` line and the marker. */
  lemma OverrideLinesMarked(source: string, wrapped: string)
    ensures ExecLine(wrapped) in OverrideLines(source, wrapped)
    ensures MARKER in OverrideLines(source, wrapped)
  {
    var ls := Lines(source);
    var p := RewriteLines(ls, wrapped, false, false, false);
    RewriteLinesShape(ls, wrapped, false);
    PassMarker(ls, wrapped, false, false, false);
    if p.replaced {
      var k := FirstExecSite(ls, false).value;
      var after := if IsHeaderLine(ls[k]) then k else k + 1;
      assert p.lines == Normalized(ls[..k]) + [ExecLine(wrapped)] + Normalized(ls[after..]);
      assert p.lines[k] == ExecLine(wrapped);
    } else {
      var q := Insert(p.lines, InsertAt(p.lines), ExecLine(wrapped));
      assert q[InsertAt(p.lines)] == ExecLine(wrapped);
      if p.hasMarker {
        var j :| 0 <= j < |p.lines| && p.lines[j] == MARKER;
        assert p.lines[j] in q;
      }
    }
  }

  /** Whatever the source, the written file carries the marker. */
  lemma ContentHasMarker(source: string, wrapped: string, app: DesktopApp)
    ensures Contains(RewriteDesktopOverrideContent(source, wrapped, app), MARKER)
  {
    var ls := if IsBlank(source) then SynthesizedLines(app.name, app.icon, wrapped) else OverrideLines(source, wrapped);
    var k: nat;
    if IsBlank(source) {
      k := 6;
      JoinUnlines(ls);
    } else {
      OverrideLinesMarked(source, wrapped);
      k :| k < |ls| && ls[k] == MARKER;
    }
    JoinContainsPart(ls, "\n", k);
    FindExtend(Join(ls, "\n"), "\n", MARKER);
    assert RewriteDesktopOverrideContent(source, wrapped, app) == Join(ls, "\n") + "\n";
  }

  /** Reading back a synthesized entry gives the wrapped command. */
  lemma SynthesizedRoundTrip(app: DesktopApp, wrapped: string)
    requires NoChar(app.name, '\n') && NoChar(app.name, '\r')
    requires app.icon.Some? ==> NoChar(app.icon.value, '\n') && NoChar(app.icon.value, '\r')
    requires NoChar(wrapped, '\n') && NoChar(wrapped, '\r') && !IsBlank(wrapped)
    ensures DesktopExecValue(RewriteDesktopOverrideContent("", wrapped, app)) == Some(Trim(wrapped))
  {
    var ls := SynthesizedLines(app.name, app.icon, wrapped);
    assert IsBlank("");
    assert RewriteDesktopOverrideContent("", wrapped, app) == Unlines(ls);
    SynthesizedClean(app.name, app.icon, wrapped);
    LinesUnlines(ls);
    SynthesizedExec(app.name, app.icon, wrapped);
  }

  lemma SynthesizedClean(name: string, icon: Option<string>, wrapped: string)
    requires NoChar(name, '\n') && NoChar(name, '\r')
    requires icon.Some? ==> NoChar(icon.value, '\n') && NoChar(icon.value, '\r')
    requires NoChar(wrapped, '\n') && NoChar(wrapped, '\r')
    ensures var ls := SynthesizedLines(name, icon, wrapped);
      forall i :: 0 <= i < |ls| ==> NoChar(ls[i], '\n') && NoChar(ls[i], '\r')
  {
    var ls := SynthesizedLines(name, icon, wrapped);
    forall i | 0 <= i < |ls| ensures NoChar(ls[i], '\n') && NoChar(ls[i], '\r') {
      if i == 2 {
        KeyedClean("Name=", name);
      } else if i == 3 {
        KeyedClean("Icon=", if icon.Some? then icon.value else DEFAULT_ICON);
      } else if i == 4 {
        KeyedClean("Exec=", wrapped);
      } else {
        ConstantClean(ls[i]);
      }
    }
  }

  lemma ConstantClean(line: string)
    requires line in ["[Desktop Entry]", "Type=Application", "Terminal=false", MARKER]
    ensures NoChar(line, '\n') && NoChar(line, '\r')
  {
  }

  lemma KeyedClean(key: string, v: string)
    requires NoChar(key, '\n') && NoChar(key, '\r')
    requires NoChar(v, '\n') && NoChar(v, '\r')
    ensures NoChar(key + v, '\n') && NoChar(key + v, '\r')
  {
    NoCharConcat(key, v, '\n');
    NoCharConcat(key, v, '\r');
  }

  lemma SynthesizedExec(name: string, icon: Option<string>, wrapped: string)
    requires !IsBlank(wrapped)
    ensures var ls := SynthesizedLines(name, icon, wrapped);
      FirstWhere(ls, HasExecValue) == Some(4) && ExecValueOf(ls[4]) == Some(Trim(wrapped))
  {
    var ls := SynthesizedLines(name, icon, wrapped);
    SynthesizedHead(name, icon, wrapped);
    assert ls[4] == "Exec=" + wrapped;
    ExecValueOfLine(wrapped);
    FirstWhereIs(ls, HasExecValue, 4);
  }

  lemma SynthesizedHead(name: string, icon: Option<string>, wrapped: string)
    ensures var ls := SynthesizedLines(name, icon, wrapped);
      forall j :: 0 <= j < 4 ==> !HasExecValue(ls[j])
  {
    var ls := SynthesizedLines(name, icon, wrapped);
    forall j | 0 <= j < 4 ensures !HasExecValue(ls[j]) {
      assert ls[j][0] != 'E';
      NotExecLine(ls[j]);
    }
  }

  lemma NotExecLine(line: string)
    requires |line| > 0 && line[0] != 'E'
    ensures !HasExecValue(line)
  {
    assert !StartsWith(line, "Exec=");
  }

  /** The value of a written `Exec` line is the trimmed command. */
  lemma ExecValueOfLine(wrapped: string)
    requires !IsBlank(wrapped)
    ensures ExecValueOf(ExecLine(wrapped)) == Some(Trim(wrapped))
  {
    assert ExecLine(wrapped)[5..] == wrapped;
  }

  // ---------------------------------------------------------------------------
  // Where the override lives

  /** `PathBuf::join`: an absolute path replaces the base; otherwise a `/`
      is put between them unless the base is empty or already ends in one. */
  function PathJoin(base: string, p: string): (r: string)
    ensures EndsWith(r, p)
  {
    if |p| > 0 && p[0] == '/' then p
    else if |base| > 0 && base[|base| - 1] != '/' then base + "/" + p
    else base + p
  }

  /** `user_launcher_path`: the desktop id under the user's applications
      directory below `home` (`/tmp` when `HOME` is unset). */
  function UserLauncherPath(home: Option<string>, desktopId: string): (r: string)
    ensures EndsWith(r, desktopId)
  {
    var h := if home.Some? then home.value else "/tmp";
    PathJoin(PathJoin(h, ".local/share/applications"), desktopId)
  }

  /** An ordinary home directory and a plain file name give the familiar path. */
  lemma UserLauncherPathPlain(home: string, desktopId: string)
    requires |home| > 0 && home[|home| - 1] != '/'
    requires |desktopId| > 0 && desktopId[0] != '/'
    ensures UserLauncherPath(Some(home), desktopId) == home + "/.local/share/applications/" + desktopId
  {
    var dir := home + "/" + ".local/share/applications";
    assert PathJoin(home, ".local/share/applications") == dir;
    assert dir[|dir| - 1] == 's';
  }

  // ---------------------------------------------------------------------------
  // Dispatch

  /** What applying a choice does outside this model: a Steam launch-options
      patch, a Heroic environment patch, a `flatpak override` invocation, or
      a file removed or written. */
  datatype Effect =
    | SteamLaunchOptions(appId: string, choice: GpuChoice, env: seq<string>, useEnvWrapper: bool)
    | HeroicLaunchEnv(platform: string, appName: string, env: seq<string>)
    | FlatpakOverride(args: seq<string>)
    | RemoveFile(path: string)
    | WriteFile(path: string, content: string)
  {
    predicate IsFileEffect() {
      RemoveFile? || WriteFile?
    }
  }

  /** The effects to carry out, or the refusal to overwrite an unmanaged file. */
  datatype Outcome = Applied(effects: seq<Effect>) | Refused(path: string)

  /** `file_contains_marker`: the file is readable and holds the marker. */
  predicate FileContainsMarker(path: string, files: map<string, string>) {
    path in files && Contains(files[path], MARKER)
  }

  /** `remove_kaede_override_if_present`. */
  function RemoveIfMarked(path: string, files: map<string, string>): (r: seq<Effect>)
    ensures r == [] || r == [RemoveFile(path)]
    ensures r != [] <==> FileContainsMarker(path, files)
  {
    if FileContainsMarker(path, files) then [RemoveFile(path)] else []
  }

  /** The command the override wraps: the source's first non-blank `Exec`
      value, else the application's own command. */
  function OriginalExec(source: string, app: DesktopApp): string {
    match DesktopExecValue(source)
    case Some(v) => if IsBlank(v) then app.exec else v
    case None => app.exec
  }

  /** `write_override`: refuses when the target is the application's own
      desktop file and that file is not managed; otherwise writes the
      rewritten copy of the application's desktop file (blank when it cannot
      be read) to the target. */
  function WriteOverride(app: DesktopApp, index: nat, gpu: Option<GpuInfo>, target: string, files: map<string, string>): (r: Outcome)
    ensures r.Refused? <==> app.path == target && !FileContainsMarker(target, files)
    ensures r.Refused? ==> r.path == target
    ensures r.Applied? ==> |r.effects| == 1 && r.effects[0].WriteFile? && r.effects[0].path == target
  {
    if app.path == target && !FileContainsMarker(target, files) then Refused(target)
    else
      var source := if app.path in files then files[app.path] else "";
      var wrapped := WrapExecForGpu(OriginalExec(source, app), index, gpu);
      Applied([WriteFile(target, RewriteDesktopOverrideContent(source, wrapped, app))])
  }

  predicate SteamIds(app: DesktopApp) {
    app.isSteamGame && app.steamAppId.Some?
  }

  predicate HeroicIds(app: DesktopApp) {
    app.isHeroicGame && app.heroicPlatform.Some? && app.heroicAppName.Some?
  }

  predicate FlatpakIds(app: DesktopApp) {
    app.isFlatpak && app.flatpakAppId.Some?
  }

  /** The environment handed to Heroic: nothing for `Default`, the plain
      pairs for a GPU. */
  function HeroicEnv(choice: GpuChoice, gpu: Option<GpuInfo>): (r: seq<string>)
    ensures choice.Default? <==> r == []
  {
    match choice
    case Default => []
    case Gpu(i) => BuildEnvPairs(i, false, gpu)
  }

  /** `apply_launcher_override`: a Steam game with an id goes through Steam
      launch options (dropping any managed desktop override first), then a
      Heroic game with platform and name through Heroic, then a Flatpak with
      an id through `flatpak override`; everything else through the
      per-user desktop override, removed for `Default` when managed. The
      Steam route carries the `env` wrapper setting that
      `apply_steam_launch_options` takes and the call in `launcher/mod.rs`
      does not pass. */
  function ApplyLauncherOverride(app: DesktopApp, choice: GpuChoice, gpu: Option<GpuInfo>, useEnvWrapper: bool,
                                 home: Option<string>, files: map<string, string>): (r: Outcome)
    ensures r.Refused? ==> choice.Gpu? && !SteamIds(app) && !HeroicIds(app) && !FlatpakIds(app)
    ensures r.Applied? ==>
              forall i :: 0 <= i < |r.effects| && r.effects[i].IsFileEffect() ==> r.effects[i].path == UserLauncherPath(home, app.desktopId)
  {
    var target := UserLauncherPath(home, app.desktopId);
    if SteamIds(app) then
      Applied(RemoveIfMarked(target, files) + [SteamLaunchOptions(app.steamAppId.value, choice, SteamEnvVars(choice, gpu), useEnvWrapper)])
    else if HeroicIds(app) then
      Applied([HeroicLaunchEnv(app.heroicPlatform.value, app.heroicAppName.value, HeroicEnv(choice, gpu))])
    else if FlatpakIds(app) then
      Applied([FlatpakOverride(FlatpakOverrideArgs(app.flatpakAppId.value, choice, gpu))])
    else
      match choice
      case Default => Applied(RemoveIfMarked(target, files))
      case Gpu(i) => WriteOverride(app, i, gpu, target, files)
  }

  /** The blank-value filter on the source's `Exec` value never fires: a
      value read from a desktop file is already trimmed and non-empty. */
  lemma OriginalExecPrefersSource(source: string, app: DesktopApp)
    ensures DesktopExecValue(source).Some? ==> OriginalExec(source, app) == DesktopExecValue(source).value
    ensures DesktopExecValue(source).None? ==> OriginalExec(source, app) == app.exec
  {
    var ls := Lines(source);
    if DesktopExecValue(source).Some? {
      var k := FirstWhere(ls, HasExecValue).value;
      var v := DesktopExecValue(source).value;
      assert v == Trim(ls[k][5..]) && |v| > 0;
      TrimIdempotent(ls[k][5..]);
    }
  }

  // ---------------------------------------------------------------------------
  // Properties of the dispatch

  /** A Steam game with an id goes through Steam, whatever else it is, after
      a managed desktop override is dropped. */
  lemma SteamFirst(app: DesktopApp, choice: GpuChoice, gpu: Option<GpuInfo>, useEnvWrapper: bool, home: Option<string>, files: map<string, string>)
    requires SteamIds(app)
    ensures var r := ApplyLauncherOverride(app, choice, gpu, useEnvWrapper, home, files);
      var target := UserLauncherPath(home, app.desktopId);
      r.Applied? && r.effects == RemoveIfMarked(target, files) + [SteamLaunchOptions(app.steamAppId.value, choice, SteamEnvVars(choice, gpu), useEnvWrapper)]
  {
  }

  /** Without a Steam id, a Heroic game with platform and name goes through
      Heroic, even when it is also a Flatpak. */
  lemma HeroicSecond(app: DesktopApp, choice: GpuChoice, gpu: Option<GpuInfo>, useEnvWrapper: bool, home: Option<string>, files: map<string, string>)
    requires !SteamIds(app) && HeroicIds(app)
    ensures ApplyLauncherOverride(app, choice, gpu, useEnvWrapper, home, files)
      == Applied([HeroicLaunchEnv(app.heroicPlatform.value, app.heroicAppName.value, HeroicEnv(choice, gpu))])
  {
  }

  /** Then a Flatpak with an id goes through `flatpak override`. */
  lemma FlatpakThird(app: DesktopApp, choice: GpuChoice, gpu: Option<GpuInfo>, useEnvWrapper: bool, home: Option<string>, files: map<string, string>)
    requires !SteamIds(app) && !HeroicIds(app) && FlatpakIds(app)
    ensures ApplyLauncherOverride(app, choice, gpu, useEnvWrapper, home, files)
      == Applied([FlatpakOverride(FlatpakOverrideArgs(app.flatpakAppId.value, choice, gpu))])
  {
  }

  /** Everything else touches only the per-user desktop file: `Default`
      removes it exactly when it is managed, a GPU writes it unless refused. */
  lemma NativeLast(app: DesktopApp, choice: GpuChoice, gpu: Option<GpuInfo>, useEnvWrapper: bool, home: Option<string>, files: map<string, string>)
    requires !SteamIds(app) && !HeroicIds(app) && !FlatpakIds(app)
    ensures var r := ApplyLauncherOverride(app, choice, gpu, useEnvWrapper, home, files);
      var target := UserLauncherPath(home, app.desktopId);
      && (choice.Default? ==> r.Applied? && (r.effects == [RemoveFile(target)] <==> FileContainsMarker(target, files))
                              && (r.effects == [] <==> !FileContainsMarker(target, files)))
      && (choice.Gpu? ==> (r.Refused? <==> app.path == target && !FileContainsMarker(target, files)))
      && (choice.Gpu? && r.Applied? ==> r.effects[0].WriteFile? && |r.effects| == 1)
  {
  }

  /** No effect removes a file without the marker, every written file
      carries the marker, and the application's own desktop file is written
      only when it is already managed. */
  predicate SafeEffects(effects: seq<Effect>, files: map<string, string>, appPath: string) {
    forall i :: 0 <= i < |effects| ==> SafeEffect(effects[i], files, appPath)
  }

  predicate SafeEffect(e: Effect, files: map<string, string>, appPath: string) {
    && (e.RemoveFile? ==> FileContainsMarker(e.path, files))
    && (e.WriteFile? ==> Contains(e.content, MARKER))
    && (e.WriteFile? && e.path == appPath ==> FileContainsMarker(e.path, files))
  }

  /** Whatever the application and choice, the outcome's effects are safe. */
  lemma NoUnmanagedLoss(app: DesktopApp, choice: GpuChoice, gpu: Option<GpuInfo>, useEnvWrapper: bool, home: Option<string>, files: map<string, string>)
    ensures var r := ApplyLauncherOverride(app, choice, gpu, useEnvWrapper, home, files);
      r.Applied? ==> SafeEffects(r.effects, files, app.path)
  {
    if SteamIds(app) {
      SteamSafe(app, choice, gpu, useEnvWrapper, home, files);
    } else if HeroicIds(app) {
      HeroicSafe(app, choice, gpu, useEnvWrapper, home, files);
    } else if FlatpakIds(app) {
      FlatpakSafe(app, choice, gpu, useEnvWrapper, home, files);
    } else {
      NativeSafe(app, choice, gpu, useEnvWrapper, home, files);
    }
  }

  lemma SteamSafe(app: DesktopApp, choice: GpuChoice, gpu: Option<GpuInfo>, useEnvWrapper: bool, home: Option<string>, files: map<string, string>)
    requires SteamIds(app)
    ensures var r := ApplyLauncherOverride(app, choice, gpu, useEnvWrapper, home, files);
      r.Applied? && SafeEffects(r.effects, files, app.path)
  {
    var e := SteamLaunchOptions(app.steamAppId.value, choice, SteamEnvVars(choice, gpu), useEnvWrapper);
    var target := UserLauncherPath(home, app.desktopId);
    assert ApplyLauncherOverride(app, choice, gpu, useEnvWrapper, home, files) == Applied(RemoveIfMarked(target, files) + [e]) by {
      SteamFirst(app, choice, gpu, useEnvWrapper, home, files);
    }
    SafeRemoveThen(target, files, app.path, [e]);
  }

  lemma HeroicSafe(app: DesktopApp, choice: GpuChoice, gpu: Option<GpuInfo>, useEnvWrapper: bool, home: Option<string>, files: map<string, string>)
    requires !SteamIds(app) && HeroicIds(app)
    ensures var r := ApplyLauncherOverride(app, choice, gpu, useEnvWrapper, home, files);
      r.Applied? && SafeEffects(r.effects, files, app.path)
  {
    HeroicSecond(app, choice, gpu, useEnvWrapper, home, files);
    var e := HeroicLaunchEnv(app.heroicPlatform.value, app.heroicAppName.value, HeroicEnv(choice, gpu));
    SafeOthers(files, app.path, [e]);
  }

  lemma FlatpakSafe(app: DesktopApp, choice: GpuChoice, gpu: Option<GpuInfo>, useEnvWrapper: bool, home: Option<string>, files: map<string, string>)
    requires !SteamIds(app) && !HeroicIds(app) && FlatpakIds(app)
    ensures var r := ApplyLauncherOverride(app, choice, gpu, useEnvWrapper, home, files);
      r.Applied? && SafeEffects(r.effects, files, app.path)
  {
    FlatpakThird(app, choice, gpu, useEnvWrapper, home, files);
    var e := FlatpakOverride(FlatpakOverrideArgs(app.flatpakAppId.value, choice, gpu));
    SafeOthers(files, app.path, [e]);
  }

  lemma NativeSafe(app: DesktopApp, choice: GpuChoice, gpu: Option<GpuInfo>, useEnvWrapper: bool, home: Option<string>, files: map<string, string>)
    requires !SteamIds(app) && !HeroicIds(app) && !FlatpakIds(app)
    ensures var r := ApplyLauncherOverride(app, choice, gpu, useEnvWrapper, home, files);
      r.Applied? ==> SafeEffects(r.effects, files, app.path)
  {
    var target := UserLauncherPath(home, app.desktopId);
    match choice
    case Default =>
      assert ApplyLauncherOverride(app, choice, gpu, useEnvWrapper, home, files) == Applied(RemoveIfMarked(target, files));
      SafeRemoveThen(target, files, app.path, []);
      assert RemoveIfMarked(target, files) + [] == RemoveIfMarked(target, files);
    case Gpu(i) =>
      assert ApplyLauncherOverride(app, choice, gpu, useEnvWrapper, home, files) == WriteOverride(app, i, gpu, target, files);
      if WriteOverride(app, i, gpu, target, files).Applied? {
        WrittenMarked(app, i, gpu, target, files);
      }
  }

  lemma SafeOthers(files: map<string, string>, appPath: string, effects: seq<Effect>)
    requires forall i :: 0 <= i < |effects| ==> !effects[i].IsFileEffect()
    ensures SafeEffects(effects, files, appPath)
  {
  }

  lemma SafeRemoveThen(target: string, files: map<string, string>, appPath: string, rest: seq<Effect>)
    requires forall i :: 0 <= i < |rest| ==> !rest[i].IsFileEffect()
    ensures SafeEffects(RemoveIfMarked(target, files) + rest, files, appPath)
  {
  }

  lemma WrittenMarked(app: DesktopApp, index: nat, gpu: Option<GpuInfo>, target: string, files: map<string, string>)
    requires WriteOverride(app, index, gpu, target, files).Applied?
    ensures SafeEffects(WriteOverride(app, index, gpu, target, files).effects, files, app.path)
  {
    var source := if app.path in files then files[app.path] else "";
    var wrapped := WrapExecForGpu(OriginalExec(source, app), index, gpu);
    ContentHasMarker(source, wrapped, app);
  }

  /** The refusal only guards the application's own file: an unmanaged file
      at the target path is overwritten when the application was read from
      elsewhere. */
  lemma OtherUnmanagedOverwritten(app: DesktopApp, index: nat, gpu: Option<GpuInfo>, useEnvWrapper: bool, home: Option<string>, files: map<string, string>)
    requires !SteamIds(app) && !HeroicIds(app) && !FlatpakIds(app)
    requires app.path != UserLauncherPath(home, app.desktopId)
    ensures var r := ApplyLauncherOverride(app, Gpu(index), gpu, useEnvWrapper, home, files);
      r.Applied? && r.effects[0].WriteFile? && r.effects[0].path == UserLauncherPath(home, app.desktopId)
  {
  }

  /** The file system after the file effects. */
  function Perform(files: map<string, string>, effects: seq<Effect>): (r: map<string, string>)
    decreases |effects|
  {
    if |effects| == 0 then files
    else
      var e := effects[0];
      var next := if e.WriteFile? then files[e.path := e.content]
        else if e.RemoveFile? then files - {e.path}
        else files;
      Perform(next, effects[1..])
  }

  /** Choosing a GPU for a native application and then going back to
      `Default` removes exactly the file that was written, and a further
      `Default` does nothing. */
  lemma NativeRoundTrip(app: DesktopApp, index: nat, gpu: Option<GpuInfo>, gpu2: Option<GpuInfo>, useEnvWrapper: bool, home: Option<string>, files: map<string, string>)
    requires !SteamIds(app) && !HeroicIds(app) && !FlatpakIds(app)
    requires ApplyLauncherOverride(app, Gpu(index), gpu, useEnvWrapper, home, files).Applied?
    ensures var target := UserLauncherPath(home, app.desktopId);
      var written := Perform(files, ApplyLauncherOverride(app, Gpu(index), gpu, useEnvWrapper, home, files).effects);
      var removed := Perform(written, [RemoveFile(target)]);
      && target in written
      && ApplyLauncherOverride(app, Default, gpu2, useEnvWrapper, home, written) == Applied([RemoveFile(target)])
      && target !in removed
      && ApplyLauncherOverride(app, Default, gpu2, useEnvWrapper, home, removed) == Applied([])
  {
    var target := UserLauncherPath(home, app.desktopId);
    var c := NativeWrites(app, index, gpu, useEnvWrapper, home, files);
    var written := files[target := c];
    PerformOne(files, WriteFile(target, c));
    DefaultRemoves(app, gpu2, useEnvWrapper, home, written);
    PerformOne(written, RemoveFile(target));
    DefaultRemoves(app, gpu2, useEnvWrapper, home, written - {target});
  }

  /** A native GPU choice writes one file, at the target, with the marker. */
  lemma NativeWrites(app: DesktopApp, index: nat, gpu: Option<GpuInfo>, useEnvWrapper: bool, home: Option<string>, files: map<string, string>) returns (c: string)
    requires !SteamIds(app) && !HeroicIds(app) && !FlatpakIds(app)
    requires ApplyLauncherOverride(app, Gpu(index), gpu, useEnvWrapper, home, files).Applied?
    ensures ApplyLauncherOverride(app, Gpu(index), gpu, useEnvWrapper, home, files).effects == [WriteFile(UserLauncherPath(home, app.desktopId), c)]
    ensures Contains(c, MARKER)
  {
    var r := ApplyLauncherOverride(app, Gpu(index), gpu, useEnvWrapper, home, files);
    NativeLast(app, Gpu(index), gpu, useEnvWrapper, home, files);
    NativeSafe(app, Gpu(index), gpu, useEnvWrapper, home, files);
    c := r.effects[0].content;
    assert SafeEffect(r.effects[0], files, app.path);
  }

  /** A native `Default` removes the target exactly when it is managed. */
  lemma DefaultRemoves(app: DesktopApp, gpu: Option<GpuInfo>, useEnvWrapper: bool, home: Option<string>, files: map<string, string>)
    requires !SteamIds(app) && !HeroicIds(app) && !FlatpakIds(app)
    ensures var target := UserLauncherPath(home, app.desktopId);
      ApplyLauncherOverride(app, Default, gpu, useEnvWrapper, home, files)
        == if FileContainsMarker(target, files) then Applied([RemoveFile(target)]) else Applied([])
  {
  }

  lemma PerformOne(files: map<string, string>, e: Effect)
    ensures e.WriteFile? ==> Perform(files, [e]) == files[e.path := e.content]
    ensures e.RemoveFile? ==> Perform(files, [e]) == files - {e.path}
  {
    assert [e][1..] == [];
  }

  // ---------------------------------------------------------------------------
  // The Heroic environment reaches a fixed point

  /** Every variable the launcher sets is one the Heroic edit manages. */
  lemma VarManaged(v: Var)
    ensures VarName(v) in Heroic.MANAGED_KEYS
  {
    match v
    case DriPrime => assert Heroic.MANAGED_KEYS[0] == VarName(v);
    case PressureVesselImportVars => assert Heroic.MANAGED_KEYS[1] == VarName(v);
    case NvPrimeRenderOffload => assert Heroic.MANAGED_KEYS[2] == VarName(v);
    case GlxVendorLibraryName => assert Heroic.MANAGED_KEYS[3] == VarName(v);
    case VkLayerNvOptimus => assert Heroic.MANAGED_KEYS[4] == VarName(v);
    case MesaVkDeviceSelect => assert Heroic.MANAGED_KEYS[5] == VarName(v);
    case MesaVkDeviceSelectForceDefault => assert Heroic.MANAGED_KEYS[6] == VarName(v);
  }

  /** No variable name holds a `=`. */
  lemma VarNameSplits(v: Var)
    ensures NoChar(VarName(v), '=')
  {
    match v
    case DriPrime | NvPrimeRenderOffload | GlxVendorLibraryName => ShortNamesSplit();
    case VkLayerNvOptimus | MesaVkDeviceSelect | PressureVesselImportVars => OtherNamesSplit();
    case MesaVkDeviceSelectForceDefault => LongNameSplits();
  }

  lemma ShortNamesSplit()
    ensures NoChar("DRI_PRIME", '=')
    ensures NoChar("__NV_PRIME_RENDER_OFFLOAD", '=')
    ensures NoChar("__GLX_VENDOR_LIBRARY_NAME", '=')
  {
    Absent("DRI_PRIME");
    Absent("__NV_PRIME_RENDER_OFFLOAD");
    Absent("__GLX_VENDOR_LIBRARY_NAME");
  }

  lemma OtherNamesSplit()
    ensures NoChar("__VK_LAYER_NV_optimus", '=')
    ensures NoChar("MESA_VK_DEVICE_SELECT", '=')
    ensures NoChar("PRESSURE_VESSEL_IMPORT_VARS", '=')
  {
    Absent("__VK_LAYER_NV_optimus");
    Absent("MESA_VK_DEVICE_SELECT");
    Absent("PRESSURE_VESSEL_IMPORT_VARS");
  }

  lemma LongNameSplits()
    ensures NoChar("MESA_VK_DEVICE_SELECT_FORCE_DEFAULT_DEVICE", '=')
  {
    Absent("MESA_VK_DEVICE_SELECT_FORCE_DEFAULT_DEVICE");
  }

  lemma Absent(s: string)
    requires '=' !in s
    ensures NoChar(s, '=')
  {
  }

  /** The launcher's `NAME=value` entries split back into their variables'
      names, all of them managed. */
  lemma RenderedManaged(vs: seq<EnvVar>)
    ensures forall i :: 0 <= i < |Heroic.SplitPairs(RenderAll(vs))| ==>
      Heroic.SplitPairs(RenderAll(vs))[i].0 in Heroic.MANAGED_KEYS
  {
    var es := RenderAll(vs);
    forall i | 0 <= i < |es| ensures SplitOnce(es[i], '=') == Some((VarName(vs[i].0), vs[i].1)) {
      VarNameSplits(vs[i].0);
      Heroic.SplitPair(VarName(vs[i].0), vs[i].1);
    }
    forall i | 0 <= i < |Heroic.SplitPairs(es)| ensures Heroic.SplitPairs(es)[i].0 in Heroic.MANAGED_KEYS {
      VarManaged(vs[i].0);
    }
  }

  /** Applying a GPU choice's Heroic environment to the configuration it
      produced reports no change, so a second run writes nothing. */
  lemma HeroicEnvIdempotent(choice: GpuChoice, gpu: Option<GpuInfo>, json: Json.Value, appName: string)
    requires json.Obj? && appName != Heroic.ENV_KEY
    ensures var env := HeroicEnv(choice, gpu);
            !Heroic.ApplyEnvToHeroicJson(Heroic.ApplyEnvToHeroicJson(json, appName, env).json, appName, env).changed
  {
    var env := HeroicEnv(choice, gpu);
    if choice.Gpu? {
      RenderedManaged(EnvVars(choice.index, false, GpuProfileOf(gpu)));
    } else {
      assert Heroic.SplitPairs(env) == [];
    }
    Heroic.DesiredManaged(env);
    Heroic.ApplyIdempotent(json, appName, env);
  }
}

=== FILE: steam.dfy ===
/** The Steam side of Kaede inside one apps block of a `localconfig.vdf`:
    finding an app's LaunchOptions line, and upserting it to carry the
    managed GPU prefix (`upsert_app_launch_options`), with what the
    written line reads back as. The whole-file update, the app state and
    the loop over the config files are in `SteamConfig`. */
module Steam {
  import opened Text
  import opened Models
  import Vdf
  import opened LaunchOptions

  // ---------------------------------------------------------------------------
  // Lines and indentation

  predicate IsIndent(c: char) {
    c == '\t' || c == ' '
  }

  /** The leading tabs and spaces of `s`. */
  function LeadingIndent(s: string): (r: string)
    ensures |r| <= |s|
  {
    if |s| > 0 && IsIndent(s[0]) then [s[0]] + LeadingIndent(s[1..]) else []
  }

  /** `LeadingIndent` is the longest prefix made of tabs and spaces. */
  lemma {:induction false} LeadingIndentShape(s: string)
    ensures var r := LeadingIndent(s);
      && r == s[..|r|]
      && (forall k :: 0 <= k < |r| ==> IsIndent(r[k]))
      && (|r| < |s| ==> !IsIndent(s[|r|]))
  {
    if |s| > 0 && IsIndent(s[0]) {
      LeadingIndentShape(s[1..]);
      var t := LeadingIndent(s[1..]);
      assert s[..|t| + 1] == [s[0]] + s[1..][..|t|];
    }
  }

  /** A run of tabs and spaces followed by anything else is the leading
      indentation. */
  lemma {:induction false} LeadingIndentIs(s: string, n: nat)
    requires n <= |s| && (forall k :: 0 <= k < n ==> IsIndent(s[k]))
    requires n < |s| ==> !IsIndent(s[n])
    ensures LeadingIndent(s) == s[..n]
  {
    if n > 0 {
      LeadingIndentIs(s[1..], n - 1);
      assert s[..n] == [s[0]] + s[1..][..n - 1];
    }
  }

  /** An indentation holds no quote and no line break. */
  lemma {:induction false} IndentClean(s: string)
    ensures NoChar(LeadingIndent(s), '"') && NoChar(LeadingIndent(s), '\n')
  {
    LeadingIndentShape(s);
  }

  /** Where the line holding position `idx` starts: just after the last
      line break before `idx` (`rfind('\n')` on `content[..idx]`, plus
      one), or at 0 when there is none. */
  function LineStart(content: string, idx: nat): (r: nat)
    requires idx <= |content|
    ensures r <= idx
  {
    if idx == 0 || content[idx - 1] == '\n' then idx else LineStart(content, idx - 1)
  }

  /** `LineStart` is a line start with no line break between it and
      `idx`. */
  lemma {:induction false} LineStartShape(content: string, idx: nat)
    requires idx <= |content|
    ensures var r := LineStart(content, idx);
      && (r == 0 || content[r - 1] == '\n')
      && (forall k :: r <= k < idx ==> content[k] != '\n')
  {
    if idx > 0 && content[idx - 1] != '\n' {
      LineStartShape(content, idx - 1);
    }
  }

  /** A line start with no line break up to `idx` is the start of the line
      holding `idx`. */
  lemma {:induction false} LineStartIs(content: string, a: nat, idx: nat)
    requires a <= idx <= |content| && (a == 0 || content[a - 1] == '\n')
    requires forall k :: a <= k < idx ==> content[k] != '\n'
    ensures LineStart(content, idx) == a
  {
    if a < idx {
      LineStartIs(content, a, idx - 1);
    }
  }

  /** Just past the first line break from `k` on (`find('\n')` on
      `content[k..]`, plus one), or the end of the content when no line
      break follows. */
  function LineEnd(content: string, k: nat): (r: nat)
    requires k <= |content|
    ensures k <= r <= |content| && (k < |content| ==> k < r)
    decreases |content| - k
  {
    if k == |content| then k else if content[k] == '\n' then k + 1 else LineEnd(content, k + 1)
  }

  /** `LineEnd` stops just past the first line break from `k` on. */
  lemma {:induction false} LineEndShape(content: string, k: nat)
    requires k <= |content|
    ensures var r := LineEnd(content, k);
      && (r == |content| || (k < r && content[r - 1] == '\n'))
      && (forall j :: k <= j < r - 1 ==> content[j] != '\n')
      && (r == |content| && (r == k || content[r - 1] != '\n') ==> forall j :: k <= j < r ==> content[j] != '\n')
    decreases |content| - k
  {
    if k < |content| && content[k] != '\n' {
      LineEndShape(content, k + 1);
    }
  }

  /** `indentation_at`: the tabs and spaces that open the line holding
      `idx`, up to `idx`. */
  function IndentationAt(content: string, idx: nat): (r: string)
    requires idx <= |content|
    ensures |r| <= idx
  {
    var a := LineStart(content, idx);
    LeadingIndent(content[a..idx])
  }

  /** The indentation is the run of tabs and spaces at the start of the
      line holding `idx`, as far as it goes before `idx`. */
  lemma {:induction false} IndentationShape(content: string, idx: nat)
    requires idx <= |content|
    ensures var a, r := LineStart(content, idx), IndentationAt(content, idx);
      && (a == 0 || content[a - 1] == '\n')
      && a + |r| <= idx && content[a..a + |r|] == r
      && (forall k :: 0 <= k < |r| ==> IsIndent(r[k]))
      && (a + |r| < idx ==> !IsIndent(content[a + |r|]))
  {
    var a := LineStart(content, idx);
    LineStartShape(content, idx);
    LeadingIndentShape(content[a..idx]);
  }

  // ---------------------------------------------------------------------------
  // Finding the LaunchOptions line

  const LaunchOptionsKey := "\"LaunchOptions\""

  /** A LaunchOptions line: where it starts, just past where it ends, the
      value it holds (if it has one) and its indentation. */
  datatype LaunchLine = LaunchLine(start: nat, end: nat, value: Option<string>, indent: string)

  /** The whole line holding position `k`, its value and its
      indentation. */
  function LineAround(content: string, k: nat): (r: LaunchLine)
    requires k < |content|
    ensures r.start <= k < r.end <= |content|
  {
    LineOf(content, LineStart(content, k), LineEnd(content, k))
  }

  /** The line `content[a..b]`, its value and its indentation. */
  function LineOf(content: string, a: nat, b: nat): (r: LaunchLine)
    requires a <= b <= |content|
    ensures r.start == a && r.end == b
  {
    var line := content[a..b];
    LaunchLine(a, b, ParseLaunchOptionsValue(line), LeadingIndent(line))
  }

  /** `find_launch_options_line`: the line around the first
      `"LaunchOptions"` lying in `content[start..end]`. The line may reach
      past `end` on both sides. */
  function FindLaunchOptionsLine(content: string, start: nat, end: nat): (r: Option<LaunchLine>)
    requires end <= |content|
    ensures r.Some? ==> r.value.start < r.value.end <= |content|
  {
    match Vdf.OccurrenceFrom(content, LaunchOptionsKey, start, end)
    case None => None
    case Some(k) => Some(LineAround(content, k))
  }

  /** The key `FindLaunchOptionsLine` settles on is the first one lying
      wholly in the range, and there is none when it finds nothing. */
  lemma {:induction false} LaunchKeyFirst(content: string, start: nat, end: nat)
    requires end <= |content|
    ensures var o := Vdf.OccurrenceFrom(content, LaunchOptionsKey, start, end);
      && (FindLaunchOptionsLine(content, start, end).None? <==> o.None?)
      && (o.None? <==> forall k :: start <= k && k + 15 <= end ==> !OccursAt(content, LaunchOptionsKey, k))
      && (o.None? <==> KeyFree(content, start, end))
      && (o.Some? ==> OccursAt(content, LaunchOptionsKey, o.value))
      && (o.Some? ==> forall j :: start <= j < o.value ==> !OccursAt(content, LaunchOptionsKey, j))
  {
    var key := LaunchOptionsKey;
    Vdf.OccurrenceFromFirst(content, key, start, end);
    forall j: nat ensures Vdf.MatchesAt(content, key, j) <==> OccursAt(content, key, j) {
      Vdf.MatchesAtIsOccursAt(content, key, j);
    }
  }

  /** The line around `k` starts after a line break (or at 0), holds no
      line break before `k` nor from `k` to its last char, and ends with a
      line break or with the content. */
  lemma {:induction false} LineAroundShape(content: string, k: nat)
    requires k < |content|
    ensures var l := LineAround(content, k);
      && (l.start == 0 || content[l.start - 1] == '\n')
      && (forall j :: l.start <= j < k ==> content[j] != '\n')
      && (l.end == |content| || content[l.end - 1] == '\n')
      && (forall j :: k <= j < l.end - 1 ==> content[j] != '\n')
  {
    LineStartShape(content, k);
    LineEndShape(content, k);
  }

  /** The first occurrence from `i` on is the one at `k` when none starts
      between them. */
  lemma {:induction false} OccurrenceFromIs(s: string, needle: string, i: nat, k: nat, end: nat)
    requires end <= |s| && i <= k && k + |needle| <= end && Vdf.MatchesAt(s, needle, k)
    requires forall j :: i <= j < k ==> !Vdf.MatchesAt(s, needle, j)
    ensures Vdf.OccurrenceFrom(s, needle, i, end) == Some(k)
    decreases k - i
  {
    if i < k {
      OccurrenceFromIs(s, needle, i + 1, k, end);
    }
  }

  /** No LaunchOptions key starts in `s[from..to]`. */
  predicate NoKeyStarts(s: string, from: nat, to: nat) {
    forall j :: from <= j < to ==> !Vdf.MatchesAt(s, LaunchOptionsKey, j)
  }

  /** A search that finds no line meets no key. */
  lemma NoLineKeyFree(content: string, start: nat, end: nat)
    requires end <= |content| && FindLaunchOptionsLine(content, start, end).None?
    ensures KeyFree(content, start, end)
  {
    LaunchKeyFirst(content, start, end);
  }

  /** No LaunchOptions key lies wholly in `s[from..to]`. */
  predicate KeyFree(s: string, from: nat, to: nat) {
    forall j :: from <= j && j + 15 <= to ==> !Vdf.MatchesAt(s, LaunchOptionsKey, j)
  }

  /** A stretch free of quotes starts no key. */
  lemma {:induction false} QuoteFreeNoKey(s: string, from: nat, to: nat)
    requires to <= |s| && forall j :: from <= j < to ==> s[j] != '"'
    ensures NoKeyStarts(s, from, to)
  {
    forall j | from <= j < to ensures !Vdf.MatchesAt(s, LaunchOptionsKey, j) {
      Vdf.MatchesAtIsOccursAt(s, LaunchOptionsKey, j);
      FirstCharDiffers(s, LaunchOptionsKey, j);
    }
  }

  /** A text that ends a line and holds no whole key from `from` on starts
      none there either, whatever follows it: the key holds no line
      break. */
  lemma {:induction false} NoKeyAcross(x: string, y: string, from: nat)
    requires x == [] || x[|x| - 1] == '\n'
    requires KeyFree(x, from, |x|)
    ensures NoKeyStarts(x + y, from, |x|)
  {
    var key := LaunchOptionsKey;
    assert '\n' !in key;
    forall j | from <= j < |x| ensures !Vdf.MatchesAt(x + y, key, j) {
      Vdf.MatchesAtIsOccursAt(x + y, key, j);
      if OccursAt(x + y, key, j) {
        if j + 15 <= |x| {
          OccursInPrefix(x, y, key, j);
          Vdf.MatchesAtIsOccursAt(x, key, j);
        } else {
          OccursAtChar(x + y, key, j, |x| - 1 - j);
        }
      }
    }
  }

  /** How a LaunchOptions line is laid out: its indentation, then the key,
      and no line break up to its closing quote. */
  lemma {:induction false} EntryLayout(indent: string, value: string, rest: string)
    requires NoChar(value, '\n')
    ensures var t, n := LaunchOptionsEntry(indent, value) + rest, |indent|;
      && (forall j :: 0 <= j < n ==> t[j] == indent[j])
      && OccursAt(t, LaunchOptionsKey, n)
      && (forall j :: n <= j < n + 19 + |value| ==> t[j] != '\n')
  {
    var l := "\"LaunchOptions\"\t\t\"";
    var t := LaunchOptionsEntry(indent, value) + rest;
    var n := |indent|;
    assert '\n' !in l;
    assert t == indent + l + value + "\"" + rest;
    assert forall j :: n <= j < n + 18 ==> t[j] == l[j - n];
    assert forall j :: n + 18 <= j < n + 18 + |value| ==> t[j] == value[j - n - 18];
    assert t[n..n + 15] == LaunchOptionsKey;
  }

  /** Read on its own, a LaunchOptions line ends no earlier than its
      closing quote, reads back as its value, trimmed, and has its
      indentation. */
  lemma {:induction false} EntryLineAlone(indent: string, value: string, rest: string)
    requires forall k :: 0 <= k < |indent| ==> IsIndent(indent[k])
    requires NoChar(value, '"') && NoChar(value, '\n')
    ensures var e := LaunchOptionsEntry(indent, value);
      var t := e + rest;
      var c := LineEnd(t, |indent|);
      && |e| <= c
      && ParseLaunchOptionsValue(t[..c]) == Some(Trim(value))
      && LeadingIndent(t[..c]) == indent
  {
    var e := LaunchOptionsEntry(indent, value);
    var t := e + rest;
    var n := |indent|;
    EntryLayout(indent, value, rest);
    var c := LineEnd(t, n);
    assert |e| <= c by {
      LineEndShape(t, n);
    }
    var line := t[..c];
    assert line == e + t[|e|..c];
    ParseEntry(indent, value, t[|e|..c]);
    assert line[n] == '"' by {
      assert OccursAt(t, LaunchOptionsKey, n);
      assert t[n] == t[n..n + 15][0];
    }
    LeadingIndentIs(line, n);
  }

  /** An occurrence in `y` is one in `x + y`, moved by `|x|`. */
  lemma {:induction false} OccursAfter(x: string, y: string, needle: string, j: nat)
    requires OccursAt(y, needle, j)
    ensures OccursAt(x + y, needle, |x| + j)
  {
    assert (x + y)[|x| + j..|x| + j + |needle|] == y[j..j + |needle|];
  }

  /** Line ends after `x` in `x + y` are those of `y`, moved by `|x|`. */
  lemma {:induction false} LineEndAfter(x: string, y: string, k: nat)
    requires k <= |y|
    ensures LineEnd(x + y, |x| + k) == |x| + LineEnd(y, k)
    decreases |y| - k
  {
    if k < |y| {
      assert (x + y)[|x| + k] == y[k];
      LineEndAfter(x, y, k + 1);
    }
  }

  lemma {:induction false} SliceAfter(x: string, y: string, c: nat)
    requires c <= |y|
    ensures (x + y)[|x|..|x| + c] == y[..c]
  {
  }

  /** A key after `pre` and an indentation is the first one a search
      meets that starts where `pre` starts no more keys. */
  lemma {:induction false} KeyFoundAfter(pre: string, t: string, n: nat, from: nat, end: nat)
    requires from <= |pre| && NoKeyStarts(pre + t, from, |pre|)
    requires n <= |t| && (forall j :: 0 <= j < n ==> IsIndent(t[j])) && OccursAt(t, LaunchOptionsKey, n)
    requires |pre| + n + 15 <= end <= |pre| + |t|
    ensures Vdf.OccurrenceFrom(pre + t, LaunchOptionsKey, from, end) == Some(|pre| + n)
  {
    var s := pre + t;
    var a := |pre|;
    assert Vdf.MatchesAt(s, LaunchOptionsKey, a + n) by {
      OccursAfter(pre, t, LaunchOptionsKey, n);
      Vdf.MatchesAtIsOccursAt(s, LaunchOptionsKey, a + n);
    }
    assert forall j :: a <= j < a + n ==> s[j] == t[j - a];
    QuoteFreeNoKey(s, a, a + n);
    OccurrenceFromIs(s, LaunchOptionsKey, from, a + n, end);
  }

  /** After a line break, an indentation stays on the line that starts
      there. */
  lemma {:induction false} LineStartAfter(pre: string, t: string, n: nat)
    requires pre == [] || pre[|pre| - 1] == '\n'
    requires n <= |t| && (forall j :: 0 <= j < n ==> IsIndent(t[j]))
    ensures LineStart(pre + t, |pre| + n) == |pre|
  {
    var s := pre + t;
    var a := |pre|;
    assert forall j :: a <= j < a + n ==> s[j] == t[j - a];
    LineStartIs(s, a, a + n);
  }

  /** The line around a position after `pre` and an indentation starts
      right after `pre`, and is the line `t` starts with. */
  lemma {:induction false} LineAroundAfter(pre: string, t: string, n: nat)
    requires pre == [] || pre[|pre| - 1] == '\n'
    requires n < |t| && (forall j :: 0 <= j < n ==> IsIndent(t[j]))
    ensures LineAround(pre + t, |pre| + n) == LineOf(pre + t, |pre|, |pre| + LineEnd(t, n))
  {
    LineStartAfter(pre, t, n);
    LineEndAfter(pre, t, n);
  }

  lemma {:induction false} LineAroundIs(pre: string, t: string, n: nat, c: nat, l: LaunchLine)
    requires pre == [] || pre[|pre| - 1] == '\n'
    requires n < |t| && (forall j :: 0 <= j < n ==> IsIndent(t[j]))
    requires c == LineEnd(t, n) && |pre| + c <= |pre + t| && LineOf(pre + t, |pre|, |pre| + c) == l
    ensures LineAround(pre + t, |pre| + n) == l
  {
    LineAroundAfter(pre, t, n);
  }

  /** A line after `pre` in `pre + t` is the line of `t` there. */
  lemma {:induction false} LineOfAfter(pre: string, t: string, c: nat)
    requires c <= |t|
    ensures LineOf(pre + t, |pre|, |pre| + c)
      == LaunchLine(|pre|, |pre| + c, ParseLaunchOptionsValue(t[..c]), LeadingIndent(t[..c]))
  {
    SliceAfter(pre, t, c);
  }

  /** A line that starts after `pre` with an indentation and the key is
      the line a search finds that starts where `pre` starts no more
      keys. */
  lemma {:induction false} KeyLineAfter(pre: string, t: string, n: nat, from: nat, end: nat)
    requires from <= |pre| && NoKeyStarts(pre + t, from, |pre|)
    requires n <= |t| && (forall j :: 0 <= j < n ==> IsIndent(t[j])) && OccursAt(t, LaunchOptionsKey, n)
    requires |pre| + n + 15 <= end <= |pre| + |t|
    ensures FindLaunchOptionsLine(pre + t, from, end) == Some(LineAround(pre + t, |pre| + n))
  {
    KeyFoundAfter(pre, t, n, from, end);
  }

  /** Where the line a search of `s[from..to]` finds starts, what it holds
      and its indentation; `None` when it finds none. */
  function LineSeen(s: string, from: nat, to: nat): (r: Option<(nat, Option<string>, string)>)
    ensures r.Some? ==> to <= |s| && r.value.0 < |s|
  {
    if to > |s| then None
    else match FindLaunchOptionsLine(s, from, to)
      case None => None
      case Some(l) => Some((l.start, l.value, l.indent))
  }

  /** A search of `s[from..to]` finds a LaunchOptions line starting at
      `start`, holding `value`, at `indent`. */
  predicate LineReadsBack(s: string, from: nat, to: nat, start: nat, value: string, indent: string) {
    LineSeen(s, from, to) == Some((start, Some(value), indent))
  }

  /** A LaunchOptions line that starts a line is found again by a search
      that meets no key before it, and reads back as its value, trimmed,
      at its indentation, whatever follows it. */
  lemma {:induction false} EntryLineReadsBack(pre: string, indent: string, value: string, rest: string, from: nat, end: nat)
    requires pre == [] || pre[|pre| - 1] == '\n'
    requires from <= |pre| && NoKeyStarts(pre + (LaunchOptionsEntry(indent, value) + rest), from, |pre|)
    requires forall k :: 0 <= k < |indent| ==> IsIndent(indent[k])
    requires NoChar(value, '"') && NoChar(value, '\n')
    requires |pre| + |indent| + 15 <= end <= |pre| + |LaunchOptionsEntry(indent, value)| + |rest|
    ensures LineReadsBack(pre + (LaunchOptionsEntry(indent, value) + rest), from, end, |pre|, Trim(value), indent)
  {
    var t := LaunchOptionsEntry(indent, value) + rest;
    var n := |indent|;
    var c := LineEnd(t, n);
    EntryLayout(indent, value, rest);
    assert forall j :: 0 <= j < n ==> IsIndent(t[j]);
    KeyLineAfter(pre, t, n, from, end);
    var l := LaunchLine(|pre|, |pre| + c, Some(Trim(value)), indent);
    assert LineOf(pre + t, |pre|, |pre| + c) == l by {
      LineOfAfter(pre, t, c);
      EntryLineAlone(indent, value, rest);
    }
    LineAroundIs(pre, t, n, c, l);
    SeenFound(pre + t, from, end, l);
  }

  /** What the search finds is what `LineSeen` reports. */
  lemma {:induction false} SeenFound(s: string, from: nat, to: nat, l: LaunchLine)
    requires to <= |s| && FindLaunchOptionsLine(s, from, to) == Some(l)
    ensures LineSeen(s, from, to) == Some((l.start, l.value, l.indent))
  {
  }

  // ---------------------------------------------------------------------------
  // Rewriting an app's LaunchOptions

  /** A text after an in-place edit, and whether the edit changed it. */
  datatype Patched = Patched(text: string, changed: bool)

  /** `content` with `content[a..b]` replaced by `text` (`replace_range`,
      or `insert_str` when `a == b`). */
  function Splice(content: string, a: nat, b: nat, text: string): (r: string)
    requires a <= b <= |content|
    ensures |r| == |content| - (b - a) + |text|
  {
    content[..a] + text + content[b..]
  }

  /** A splice keeps what lies before `a` and from `b` on, and puts the new
      text between them. */
  lemma {:induction false} SpliceKeeps(content: string, a: nat, b: nat, text: string)
    requires a <= b <= |content|
    ensures var r := Splice(content, a, b, text);
      && r[..a] == content[..a]
      && r[a..a + |text|] == text
      && r[a + |text|..] == content[b..]
  {
  }

  /** The block added for an app the apps block lacks: the app's key and
      braces at `appIndent`, holding one LaunchOptions line one tab
      deeper. */
  function NewAppBlock(appIndent: string, appId: string, value: string): (r: string)
    ensures |r| == 4 * |appIndent| + |appId| + |value| + 28 && r[0] == '\n'
  {
    NewBlockHead(appIndent, appId) + LaunchOptionsEntry(appIndent + "\t", value) + ("\n" + appIndent + "}")
  }

  /** The text a new app block puts before its LaunchOptions line: the
      app's key, and its opening brace on a line of its own. */
  function NewBlockHead(appIndent: string, appId: string): (r: string)
    ensures |r| == 2 * |appIndent| + |appId| + 6 && r[0] == '\n' && r[|r| - 2] == '{' && r[|r| - 1] == '\n'
  {
    "\n" + appIndent + "\"" + appId + "\"\n" + appIndent + "{\n"
  }

  /** `upsert_app_launch_options`: set the LaunchOptions of `appId` inside
      the apps block `[appsOpen, appsClose]` (whose key is at `appsKey`) to
      the existing value rewritten for `desiredPrefix`: a missing app gets a
      new block, a found one has its line rewritten or one added. */
  function UpsertAppLaunchOptions(content: string, appsKey: nat, appsOpen: nat, appsClose: nat,
                                  appId: string, desiredPrefix: Option<string>): (r: Patched)
    requires appsKey <= |content| && appsClose <= |content|
    ensures !r.changed ==> r.text == content
  {
    var plan := UpsertPlan(content, appsOpen, appsClose, appId);
    Perform(content, appsKey, appsClose, appId, plan, ApplyPrefixToExisting(PlanExisting(plan), desiredPrefix))
  }

  /** The three cases of the upsert: the app is missing from the apps
      block; it has a LaunchOptions line; it has none. */
  datatype Plan = NewApp | Rewrite(app: Vdf.Block, line: LaunchLine) | AddTo(app: Vdf.Block)

  /** Which case the upsert is in: the app's block is looked up inside the
      apps block, and its first LaunchOptions line inside the app's
      block. */
  function UpsertPlan(content: string, appsOpen: nat, appsClose: nat, appId: string): (r: Plan)
    requires appsClose <= |content|
    ensures r.Rewrite? ==> r.line.start < r.line.end <= |content|
    ensures !r.NewApp? ==> appsOpen < r.app.key < r.app.open < r.app.close < appsClose
  {
    match Vdf.FindBlock(content, appId, appsOpen + 1, appsClose)
    case None => NewApp
    case Some(app) =>
      match FindLaunchOptionsLine(content, app.open + 1, app.close)
      case Some(line) => Rewrite(app, line)
      case None => AddTo(app)
  }

  /** The existing value the upsert rewrites: that of the app's first
      LaunchOptions line, none when the app or the line is missing. */
  function PlanExisting(plan: Plan): (r: Option<string>)
    ensures r.Some? ==> plan.Rewrite?
  {
    if plan.Rewrite? then plan.line.value else None
  }

  /** The edit of each case, writing `value`, the existing value rewritten
      for the prefix. A missing app is left alone when there is nothing to
      write, which for no existing value is exactly when there is no prefix
      (see `NewValue`). */
  function Perform(content: string, appsKey: nat, appsClose: nat, appId: string, plan: Plan, value: string): (r: Patched)
    requires appsKey <= |content| && appsClose <= |content|
    requires plan.Rewrite? ==> plan.line.start <= plan.line.end <= |content|
    requires plan.AddTo? ==> plan.app.key <= plan.app.close <= |content|
    ensures !r.changed ==> r.text == content
  {
    match plan
    case NewApp => if |value| == 0 then Patched(content, false) else AddAppBlock(content, appsKey, appsClose, appId, value)
    case Rewrite(_, line) => RewriteLine(content, line, value)
    case AddTo(app) => AddLine(content, app, value)
  }

  /** The missing-app branch: a new block holding `value` just before the
      apps block's closing brace, one tab deeper than the apps key. */
  function AddAppBlock(content: string, appsKey: nat, appsClose: nat, appId: string, value: string): (r: Patched)
    requires appsKey <= |content| && appsClose <= |content|
    ensures r.changed && |r.text| == |content| + 4 * (|IndentationAt(content, appsKey)| + 1) + |appId| + |value| + 28
  {
    var appIndent := IndentationAt(content, appsKey) + "\t";
    Patched(Splice(content, appsClose, appsClose, NewAppBlock(appIndent, appId, value)), true)
  }

  /** The found-line branch: the line is deleted when the new value is
      empty, kept when it already holds the new value, and replaced by a
      line at its indentation otherwise. */
  function RewriteLine(content: string, line: LaunchLine, updated: string): (r: Patched)
    requires line.start <= line.end <= |content|
    ensures !r.changed <==> |updated| > 0 && line.value == Some(updated)
    ensures !r.changed ==> r.text == content
  {
    if |updated| == 0 then Patched(Splice(content, line.start, line.end, ""), true)
    else if line.value == Some(updated) then Patched(content, false)
    else Patched(Splice(content, line.start, line.end, LaunchOptionsEntry(line.indent, updated) + "\n"), true)
  }

  /** The no-line branch: nothing when the new value is empty, otherwise a
      line just before the app's closing brace, one tab deeper than the app
      key. */
  function AddLine(content: string, app: Vdf.Block, updated: string): (r: Patched)
    requires app.key <= app.close <= |content|
    ensures r.changed <==> |updated| > 0
    ensures !r.changed ==> r.text == content
  {
    var launchIndent := IndentationAt(content, app.key) + "\t";
    if |updated| == 0 then Patched(content, false)
    else Patched(Splice(content, app.close, app.close, "\n" + LaunchOptionsEntry(launchIndent, updated)), true)
  }

  /** The part of the content each case replaces: nothing just before the
      apps block's closing brace for a new app, the found line for a
      rewrite, nothing just before the app's closing brace for an added
      line. */
  function EditSpan(plan: Plan, appsClose: nat): (r: (nat, nat))
    ensures !plan.Rewrite? ==> r.0 == r.1
  {
    match plan
    case NewApp => (appsClose, appsClose)
    case Rewrite(_, line) => (line.start, line.end)
    case AddTo(app) => (app.close, app.close)
  }

  /** Only the span is edited: what lies before it and what lies after it
      are kept; a new block or line is inserted, not overwritten; and an
      empty value deletes exactly the found line. */
  lemma PerformSpan(content: string, appsKey: nat, appsClose: nat, appId: string, plan: Plan, value: string)
    requires appsKey <= |content| && appsClose <= |content|
    requires plan.Rewrite? ==> plan.line.start <= plan.line.end <= |content|
    requires plan.AddTo? ==> plan.app.key <= plan.app.close <= |content|
    ensures var r := Perform(content, appsKey, appsClose, appId, plan, value);
      var (a, b) := EditSpan(plan, appsClose);
      && a <= b <= |content| && |content| - b <= |r.text|
      && r.text[..a] == content[..a]
      && r.text[|r.text| - (|content| - b)..] == content[b..]
      && (plan.Rewrite? && |value| == 0 ==> r.text == content[..a] + content[b..])
  {
    var r := Perform(content, appsKey, appsClose, appId, plan, value);
    var (a, b) := EditSpan(plan, appsClose);
    if r.changed {
      var x :| r.text == Splice(content, a, b, x);
      SpliceKeeps(content, a, b, x);
    }
  }

  /** The upsert edits only the span of its case (see `PerformSpan`). */
  lemma UpsertSpan(content: string, appsKey: nat, appsOpen: nat, appsClose: nat, appId: string, desiredPrefix: Option<string>)
    requires appsKey <= |content| && appsClose <= |content|
    ensures var r := UpsertAppLaunchOptions(content, appsKey, appsOpen, appsClose, appId, desiredPrefix);
      var plan := UpsertPlan(content, appsOpen, appsClose, appId);
      var (a, b) := EditSpan(plan, appsClose);
      && a <= b <= |content| && |content| - b <= |r.text|
      && r.text[..a] == content[..a]
      && r.text[|r.text| - (|content| - b)..] == content[b..]
      && (plan.Rewrite? && ApplyPrefixToExisting(plan.line.value, desiredPrefix) == [] ==> r.text == content[..a] + content[b..])
  {
    var plan := UpsertPlan(content, appsOpen, appsClose, appId);
    PerformSpan(content, appsKey, appsClose, appId, plan, ApplyPrefixToExisting(PlanExisting(plan), desiredPrefix));
  }

  /** The command kept when there is no existing value. */
  lemma KeptCommandNone()
    ensures KeptCommand(None) == CommandPlaceholder
  {
    assert Trim("") == "";
    assert StripManagedPrefix("") == "";
  }

  /** Where there is no existing value, nothing is written without a
      prefix, and the trimmed prefix in front of `%command%` with one. */
  lemma NewValue(desiredPrefix: Option<string>)
    ensures desiredPrefix.None? ==> ApplyPrefixToExisting(None, desiredPrefix) == []
    ensures desiredPrefix.Some? ==>
      ApplyPrefixToExisting(None, desiredPrefix) == SpaceJoin(Trim(desiredPrefix.value), CommandPlaceholder)
  {
    KeptCommandNone();
    if desiredPrefix.Some? {
      ApplyPrefixShape(None, desiredPrefix.value);
    } else {
      assert Trim("") == "";
      assert StripManagedPrefix("") == "";
    }
  }

  /** A found line is deleted exactly when nothing is left to set: no
      prefix, and nothing of the user's own. */
  lemma DeletedIff(line: LaunchLine, desiredPrefix: Option<string>)
    ensures |ApplyPrefixToExisting(line.value, desiredPrefix)| == 0
        <==> desiredPrefix.None? && |ExistingTail(line.value)| == 0
  {
  }

  // ---------------------------------------------------------------------------
  // What a rewrite leaves behind reads back

  /** The key lies at the front of a line found by the search, and no key
      starts between the search start and that line. */
  lemma {:induction false} FoundLineFirst(content: string, start: nat, end: nat)
    requires end <= |content| && FindLaunchOptionsLine(content, start, end).Some?
    requires start <= FindLaunchOptionsLine(content, start, end).value.start
    ensures var line := FindLaunchOptionsLine(content, start, end).value;
      && (line.start == 0 || content[line.start - 1] == '\n')
      && (forall i :: 0 <= i < |line.indent| ==> IsIndent(line.indent[i]))
      && KeyFree(content[..line.start], start, line.start)
  {
    var key := LaunchOptionsKey;
    LaunchKeyFirst(content, start, end);
    var k := Vdf.OccurrenceFrom(content, key, start, end).value;
    var line := LineAround(content, k);
    LineAroundShape(content, k);
    LeadingIndentShape(content[line.start..line.end]);
    forall j | start <= j && j + 15 <= line.start ensures !Vdf.MatchesAt(content[..line.start], key, j) {
      Vdf.MatchesAtIsOccursAt(content[..line.start], key, j);
      if OccursAt(content[..line.start], key, j) {
        assert content[..line.start] == content[0..line.start];
        OccursInSlice(content, key, 0, line.start, j);
      }
    }
  }

  /** Replacing a found line by one holding `v` at the line's indentation:
      the same search finds the new line where the old one started, and it
      reads back as `v`. */
  lemma {:induction false} RewrittenLineReadsBack(content: string, start: nat, end: nat, line: LaunchLine, v: string,
                                                  t: string, at: nat, indent: string, to: nat)
    requires end <= |content| && FindLaunchOptionsLine(content, start, end) == Some(line) && start <= line.start
    requires at == line.start && indent == line.indent
    requires NoChar(v, '"') && NoChar(v, '\n') && Trimmed(v)
    requires t == Splice(content, line.start, line.end, LaunchOptionsEntry(line.indent, v) + "\n")
    requires at + |indent| + 15 <= to <= |t|
    ensures LineReadsBack(t, start, to, at, v, indent)
  {
    var pre := content[..line.start];
    var e := LaunchOptionsEntry(line.indent, v);
    var rest := "\n" + content[line.end..];
    assert t == pre + (e + rest);
    TrimOfTrimmed(v);
    FoundLineFirst(content, start, end);
    NoKeyAcross(pre, e + rest, start);
    EntryLineReadsBack(pre, indent, v, rest, start, to);
    ReadsBackSame(t, pre + (e + rest), start, to, at, v, indent);
  }

  /** Tabs and spaces one tab deeper are still tabs and spaces. */
  lemma {:induction false} DeeperIndent(content: string, idx: nat)
    requires idx <= |content|
    ensures var indent := IndentationAt(content, idx) + "\t";
      forall i :: 0 <= i < |indent| ==> IsIndent(indent[i])
  {
    IndentationShape(content, idx);
  }

  /** A text that ends with a line break and holds no key from `from` on
      before `close` keeps holding none when a line break is put at
      `close`. */
  lemma {:induction false} NoKeyBeforeBreak(content: string, from: nat, close: nat)
    requires close <= |content|
    requires KeyFree(content, from, close)
    ensures KeyFree(content[..close] + "\n", from, close + 1)
  {
    var key := LaunchOptionsKey;
    var x := content[..close];
    forall j | from <= j && j + 15 <= close + 1 ensures !Vdf.MatchesAt(x + "\n", key, j) {
      Vdf.MatchesAtIsOccursAt(x + "\n", key, j);
      if OccursAt(x + "\n", key, j) {
        if j + 15 <= close {
          OccursInPrefix(x, "\n", key, j);
          assert x == content[0..close];
          OccursInSlice(content, key, 0, close, j);
          Vdf.MatchesAtIsOccursAt(content, key, j);
        } else {
          OccursAtChar(x + "\n", key, j, 14);
        }
      }
    }
  }

  /** What a search of a text finds is what it finds in an equal text. */
  lemma {:induction false} ReadsBackSame(r: string, s: string, from: nat, to: nat, start: nat, v: string, indent: string)
    requires r == s && LineReadsBack(s, from, to, start, v, indent)
    ensures LineReadsBack(r, from, to, start, v, indent)
  {
  }

  /** A LaunchOptions line put right after a line break is what a search
      finds when the text before the break holds no key from `from` on. */
  lemma {:induction false} EntryAfterBreak(x: string, indent: string, v: string, rest: string, from: nat, start: nat, to: nat)
    requires x == [] || x[|x| - 1] == '\n'
    requires start == |x| && from <= start && KeyFree(x, from, start)
    requires forall i :: 0 <= i < |indent| ==> IsIndent(indent[i])
    requires NoChar(v, '"') && NoChar(v, '\n') && Trimmed(v)
    requires start + |indent| + 15 <= to <= start + |LaunchOptionsEntry(indent, v)| + |rest|
    ensures LineReadsBack(x + (LaunchOptionsEntry(indent, v) + rest), from, to, start, v, indent)
  {
    NoKeyAcross(x, LaunchOptionsEntry(indent, v) + rest, from);
    TrimOfTrimmed(v);
    EntryLineReadsBack(x, indent, v, rest, from, to);
  }

  /** Inserting `x + y` at `c` puts `x` after what comes before `c`, and
      `y` before what comes after. */
  lemma {:induction false} SpliceInsert(content: string, c: nat, x: string, y: string)
    requires c <= |content|
    ensures Splice(content, c, c, x + y) == (content[..c] + x) + (y + content[c..])
  {
  }

  /** Inserting `x + y + z` at `c` puts `x` after what comes before `c`,
      and `y` and `z` before what comes after. */
  lemma {:induction false} SpliceInsert3(content: string, c: nat, x: string, y: string, z: string)
    requires c <= |content|
    ensures Splice(content, c, c, x + y + z) == (content[..c] + x) + (y + (z + content[c..]))
  {
  }

  /** Adding a line holding `v`, at an indentation `indent`, just before
      an app's closing brace at `close`, when the app holds no LaunchOptions
      key from `from` (just inside its opening brace) on (see
      `LaunchKeyFirst` for when the search finds none): the same search
      finds the new line, right after the added line break, and it reads
      back as `v`. */
  lemma {:induction false} AddedLineReadsBack(content: string, close: nat, from: nat, start: nat, indent: string, v: string,
                                              t: string, to: nat)
    requires close <= |content| && from <= close && start == close + 1
    requires KeyFree(content, from, close)
    requires forall i :: 0 <= i < |indent| ==> IsIndent(indent[i])
    requires NoChar(v, '"') && NoChar(v, '\n') && Trimmed(v)
    requires t == Splice(content, close, close, "\n" + LaunchOptionsEntry(indent, v))
    requires start + |indent| + 15 <= to <= |t|
    ensures LineReadsBack(t, from, to, start, v, indent)
  {
    var e := LaunchOptionsEntry(indent, v);
    var x := content[..close] + "\n";
    assert KeyFree(x, from, close + 1) by {
      NoKeyBeforeBreak(content, from, close);
    }
    EntryAfterBreak(x, indent, v, content[close..], from, start, to);
    SpliceInsert(content, close, "\n", e);
    ReadsBackSame(t, x + (e + content[close..]), from, to, start, v, indent);
  }

  /** Inserting, at `at`, a text that ends a line with `head`, then holds a
      LaunchOptions line: a search from the end of `head` finds that line,
      and it reads back as `v`. A new app block is such a text, with
      `NewBlockHead` as its head (see `NewBlockBrace` for where its opening
      brace lies). */
  lemma {:induction false} InsertedEntryReadsBack(content: string, at: nat, head: string, indent: string, v: string, tail: string,
                                                  t: string, from: nat, start: nat, to: nat)
    requires at <= |content| && |head| > 0 && head[|head| - 1] == '\n' && start == at + |head| && from + 1 == start
    requires forall i :: 0 <= i < |indent| ==> IsIndent(indent[i])
    requires NoChar(v, '"') && NoChar(v, '\n') && Trimmed(v)
    requires t == Splice(content, at, at, head + LaunchOptionsEntry(indent, v) + tail)
    requires start + |indent| + 15 <= to <= |t|
    ensures LineReadsBack(t, from, to, start, v, indent)
  {
    var e := LaunchOptionsEntry(indent, v);
    var x := content[..at] + head;
    EntryAfterBreak(x, indent, v, tail + content[at..], from, start, to);
    SpliceInsert3(content, at, head, e, tail);
    ReadsBackSame(t, x + (e + (tail + content[at..])), from, to, start, v, indent);
  }

  /** The new block's opening brace. */
  lemma {:induction false} NewBlockBrace(content: string, at: nat, appIndent: string, appId: string, v: string)
    requires at <= |content|
    ensures Splice(content, at, at, NewAppBlock(appIndent, appId, v))[at + 2 * |appIndent| + |appId| + 4] == '{'
  {
    var h := NewBlockHead(appIndent, appId);
    assert Splice(content, at, at, NewAppBlock(appIndent, appId, v))[at + |h| - 2] == h[|h| - 2];
  }
}

=== FILE: steam_config.dfy ===
/** A whole `localconfig.vdf` on the Steam side of Kaede: the update that
    finds the apps block and upserts the app's LaunchOptions, the app state
    read back from a file, and the loop of `apply_steam_launch_options`
    over the config files.

    Files are contents passed in and handed back; a file that is written
    is read back as written, and a backup is a value handed back. */
module SteamConfig {
  import opened Text
  import opened Models
  import Vdf
  import opened LaunchOptions
  import opened Steam

  // ---------------------------------------------------------------------------
  // Updating a config

  /** The apps block the update works in: the one at the canonical path
      `UserLocalConfigStore/Software/Valve/Steam/apps`, or else the first
      `apps` block anywhere. */
  function AppsBlock(content: string): (r: Option<Vdf.Block>)
    ensures r.Some? ==> r.value.key < r.value.open < r.value.close < |content|
    ensures r.Some? ==> content[r.value.open] == '{' && content[r.value.close] == '}'
  {
    match Vdf.FindSteamAppsBlock(content)
    case Some(apps) => Some(apps)
    case None => Vdf.FindBlockCi(content, "apps", 0, |content|)
  }

  predicate EndsWithNewline(s: string) {
    |s| > 0 && s[|s| - 1] == '\n'
  }

  /** `update_localconfig_content`: upsert the app's LaunchOptions for the
      choice inside the apps block; with no apps block, or when the upsert
      changes nothing, the content is handed back unchanged; a content that
      ended with a line break still does. */
  function UpdateLocalconfigContent(content: string, appId: string, choice: GpuChoice,
                                    managedEnv: seq<string>, useEnvWrapper: bool): (r: Patched)
    ensures !r.changed ==> r.text == content
    ensures r.changed && EndsWithNewline(content) ==> EndsWithNewline(r.text)
  {
    match AppsBlock(content)
    case None => Patched(content, false)
    case Some(apps) =>
      var u := UpsertAppLaunchOptions(content, apps.key, apps.open, apps.close, appId,
                                      BuildManagedPrefix(choice, managedEnv, useEnvWrapper));
      if !u.changed then Patched(content, false)
      else if EndsWithNewline(content) && !EndsWithNewline(u.text) then Patched(u.text + "\n", true)
      else Patched(u.text, true)
  }

  /** With no apps block the content is handed back, unchanged; with one,
      the update is the upsert into it, a line break added only when the
      upsert dropped the content's last one. */
  lemma UpdateShape(content: string, appId: string, choice: GpuChoice, managedEnv: seq<string>, useEnvWrapper: bool)
    ensures var r := UpdateLocalconfigContent(content, appId, choice, managedEnv, useEnvWrapper);
      && (AppsBlock(content).None? ==> r == Patched(content, false))
      && (AppsBlock(content).Some? ==>
        var apps := AppsBlock(content).value;
        var u := UpsertAppLaunchOptions(content, apps.key, apps.open, apps.close, appId,
                                        BuildManagedPrefix(choice, managedEnv, useEnvWrapper));
        && r.changed == u.changed
        && (u.changed ==> r.text == u.text || (r.text == u.text + "\n" && EndsWithNewline(content))))
  {
  }

  // ---------------------------------------------------------------------------
  // The app state of a config

  /** What `app_state_in_localconfig` reports: whether the app was found,
      and its LaunchOptions value if it has one. */
  datatype AppState = AppState(appFound: bool, launchOptions: Option<string>)

  /** The app's block as the state reader finds it: inside the first
      `apps` block of the whole file (not the canonical path the update
      prefers). */
  function AppBlockIn(content: string, appId: string): (r: Option<Vdf.Block>)
    ensures r.Some? ==> r.value.open < r.value.close < |content|
  {
    match Vdf.FindBlockCi(content, "apps", 0, |content|)
    case None => None
    case Some(apps) => Vdf.FindBlock(content, appId, apps.open + 1, apps.close)
  }

  /** The value of the first LaunchOptions line inside a block, if it has
      one that parses. */
  function ValueIn(content: string, block: Vdf.Block): (r: Option<string>) {
    SeenValue(LineSeen(content, block.open + 1, block.close))
  }

  function SeenValue(seen: Option<(nat, Option<string>, string)>): Option<string> {
    if seen.Some? then seen.value.1 else None
  }

  /** `app_state_in_localconfig`: the app is found when the first `apps`
      block holds its block, and its value is that of the block's first
      LaunchOptions line. */
  function AppStateInLocalconfig(content: string, appId: string): (r: AppState)
    ensures r.appFound <==> AppBlockIn(content, appId).Some?
    ensures r.launchOptions.Some? ==> r.appFound
  {
    match AppBlockIn(content, appId)
    case None => AppState(false, None)
    case Some(app) => AppState(true, ValueIn(content, app))
  }

  /** A line that reads back through the app's block gives the app's
      state. */
  lemma StateFromLine(content: string, appId: string, app: Vdf.Block, from: nat, v: string, start: nat, indent: string)
    requires AppBlockIn(content, appId) == Some(app) && from == app.open + 1
    requires LineReadsBack(content, from, app.close, start, v, indent)
    ensures AppStateInLocalconfig(content, appId) == AppState(true, Some(v))
  {
    SeenFrom(content, from, app.open + 1, app.close);
    ValueFromLine(content, app, v, start, indent);
  }

  /** The same search, its start written two ways. */
  lemma SeenFrom(content: string, from: nat, x: nat, to: nat)
    requires from == x
    ensures LineSeen(content, from, to) == LineSeen(content, x, to)
  {
  }

  lemma ValueFromLine(content: string, block: Vdf.Block, v: string, start: nat, indent: string)
    requires block.close <= |content|
    requires LineReadsBack(content, block.open + 1, block.close, start, v, indent)
    ensures ValueIn(content, block) == Some(v)
  {
    SeenSome(LineSeen(content, block.open + 1, block.close), start, v, indent);
  }

  lemma SeenSome(seen: Option<(nat, Option<string>, string)>, start: nat, v: string, indent: string)
    requires seen == Some((start, Some(v), indent))
    ensures SeenValue(seen) == Some(v)
  {
  }

  // ---------------------------------------------------------------------------
  // What the update writes reads back

  /** The value the upsert writes for the prefix. */
  function WrittenValue(content: string, appsOpen: nat, appsClose: nat, appId: string, p: Option<string>): (r: string)
    requires appsClose <= |content|
    ensures p.Some? ==> |r| > 0
  {
    ApplyPrefixToExisting(PlanExisting(UpsertPlan(content, appsOpen, appsClose, appId)), p)
  }

  /** Where the upsert puts the app's LaunchOptions line: just inside the
      opening brace of the app's block, where the line starts and its
      indentation. */
  datatype Site = Site(from: nat, start: nat, indent: string)

  /** The site of the line in each case: a found line keeps its place and
      indentation; a line added to a found app goes right after the added
      line break, one tab deeper than the app key; a new app block has its
      brace on the line after the key, and the line on the next, one tab
      deeper than the app key, itself one tab deeper than the apps key. */
  function PlanSite(content: string, appsKey: nat, appsClose: nat, appId: string, plan: Plan): (r: Site)
    requires appsKey <= |content| && (plan.AddTo? ==> plan.app.key <= |content|)
    ensures plan.Rewrite? ==> r.start == plan.line.start
    ensures plan.AddTo? ==> r.start == plan.app.close + 1
    ensures plan.NewApp? ==> r.start == r.from + 1 && appsClose < r.from
  {
    match plan
    case NewApp =>
      var ai := IndentationAt(content, appsKey) + "\t";
      Site(appsClose + 2 * |ai| + |appId| + 5, appsClose + 2 * |ai| + |appId| + 6, ai + "\t")
    case Rewrite(app, line) => Site(app.open + 1, line.start, line.indent)
    case AddTo(app) => Site(app.open + 1, app.close + 1, IndentationAt(content, app.key) + "\t")
  }

  /** The site of the line the upsert writes. */
  function WriteSite(content: string, appsKey: nat, appsOpen: nat, appsClose: nat, appId: string): (r: Site)
    requires appsKey <= |content| && appsClose <= |content|
  {
    PlanSite(content, appsKey, appsClose, appId, UpsertPlan(content, appsOpen, appsClose, appId))
  }

  /** What the search inside the app's block found: its line for a rewrite,
      none for an added line; and the app block lies inside the apps
      block. */
  predicate PlanFits(content: string, appsOpen: nat, appsClose: nat, plan: Plan)
    requires appsClose <= |content|
  {
    match plan
    case NewApp => true
    case Rewrite(app, line) =>
      appsOpen < app.key < app.open < app.close < appsClose && FindLaunchOptionsLine(content, app.open + 1, app.close) == Some(line)
    case AddTo(app) =>
      appsOpen < app.key < app.open < app.close < appsClose && FindLaunchOptionsLine(content, app.open + 1, app.close).None?
  }

  lemma UpsertPlanFits(content: string, appsOpen: nat, appsClose: nat, appId: string)
    requires appsClose <= |content|
    ensures PlanFits(content, appsOpen, appsClose, UpsertPlan(content, appsOpen, appsClose, appId))
  {
  }

  /** A found LaunchOptions line starts after its app's opening brace: the
      line does not share the brace's line. */
  predicate LineOwn(plan: Plan) {
    plan.Rewrite? ==> plan.app.open < plan.line.start
  }

  predicate OwnLine(content: string, appsOpen: nat, appsClose: nat, appId: string)
    requires appsClose <= |content|
  {
    LineOwn(UpsertPlan(content, appsOpen, appsClose, appId))
  }

  /** The value can be written between quotes as it is. */
  predicate Writable(v: string) {
    NoChar(v, '"') && NoChar(v, '\n')
  }

  /** A value of tabs and spaces one tab longer is still one. */
  lemma TabDeeper(x: string)
    requires forall i :: 0 <= i < |x| ==> IsIndent(x[i])
    ensures forall i :: 0 <= i < |x + "\t"| ==> IsIndent((x + "\t")[i])
  {
  }

  /** Before a line is added to an app that had none: no key lies inside
      the app's block, and the added line's indentation is tabs and
      spaces. */
  lemma AddToFacts(content: string, app: Vdf.Block, indent: string)
    requires app.key <= app.close <= |content|
    requires FindLaunchOptionsLine(content, app.open + 1, app.close).None?
    requires indent == IndentationAt(content, app.key) + "\t"
    ensures KeyFree(content, app.open + 1, app.close)
    ensures forall i :: 0 <= i < |indent| ==> IsIndent(indent[i])
  {
    NoLineKeyFree(content, app.open + 1, app.close);
    DeeperIndent(content, app.key);
  }

  /** A line added to an app that had none reads back, from just inside
      the app's brace, right after the line break put before it. */
  lemma {:induction false} AddToReadsBack(content: string, app: Vdf.Block, v: string, u: string,
                                          from: nat, start: nat, indent: string, to: nat)
    requires app.key <= app.close <= |content| && app.open < app.close
    requires from == app.open + 1 && start == app.close + 1
    requires FindLaunchOptionsLine(content, app.open + 1, app.close).None?
    requires indent == IndentationAt(content, app.key) + "\t"
    requires |v| > 0 && Writable(v) && Trimmed(v)
    requires u == AddLine(content, app, v).text
    requires start + |indent| + 15 <= to <= |u|
    ensures LineReadsBack(u, from, to, start, v, indent)
  {
    assert u == Splice(content, app.close, app.close, "\n" + LaunchOptionsEntry(indent, v));
    AddToFacts(content, app, indent);
    AddedLineReadsBack(content, app.close, from, start, indent, v, u, to);
  }

  /** The new-block case of `PerformReadsBack`: the block's LaunchOptions
      line reads back from just inside the block's brace. */
  lemma {:induction false} NewAppReadsBack(content: string, appsKey: nat, appsOpen: nat, appsClose: nat, appId: string,
                                           site: Site, v: string, u: Patched, to: nat)
    requires appsKey <= |content| && appsClose <= |content|
    requires PlanFits(content, appsOpen, appsClose, NewApp) && LineOwn(NewApp)
    requires site == PlanSite(content, appsKey, appsClose, appId, NewApp)
    requires |v| > 0 && Writable(v) && Trimmed(v)
    requires u == Perform(content, appsKey, appsClose, appId, NewApp, v) && u.changed
    requires site.start + |site.indent| + 15 <= to <= |u.text|
    ensures LineReadsBack(u.text, site.from, to, site.start, v, site.indent)
  {
    var ai := IndentationAt(content, appsKey) + "\t";
    var head := NewBlockHead(ai, appId);
    var tail := "\n" + ai + "}";
    assert u.text == Splice(content, appsClose, appsClose, head + LaunchOptionsEntry(site.indent, v) + tail);
    DeeperIndent(content, appsKey);
    TabDeeper(ai);
    InsertedEntryReadsBack(content, appsClose, head, site.indent, v, tail, u.text, site.from, site.start, to);
  }

  /** A found line's site is where the search from just inside the app's
      brace finds it. */
  lemma RewriteSite(content: string, appsKey: nat, appsOpen: nat, appsClose: nat, appId: string,
                    app: Vdf.Block, line: LaunchLine, site: Site)
    requires appsKey <= |content| && appsClose <= |content|
    requires PlanFits(content, appsOpen, appsClose, Rewrite(app, line)) && LineOwn(Rewrite(app, line))
    requires site == PlanSite(content, appsKey, appsClose, appId, Rewrite(app, line))
    ensures FindLaunchOptionsLine(content, site.from, app.close) == Some(line)
    ensures site.from <= site.start == line.start && site.indent == line.indent
  {
  }

  /** The found-line case of `PerformReadsBack`. */
  lemma {:induction false} RewritePlanReadsBack(content: string, appsKey: nat, appsOpen: nat, appsClose: nat, appId: string,
                                                app: Vdf.Block, line: LaunchLine, site: Site, v: string,
                                                u: Patched, to: nat)
    requires appsKey <= |content| && appsClose <= |content|
    requires PlanFits(content, appsOpen, appsClose, Rewrite(app, line)) && LineOwn(Rewrite(app, line))
    requires site == PlanSite(content, appsKey, appsClose, appId, Rewrite(app, line))
    requires |v| > 0 && Writable(v) && Trimmed(v)
    requires u == Perform(content, appsKey, appsClose, appId, Rewrite(app, line), v) && u.changed
    requires site.start + |site.indent| + 15 <= to <= |u.text|
    ensures LineReadsBack(u.text, site.from, to, site.start, v, site.indent)
  {
    RewriteSite(content, appsKey, appsOpen, appsClose, appId, app, line, site);
    assert u.text == Splice(content, line.start, line.end, LaunchOptionsEntry(line.indent, v) + "\n");
    RewrittenLineReadsBack(content, site.from, app.close, line, v, u.text, site.start, site.indent, to);
  }

  /** The added-line case of `PerformReadsBack`. */
  lemma {:induction false} AddToPlanReadsBack(content: string, appsKey: nat, appsOpen: nat, appsClose: nat, appId: string,
                                              app: Vdf.Block, site: Site, v: string, u: Patched, to: nat)
    requires appsKey <= |content| && appsClose <= |content|
    requires PlanFits(content, appsOpen, appsClose, AddTo(app)) && LineOwn(AddTo(app))
    requires site == PlanSite(content, appsKey, appsClose, appId, AddTo(app))
    requires |v| > 0 && Writable(v) && Trimmed(v)
    requires u == Perform(content, appsKey, appsClose, appId, AddTo(app), v) && u.changed
    requires site.start + |site.indent| + 15 <= to <= |u.text|
    ensures LineReadsBack(u.text, site.from, to, site.start, v, site.indent)
  {
    AddToReadsBack(content, app, v, u.text, site.from, site.start, site.indent, to);
  }

  /** Whatever edit the plan calls for, when it writes a non-empty value
      that needs no escaping on a line of its own, a search from just
      inside the app's brace finds that line at its site, and it reads
      back as the value. */
  lemma {:induction false} PerformReadsBack(content: string, appsKey: nat, appsOpen: nat, appsClose: nat, appId: string,
                                            plan: Plan, site: Site, v: string, u: Patched, to: nat)
    requires appsKey <= |content| && appsClose <= |content|
    requires PlanFits(content, appsOpen, appsClose, plan) && LineOwn(plan)
    requires site == PlanSite(content, appsKey, appsClose, appId, plan)
    requires |v| > 0 && Writable(v) && Trimmed(v)
    requires u == Perform(content, appsKey, appsClose, appId, plan, v) && u.changed
    requires site.start + |site.indent| + 15 <= to <= |u.text|
    ensures LineReadsBack(u.text, site.from, to, site.start, v, site.indent)
  {
    match plan
    case NewApp => NewAppReadsBack(content, appsKey, appsOpen, appsClose, appId, site, v, u, to);
    case Rewrite(app, line) => RewritePlanReadsBack(content, appsKey, appsOpen, appsClose, appId, app, line, site, v, u, to);
    case AddTo(app) => AddToPlanReadsBack(content, appsKey, appsOpen, appsClose, appId, app, site, v, u, to);
  }

  /** Whatever the upsert writes, when it writes a non-empty value that
      needs no escaping on a line of its own, a search from just inside
      the app's brace finds that line at its site, and it reads back as
      the value. */
  lemma {:induction false} UpsertReadsBack(content: string, appsKey: nat, appsOpen: nat, appsClose: nat, appId: string,
                                           p: Option<string>, site: Site, v: string, to: nat)
    requires appsKey <= |content| && appsClose <= |content|
    requires site == WriteSite(content, appsKey, appsOpen, appsClose, appId) && OwnLine(content, appsOpen, appsClose, appId)
    requires v == WrittenValue(content, appsOpen, appsClose, appId, p) && |v| > 0 && Writable(v)
    requires UpsertAppLaunchOptions(content, appsKey, appsOpen, appsClose, appId, p).changed
    requires site.start + |site.indent| + 15 <= to <= |UpsertAppLaunchOptions(content, appsKey, appsOpen, appsClose, appId, p).text|
    ensures LineReadsBack(UpsertAppLaunchOptions(content, appsKey, appsOpen, appsClose, appId, p).text,
                          site.from, to, site.start, v, site.indent)
  {
    var plan := UpsertPlan(content, appsOpen, appsClose, appId);
    UpsertPlanFits(content, appsOpen, appsClose, appId);
    PerformReadsBack(content, appsKey, appsOpen, appsClose, appId, plan, site, v,
                     UpsertAppLaunchOptions(content, appsKey, appsOpen, appsClose, appId, p), to);
  }

  // ---------------------------------------------------------------------------
  // The state after the update validates

  /** A splice that ends before the last character keeps it last. */
  lemma SpliceLast(content: string, a: nat, b: nat, text: string)
    requires a <= b < |content|
    ensures var r := Splice(content, a, b, text); |r| > 0 && r[|r| - 1] == content[|content| - 1]
  {
    var r := Splice(content, a, b, text);
    assert r == (content[..a] + text) + content[b..];
  }

  /** An edit that writes a value keeps a content's last line break: the
      app's block and a found line's key lie before the apps block's
      closing brace, and a found line ending the content is replaced by
      one ending in a line break. */
  lemma PerformKeepsNewline(content: string, appsKey: nat, appsOpen: nat, appsClose: nat, appId: string,
                            plan: Plan, v: string)
    requires appsKey <= |content| && appsClose < |content|
    requires PlanFits(content, appsOpen, appsClose, plan)
    requires |v| > 0 && EndsWithNewline(content)
    ensures EndsWithNewline(Perform(content, appsKey, appsClose, appId, plan, v).text)
  {
    match plan
    case NewApp =>
      SpliceLast(content, appsClose, appsClose, NewAppBlock(IndentationAt(content, appsKey) + "\t", appId, v));
    case Rewrite(app, line) =>
      if line.end < |content| {
        SpliceLast(content, line.start, line.end, LaunchOptionsEntry(line.indent, v) + "\n");
      }
    case AddTo(app) =>
      SpliceLast(content, app.close, app.close, "\n" + LaunchOptionsEntry(IndentationAt(content, app.key) + "\t", v));
  }

  /** The state reader finds the app's block where the write site says:
      its brace just before the site's search start, and its closing
      brace after the written line's key. */
  predicate Refound(text: string, appId: string, site: Site) {
    && AppBlockIn(text, appId).Some?
    && AppBlockIn(text, appId).value.open + 1 == site.from
    && site.start + |site.indent| + 15 <= AppBlockIn(text, appId).value.close
  }

  /** An update that writes a value is the upsert's text: a line break is
      never added after it. */
  lemma UpdateText(content: string, appId: string, choice: GpuChoice, managedEnv: seq<string>, useEnvWrapper: bool,
                   apps: Vdf.Block, p: Option<string>)
    requires AppsBlock(content) == Some(apps)
    requires p == BuildManagedPrefix(choice, managedEnv, useEnvWrapper) && p.Some?
    ensures var r := UpdateLocalconfigContent(content, appId, choice, managedEnv, useEnvWrapper);
      r.changed ==> r.text == UpsertAppLaunchOptions(content, apps.key, apps.open, apps.close, appId, p).text
  {
    var plan := UpsertPlan(content, apps.open, apps.close, appId);
    var v := WrittenValue(content, apps.open, apps.close, appId, p);
    UpdateShape(content, appId, choice, managedEnv, useEnvWrapper);
    if EndsWithNewline(content) {
      UpsertPlanFits(content, apps.open, apps.close, appId);
      PerformKeepsNewline(content, apps.key, apps.open, apps.close, appId, plan, v);
    }
  }

  /** The app's state in the upsert's text, read from the block found
      where the write put it, is the written value. */
  lemma {:induction false} WrittenState(content: string, apps: Vdf.Block, appId: string, p: Option<string>,
                                        site: Site, v: string, text: string, b: Vdf.Block)
    requires apps.key <= |content| && apps.close <= |content|
    requires site == WriteSite(content, apps.key, apps.open, apps.close, appId) && OwnLine(content, apps.open, apps.close, appId)
    requires v == WrittenValue(content, apps.open, apps.close, appId, p) && |v| > 0 && Writable(v)
    requires UpsertAppLaunchOptions(content, apps.key, apps.open, apps.close, appId, p).changed
    requires text == UpsertAppLaunchOptions(content, apps.key, apps.open, apps.close, appId, p).text
    requires AppBlockIn(text, appId) == Some(b) && site.from == b.open + 1 && site.start + |site.indent| + 15 <= b.close
    ensures AppStateInLocalconfig(text, appId) == AppState(true, Some(v))
  {
    UpsertReadsBack(content, apps.key, apps.open, apps.close, appId, p, site, v, b.close);
    StateFromLine(text, appId, b, site.from, v, site.start, site.indent);
  }

  /** When the update writes a GPU choice whose value needs no escaping,
      and the state reader finds the app's block where it was written, the
      app's state is the written value, and it passes
      `validate_expected_state`: the write is never undone by the
      validation that follows it. */
  lemma {:induction false} UpdateValidates(content: string, appId: string, index: nat, managedEnv: seq<string>,
                                           useEnvWrapper: bool, k: nat)
    requires |managedEnv| == 0 || (k < |managedEnv| && managedEnv[k] == DriPrime(index))
    requires AppsBlock(content).Some?
    requires var apps := AppsBlock(content).value;
      && OwnLine(content, apps.open, apps.close, appId)
      && Writable(WrittenValue(content, apps.open, apps.close, appId, BuildManagedPrefix(Gpu(index), managedEnv, useEnvWrapper)))
    requires var apps := AppsBlock(content).value;
      var r := UpdateLocalconfigContent(content, appId, Gpu(index), managedEnv, useEnvWrapper);
      r.changed && Refound(r.text, appId, WriteSite(content, apps.key, apps.open, apps.close, appId))
    ensures var apps := AppsBlock(content).value;
      var r := UpdateLocalconfigContent(content, appId, Gpu(index), managedEnv, useEnvWrapper);
      && AppStateInLocalconfig(r.text, appId)
         == AppState(true, Some(WrittenValue(content, apps.open, apps.close, appId, BuildManagedPrefix(Gpu(index), managedEnv, useEnvWrapper))))
      && ValidateExpectedState(AppStateInLocalconfig(r.text, appId).launchOptions, Gpu(index))
  {
    var apps := AppsBlock(content).value;
    var p := BuildManagedPrefix(Gpu(index), managedEnv, useEnvWrapper);
    var v := WrittenValue(content, apps.open, apps.close, appId, p);
    var site := WriteSite(content, apps.key, apps.open, apps.close, appId);
    var r := UpdateLocalconfigContent(content, appId, Gpu(index), managedEnv, useEnvWrapper);
    UpdateText(content, appId, Gpu(index), managedEnv, useEnvWrapper, apps, p);
    WrittenState(content, apps, appId, p, site, v, r.text, AppBlockIn(r.text, appId).value);
    ValidAfterApply(PlanExisting(UpsertPlan(content, apps.open, apps.close, appId)), index, managedEnv, useEnvWrapper, k);
  }

  // ---------------------------------------------------------------------------
  // Upserting twice

  /** When the app's block is found and a line inside it, the upsert plans
      to rewrite that line. */
  lemma SecondPlanRewrites(text: string, appsOpen: nat, appsClose: nat, appId: string, app: Vdf.Block, line: LaunchLine)
    requires appsClose <= |text|
    requires Vdf.FindBlock(text, appId, appsOpen + 1, appsClose) == Some(app)
    requires FindLaunchOptionsLine(text, app.open + 1, app.close) == Some(line)
    ensures UpsertPlan(text, appsOpen, appsClose, appId) == Rewrite(app, line)
  {
  }

  /** A line that reads back is one the search finds. */
  lemma FoundSeen(s: string, from: nat, to: nat, start: nat, v: string, indent: string)
    requires LineReadsBack(s, from, to, start, v, indent)
    ensures to <= |s| && FindLaunchOptionsLine(s, from, to).Some?
    ensures FindLaunchOptionsLine(s, from, to).value.value == Some(v)
  {
  }

  /** An upsert whose plan rewrites a line already holding the value it
      would write changes nothing. */
  lemma SettledRewrite(text: string, appsKey: nat, appsOpen: nat, appsClose: nat, appId: string,
                       p: Option<string>, v: string)
    requires appsKey <= |text| && appsClose <= |text|
    requires var plan := UpsertPlan(text, appsOpen, appsClose, appId);
      plan.Rewrite? && plan.line.value == Some(v)
    requires |v| > 0 && ApplyPrefixToExisting(Some(v), p) == v
    ensures UpsertAppLaunchOptions(text, appsKey, appsOpen, appsClose, appId, p) == Patched(text, false)
  {
  }

  /** A second upsert into the text the first one wrote, finding the app's
      block where the first wrote it, plans to rewrite the written line. */
  lemma {:induction false} WrittenLineFound(content: string, appsKey: nat, appsOpen: nat, appsClose: nat, appId: string,
                                            p: Option<string>, text: string, appsOpen2: nat, appsClose2: nat, app2: Vdf.Block)
    requires appsKey <= |content| && appsClose <= |content|
    requires OwnLine(content, appsOpen, appsClose, appId)
    requires var v := WrittenValue(content, appsOpen, appsClose, appId, p); |v| > 0 && Writable(v)
    requires UpsertAppLaunchOptions(content, appsKey, appsOpen, appsClose, appId, p).changed
    requires text == UpsertAppLaunchOptions(content, appsKey, appsOpen, appsClose, appId, p).text
    requires var site := WriteSite(content, appsKey, appsOpen, appsClose, appId);
      && appsClose2 <= |text|
      && Vdf.FindBlock(text, appId, appsOpen2 + 1, appsClose2) == Some(app2)
      && site.from == app2.open + 1 && site.start + |site.indent| + 15 <= app2.close
    ensures var plan := UpsertPlan(text, appsOpen2, appsClose2, appId);
      plan.Rewrite? && plan.line.value == Some(WrittenValue(content, appsOpen, appsClose, appId, p))
  {
    var site := WriteSite(content, appsKey, appsOpen, appsClose, appId);
    var v := WrittenValue(content, appsOpen, appsClose, appId, p);
    UpsertReadsBack(content, appsKey, appsOpen, appsClose, appId, p, site, v, app2.close);
    SeenFrom(text, site.from, app2.open + 1, app2.close);
    FoundSeen(text, app2.open + 1, app2.close, site.start, v, site.indent);
    SecondPlanRewrites(text, appsOpen2, appsClose2, appId, app2, FindLaunchOptionsLine(text, app2.open + 1, app2.close).value);
  }

  /** Upserting a GPU choice without the `env` wrapper a second time, into
      the text the first upsert wrote, changes nothing, provided the second
      finds the app's block where the first wrote it (see `Refound`). */
  lemma {:induction false} UpsertSettles(content: string, appsKey: nat, appsOpen: nat, appsClose: nat, appId: string,
                                         index: nat, managedEnv: seq<string>,
                                         appsKey2: nat, appsOpen2: nat, appsClose2: nat, app2: Vdf.Block)
    requires EndFree(managedEnv)
    requires appsKey <= |content| && appsClose <= |content|
    requires var p := BuildManagedPrefix(Gpu(index), managedEnv, false);
      && OwnLine(content, appsOpen, appsClose, appId)
      && Writable(WrittenValue(content, appsOpen, appsClose, appId, p))
      && UpsertAppLaunchOptions(content, appsKey, appsOpen, appsClose, appId, p).changed
    requires var u := UpsertAppLaunchOptions(content, appsKey, appsOpen, appsClose, appId, BuildManagedPrefix(Gpu(index), managedEnv, false));
      var site := WriteSite(content, appsKey, appsOpen, appsClose, appId);
      && appsKey2 <= |u.text| && appsClose2 <= |u.text|
      && Vdf.FindBlock(u.text, appId, appsOpen2 + 1, appsClose2) == Some(app2)
      && site.from == app2.open + 1 && site.start + |site.indent| + 15 <= app2.close
    ensures var p := BuildManagedPrefix(Gpu(index), managedEnv, false);
      var u := UpsertAppLaunchOptions(content, appsKey, appsOpen, appsClose, appId, p);
      UpsertAppLaunchOptions(u.text, appsKey2, appsOpen2, appsClose2, appId, p) == Patched(u.text, false)
  {
    var p := BuildManagedPrefix(Gpu(index), managedEnv, false);
    var u := UpsertAppLaunchOptions(content, appsKey, appsOpen, appsClose, appId, p);
    var v := WrittenValue(content, appsOpen, appsClose, appId, p);
    WrittenLineFound(content, appsKey, appsOpen, appsClose, appId, p, u.text, appsOpen2, appsClose2, app2);
    ApplyIdempotent(PlanExisting(UpsertPlan(content, appsOpen, appsClose, appId)), index, managedEnv);
    SettledRewrite(u.text, appsKey2, appsOpen2, appsClose2, appId, p, v);
  }

  // ---------------------------------------------------------------------------
  // The loop over the config files

  /** How `apply_steam_launch_options` ends: no config file at all, the app
      in none of them, found but never validated, or validated in at least
      one. */
  datatype SteamOutcome = NoConfigFiles | AppNotFound | ValidationFailed | Applied

  /** What one config file contributes: the content written back when the
      update changed it, the backup written first when none existed, whether
      the app was found before or after, and whether the state after
      validated. */
  datatype ConfigRun = ConfigRun(written: Option<string>, backup: Option<string>, matched: bool, validated: bool)

  /** The body of the loop for one config file; a file written is read back
      as written, so the state after is that of the update's text, which is
      the original when nothing changed. */
  function ProcessConfig(original: string, backupExists: bool, appId: string, choice: GpuChoice,
                         managedEnv: seq<string>, useEnvWrapper: bool): (r: ConfigRun)
    ensures r.written.Some? <==> UpdateLocalconfigContent(original, appId, choice, managedEnv, useEnvWrapper).changed
    ensures r.backup.Some? <==> r.written.Some? && !backupExists
    ensures r.backup.Some? ==> r.backup.value == original
    ensures r.validated ==> r.matched
  {
    var before := AppStateInLocalconfig(original, appId);
    var u := UpdateLocalconfigContent(original, appId, choice, managedEnv, useEnvWrapper);
    var after := AppStateInLocalconfig(u.text, appId);
    ConfigRun(if u.changed then Some(u.text) else None,
              if u.changed && !backupExists then Some(original) else None,
              before.appFound || after.appFound,
              after.appFound && ValidateExpectedState(after.launchOptions, choice))
  }

  /** The verdict over all the files' runs, in the order the source checks
      it. */
  function OutcomeOf(runs: seq<ConfigRun>): SteamOutcome {
    if |runs| == 0 then NoConfigFiles
    else if !(exists i :: 0 <= i < |runs| && runs[i].matched) then AppNotFound
    else if !(exists i :: 0 <= i < |runs| && runs[i].validated) then ValidationFailed
    else Applied
  }

  /** `apply_steam_launch_options` over the config files found (their
      contents, and whether each already has a backup): every file is
      processed in turn, and the verdict is taken after the last one. */
  method ApplySteamLaunchOptions(configs: seq<string>, backupExists: seq<bool>, appId: string, choice: GpuChoice,
                                 managedEnv: seq<string>, useEnvWrapper: bool)
    returns (outcome: SteamOutcome, runs: seq<ConfigRun>)
    requires |backupExists| == |configs|
    ensures |runs| == |configs|
    ensures forall i :: 0 <= i < |configs| ==>
              runs[i] == ProcessConfig(configs[i], backupExists[i], appId, choice, managedEnv, useEnvWrapper)
    ensures outcome == OutcomeOf(runs)
    ensures outcome == NoConfigFiles <==> |configs| == 0
    ensures outcome == AppNotFound <==> |configs| > 0 && forall i :: 0 <= i < |runs| ==> !runs[i].matched
    ensures outcome == ValidationFailed <==>
              (exists i :: 0 <= i < |runs| && runs[i].matched) && forall i :: 0 <= i < |runs| ==> !runs[i].validated
    ensures outcome == Applied <==> exists i :: 0 <= i < |runs| && runs[i].validated
  {
    runs := ProcessEach(configs, backupExists,
                        (c: string, b: bool) => ProcessConfig(c, b, appId, choice, managedEnv, useEnvWrapper));
    outcome := Verdict(runs);
  }

  /** Each config file processed in turn, by `process`. */
  method ProcessEach(configs: seq<string>, backupExists: seq<bool>, process: (string, bool) -> ConfigRun)
    returns (runs: seq<ConfigRun>)
    requires |backupExists| == |configs|
    ensures |runs| == |configs|
    ensures forall i :: 0 <= i < |configs| ==> runs[i] == process(configs[i], backupExists[i])
  {
    runs := [];
    var i := 0;
    while i < |configs|
      invariant 0 <= i <= |configs| && |runs| == i
      invariant forall j :: 0 <= j < i ==> runs[j] == process(configs[j], backupExists[j])
    {
      runs := runs + [process(configs[i], backupExists[i])];
      i := i + 1;
    }
  }

  /** The flags the loop keeps (`matched_any`, `validated_any`) and the
      verdict taken from them after the loop. */
  method Verdict(runs: seq<ConfigRun>) returns (outcome: SteamOutcome)
    ensures outcome == OutcomeOf(runs)
    ensures outcome == NoConfigFiles <==> |runs| == 0
    ensures outcome == AppNotFound <==> |runs| > 0 && forall i :: 0 <= i < |runs| ==> !runs[i].matched
    ensures outcome == ValidationFailed <==>
              (exists i :: 0 <= i < |runs| && runs[i].matched) && forall i :: 0 <= i < |runs| ==> !runs[i].validated
    ensures outcome == Applied <==>
              (exists i :: 0 <= i < |runs| && runs[i].matched) && exists i :: 0 <= i < |runs| && runs[i].validated
  {
    if |runs| == 0 {
      return NoConfigFiles;
    }
    var matchedAny := false;
    var validatedAny := false;
    var i := 0;
    while i < |runs|
      invariant 0 <= i <= |runs|
      invariant matchedAny <==> exists j :: 0 <= j < i && runs[j].matched
      invariant validatedAny <==> exists j :: 0 <= j < i && runs[j].validated
    {
      if runs[i].matched {
        matchedAny := true;
      }
      if runs[i].validated {
        validatedAny := true;
      }
      i := i + 1;
    }
    if !matchedAny {
      outcome := AppNotFound;
    } else if !validatedAny {
      outcome := ValidationFailed;
    } else {
      outcome := Applied;
    }
  }

  /** A config file the update writes a GPU choice into, and whose app
      block is found again where it was written, counts as validated: the
      loop then succeeds. */
  lemma WrittenConfigValidates(original: string, backupExists: bool, appId: string, index: nat,
                               managedEnv: seq<string>, useEnvWrapper: bool, k: nat)
    requires |managedEnv| == 0 || (k < |managedEnv| && managedEnv[k] == DriPrime(index))
    requires AppsBlock(original).Some?
    requires var apps := AppsBlock(original).value;
      && OwnLine(original, apps.open, apps.close, appId)
      && Writable(WrittenValue(original, apps.open, apps.close, appId, BuildManagedPrefix(Gpu(index), managedEnv, useEnvWrapper)))
    requires var apps := AppsBlock(original).value;
      var r := UpdateLocalconfigContent(original, appId, Gpu(index), managedEnv, useEnvWrapper);
      r.changed && Refound(r.text, appId, WriteSite(original, apps.key, apps.open, apps.close, appId))
    ensures var run := ProcessConfig(original, backupExists, appId, Gpu(index), managedEnv, useEnvWrapper);
      run.written.Some? && run.matched && run.validated
  {
    UpdateValidates(original, appId, index, managedEnv, useEnvWrapper, k);
  }

  /** One validated file is enough, whatever the others hold (a run is
      only validated once its app was matched, as `ProcessConfig` states). */
  lemma OneValidatedSuffices(runs: seq<ConfigRun>, i: nat)
    requires i < |runs| && runs[i].matched && runs[i].validated
    ensures OutcomeOf(runs) == Applied
  {
    assert runs[i].matched;
  }
}

=== FILE: text.dfy ===
/** String helpers with the meaning of the Rust standard-library calls the
    launcher-override engine uses (`trim`, `find`, `replace`, `split_whitespace`,
    `lines`, `split_once`, ASCII case folding, integer parsing and formatting).
    Strings are sequences of Unicode scalar values; indices are char positions. */
module Text {

  datatype Option<+T> = None | Some(value: T)

  // ---------------------------------------------------------------------------
  // Character classes

  /** Unicode White_Space, as Rust's `char::is_whitespace`. */
  predicate IsWhitespace(c: char) {
    ('\t' <= c <= '\r') || c == ' ' || c == '\U{85}' || c == '\U{A0}' || c == '\U{1680}'
    || ('\U{2000}' <= c <= '\U{200A}') || c == '\U{2028}' || c == '\U{2029}'
    || c == '\U{202F}' || c == '\U{205F}' || c == '\U{3000}'
  }

  /** The whitespace chars an ASCII byte can stand for: `\t \n \x0B \x0C \r` and space. */
  predicate IsAsciiSpace(c: char) {
    ('\t' <= c <= '\r') || c == ' '
  }

  predicate IsAsciiDigit(c: char) {
    '0' <= c <= '9'
  }

  predicate IsAsciiAlphanumeric(c: char) {
    IsAsciiDigit(c) || ('a' <= c <= 'z') || ('A' <= c <= 'Z')
  }

  predicate AllDigits(s: string) {
    forall i :: 0 <= i < |s| ==> IsAsciiDigit(s[i])
  }

  predicate NoWhitespace(s: string) {
    forall i :: 0 <= i < |s| ==> !IsWhitespace(s[i])
  }

  predicate NoChar(s: string, c: char) {
    forall i :: 0 <= i < |s| ==> s[i] != c
  }

  // ---------------------------------------------------------------------------
  // Prefixes, suffixes and occurrences

  predicate StartsWith(s: string, p: string) {
    |p| <= |s| && s[..|p|] == p
  }

  predicate EndsWith(s: string, p: string) {
    |p| <= |s| && s[|s| - |p|..] == p
  }

  /** `s` holds `needle` starting at position `i`. */
  predicate OccursAt(s: string, needle: string, i: nat) {
    i + |needle| <= |s| && s[i..i + |needle|] == needle
  }

  /** The first position at or after `from` where `needle` occurs. */
  function FindFrom(s: string, needle: string, from: nat): (r: Option<nat>)
    ensures r.Some? ==> from <= r.value && OccursAt(s, needle, r.value)
    ensures r.Some? ==> forall j :: from <= j < r.value ==> !OccursAt(s, needle, j)
    ensures r.None? ==> forall j :: from <= j ==> !OccursAt(s, needle, j)
    decreases |s| - from
  {
    if from + |needle| > |s| then None
    else if OccursAt(s, needle, from) then Some(from)
    else FindFrom(s, needle, from + 1)
  }

  /** Rust `str::find` with a string pattern. */
  function Find(s: string, needle: string): (r: Option<nat>)
    ensures r.Some? ==> OccursAt(s, needle, r.value)
    ensures r.Some? ==> forall j :: 0 <= j < r.value ==> !OccursAt(s, needle, j)
    ensures r.None? ==> forall j :: 0 <= j ==> !OccursAt(s, needle, j)
  {
    FindFrom(s, needle, 0)
  }

  /** Rust `str::contains` with a string pattern. */
  predicate Contains(s: string, needle: string) {
    Find(s, needle).Some?
  }

  lemma ContainsAt(s: string, needle: string, i: nat)
    requires OccursAt(s, needle, i)
    ensures Contains(s, needle)
  {
  }

  /** Rust `trim_start_matches` with a string pattern: every leading copy of
      `p` removed (nothing when `p` is empty). */
  function TrimStartMatches(s: string, p: string): (r: string)
    ensures |r| <= |s|
    ensures |p| > 0 ==> !StartsWith(r, p)
    decreases |s|
  {
    if |p| > 0 && StartsWith(s, p) then TrimStartMatches(s[|p|..], p) else s
  }

  /** The position of the first element of `ls` satisfying `p` (the search
      behind `find_map` over lines). */
  function FirstWhere(ls: seq<string>, p: string -> bool): (r: Option<nat>)
    ensures r.Some? ==> r.value < |ls| && p(ls[r.value])
    ensures r.Some? ==> forall j :: 0 <= j < r.value ==> !p(ls[j])
    ensures r.None? ==> forall j :: 0 <= j < |ls| ==> !p(ls[j])
  {
    if |ls| == 0 then None
    else if p(ls[0]) then Some(0)
    else match FirstWhere(ls[1..], p)
      case None => None
      case Some(i) => Some(i + 1)
  }

  /** A slice of text that does not contain `p` does not contain it either. */
  lemma SliceNotContains(s: string, p: string, a: nat, b: nat)
    requires a <= b <= |s| && !Contains(s, p)
    ensures !Contains(s[a..b], p)
  {
    var t := s[a..b];
    forall j: nat | OccursAt(t, p, j) ensures OccursAt(s, p, a + j) {
      var u, v := t[j..j + |p|], s[a + j..a + j + |p|];
      forall k | 0 <= k < |p| ensures u[k] == v[k] {
        assert u[k] == t[j + k] == s[a + j + k];
      }
      assert u == v;
    }
  }

  /** The text before the first occurrence of `p` does not contain `p`. */
  lemma BeforeFirstNotContains(s: string, p: string)
    requires |p| > 0 && Find(s, p).Some?
    ensures !Contains(s[..Find(s, p).value], p)
  {
    var i := Find(s, p).value;
    var t := s[..i];
    forall j: nat | OccursAt(t, p, j) ensures OccursAt(s, p, j) && j < i {
      assert t[j..j + |p|] == s[j..j + |p|];
    }
  }

  /** The first position of `c` in `s`. */
  function FindChar(s: string, c: char): (r: Option<nat>)
    ensures r.Some? ==> r.value < |s| && s[r.value] == c && NoChar(s[..r.value], c)
    ensures r.None? ==> NoChar(s, c)
  {
    if |s| == 0 then None
    else if s[0] == c then Some(0)
    else match FindChar(s[1..], c)
      case None => None
      case Some(i) =>
        assert s[..i + 1] == [s[0]] + s[1..][..i];
        Some(i + 1)
  }

  /** The last position of `c` in `s` (Rust `rfind` with a char). */
  function RFindChar(s: string, c: char): (r: Option<nat>)
    ensures r.Some? ==> r.value < |s| && s[r.value] == c && NoChar(s[r.value + 1..], c)
    ensures r.None? ==> NoChar(s, c)
  {
    if |s| == 0 then None
    else if s[|s| - 1] == c then Some(|s| - 1)
    else match RFindChar(s[..|s| - 1], c)
      case None =>
        NoCharSnoc(s, 0, c);
        None
      case Some(i) =>
        NoCharSnoc(s, i + 1, c);
        Some(i)
  }

  /** A suffix free of `c` up to a last char that is not `c`. */
  lemma NoCharSnoc(s: string, i: nat, c: char)
    requires i < |s| && NoChar(s[..|s| - 1][i..], c) && s[|s| - 1] != c
    ensures NoChar(s[i..], c)
  {
    forall k | 0 <= k < |s[i..]| ensures s[i..][k] != c {
      if i + k < |s| - 1 {
        assert s[i..][k] == s[..|s| - 1][i..][k];
      }
    }
  }

  /** Number of occurrences of `c` in `s` (Rust `matches(c).count()`). */
  function CountChar(s: string, c: char): nat {
    if |s| == 0 then 0 else (if s[0] == c then 1 else 0) + CountChar(s[1..], c)
  }

  lemma CountCharAppend(a: string, b: string, c: char)
    ensures CountChar(a + b, c) == CountChar(a, c) + CountChar(b, c)
  {
    if |a| > 0 {
      assert (a + b)[1..] == a[1..] + b;
      CountCharAppend(a[1..], b, c);
    } else {
      assert a + b == b;
    }
  }

  // ---------------------------------------------------------------------------
  // Trimming

  /** Rust `trim_start`. */
  function TrimStart(s: string): (r: string)
    ensures |r| <= |s|
    ensures r == [] || !IsWhitespace(r[0])
  {
    if |s| > 0 && IsWhitespace(s[0]) then TrimStart(s[1..]) else s
  }

  /** Rust `trim_end`. */
  function TrimEnd(s: string): (r: string)
    ensures |r| <= |s|
    ensures r == [] || !IsWhitespace(r[|r| - 1])
  {
    if |s| > 0 && IsWhitespace(s[|s| - 1]) then TrimEnd(s[..|s| - 1]) else s
  }

  /** Rust `trim`: whitespace removed at both ends. */
  function Trim(s: string): (r: string)
    ensures |r| <= |s|
    ensures r == [] || (!IsWhitespace(r[0]) && !IsWhitespace(r[|r| - 1]))
  {
    var t := TrimStart(s);
    var r := TrimEnd(t);
    TrimEndPrefix(t);
    assert |r| > 0 ==> r[0] == t[0];
    r
  }

  predicate IsBlank(s: string) {
    |Trim(s)| == 0
  }

  /** `trim_start` removes a whitespace-only prefix and nothing else. */
  lemma {:induction false} TrimStartSuffix(s: string)
    ensures s[..|s| - |TrimStart(s)|] + TrimStart(s) == s
    ensures forall i :: 0 <= i < |s| - |TrimStart(s)| ==> IsWhitespace(s[i])
  {
    if |s| > 0 && IsWhitespace(s[0]) {
      TrimStartSuffix(s[1..]);
      var t := TrimStart(s[1..]);
      assert s[1..][..|s| - 1 - |t|] + t == s[1..];
      assert s[..|s| - |t|] == [s[0]] + s[1..][..|s| - 1 - |t|];
    }
  }

  /** `trim_end` removes a whitespace-only suffix and nothing else. */
  lemma {:induction false} TrimEndPrefix(s: string)
    ensures TrimEnd(s) == s[..|TrimEnd(s)|]
    ensures forall i :: |TrimEnd(s)| <= i < |s| ==> IsWhitespace(s[i])
  {
    if |s| > 0 && IsWhitespace(s[|s| - 1]) {
      TrimEndPrefix(s[..|s| - 1]);
    }
  }

  /** `trim` keeps one contiguous slice of its input. */
  lemma TrimIsSlice(s: string)
    ensures var a := |s| - |TrimStart(s)|; a + |Trim(s)| <= |s| && Trim(s) == s[a..a + |Trim(s)|]
  {
    TrimStartSuffix(s);
    var t := TrimStart(s);
    TrimEndPrefix(t);
    var a := |s| - |t|;
    assert t == s[a..];
  }

  /** Trimming adds no char. */
  lemma TrimNoChar(s: string, c: char)
    requires NoChar(s, c)
    ensures NoChar(Trim(s), c)
  {
    TrimIsSlice(s);
  }

  /** Trimming adds no occurrence. */
  lemma TrimNotContains(s: string, p: string)
    requires !Contains(s, p)
    ensures !Contains(Trim(s), p)
  {
    var a := |s| - |TrimStart(s)|;
    assert a + |Trim(s)| <= |s| && Trim(s) == s[a..a + |Trim(s)|] by {
      TrimIsSlice(s);
    }
    SliceNotContains(s, p, a, a + |Trim(s)|);
  }

  /** Neither end of `s` is whitespace. */
  predicate Trimmed(s: string) {
    s == [] || (!IsWhitespace(s[0]) && !IsWhitespace(s[|s| - 1]))
  }

  lemma TrimOfTrimmed(s: string)
    requires Trimmed(s)
    ensures Trim(s) == s
  {
  }

  lemma TrimIdempotent(s: string)
    ensures Trim(Trim(s)) == Trim(s)
  {
    TrimOfTrimmed(Trim(s));
  }

  /** A string that is all whitespace trims to nothing. */
  lemma {:induction false} TrimAllWhitespace(s: string)
    requires forall i :: 0 <= i < |s| ==> IsWhitespace(s[i])
    ensures TrimStart(s) == [] && Trim(s) == []
  {
    if |s| > 0 {
      TrimAllWhitespace(s[1..]);
    }
  }

  /** `trim_start` stops inside `x` once `x` ends in a non-whitespace char. */
  lemma {:induction false} TrimStartAppend(x: string, y: string)
    requires |x| > 0 && !IsWhitespace(x[|x| - 1])
    ensures TrimStart(x + y) == TrimStart(x) + y
    decreases |x|
  {
    if IsWhitespace(x[0]) {
      assert (x + y)[1..] == x[1..] + y;
      TrimStartAppend(x[1..], y);
    }
  }

  /** `trim_end` stops inside `y` once `y` starts with a non-whitespace char. */
  lemma {:induction false} TrimEndAppend(x: string, y: string)
    requires |y| > 0 && !IsWhitespace(y[0])
    ensures TrimEnd(x + y) == x + TrimEnd(y)
    decreases |y|
  {
    if IsWhitespace(y[|y| - 1]) {
      assert (x + y)[..|x + y| - 1] == x + y[..|y| - 1];
      TrimEndAppend(x, y[..|y| - 1]);
    }
  }

  /** `trim_end` drops trailing whitespace and stops at the text before it. */
  lemma {:induction false} TrimEndWhitespaceTail(x: string, w: string)
    requires |x| == 0 || !IsWhitespace(x[|x| - 1])
    requires forall i :: 0 <= i < |w| ==> IsWhitespace(w[i])
    ensures TrimEnd(x + w) == x
    decreases |w|
  {
    if |w| > 0 {
      assert (x + w)[..|x + w| - 1] == x + w[..|w| - 1];
      TrimEndWhitespaceTail(x, w[..|w| - 1]);
    } else {
      assert x + w == x;
    }
  }

  /** Trimming the end first and then the start gives `trim` as well. */
  lemma TrimEndThenStart(s: string)
    ensures TrimStart(TrimEnd(s)) == Trim(s)
  {
    var e := TrimEnd(s);
    TrimEndPrefix(s);
    var w := s[|e|..];
    assert s == e + w;
    if |e| == 0 {
      TrimAllWhitespace(s);
    } else {
      TrimOfTrailing(e, w);
    }
  }

  /** Trimming text that ends in whitespace after a non-blank part trims
      the start of that part. */
  lemma TrimOfTrailing(e: string, w: string)
    requires |e| > 0 && !IsWhitespace(e[|e| - 1])
    requires forall i :: 0 <= i < |w| ==> IsWhitespace(w[i])
    ensures Trim(e + w) == TrimStart(e)
  {
    TrimStartAppend(e, w);
    TrimStartSuffix(e);
    var t := TrimStart(e);
    assert |t| > 0 && t[|t| - 1] == e[|e| - 1];
    TrimEndWhitespaceTail(t, w);
  }

  /** `trim_start` and `trim_end` are idempotent. */
  lemma TrimStartEndIdempotent(s: string)
    ensures TrimStart(TrimStart(s)) == TrimStart(s)
    ensures TrimEnd(TrimEnd(s)) == TrimEnd(s)
  {
  }

  /** Text is blank exactly when `trim_start` leaves nothing of it. */
  lemma {:induction false} BlankIsTrimStartEmpty(s: string)
    ensures IsBlank(s) <==> TrimStart(s) == []
  {
    var t := TrimStart(s);
    if |t| > 0 {
      TrimEndPrefix(t);
      assert |TrimEnd(t)| > 0;
    }
  }

  /** Two texts with a single space between them, or either alone when the
      other is empty. */
  function SpaceJoin(x: string, y: string): (r: string)
    ensures |x| == 0 ==> r == y
    ensures |y| == 0 ==> r == x
    ensures |x| > 0 && |y| > 0 ==> |r| == |x| + 1 + |y| && r[|x|] == ' '
  {
    if |x| == 0 then y else if |y| == 0 then x else x + " " + y
  }

  /** Joining the end-trimmed head and the start-trimmed tail with one space
      (only when both have something) and trimming the whole joins the two
      trimmed parts. */
  lemma TrimSpaceJoin(a: string, b: string)
    ensures var x := TrimEnd(a);
      Trim(x + (if |x| > 0 && !IsBlank(b) then " " else "") + TrimStart(b)) == SpaceJoin(Trim(a), Trim(b))
  {
    var x, y := TrimEnd(a), TrimStart(b);
    BlankIsTrimStartEmpty(b);
    if |x| == 0 {
      TrimEndThenStart(a);
      TrimStartEndIdempotent(b);
      assert x + "" + y == y;
    } else if |y| == 0 {
      assert x + "" + y == x;
      TrimEndThenStart(a);
      TrimEndThenStart(x);
      TrimStartEndIdempotent(a);
    } else {
      TrimSpaceJoinBoth(a, b);
    }
  }

  lemma TrimSpaceJoinBoth(a: string, b: string)
    requires |TrimEnd(a)| > 0 && |TrimStart(b)| > 0
    ensures Trim(TrimEnd(a) + " " + TrimStart(b)) == Trim(a) + " " + Trim(b)
  {
    var x, y := TrimEnd(a), TrimStart(b);
    assert x + " " + y == x + (" " + y);
    TrimStartAppend(x, " " + y);
    var t := TrimStart(x);
    assert t + (" " + y) == (t + " ") + y;
    TrimEndAppend(t + " ", y);
    TrimEndThenStart(a);
  }

  // ---------------------------------------------------------------------------
  // Splitting and joining

  /** The leading run of non-whitespace chars. */
  function Word(s: string): (r: string)
    ensures |r| <= |s| && NoWhitespace(r)
    ensures |s| > 0 && !IsWhitespace(s[0]) ==> |r| > 0
  {
    if |s| == 0 || IsWhitespace(s[0]) then [] else [s[0]] + Word(s[1..])
  }

  /** Rust `split_whitespace`: the maximal non-empty whitespace-free runs, in order. */
  function SplitWhitespace(s: string): (r: seq<string>)
    ensures forall i :: 0 <= i < |r| ==> |r[i]| > 0 && NoWhitespace(r[i])
    decreases |s|
  {
    var t := TrimStart(s);
    if |t| == 0 then []
    else
      var w := Word(t);
      [w] + SplitWhitespace(t[|w|..])
  }

  /** Rust `join` on a slice of strings. */
  function Join(parts: seq<string>, sep: string): (r: string)
    ensures |parts| == 0 ==> r == []
    ensures |parts| == 1 ==> r == parts[0]
  {
    if |parts| == 0 then []
    else if |parts| == 1 then parts[0]
    else parts[0] + sep + Join(parts[1..], sep)
  }

  /** Whitespace appears only as single spaces between words. */
  predicate Collapsed(s: string) {
    && (|s| > 0 ==> !IsWhitespace(s[0]) && !IsWhitespace(s[|s| - 1]))
    && (forall i :: 0 <= i < |s| && IsWhitespace(s[i]) ==> s[i] == ' ')
    && (forall i, j :: 0 <= i < |s| && 0 <= j < |s| && j == i + 1 ==> !IsWhitespace(s[i]) || !IsWhitespace(s[j]))
  }

  /** `split_whitespace().join(" ")` collapses whitespace. */
  lemma {:induction false} JoinWordsCollapsed(parts: seq<string>)
    requires forall i :: 0 <= i < |parts| ==> |parts[i]| > 0 && NoWhitespace(parts[i])
    ensures Collapsed(Join(parts, " "))
  {
    if |parts| > 1 {
      JoinWordsCollapsed(parts[1..]);
      var w := parts[0];
      var rest := Join(parts[1..], " ");
      var r := w + " " + rest;
      assert r == Join(parts, " ");
      assert forall i :: 0 <= i < |w| ==> r[i] == w[i];
      assert forall i :: |w| < i < |r| ==> r[i] == rest[i - |w| - 1];
      forall i | 0 <= i < |r| && IsWhitespace(r[i]) ensures r[i] == ' ' {
        if i > |w| {
          assert r[i] == rest[i - |w| - 1];
        }
      }
      forall i, j | 0 <= i < j < |r| && j == i + 1 ensures !IsWhitespace(r[i]) || !IsWhitespace(r[j]) {
        if i > |w| {
          assert r[i] == rest[i - |w| - 1] && r[j] == rest[j - |w| - 1];
        } else if i == |w| {
          assert r[j] == rest[0];
        }
      }
      assert r[0] == w[0];
      assert r[|r| - 1] == rest[|rest| - 1];
    }
  }

  /** Words joined with single spaces split back into the same words. */
  lemma {:induction false} SplitJoinWords(parts: seq<string>)
    requires forall i :: 0 <= i < |parts| ==> |parts[i]| > 0 && NoWhitespace(parts[i])
    ensures SplitWhitespace(Join(parts, " ")) == parts
  {
    if |parts| == 1 {
      SplitWordThen(parts[0], []);
      assert parts[0] + [] == parts[0];
    } else if |parts| > 1 {
      var tl := parts[1..];
      var rest := Join(tl, " ");
      SplitJoinWords(tl);
      assert SplitWhitespace(rest) == tl;
      var sp := " " + rest;
      assert IsWhitespace(sp[0]);
      SplitWordThen(parts[0], sp);
      assert Join(parts, " ") == parts[0] + sp;
      SplitLeadingSpace(rest);
      assert parts == [parts[0]] + tl;
    }
  }

  lemma SplitWordThen(w: string, rest: string)
    requires |w| > 0 && NoWhitespace(w)
    requires rest == [] || IsWhitespace(rest[0])
    ensures SplitWhitespace(w + rest) == [w] + SplitWhitespace(rest)
  {
    var s := w + rest;
    assert s[0] == w[0];
    TrimStartNoLead(s);
    WordOf(w, rest);
    assert s[|w|..] == rest;
  }

  lemma SplitLeadingSpace(rest: string)
    ensures SplitWhitespace(" " + rest) == SplitWhitespace(rest)
  {
    assert (" " + rest)[1..] == rest;
    assert TrimStart(" " + rest) == TrimStart(rest);
  }

  lemma TrimStartNoLead(s: string)
    requires s == [] || !IsWhitespace(s[0])
    ensures TrimStart(s) == s
  {
  }

  lemma WordOf(w: string, rest: string)
    requires NoWhitespace(w)
    requires rest == [] || IsWhitespace(rest[0])
    ensures Word(w + rest) == w
  {
    if |w| > 0 {
      assert (w + rest)[1..] == w[1..] + rest;
      WordOf(w[1..], rest);
    } else {
      assert w + rest == rest;
    }
  }

  /** `split_whitespace().collect::<Vec<_>>().join(" ")`. */
  function CollapseWhitespace(s: string): (r: string)
    ensures Collapsed(r)
  {
    JoinWordsCollapsed(SplitWhitespace(s));
    Join(SplitWhitespace(s), " ")
  }

  /** The leading word is a prefix, ended by whitespace or the end of text. */
  lemma {:induction false} WordPrefix(s: string)
    ensures Word(s) == s[..|Word(s)|]
    ensures |Word(s)| < |s| ==> IsWhitespace(s[|Word(s)|])
  {
    if |s| > 0 && !IsWhitespace(s[0]) {
      WordPrefix(s[1..]);
    }
  }

  /** Text whose whitespace is already collapsed is left as it is. */
  lemma {:induction false} CollapseOfCollapsed(s: string)
    requires Collapsed(s)
    ensures CollapseWhitespace(s) == s
    decreases |s|
  {
    if |s| > 0 {
      var w := Word(s);
      WordPrefix(s);
      TrimStartNoLead(s);
      if |w| == |s| {
        CollapseOneWord(s);
      } else {
        var rest := s[|w| + 1..];
        CollapsedTail(s, |w|);
        assert s == w + [' '] + rest;
        CollapseOfCollapsed(rest);
        SplitAfterWord(s, w, rest);
      }
    }
  }

  /** A single word is its own collapsed form. */
  lemma CollapseOneWord(s: string)
    requires |s| > 0 && NoWhitespace(s)
    ensures CollapseWhitespace(s) == s
  {
    SplitWordThen(s, []);
    assert s + [] == s;
  }

  lemma CollapsedTail(s: string, i: nat)
    requires Collapsed(s) && i < |s| && IsWhitespace(s[i])
    ensures s[i] == ' ' && i + 1 < |s| && !IsWhitespace(s[i + 1]) && Collapsed(s[i + 1..])
  {
    var rest := s[i + 1..];
    assert i + 1 < |s|;
    assert !IsWhitespace(s[i]) || !IsWhitespace(s[i + 1]);
    assert forall k :: 0 <= k < |rest| ==> rest[k] == s[i + 1 + k];
    forall k, l | 0 <= k < l < |rest| && l == k + 1 ensures !IsWhitespace(rest[k]) || !IsWhitespace(rest[l]) {
      assert rest[k] == s[i + 1 + k] && rest[l] == s[i + 1 + l];
    }
  }

  lemma SplitAfterWord(s: string, w: string, rest: string)
    requires |w| > 0 && NoWhitespace(w) && s == w + [' '] + rest
    requires |rest| > 0 && !IsWhitespace(rest[0])
    requires Join(SplitWhitespace(rest), " ") == rest
    ensures Join(SplitWhitespace(s), " ") == s
  {
    var ws := SplitWhitespace(rest);
    assert SplitWhitespace(s) == [w] + ws by {
      assert s == w + (" " + rest) by {
        SpaceBetween(w, rest);
      }
      SplitWordThen(w, " " + rest);
      SplitLeadingSpace(rest);
    }
    assert |ws| > 0 by {
      TrimStartNoLead(rest);
    }
    JoinCons(w, ws, " ");
    SpaceBetween(w, Join(ws, " "));
  }

  lemma SpaceBetween(a: string, b: string)
    ensures a + [' '] + b == a + (" " + b)
    ensures a + " " + b == a + [' '] + b
  {
  }

  lemma JoinCons(w: string, ws: seq<string>, sep: string)
    requires |ws| > 0
    ensures Join([w] + ws, sep) == w + sep + Join(ws, sep)
  {
    assert ([w] + ws)[1..] == ws;
  }

  /** Rust `split_once` with a char pattern. */
  function SplitOnce(s: string, c: char): (r: Option<(string, string)>)
    ensures r.None? <==> NoChar(s, c)
    ensures r.Some? ==> s == r.value.0 + [c] + r.value.1 && NoChar(r.value.0, c)
  {
    match FindChar(s, c)
    case None => None
    case Some(i) =>
      assert s == s[..i] + [c] + s[i + 1..];
      Some((s[..i], s[i + 1..]))
  }

  /** A split at the first occurrence of `c` is determined by its parts. */
  lemma SplitUnique(a: string, b: string, x: string, y: string, c: char)
    requires NoChar(a, c) && NoChar(x, c) && a + [c] + b == x + [c] + y
    ensures a == x && b == y
  {
    var s := a + [c] + b;
    assert s[|a|] == c && s[|x|] == c;
    assert forall i :: 0 <= i < |a| ==> s[i] == a[i];
    assert forall i :: 0 <= i < |x| ==> s[i] == x[i];
    assert |a| == |x|;
    assert a == s[..|a|] && x == s[..|x|];
    assert b == s[|a| + 1..] && y == s[|x| + 1..];
  }

  /** Rust `split` with a char pattern (never empty). */
  function SplitChar(s: string, c: char): (r: seq<string>)
    ensures |r| > 0
    ensures forall i :: 0 <= i < |r| ==> NoChar(r[i], c)
    decreases |s|
  {
    match FindChar(s, c)
    case None => [s]
    case Some(i) => [s[..i]] + SplitChar(s[i + 1..], c)
  }

  lemma {:induction false} JoinSplitChar(s: string, c: char)
    ensures Join(SplitChar(s, c), [c]) == s
    decreases |s|
  {
    match FindChar(s, c)
    case None =>
    case Some(i) =>
      JoinSplitChar(s[i + 1..], c);
      assert s == s[..i] + [c] + s[i + 1..];
  }

  /** Rust `str::lines`: split at `\n`, drop the `\r` of a `\r\n` ending, no
      empty last line after a final newline. */
  function Lines(s: string): (r: seq<string>)
    ensures forall i :: 0 <= i < |r| ==> NoChar(r[i], '\n')
    decreases |s|
  {
    if |s| == 0 then []
    else match FindChar(s, '\n')
      case None => [s]
      case Some(i) =>
        var line := s[..i];
        var cut := if |line| > 0 && line[|line| - 1] == '\r' then line[..|line| - 1] else line;
        assert NoChar(cut, '\n');
        [cut] + Lines(s[i + 1..])
  }

  /** Lines joined with `\n`, a `\n` after each: the inverse of `Lines` on
      text that ends in a newline and holds no carriage return. */
  function Unlines(ls: seq<string>): (r: string)
    ensures |ls| > 0 ==> |r| > 0 && r[|r| - 1] == '\n'
  {
    if |ls| == 0 then [] else ls[0] + "\n" + Unlines(ls[1..])
  }

  lemma {:induction false} LinesUnlines(ls: seq<string>)
    requires forall i :: 0 <= i < |ls| ==> NoChar(ls[i], '\n') && NoChar(ls[i], '\r')
    ensures Lines(Unlines(ls)) == ls
  {
    if |ls| > 0 {
      var s := Unlines(ls);
      var l := ls[0];
      var t := Unlines(ls[1..]);
      assert FindChar(s, '\n') == Some(|l|) && s[..|l|] == l && s[|l| + 1..] == t by {
        assert NoChar(l, '\n');
        LineBreakAt(l, t);
      }
      LinesUnlines(ls[1..]);
      if |l| > 0 {
        assert l[|l| - 1] != '\r';
      }
    }
  }

  /** The first line break of `l + "\n" + t` ends `l`. */
  lemma LineBreakAt(l: string, t: string)
    requires NoChar(l, '\n')
    ensures FindChar(l + "\n" + t, '\n') == Some(|l|)
    ensures (l + "\n" + t)[..|l|] == l && (l + "\n" + t)[|l| + 1..] == t
  {
    var s := l + "\n" + t;
    assert s[..|l|] == l;
    FindCharIs(s, '\n', |l|);
  }

  // ---------------------------------------------------------------------------
  // Replacement and case

  /** Rust `str::replace` with a non-empty pattern: leftmost non-overlapping matches. */
  function ReplaceAll(s: string, pat: string, rep: string): (r: string)
    requires |pat| > 0
    decreases |s|
  {
    if |s| < |pat| then s
    else if s[..|pat|] == pat then rep + ReplaceAll(s[|pat|..], pat, rep)
    else [s[0]] + ReplaceAll(s[1..], pat, rep)
  }

  /** A pattern that never occurs is not replaced. */
  lemma {:induction false} ReplaceAbsent(s: string, pat: string, rep: string)
    requires |pat| > 0
    requires !Contains(s, pat)
    ensures ReplaceAll(s, pat, rep) == s
    decreases |s|
  {
    if |s| >= |pat| {
      assert !OccursAt(s, pat, 0);
      assert s[..|pat|] != pat;
      forall j | 0 <= j
        ensures !OccursAt(s[1..], pat, j)
      {
        OccursShift(s, pat, j);
      }
      ReplaceAbsent(s[1..], pat, rep);
    }
  }

  predicate NonEmptyAll(terms: seq<string>) {
    forall i :: 0 <= i < |terms| ==> |terms[i]| > 0
  }

  /** Every occurrence of each term removed, term after term. */
  function RemoveTerms(s: string, terms: seq<string>): (r: string)
    requires NonEmptyAll(terms)
    decreases |terms|
  {
    if |terms| == 0 then s else RemoveTerms(ReplaceAll(s, terms[0], ""), terms[1..])
  }

  /** Removing terms that do not occur changes nothing. */
  lemma {:induction false} RemoveAbsentTerms(s: string, terms: seq<string>)
    requires NonEmptyAll(terms)
    requires forall i :: 0 <= i < |terms| ==> !Contains(s, terms[i])
    ensures RemoveTerms(s, terms) == s
  {
    if |terms| > 0 {
      ReplaceAbsent(s, terms[0], "");
      RemoveAbsentTerms(s, terms[1..]);
    }
  }

  lemma OccursShift(s: string, pat: string, j: nat)
    requires |s| > 0
    ensures OccursAt(s[1..], pat, j) ==> OccursAt(s, pat, j + 1)
  {
    if OccursAt(s[1..], pat, j) {
      assert s[1..][j..j + |pat|] == s[j + 1..j + 1 + |pat|];
    }
  }

  /** Rust `str::replace` with a char pattern and a char replacement. */
  function ReplaceChar(s: string, a: char, b: char): (r: string)
    ensures |r| == |s|
    ensures forall i :: 0 <= i < |s| ==> r[i] == (if s[i] == a then b else s[i])
  {
    if |s| == 0 then [] else [if s[0] == a then b else s[0]] + ReplaceChar(s[1..], a, b)
  }

  function AsciiLowerChar(c: char): char {
    if 'A' <= c <= 'Z' then (c as int + 32) as char else c
  }

  /** Rust `to_ascii_lowercase`. */
  function ToAsciiLower(s: string): (r: string)
    ensures |r| == |s|
    ensures forall i :: 0 <= i < |s| ==> r[i] == AsciiLowerChar(s[i])
  {
    if |s| == 0 then [] else [AsciiLowerChar(s[0])] + ToAsciiLower(s[1..])
  }

  /** Rust `eq_ignore_ascii_case`. */
  predicate EqIgnoreAsciiCase(a: string, b: string) {
    |a| == |b| && ToAsciiLower(a) == ToAsciiLower(b)
  }

  /** Lower-casing twice is lower-casing once. */
  lemma ToAsciiLowerIdempotent(s: string)
    ensures ToAsciiLower(ToAsciiLower(s)) == ToAsciiLower(s)
  {
    var l := ToAsciiLower(s);
    forall i | 0 <= i < |s| ensures ToAsciiLower(l)[i] == l[i] {
      assert l[i] == AsciiLowerChar(s[i]);
    }
  }

  /** Comparing against a lower-cased key ignores case just as comparing
      against the key does. */
  lemma EqIgnoreAsciiCaseLowered(a: string, key: string)
    ensures EqIgnoreAsciiCase(a, ToAsciiLower(key)) <==> EqIgnoreAsciiCase(a, key)
  {
    ToAsciiLowerIdempotent(key);
  }

  lemma EqIgnoreAsciiCaseSymmetric(a: string, b: string)
    ensures EqIgnoreAsciiCase(a, b) <==> EqIgnoreAsciiCase(b, a)
  {
  }

  // ---------------------------------------------------------------------------
  // Numbers

  function DigitChar(d: nat): (c: char)
    requires d < 10
    ensures IsAsciiDigit(c)
  {
    ('0' as int + d) as char
  }

  function DigitValue(c: char): nat
    requires IsAsciiDigit(c)
  {
    c as int - '0' as int
  }

  /** Decimal rendering of a number, as Rust's `{}` formatting of an unsigned integer. */
  function NatToString(n: nat): (r: string)
    ensures |r| > 0 && AllDigits(r)
    decreases n
  {
    if n < 10 then [DigitChar(n)] else NatToString(n / 10) + [DigitChar(n % 10)]
  }

  /** The value of a non-empty run of decimal digits. */
  function DigitsValue(s: string): nat
    requires AllDigits(s)
    decreases |s|
  {
    if |s| == 0 then 0 else DigitsValue(s[..|s| - 1]) * 10 + DigitValue(s[|s| - 1])
  }

  lemma {:induction false} DigitsOfNat(n: nat)
    ensures DigitsValue(NatToString(n)) == n
    decreases n
  {
    var s := NatToString(n);
    if n >= 10 {
      DigitsOfNat(n / 10);
      assert s[..|s| - 1] == NatToString(n / 10);
    }
  }

  /** The numbers render to distinct strings. */
  lemma NatToStringInjective(m: nat, n: nat)
    requires NatToString(m) == NatToString(n)
    ensures m == n
  {
    DigitsOfNat(m);
    DigitsOfNat(n);
  }

  /** Rust `str::parse` into an unsigned integer whose largest value is `max`:
      an optional `+`, then one or more decimal digits, no overflow. */
  function ParseUnsigned(s: string, max: nat): (r: Option<nat>)
    ensures r.Some? ==> r.value <= max
  {
    var digits := if |s| > 0 && s[0] == '+' then s[1..] else s;
    if |digits| == 0 || !AllDigits(digits) then None
    else if DigitsValue(digits) > max then None
    else Some(DigitsValue(digits))
  }

  lemma ParseRendered(n: nat, max: nat)
    requires n <= max
    ensures ParseUnsigned(NatToString(n), max) == Some(n)
  {
    DigitsOfNat(n);
  }

  // ---------------------------------------------------------------------------
  // Lexicographic order (Rust `Ord` on `String`: byte order of UTF-8, which is
  // code-point order)

  predicate LexLess(a: string, b: string)
    decreases |a|
  {
    |b| > 0 && (|a| == 0 || a[0] < b[0] || (a[0] == b[0] && LexLess(a[1..], b[1..])))
  }

  predicate LexLeq(a: string, b: string) {
    a == b || LexLess(a, b)
  }

  lemma {:induction false} LexLessIrreflexive(a: string)
    ensures !LexLess(a, a)
    decreases |a|
  {
    if |a| > 0 {
      LexLessIrreflexive(a[1..]);
    }
  }

  lemma {:induction false} LexLessTransitive(a: string, b: string, c: string)
    requires LexLess(a, b) && LexLess(b, c)
    ensures LexLess(a, c)
    decreases |a|
  {
    if |a| > 0 && a[0] == b[0] && b[0] == c[0] {
      LexLessTransitive(a[1..], b[1..], c[1..]);
    }
  }

  lemma {:induction false} LexLessTotal(a: string, b: string)
    ensures a == b || LexLess(a, b) || LexLess(b, a)
    decreases |a|
  {
    if |a| > 0 && |b| > 0 && a[0] == b[0] {
      LexLessTotal(a[1..], b[1..]);
      if a[1..] == b[1..] {
        assert a == [a[0]] + a[1..] && b == [b[0]] + b[1..];
      }
    }
  }

  lemma LexLessAsymmetric(a: string, b: string)
    requires LexLess(a, b)
    ensures !LexLess(b, a)
  {
    if LexLess(b, a) {
      LexLessTransitive(a, b, a);
      LexLessIrreflexive(a);
    }
  }

  // ---------------------------------------------------------------------------
  // Tokens and scanning

  /** `iter().position(|p| *p == w)`: the first element equal to `w`. */
  function IndexOf(ls: seq<string>, w: string): (r: Option<nat>)
    ensures r.Some? ==> r.value < |ls| && ls[r.value] == w
    ensures r.Some? ==> forall j :: 0 <= j < r.value ==> ls[j] != w
    ensures r.None? ==> forall j :: 0 <= j < |ls| ==> ls[j] != w
  {
    if |ls| == 0 then None
    else if ls[0] == w then Some(0)
    else match IndexOf(ls[1..], w)
      case None => None
      case Some(i) => Some(i + 1)
  }

  /** Rust `trim_matches(c)`: every leading and trailing `c` removed. */
  function TrimMatchesChar(s: string, c: char): (r: string)
    ensures |r| <= |s|
    ensures r == [] || (r[0] != c && r[|r| - 1] != c)
    decreases |s|
  {
    if |s| > 0 && s[0] == c then TrimMatchesChar(s[1..], c)
    else if |s| > 0 && s[|s| - 1] == c then TrimMatchesChar(s[..|s| - 1], c)
    else s
  }

  /** `chars().take_while(is_ascii_digit)`: the leading run of ASCII digits. */
  function DigitPrefix(s: string): (r: string)
    ensures AllDigits(r) && StartsWith(s, r)
    ensures |r| < |s| ==> !IsAsciiDigit(s[|r|])
  {
    if |s| > 0 && IsAsciiDigit(s[0]) then [s[0]] + DigitPrefix(s[1..]) else []
  }

  lemma {:induction false} DigitPrefixOf(d: string, rest: string)
    requires AllDigits(d) && (rest == [] || !IsAsciiDigit(rest[0]))
    ensures DigitPrefix(d + rest) == d
  {
    if |d| > 0 {
      assert (d + rest)[1..] == d[1..] + rest;
      DigitPrefixOf(d[1..], rest);
    } else {
      assert d + rest == rest;
    }
  }

  /** `Find` reports the first occurrence. */
  lemma FindIs(s: string, needle: string, i: nat)
    requires OccursAt(s, needle, i)
    requires forall j :: 0 <= j < i ==> !OccursAt(s, needle, j)
    ensures Find(s, needle) == Some(i)
  {
  }

  /** `FindFrom` reports the first occurrence at or after `from`. */
  lemma FindFromIs(s: string, needle: string, from: nat, i: nat)
    requires from <= i && OccursAt(s, needle, i)
    requires forall j :: from <= j < i ==> !OccursAt(s, needle, j)
    ensures FindFrom(s, needle, from) == Some(i)
  {
  }

  /** An occurrence in a slice of `s` is an occurrence in `s`. */
  lemma OccursInSlice(s: string, needle: string, a: nat, b: nat, j: nat)
    requires a <= b <= |s| && OccursAt(s[a..b], needle, j)
    ensures OccursAt(s, needle, a + j)
  {
    var u, v := s[a..b][j..j + |needle|], s[a + j..a + j + |needle|];
    forall k | 0 <= k < |needle| ensures u[k] == v[k] {
      assert u[k] == s[a..b][j + k] == s[a + j + k];
    }
    assert u == v;
  }

  /** An occurrence that ends within `x` in `x + y` is an occurrence in `x`. */
  lemma OccursInPrefix(x: string, y: string, needle: string, j: nat)
    requires j + |needle| <= |x| && OccursAt(x + y, needle, j)
    ensures OccursAt(x, needle, j)
  {
    assert (x + y)[j..j + |needle|] == x[j..j + |needle|];
  }

  /** An occurrence past `x` in `x + y` is an occurrence in `y`. */
  lemma OccursInSuffix(x: string, y: string, needle: string, j: nat)
    requires |x| <= j && OccursAt(x + y, needle, j)
    ensures OccursAt(y, needle, j - |x|)
  {
    assert (x + y)[j..j + |needle|] == y[j - |x|..j - |x| + |needle|];
  }

  /** Where an occurrence lies, `s` agrees with the needle char by char. */
  lemma OccursAtChar(s: string, needle: string, i: nat, k: nat)
    requires OccursAt(s, needle, i) && k < |needle|
    ensures s[i + k] == needle[k]
  {
    assert s[i..i + |needle|][k] == s[i + k];
  }

  /** A text whose char at `j` differs from the needle's first char does
      not hold the needle at `j`. */
  lemma FirstCharDiffers(s: string, needle: string, j: nat)
    requires j < |s| && |needle| > 0 && s[j] != needle[0]
    ensures !OccursAt(s, needle, j)
  {
    if j + |needle| <= |s| {
      assert s[j..j + |needle|][0] == s[j];
    }
  }

  /** A needle without spaces found in `x + " " + y` lies wholly in `x` or
      wholly in `y`. */
  lemma SpaceSplitOccurs(x: string, y: string, needle: string, j: nat)
    requires NoChar(needle, ' ') && OccursAt(x + " " + y, needle, j)
    ensures OccursAt(x, needle, j) || (j > |x| && OccursAt(y, needle, j - |x| - 1))
  {
    var s := x + " " + y;
    if j <= |x| < j + |needle| {
      OccursAtChar(s, needle, j, |x| - j);
      assert false;
    } else if j + |needle| <= |x| {
      assert s[..|x|] == x;
      assert s[..|x|][j..j + |needle|] == s[j..j + |needle|];
    } else {
      assert s[|x| + 1..] == y;
      assert s[|x| + 1..][j - |x| - 1..j - |x| - 1 + |needle|] == s[j..j + |needle|];
    }
  }

  /** A needle without spaces that no part contains is not in the parts
      joined by spaces either. */
  lemma {:induction false} JoinNotContains(parts: seq<string>, needle: string)
    requires |needle| > 0 && NoChar(needle, ' ')
    requires forall k :: 0 <= k < |parts| ==> !Contains(parts[k], needle)
    ensures !Contains(Join(parts, " "), needle)
  {
    if |parts| > 1 {
      JoinNotContains(parts[1..], needle);
      var s := Join(parts, " ");
      assert s == parts[0] + " " + Join(parts[1..], " ");
      forall j: nat ensures !OccursAt(s, needle, j) {
        if OccursAt(s, needle, j) {
          SpaceSplitOccurs(parts[0], Join(parts[1..], " "), needle, j);
        }
      }
    }
  }

  /** Text appended to a text containing a needle still contains it. */
  lemma ContainsLeft(a: string, b: string, needle: string)
    requires Contains(a, needle)
    ensures Contains(a + b, needle)
  {
    FindExtend(a, b, needle);
  }

  /** Text put in front of a text containing a needle still contains it. */
  lemma ContainsRight(a: string, b: string, needle: string)
    requires Contains(b, needle)
    ensures Contains(a + b, needle)
  {
    var i := Find(b, needle).value;
    assert (a + b)[|a| + i..|a| + i + |needle|] == b[i..i + |needle|];
    ContainsAt(a + b, needle, |a| + i);
  }

  /** Text appended after the first occurrence does not move it. */
  lemma FindExtend(s: string, t: string, needle: string)
    requires Find(s, needle).Some?
    ensures Find(s + t, needle) == Find(s, needle)
  {
    var i := Find(s, needle).value;
    var u := s + t;
    assert u[i..i + |needle|] == s[i..i + |needle|];
    forall j | 0 <= j < i ensures !OccursAt(u, needle, j) {
      assert !OccursAt(s, needle, j);
      assert u[j..j + |needle|] == s[j..j + |needle|];
    }
    FindIs(u, needle, i);
  }

  /** Text without `c` contains no needle holding `c`. */
  lemma NoCharNotContains(s: string, needle: string, k: nat, c: char)
    requires k < |needle| && needle[k] == c && NoChar(s, c)
    ensures !Contains(s, needle)
  {
    forall i: nat | i + |needle| <= |s| ensures !OccursAt(s, needle, i) {
      assert s[i + k] != c;
      assert s[i..i + |needle|][k] == s[i + k];
    }
  }

  lemma SplitWhitespaceWord(w: string)
    requires |w| > 0 && NoWhitespace(w)
    ensures SplitWhitespace(w) == [w]
  {
    SplitWordThen(w, []);
    assert w + [] == w;
  }

  lemma SplitCharCons(x: string, y: string, c: char)
    requires NoChar(x, c)
    ensures SplitChar(x + [c] + y, c) == [x] + SplitChar(y, c)
  {
    var s := x + [c] + y;
    assert s[..|x|] == x && s[|x| + 1..] == y;
    FindCharIs(s, c, |x|);
  }

  /** `FindChar` reports the first occurrence. */
  lemma {:induction false} FindCharIs(s: string, c: char, i: nat)
    requires i < |s| && s[i] == c && NoChar(s[..i], c)
    ensures FindChar(s, c) == Some(i)
  {
    if i > 0 {
      assert s[0] == s[..i][0];
      assert s[1..][..i - 1] == s[..i][1..];
      FindCharIs(s[1..], c, i - 1);
    }
  }

  lemma SplitCharNone(y: string, c: char)
    requires NoChar(y, c)
    ensures SplitChar(y, c) == [y]
  {
  }

  /** Three words separated by single spaces split back into the words. */
  lemma TwoWordsThen(a: string, b: string, c: string)
    requires |a| > 0 && NoWhitespace(a) && |b| > 0 && NoWhitespace(b) && |c| > 0 && NoWhitespace(c)
    ensures SplitWhitespace(a + " " + b + " " + c) == [a, b, c]
  {
    var sc := " " + c;
    var bc := b + sc;
    var sbc := " " + bc;
    assert SplitWhitespace(sc) == [c] by {
      SplitLeadingSpace(c);
      SplitWhitespaceWord(c);
    }
    assert SplitWhitespace(sbc) == [b, c] by {
      SplitLeadingSpace(bc);
      SplitWordThen(b, sc);
    }
    assert SplitWhitespace(a + sbc) == [a, b, c] by {
      SplitWordThen(a, sbc);
    }
    SpacedWords(a, b, c);
  }

  lemma SpacedWords(a: string, b: string, c: string)
    ensures a + " " + b + " " + c == a + (" " + (b + (" " + c)))
  {
  }
  /** Words joined with single spaces and followed by a space and more text
      split into the words and then the text's own words. */
  lemma SplitJoinThen(ws: seq<string>, rest: string)
    requires |ws| > 0
    requires forall i :: 0 <= i < |ws| ==> |ws[i]| > 0 && NoWhitespace(ws[i])
    ensures SplitWhitespace(Join(ws, " ") + " " + rest) == ws + SplitWhitespace(rest)
  {
    SplitJoinSpaced(ws, rest);
    assert Join(ws, " ") + " " + rest == Join(ws, " ") + (" " + rest);
  }

  lemma {:induction false} SplitJoinSpaced(ws: seq<string>, rest: string)
    requires |ws| > 0
    requires forall i :: 0 <= i < |ws| ==> |ws[i]| > 0 && NoWhitespace(ws[i])
    ensures SplitWhitespace(Join(ws, " ") + (" " + rest)) == ws + SplitWhitespace(rest)
  {
    var w := ws[0];
    if |ws| == 1 {
      assert Join(ws, " ") == w;
      assert SplitWhitespace(w + (" " + rest)) == [w] + SplitWhitespace(rest) by {
        SplitWordThen(w, " " + rest);
        SplitLeadingSpace(rest);
      }
      assert ws == [w];
    } else {
      var tl := ws[1..];
      var inner := Join(tl, " ") + (" " + rest);
      var sw := SplitWhitespace(inner);
      assert sw == tl + SplitWhitespace(rest) by {
        assert forall i :: 0 <= i < |tl| ==> tl[i] == ws[i + 1];
        SplitJoinSpaced(tl, rest);
      }
      assert SplitWhitespace(w + (" " + inner)) == [w] + sw by {
        SplitWordThen(w, " " + inner);
        SplitLeadingSpace(inner);
      }
      assert Join(ws, " ") + (" " + rest) == w + (" " + inner) by {
        JoinThenSpace(ws, rest);
      }
      ConsThen(w, tl, SplitWhitespace(rest), ws);
    }
  }

  /** A word, a space and more text split into the word and the text's words. */
  lemma SpacedWord(w: string, rest: string)
    requires |w| > 0 && NoWhitespace(w)
    ensures SplitWhitespace(w + " " + rest) == [w] + SplitWhitespace(rest)
  {
    SplitWordThen(w, " " + rest);
    SplitLeadingSpace(rest);
    SpaceBetween(w, rest);
  }

  lemma JoinThenSpace(ws: seq<string>, rest: string)
    requires |ws| > 1
    ensures Join(ws, " ") + (" " + rest) == ws[0] + (" " + (Join(ws[1..], " ") + (" " + rest)))
  {
    var j := Join(ws[1..], " ");
    assert Join(ws, " ") == ws[0] + " " + j;
    SpaceGlue(ws[0], j, rest);
  }

  lemma ConsThen<T>(x: T, tl: seq<T>, r: seq<T>, xs: seq<T>)
    requires |xs| > 0 && x == xs[0] && tl == xs[1..]
    ensures [x] + (tl + r) == xs + r
  {
    assert xs == [x] + tl;
  }

  lemma SpaceGlue(w: string, j: string, rest: string)
    ensures (w + " " + j) + (" " + rest) == w + (" " + (j + (" " + rest)))
  {
  }

  /** A join starts with its first part. */
  lemma JoinHead(parts: seq<string>, sep: string)
    requires |parts| > 0
    ensures StartsWith(Join(parts, sep), parts[0])
  {
    var r := Join(parts, sep);
    if |parts| > 1 {
      assert r == parts[0] + (sep + Join(parts[1..], sep));
    }
    assert r[..|parts[0]|] == parts[0];
  }

  /** Joining with newlines and ending with one is `Unlines`. */
  lemma {:induction false} JoinUnlines(ls: seq<string>)
    requires |ls| > 0
    ensures Join(ls, "\n") + "\n" == Unlines(ls)
  {
    if |ls| > 1 {
      JoinUnlines(ls[1..]);
      assert Join(ls, "\n") + "\n" == ls[0] + "\n" + (Join(ls[1..], "\n") + "\n");
    }
  }

  /** Every part of a join occurs in it. */
  lemma {:induction false} JoinContainsPart(parts: seq<string>, sep: string, k: nat)
    requires k < |parts|
    ensures Contains(Join(parts, sep), parts[k])
  {
    var s := Join(parts, sep);
    if k == 0 {
      if |parts| > 1 {
        assert s == parts[0] + (sep + Join(parts[1..], sep));
      }
      assert OccursAt(s, parts[0], 0);
      ContainsAt(s, parts[0], 0);
    } else {
      var tl := Join(parts[1..], sep);
      JoinContainsPart(parts[1..], sep, k - 1);
      var i := Find(tl, parts[k]).value;
      var off := |parts[0]| + |sep|;
      assert s == (parts[0] + sep) + tl;
      assert s[off + i..off + i + |parts[k]|] == tl[i..i + |parts[k]|];
      ContainsAt(s, parts[k], off + i);
    }
  }

  lemma NoCharConcat(a: string, b: string, c: char)
    requires NoChar(a, c) && NoChar(b, c)
    ensures NoChar(a + b, c)
  {
    forall i | 0 <= i < |a + b| ensures (a + b)[i] != c {
      if i >= |a| {
        assert (a + b)[i] == b[i - |a|];
      }
    }
  }

  /** `FirstWhere` reports the first element satisfying `p`. */
  lemma FirstWhereIs(ls: seq<string>, p: string -> bool, k: nat)
    requires k < |ls| && p(ls[k])
    requires forall j :: 0 <= j < k ==> !p(ls[j])
    ensures FirstWhere(ls, p) == Some(k)
  {
  }
}

=== FILE: updates.dfy ===
/** The release-update check: dotted version comparison and the mapping of
    its outcome to an update verdict. The HTTP request is replaced by its
    response, given as a value. */
module Updates {
  import opened Text

  /** The largest `u32`: segments above it fail to parse and are dropped. */
  const U32_MAX: nat := 0xFFFF_FFFF

  datatype Ordering = Less | Equal | Greater

  function Reverse(o: Ordering): Ordering {
    match o
    case Less => Greater
    case Equal => Equal
    case Greater => Less
  }

  function CompareNat(a: nat, b: nat): (o: Ordering)
    ensures o == Less <==> a < b
    ensures o == Equal <==> a == b
  {
    if a < b then Less else if a == b then Equal else Greater
  }

  /** The numeric value of every segment that parses as a `u32`, in order;
      the other segments are dropped. */
  function ParseSegments(segs: seq<string>): (r: seq<nat>)
    ensures |r| <= |segs|
    ensures forall i :: 0 <= i < |r| ==> r[i] <= U32_MAX
  {
    if |segs| == 0 then []
    else
      var head := match ParseUnsigned(segs[0], U32_MAX)
        case Some(n) => [n]
        case None => [];
      head + ParseSegments(segs[1..])
  }

  /** The numeric dot-separated parts of a version string. */
  function VersionParts(v: string): (r: seq<nat>)
    ensures |r| <= |SplitChar(v, '.')|
    ensures forall i :: 0 <= i < |r| ==> r[i] <= U32_MAX
  {
    ParseSegments(SplitChar(v, '.'))
  }

  /** Pairwise comparison up to the shorter length, then the lengths. */
  function CompareParts(a: seq<nat>, b: seq<nat>): Ordering {
    if |a| == 0 || |b| == 0 then CompareNat(|a|, |b|)
    else if a[0] > b[0] then Greater
    else if a[0] < b[0] then Less
    else CompareParts(a[1..], b[1..])
  }

  /** `compare_versions(latest, current)`: equal exactly when the two
      versions have the same numeric parts. */
  function CompareVersions(latest: string, current: string): (o: Ordering)
    ensures o == Equal <==> VersionParts(latest) == VersionParts(current)
  {
    CompareEqualIff(VersionParts(latest), VersionParts(current));
    CompareParts(VersionParts(latest), VersionParts(current))
  }

  /** A segment that does not parse contributes nothing. */
  lemma {:induction false} UnparsedSegmentDropped(pre: seq<string>, bad: string, post: seq<string>)
    requires ParseUnsigned(bad, U32_MAX).None?
    ensures ParseSegments(pre + [bad] + post) == ParseSegments(pre + post)
  {
    if |pre| == 0 {
      SegmentsSplit(pre, bad, post);
      assert ParseSegments([bad] + post) == ParseSegments(post);
    } else {
      UnparsedSegmentDropped(pre[1..], bad, post);
      SegmentsSplit(pre, bad, post);
    }
  }

  lemma SegmentsSplit(pre: seq<string>, bad: string, post: seq<string>)
    ensures |pre| == 0 ==> pre + [bad] + post == [bad] + post && pre + post == post
    ensures ([bad] + post)[1..] == post
    ensures |pre| > 0 ==> (pre + [bad] + post)[1..] == pre[1..] + [bad] + post
    ensures |pre| > 0 ==> (pre + post)[1..] == pre[1..] + post
    ensures |pre| > 0 ==> (pre + [bad] + post)[0] == pre[0] && (pre + post)[0] == pre[0]
  {
  }

  lemma {:induction false} CompareReflexive(a: seq<nat>)
    ensures CompareParts(a, a) == Equal
  {
    if |a| > 0 {
      CompareReflexive(a[1..]);
    }
  }

  lemma {:induction false} CompareAntisymmetric(a: seq<nat>, b: seq<nat>)
    ensures CompareParts(a, b) == Reverse(CompareParts(b, a))
  {
    if |a| > 0 && |b| > 0 && a[0] == b[0] {
      CompareAntisymmetric(a[1..], b[1..]);
    }
  }

  /** Equal exactly when the numeric parts coincide. */
  lemma {:induction false} CompareEqualIff(a: seq<nat>, b: seq<nat>)
    ensures CompareParts(a, b) == Equal <==> a == b
  {
    if a == b {
      CompareReflexive(a);
    } else if |a| > 0 && |b| > 0 && a[0] == b[0] {
      CompareEqualIff(a[1..], b[1..]);
      assert a == [a[0]] + a[1..] && b == [b[0]] + b[1..];
    }
  }

  /** The first differing part decides. */
  lemma {:induction false} FirstDifferenceDecides(a: seq<nat>, b: seq<nat>, k: nat)
    requires k < |a| && k < |b|
    requires a[..k] == b[..k]
    requires a[k] != b[k]
    ensures CompareParts(a, b) == (if a[k] < b[k] then Less else Greater)
  {
    if k > 0 {
      assert a[0] == a[..k][0] && b[0] == b[..k][0];
      assert a[1..][..k - 1] == a[..k][1..];
      assert b[1..][..k - 1] == b[..k][1..];
      FirstDifferenceDecides(a[1..], b[1..], k - 1);
    }
  }

  /** On a common prefix the longer version is the greater one. */
  lemma {:induction false} LongerPrefixIsGreater(a: seq<nat>, b: seq<nat>)
    requires |a| < |b| && a == b[..|a|]
    ensures CompareParts(b, a) == Greater && CompareParts(a, b) == Less
  {
    if |a| > 0 {
      assert a[0] == b[0];
      assert a[1..] == b[1..][..|a| - 1];
      LongerPrefixIsGreater(a[1..], b[1..]);
    }
  }

  lemma {:induction false} CompareTransitive(a: seq<nat>, b: seq<nat>, c: seq<nat>)
    requires CompareParts(a, b) == Less && CompareParts(b, c) == Less
    ensures CompareParts(a, c) == Less
  {
    if |a| > 0 && |b| > 0 && |c| > 0 && a[0] == b[0] && b[0] == c[0] {
      CompareTransitive(a[1..], b[1..], c[1..]);
    }
  }

  lemma VersionsReflexive(v: string)
    ensures CompareVersions(v, v) == Equal
  {
    CompareReflexive(VersionParts(v));
  }

  lemma VersionsAntisymmetric(a: string, b: string)
    ensures CompareVersions(a, b) == Reverse(CompareVersions(b, a))
  {
    CompareAntisymmetric(VersionParts(a), VersionParts(b));
  }

  datatype UpdateResult = NewRelease(version: string) | UpToDate | Beta

  /** What the release endpoint answered: no connection, or a status code and,
      on 200, the release tag if the body parsed. */
  datatype Response = ConnectFailed | Answered(status: nat, tagName: Option<string>)

  /** `call()` fails both when no connection is made and, as the `ureq` 2
      agent does, when the answer carries a 4xx or 5xx status. */
  datatype CheckError = RequestError | BodyParseError

  datatype CheckOutcome = Checked(result: UpdateResult) | CheckFailed(error: CheckError)

  /** The statuses `call()` turns into an error instead of a response. */
  predicate IsErrorStatus(status: nat) {
    status >= 400
  }

  /** `check_for_updates` given the endpoint's response and the running version. */
  function CheckForUpdates(resp: Response, current: string): (r: CheckOutcome)
    ensures r.CheckFailed? && r.error == RequestError <==>
      resp.ConnectFailed? || IsErrorStatus(resp.status)
    ensures resp.Answered? && !IsErrorStatus(resp.status) && resp.status != 200 ==> r == Checked(UpToDate)
    ensures resp.Answered? && resp.status == 200 && resp.tagName.None? ==> r == CheckFailed(BodyParseError)
    ensures resp.Answered? && resp.status == 200 && resp.tagName.Some? ==>
      var latest := TrimStartMatches(resp.tagName.value, "v");
      match CompareVersions(latest, current)
      case Greater => r == Checked(NewRelease(latest))
      case Less => r == Checked(Beta)
      case Equal => r == Checked(UpToDate)
  {
    match resp
    case ConnectFailed => CheckFailed(RequestError)
    case Answered(status, tag) =>
      if IsErrorStatus(status) then CheckFailed(RequestError)
      else if status != 200 then Checked(UpToDate)
      else match tag
        case None => CheckFailed(BodyParseError)
        case Some(t) =>
          var latest := TrimStartMatches(t, "v");
          match CompareVersions(latest, current)
          case Greater => Checked(NewRelease(latest))
          case Less => Checked(Beta)
          case Equal => Checked(UpToDate)
  }

  /** A release tagged with the running version, `v`-prefixed or not, is up to date. */
  lemma SameVersionIsUpToDate(current: string, prefix: nat)
    requires current == [] || current[0] != 'v'
    ensures CheckForUpdates(Answered(200, Some(seq(prefix, _ => 'v') + current)), current) == Checked(UpToDate)
  {
    TrimVs(prefix, current);
    VersionsReflexive(current);
  }

  lemma {:induction false} TrimVs(n: nat, s: string)
    requires s == [] || s[0] != 'v'
    ensures TrimStartMatches(seq(n, _ => 'v') + s, "v") == s
  {
    if n > 0 {
      assert (seq(n, _ => 'v') + s)[1..] == seq(n - 1, _ => 'v') + s;
      TrimVs(n - 1, s);
    } else {
      assert seq(n, _ => 'v') + s == s;
    }
  }
}

=== FILE: vdf.dfy ===
/** The scanning primitives of the Steam `localconfig.vdf` patcher: the
    quote-aware brace matcher and the quoted-key block finders.

    The Rust code scans bytes. Every char these scans look for (`{ } " \`
    and ASCII whitespace) is ASCII, and no byte of a multi-byte UTF-8
    sequence is ASCII, so a scan over chars meets the same structure;
    positions here are char indices. The whitespace skip tests
    `(byte as char).is_whitespace()`: the lead byte of a non-ASCII char is
    never whitespace, so on chars the skip stops at exactly the ASCII
    whitespace test `IsAsciiSpace`. */
module Vdf {
  import opened Text

  // ---------------------------------------------------------------------------
  // Small scans

  /** `s[i..end].find('"')`, as a position in `s`. */
  function QuoteFrom(s: string, i: nat, end: nat): (r: Option<nat>)
    requires end <= |s|
    ensures r.Some? ==> i <= r.value < end && s[r.value] == '"'
    decreases end - i
  {
    if i >= end then None
    else if s[i] == '"' then Some(i)
    else QuoteFrom(s, i + 1, end)
  }

  /** `QuoteFrom` finds the first quote: none lies before it, and none at
      all when it finds nothing. */
  lemma {:induction false} QuoteFromFirst(s: string, i: nat, end: nat)
    requires end <= |s|
    ensures QuoteFrom(s, i, end).Some? ==> forall k :: i <= k < QuoteFrom(s, i, end).value ==> s[k] != '"'
    ensures QuoteFrom(s, i, end).None? ==> forall k :: i <= k < end ==> s[k] != '"'
    decreases end - i
  {
    if i < end && s[i] != '"' {
      QuoteFromFirst(s, i + 1, end);
    }
  }

  /** A quote with none before it from `i` on is the one `QuoteFrom`
      finds. */
  lemma {:induction false} QuoteFromIs(s: string, i: nat, end: nat, q: nat)
    requires end <= |s| && i <= q < end && s[q] == '"'
    requires forall k :: i <= k < q ==> s[k] != '"'
    ensures QuoteFrom(s, i, end) == Some(q)
    decreases q - i
  {
    if i < q {
      QuoteFromIs(s, i + 1, end, q);
    }
  }

  /** `needle` matches `s` at `i` from its `n`-th char on. */
  predicate MatchesFrom(s: string, needle: string, i: nat, n: nat)
    requires n <= |needle| && i + |needle| <= |s|
    decreases |needle| - n
  {
    n == |needle| || (s[i + n] == needle[n] && MatchesFrom(s, needle, i, n + 1))
  }

  /** `needle` occurs in `s` at `i`, compared char by char. */
  predicate MatchesAt(s: string, needle: string, i: nat) {
    i + |needle| <= |s| && MatchesFrom(s, needle, i, 0)
  }

  lemma {:induction false} MatchesFromAll(s: string, needle: string, i: nat, n: nat)
    requires n <= |needle| && i + |needle| <= |s|
    ensures MatchesFrom(s, needle, i, n) <==> forall k :: n <= k < |needle| ==> s[i + k] == needle[k]
    decreases |needle| - n
  {
    if n < |needle| {
      MatchesFromAll(s, needle, i, n + 1);
    }
  }

  /** The char-by-char comparison is the slice comparison. */
  lemma MatchesAtIsOccursAt(s: string, needle: string, i: nat)
    ensures MatchesAt(s, needle, i) <==> OccursAt(s, needle, i)
  {
    if i + |needle| <= |s| {
      MatchesFromAll(s, needle, i, 0);
      if MatchesAt(s, needle, i) {
        assert s[i..i + |needle|] == needle;
      }
    }
  }

  /** `s[i..end].find(needle)`, as a position in `s`: the first occurrence
      lying wholly inside the range. */
  function OccurrenceFrom(s: string, needle: string, i: nat, end: nat): (r: Option<nat>)
    requires end <= |s|
    ensures r.Some? ==> i <= r.value && r.value + |needle| <= end
    decreases end - i
  {
    if i + |needle| > end then None
    else if MatchesAt(s, needle, i) then Some(i)
    else OccurrenceFrom(s, needle, i + 1, end)
  }

  /** `OccurrenceFrom` finds the first occurrence inside the range. */
  lemma {:induction false} OccurrenceFromFirst(s: string, needle: string, i: nat, end: nat)
    requires end <= |s|
    ensures var r := OccurrenceFrom(s, needle, i, end);
      && (r.Some? ==> MatchesAt(s, needle, r.value))
      && (r.Some? ==> forall k :: i <= k < r.value ==> !MatchesAt(s, needle, k))
      && (r.None? ==> forall k :: i <= k && k + |needle| <= end ==> !MatchesAt(s, needle, k))
    decreases end - i
  {
    if i + |needle| <= end && !MatchesAt(s, needle, i) {
      OccurrenceFromFirst(s, needle, i + 1, end);
    }
  }

  /** What `OccurrenceFrom` finds is an occurrence. */
  lemma {:induction false} OccurrenceFromOccurs(s: string, needle: string, i: nat, end: nat)
    requires end <= |s| && OccurrenceFrom(s, needle, i, end).Some?
    ensures MatchesAt(s, needle, OccurrenceFrom(s, needle, i, end).value)
    decreases end - i
  {
    if !MatchesAt(s, needle, i) {
      OccurrenceFromOccurs(s, needle, i + 1, end);
    }
  }

  /** The number of `"` in `s[a..b]`. */
  function QuotesIn(s: string, a: nat, b: nat): nat
    requires b <= |s|
    decreases b
  {
    if b <= a then 0 else QuotesIn(s, a, b - 1) + (if s[b - 1] == '"' then 1 else 0)
  }

  /** A quote-free stretch adds nothing to the count. */
  lemma {:induction false} QuotesInSkip(s: string, a: nat, b: nat, c: nat)
    requires a <= b <= c <= |s|
    requires forall k :: b <= k < c ==> s[k] != '"'
    ensures QuotesIn(s, a, c) == QuotesIn(s, a, b)
    decreases c
  {
    if c > b {
      QuotesInSkip(s, a, b, c - 1);
    }
  }

  /** Counting across the quote at `q` and the quote-free stretch after it. */
  lemma QuotesInStep(s: string, a: nat, q: nat, c: nat)
    requires a <= q < c <= |s| && s[q] == '"'
    requires forall k :: q < k < c ==> s[k] != '"'
    ensures QuotesIn(s, a, c) == QuotesIn(s, a, q) + 1
  {
    QuotesInSkip(s, a, q + 1, c);
  }

  /** The first position at or after `i` (and at most `end`) that is not
      ASCII whitespace. */
  function SkipSpace(s: string, i: nat, end: nat): (r: nat)
    requires i <= end <= |s|
    ensures i <= r <= end
    ensures r < end ==> !IsAsciiSpace(s[r])
    decreases end - i
  {
    if i < end && IsAsciiSpace(s[i]) then SkipSpace(s, i + 1, end) else i
  }

  /** Only whitespace is skipped. */
  lemma {:induction false} SkipSpaceSpaces(s: string, i: nat, end: nat)
    requires i <= end <= |s|
    ensures forall k :: i <= k < SkipSpace(s, i, end) ==> IsAsciiSpace(s[k])
    decreases end - i
  {
    if i < end && IsAsciiSpace(s[i]) {
      SkipSpaceSpaces(s, i + 1, end);
    }
  }

  /** The whitespace-skipping loop the block finders share. */
  method SkipSpaces(content: string, from: nat, end: nat) returns (i: nat)
    requires from <= end <= |content|
    ensures i == SkipSpace(content, from, end)
  {
    i := from;
    while i < end && IsAsciiSpace(content[i])
      invariant from <= i <= end
      invariant SkipSpace(content, i, end) == SkipSpace(content, from, end)
      decreases end - i
    {
      i := i + 1;
    }
  }

  // ---------------------------------------------------------------------------
  // The brace matcher (`match_matching_brace`)

  /** The matcher's state: the nesting depth, whether it is inside a quoted
      string, and whether the previous char inside that string was a
      backslash. */
  datatype Cursor = Cursor(depth: int, inString: bool, escaped: bool)

  const Start := Cursor(0, false, false)

  /** One char of the matcher's loop. Inside a string only `\` and `"`
      matter; outside, `"` opens a string and braces move the depth. */
  function Step(c: Cursor, ch: char): Cursor {
    if c.inString then
      if c.escaped then c.(escaped := false)
      else if ch == '\\' then c.(escaped := true)
      else if ch == '"' then c.(inString := false)
      else c
    else if ch == '"' then c.(inString := true)
    else if ch == '{' then c.(depth := c.depth + 1)
    else if ch == '}' then c.(depth := c.depth - 1)
    else c
  }

  /** `ch` is the closing brace that brings the depth back to zero. */
  predicate Closes(c: Cursor, ch: char) {
    !c.inString && ch == '}' && c.depth == 1
  }

  /** The rest of the scan from position `i` in state `c`. */
  function ScanFrom(s: string, i: nat, end: nat, c: Cursor): (r: Option<nat>)
    requires i <= end <= |s|
    ensures r.Some? ==> i <= r.value < end && s[r.value] == '}'
    decreases end - i
  {
    if i == end then None
    else if Closes(c, s[i]) then Some(i)
    else ScanFrom(s, i + 1, end, Step(c, s[i]))
  }

  /** `match_matching_brace(s, open, end)`: the brace closing the one at
      `open`, looking no further than `end`. */
  function MatchBrace(s: string, open: nat, end: nat): (r: Option<nat>)
    requires end <= |s|
    ensures open >= end || s[open] != '{' ==> r.None?
    ensures r.Some? ==> open < r.value < end && s[r.value] == '}'
  {
    if open >= end || s[open] != '{' then None else ScanFrom(s, open, end, Start)
  }

  /** The matcher's loop, with its early exit. */
  method MatchingBrace(content: string, open: nat, endLimit: nat) returns (r: Option<nat>)
    requires endLimit <= |content|
    ensures r == MatchBrace(content, open, endLimit)
  {
    if open >= endLimit || content[open] != '{' {
      return None;
    }
    var depth, inString, escaped := 0, false, false;
    var i := open;
    while i < endLimit
      invariant open <= i <= endLimit
      invariant ScanFrom(content, i, endLimit, Cursor(depth, inString, escaped)) == MatchBrace(content, open, endLimit)
      decreases endLimit - i
    {
      var ch := content[i];
      if inString {
        if escaped {
          escaped := false;
        } else if ch == '\\' {
          escaped := true;
        } else if ch == '"' {
          inString := false;
        }
      } else if ch == '"' {
        inString := true;
      } else if ch == '{' {
        depth := depth + 1;
      } else if ch == '}' {
        depth := depth - 1;
        if depth == 0 {
          return Some(i);
        }
      }
      i := i + 1;
    }
    return None;
  }

  /** The matcher's state in front of position `i`, for a scan begun at
      `from`: an independent left-to-right fold of `Step`. */
  function CursorAt(s: string, from: nat, i: nat): Cursor
    requires from <= i <= |s|
    decreases i - from
  {
    if i == from then Start else Step(CursorAt(s, from, i - 1), s[i - 1])
  }

  lemma {:induction false} ScanFromFirst(s: string, from: nat, i: nat, end: nat)
    requires from <= i <= end <= |s|
    ensures var r := ScanFrom(s, i, end, CursorAt(s, from, i));
      && (r.Some? ==> Closes(CursorAt(s, from, r.value), s[r.value]))
      && (r.Some? ==> forall j :: i <= j < r.value ==> !Closes(CursorAt(s, from, j), s[j]))
      && (r.None? ==> forall j :: i <= j < end ==> !Closes(CursorAt(s, from, j), s[j]))
    decreases end - i
  {
    if i < end && !Closes(CursorAt(s, from, i), s[i]) {
      ScanFromFirst(s, from, i + 1, end);
    }
  }

  /** The matcher answers with the first position where an unquoted `}`
      brings the depth to zero, and with nothing when the depth never
      returns to zero before `end`. */
  lemma MatchBraceFirst(s: string, open: nat, end: nat)
    requires open < end <= |s| && s[open] == '{'
    ensures var r := MatchBrace(s, open, end);
      && (r.Some? ==> Closes(CursorAt(s, open, r.value), s[r.value]))
      && (r.Some? ==> forall j :: open <= j < r.value ==> !Closes(CursorAt(s, open, j), s[j]))
      && (r.None? ==> forall j :: open <= j < end ==> !Closes(CursorAt(s, open, j), s[j]))
  {
    ScanFromFirst(s, open, open, end);
  }

  /** Inside a string the scan runs to the closing quote without touching
      the depth. */
  lemma {:induction false} InStringSkipped(s: string, k: nat, j: nat, end: nat, c: Cursor)
    requires k <= j < end <= |s| && !c.inString && !c.escaped && s[j] == '"'
    requires forall m :: k <= m < j ==> s[m] != '"' && s[m] != '\\'
    ensures ScanFrom(s, k, end, c.(inString := true)) == ScanFrom(s, j + 1, end, c)
    decreases j - k
  {
    if k < j {
      InStringSkipped(s, k + 1, j, end, c);
    }
  }

  /** A quoted string free of backslashes leaves the scan as it was,
      whatever braces it holds. */
  lemma QuotedSkipped(s: string, i: nat, j: nat, end: nat, c: Cursor)
    requires i < j < end <= |s| && !c.inString && !c.escaped && s[i] == '"' && s[j] == '"'
    requires forall m :: i < m < j ==> s[m] != '"' && s[m] != '\\'
    ensures ScanFrom(s, i, end, c) == ScanFrom(s, j + 1, end, c)
  {
    InStringSkipped(s, i + 1, j, end, c);
  }

  /** A brace inside a quoted string is not the closing one. */
  lemma QuotedBraceExample()
    ensures MatchBrace("a { \"b}c\" { } }", 2, 15) == Some(14)
  {
  }

  /** A backslash-escaped quote does not end the string. */
  lemma EscapedQuoteExample()
    ensures MatchBrace("{ \"x\\\"}\" }", 0, 10) == Some(9)
  {
  }

  // ---------------------------------------------------------------------------
  // Block finders

  /** `format!("\"{key}\"")`. */
  function Quoted(key: string): (r: string)
    ensures |r| == |key| + 2 && r[0] == '"' && r[|r| - 1] == '"'
  {
    "\"" + key + "\""
  }


  /** A block found by key: the key's opening quote, the `{` and its `}`. */
  datatype Block = Block(key: nat, open: nat, close: nat)

  /** Position `p` is followed, past ASCII whitespace, by `{` before `end`. */
  predicate BraceAfter(s: string, p: nat, end: nat)
    requires p <= end <= |s|
  {
    SkipSpace(s, p, end) < end && s[SkipSpace(s, p, end)] == '{'
  }

  /** The block of the key at `k` whose brace is the first char from `p`
      on that is not whitespace, if that brace closes before `end`. */
  function BlockAfter(s: string, k: nat, p: nat, end: nat): (r: Option<Block>)
    requires k < p <= end <= |s|
    ensures r.Some? ==> k < r.value.open < r.value.close < end && r.value.key == k
    ensures r.Some? ==> s[r.value.open] == '{' && s[r.value.close] == '}'
  {
    BlockAt(s, k, SkipSpace(s, p, end), end)
  }

  /** The block of the key at `k` whose brace is at `o`, if it closes
      before `end`. */
  function BlockAt(s: string, k: nat, o: nat, end: nat): (r: Option<Block>)
    requires end <= |s|
    ensures r.Some? ==> o < r.value.close < end && r.value.key == k && r.value.open == o
    ensures r.Some? ==> s[o] == '{' && s[r.value.close] == '}'
  {
    match MatchBrace(s, o, end)
    case None => None
    case Some(c) => Some(Block(k, o, c))
  }

  /** The search loop of `find_block_by_key_in_range`: the first occurrence
      of `needle` met by a left-to-right search that resumes after each
      occurrence, among those a brace follows. */
  function KeyFrom(s: string, needle: string, search: nat, end: nat): (r: Option<nat>)
    requires end <= |s| && |needle| > 0
    ensures r.Some? ==> search <= r.value && r.value + |needle| <= end
    decreases end - search
  {
    if search + |needle| > end then None
    else if MatchesAt(s, needle, search) then
      if BraceAfter(s, search + |needle|, end) then Some(search)
      else KeyFrom(s, needle, search + |needle|, end)
    else KeyFrom(s, needle, search + 1, end)
  }

  /** The search may jump straight to the next occurrence, as `find` does. */
  lemma {:induction false} KeyFromJump(s: string, needle: string, search: nat, end: nat)
    requires end <= |s| && |needle| > 0
    ensures KeyFrom(s, needle, search, end) == match OccurrenceFrom(s, needle, search, end)
      case None => None
      case Some(k) => KeyFrom(s, needle, k, end)
    decreases end - search
  {
    if search + |needle| <= end && !MatchesAt(s, needle, search) {
      KeyFromJump(s, needle, search + 1, end);
    }
  }

  /** `find_block_by_key_in_range(s, key, start, end)`: the loop stops at
      the first keyed occurrence with a brace after it and answers with
      that brace's block, or with nothing when the brace does not close. */
  function FindBlock(s: string, key: string, start: nat, end: nat): (r: Option<Block>)
    requires end <= |s|
    ensures r.Some? ==> start <= r.value.key < r.value.open < r.value.close < end
    ensures r.Some? ==> s[r.value.open] == '{' && s[r.value.close] == '}'
  {
    var needle := Quoted(key);
    match KeyFrom(s, needle, start, end)
    case None => None
    case Some(k) => BlockAfter(s, k, k + |needle|, end)
  }

  /** One step of the search at an occurrence `k`: stop when a brace
      follows, else resume after the occurrence. */
  lemma KeyFromAt(s: string, needle: string, k: nat, end: nat)
    requires end <= |s| && |needle| > 0 && k + |needle| <= end && MatchesAt(s, needle, k)
    ensures BraceAfter(s, k + |needle|, end) ==> KeyFrom(s, needle, k, end) == Some(k)
    ensures !BraceAfter(s, k + |needle|, end) ==> KeyFrom(s, needle, k, end) == KeyFrom(s, needle, k + |needle|, end)
  {
  }

  /** The search loop of `find_block_by_key_in_range`, up to the point
      where it has found the key and the brace after it: it answers with
      the key's position and the brace's. */
  method KeyAndBrace(content: string, needle: string, start: nat, end: nat) returns (r: Option<(nat, nat)>)
    requires end <= |content| && |needle| > 0
    ensures r.None? <==> KeyFrom(content, needle, start, end).None?
    ensures r.Some? ==> r.value.0 == KeyFrom(content, needle, start, end).value
    ensures r.Some? ==> r.value.1 == SkipSpace(content, r.value.0 + |needle|, end)
  {
    var search := start;
    while search < end
      invariant KeyFrom(content, needle, search, end) == KeyFrom(content, needle, start, end)
      decreases end - search
    {
      var found := OccurrenceFrom(content, needle, search, end);
      KeyFromJump(content, needle, search, end);
      if found.None? {
        return None;
      }
      var keyPos := found.value;
      OccurrenceFromOccurs(content, needle, search, end);
      KeyFromAt(content, needle, keyPos, end);
      var i := SkipSpaces(content, keyPos + |needle|, end);
      if i < end && content[i] == '{' {
        return Some((keyPos, i));
      }
      search := keyPos + |needle|;
    }
    return None;
  }

  /** `find_block_by_key_in_range` itself: the search, then the brace
      matcher, whose answer is returned as it is. */
  method FindBlockByKey(content: string, key: string, start: nat, end: nat) returns (r: Option<Block>)
    requires end <= |content|
    ensures r == FindBlock(content, key, start, end)
  {
    var found := KeyAndBrace(content, Quoted(key), start, end);
    if found.None? {
      return None;
    }
    var (keyPos, i) := found.value;
    var close := MatchingBrace(content, i, end);
    if close.None? {
      return None;
    }
    return Some(Block(keyPos, i, close.value));
  }

  /** What a block found by key is: an occurrence of the quoted key, only
      whitespace up to the `{`, and the brace that closes it. */
  lemma FindBlockShape(s: string, key: string, start: nat, end: nat)
    requires end <= |s| && FindBlock(s, key, start, end).Some?
    ensures var b := FindBlock(s, key, start, end).value;
      && OccursAt(s, Quoted(key), b.key)
      && b.key + |Quoted(key)| <= b.open
      && (forall i :: b.key + |Quoted(key)| <= i < b.open ==> IsAsciiSpace(s[i]))
      && s[b.open] == '{'
      && MatchBrace(s, b.open, end) == Some(b.close)
  {
    var needle := Quoted(key);
    var k := KeyFrom(s, needle, start, end).value;
    KeyFromKeyed(s, needle, start, end);
    MatchesAtIsOccursAt(s, needle, k);
    SkipSpaceSpaces(s, k + |needle|, end);
  }

  /** An occurrence of `needle` at `j`, inside the range, with a brace after it. */
  predicate KeyedAt(s: string, needle: string, j: nat, end: nat) {
    j + |needle| <= end <= |s| && MatchesAt(s, needle, j) && BraceAfter(s, j + |needle|, end)
  }

  lemma {:induction false} KeyFromKeyed(s: string, needle: string, search: nat, end: nat)
    requires end <= |s| && |needle| > 0 && KeyFrom(s, needle, search, end).Some?
    ensures KeyedAt(s, needle, KeyFrom(s, needle, search, end).value, end)
    decreases end - search
  {
    if !MatchesAt(s, needle, search) {
      KeyFromKeyed(s, needle, search + 1, end);
    } else if !BraceAfter(s, search + |needle|, end) {
      KeyFromKeyed(s, needle, search + |needle|, end);
    }
  }

  /** The occurrence at `j` starts inside an earlier one at or after
      `start`, so a search that resumes after each occurrence steps over it. */
  predicate Overlapped(s: string, needle: string, start: nat, j: nat, end: nat) {
    exists i: nat :: start <= i < j < i + |needle| && i + |needle| <= end && MatchesAt(s, needle, i)
  }

  /** Every keyed occurrence before the one found (every one at all, when
      none is found) is stepped over. */
  lemma {:induction false} KeyFromFirst(s: string, needle: string, search: nat, end: nat, j: nat)
    requires end <= |s| && |needle| > 0 && search <= j && KeyedAt(s, needle, j, end)
    requires KeyFrom(s, needle, search, end).None? || j < KeyFrom(s, needle, search, end).value
    ensures Overlapped(s, needle, search, j, end)
    decreases end - search
  {
    if !MatchesAt(s, needle, search) {
      KeyFromFirst(s, needle, search + 1, end, j);
    } else if j >= search + |needle| {
      KeyFromFirst(s, needle, search + |needle|, end, j);
    }
  }

  /** The first keyed occurrence that no earlier occurrence overlaps is the
      one found. */
  lemma {:induction false} KeyFromFinds(s: string, needle: string, search: nat, end: nat, j: nat)
    requires end <= |s| && |needle| > 0 && search <= j
    requires KeyedAt(s, needle, j, end) && !Overlapped(s, needle, search, j, end)
    requires forall i :: search <= i < j ==> !KeyedAt(s, needle, i, end)
    ensures KeyFrom(s, needle, search, end) == Some(j)
    decreases end - search
  {
    if search < j {
      if !MatchesAt(s, needle, search) {
        KeyFromFinds(s, needle, search + 1, end, j);
      } else {
        assert !KeyedAt(s, needle, search, end);
        assert j >= search + |needle|;
        KeyFromFinds(s, needle, search + |needle|, end, j);
      }
    }
  }

  /** `s[a..b]` equals `key` up to ASCII case, compared char by char. */
  predicate TokenIs(s: string, a: nat, b: nat, key: string)
    requires a <= b <= |s|
    decreases b - a
  {
    if a == b then |key| == 0
    else |key| > 0 && AsciiLowerChar(s[a]) == AsciiLowerChar(key[0]) && TokenIs(s, a + 1, b, key[1..])
  }

  lemma EqIgnoreAsciiCaseCons(x: string, k: string)
    requires |x| > 0 && |k| > 0
    ensures EqIgnoreAsciiCase(x, k) <==> AsciiLowerChar(x[0]) == AsciiLowerChar(k[0]) && EqIgnoreAsciiCase(x[1..], k[1..])
  {
    assert ToAsciiLower(x) == [AsciiLowerChar(x[0])] + ToAsciiLower(x[1..]);
    assert ToAsciiLower(k) == [AsciiLowerChar(k[0])] + ToAsciiLower(k[1..]);
  }

  /** The char-by-char comparison is `eq_ignore_ascii_case` on the slice. */
  lemma {:induction false} TokenIsEq(s: string, a: nat, b: nat, key: string)
    requires a <= b <= |s|
    ensures TokenIs(s, a, b, key) <==> EqIgnoreAsciiCase(s[a..b], key)
    decreases b - a
  {
    if a < b && |key| > 0 {
      TokenIsEq(s, a + 1, b, key[1..]);
      EqIgnoreAsciiCaseCons(s[a..b], key);
      assert s[a..b][1..] == s[a + 1..b];
    }
  }

  /** `token.eq_ignore_ascii_case(&key_lower)` for the token `s[a..b]`. */
  method TokenEquals(content: string, a: nat, b: nat, key: string, keyLower: string) returns (m: bool)
    requires a <= b <= |content| && keyLower == ToAsciiLower(key)
    ensures m == TokenIs(content, a, b, key)
  {
    m := EqIgnoreAsciiCase(content[a..b], keyLower);
    EqIgnoreAsciiCaseLowered(content[a..b], key);
    TokenIsEq(content, a, b, key);
  }

  /** The quoted token opened at `q` closes before `end`, equals `key`
      up to ASCII case, and is followed by a brace. */
  predicate TokenKeyed(s: string, key: string, q: nat, end: nat)
    requires end <= |s|
  {
    match QuoteFrom(s, q + 1, end)
    case None => false
    case Some(q2) => TokenIs(s, q + 1, q2, key) && BraceAfter(s, q2 + 1, end)
  }

  /** The search loop of `find_block_by_key_in_range_ci`: it walks quote
      pairs, so a closing quote never opens a token, and stops at the first
      token equal to the key that a brace follows. The answer is the
      token's two quotes. */
  function KeyCiFrom(s: string, key: string, search: nat, end: nat): (r: Option<(nat, nat)>)
    requires end <= |s|
    ensures r.Some? ==> search <= r.value.0 < r.value.1 < end
    decreases end - search
  {
    if search >= end then None
    else if s[search] != '"' then KeyCiFrom(s, key, search + 1, end)
    else match QuoteFrom(s, search + 1, end)
      case None => None
      case Some(q2) =>
        if TokenIs(s, search + 1, q2, key) && BraceAfter(s, q2 + 1, end) then Some((search, q2))
        else KeyCiFrom(s, key, q2 + 1, end)
  }

  /** The search may jump straight to the next quote, as `find` does. */
  lemma {:induction false} KeyCiFromJump(s: string, key: string, search: nat, end: nat)
    requires end <= |s|
    ensures KeyCiFrom(s, key, search, end) == match QuoteFrom(s, search, end)
      case None => None
      case Some(q) => KeyCiFrom(s, key, q, end)
    decreases end - search
  {
    if search < end && s[search] != '"' {
      KeyCiFromJump(s, key, search + 1, end);
    }
  }

  /** `find_block_by_key_in_range_ci(s, key, start, end)`. */
  function FindBlockCi(s: string, key: string, start: nat, end: nat): (r: Option<Block>)
    requires end <= |s|
    ensures r.Some? ==> start <= r.value.key < r.value.open < r.value.close < end
    ensures r.Some? ==> s[r.value.open] == '{' && s[r.value.close] == '}'
  {
    match KeyCiFrom(s, key, start, end)
    case None => None
    case Some((q1, q2)) => BlockAfter(s, q1, q2 + 1, end)
  }

  /** One step of the case-insensitive search at an opening quote `q1`
      whose token closes at `q2`. */
  lemma KeyCiFromAt(s: string, key: string, q1: nat, q2: nat, end: nat)
    requires end <= |s| && q1 < end && s[q1] == '"' && QuoteFrom(s, q1 + 1, end) == Some(q2)
    ensures TokenKeyed(s, key, q1, end) ==> KeyCiFrom(s, key, q1, end) == Some((q1, q2))
    ensures !TokenKeyed(s, key, q1, end) ==> KeyCiFrom(s, key, q1, end) == KeyCiFrom(s, key, q2 + 1, end)
  {
  }

  /** The search loop of `find_block_by_key_in_range_ci`, up to the point
      where it has found the key's token and the brace after it: it
      answers with the token's opening quote and the brace's position. */
  method TokenAndBrace(content: string, key: string, start: nat, end: nat) returns (r: Option<(nat, nat)>)
    requires end <= |content|
    ensures r.None? <==> KeyCiFrom(content, key, start, end).None?
    ensures r.Some? ==> r.value.0 == KeyCiFrom(content, key, start, end).value.0
    ensures r.Some? ==> r.value.1 == SkipSpace(content, KeyCiFrom(content, key, start, end).value.1 + 1, end)
  {
    var keyLower := ToAsciiLower(key);
    var search := start;
    while search < end
      invariant KeyCiFrom(content, key, search, end) == KeyCiFrom(content, key, start, end)
      decreases end - search
    {
      var q1 := QuoteFrom(content, search, end);
      KeyCiFromJump(content, key, search, end);
      if q1.None? {
        return None;
      }
      var q2 := QuoteFrom(content, q1.value + 1, end);
      if q2.None? {
        return None;
      }
      KeyCiFromAt(content, key, q1.value, q2.value, end);
      var matches := TokenEquals(content, q1.value + 1, q2.value, key, keyLower);
      if matches {
        var i := SkipSpaces(content, q2.value + 1, end);
        if i < end && content[i] == '{' {
          return Some((q1.value, i));
        }
      }
      search := q2.value + 1;
    }
    return None;
  }

  /** `find_block_by_key_in_range_ci` itself: the search, then the brace
      matcher, whose answer is returned as it is. */
  method FindBlockByKeyCi(content: string, key: string, start: nat, end: nat) returns (r: Option<Block>)
    requires end <= |content|
    ensures r == FindBlockCi(content, key, start, end)
  {
    var found := TokenAndBrace(content, key, start, end);
    if found.None? {
      return None;
    }
    var (q1, i) := found.value;
    var close := MatchingBrace(content, i, end);
    if close.None? {
      return None;
    }
    return Some(Block(q1, i, close.value));
  }

  /** `q` opens a quoted token for a walk begun at `start`: an even number
      of quotes precede it. */
  predicate Opener(s: string, start: nat, q: nat) {
    start <= q < |s| && s[q] == '"' && QuotesIn(s, start, q) % 2 == 0
  }

  /** The case-insensitive search answers with an opening quote whose token
      is the key and is followed by a brace. */
  lemma {:induction false} KeyCiFromKeyed(s: string, key: string, start: nat, search: nat, end: nat)
    requires start <= search <= end <= |s| && QuotesIn(s, start, search) % 2 == 0
    requires KeyCiFrom(s, key, search, end).Some?
    ensures Opener(s, start, KeyCiFrom(s, key, search, end).value.0)
    ensures TokenKeyed(s, key, KeyCiFrom(s, key, search, end).value.0, end)
    decreases end - search
  {
    if s[search] != '"' {
      KeyCiFromKeyed(s, key, start, search + 1, end);
    } else {
      QuoteFromFirst(s, search + 1, end);
      var q2 := QuoteFrom(s, search + 1, end).value;
      KeyCiFromAt(s, key, search, q2, end);
      if !TokenKeyed(s, key, search, end) {
        QuotesInStep(s, start, search, q2);
        QuotesInStep(s, start, q2, q2 + 1);
        KeyCiFromKeyed(s, key, start, q2 + 1, end);
      }
    }
  }

  /** No opening quote before the one found (none at all, when nothing is
      found) has the key for its token with a brace after it. */
  lemma {:induction false} KeyCiFromFirst(s: string, key: string, start: nat, search: nat, end: nat, q: nat)
    requires start <= search <= q < end <= |s| && QuotesIn(s, start, search) % 2 == 0
    requires Opener(s, start, q) && TokenKeyed(s, key, q, end)
    ensures KeyCiFrom(s, key, search, end).Some? && KeyCiFrom(s, key, search, end).value.0 <= q
    decreases end - search
  {
    if s[search] != '"' {
      KeyCiFromFirst(s, key, start, search + 1, end, q);
    } else {
      QuoteFromFirst(s, search + 1, end);
      var q2 := QuoteFrom(s, search + 1, end).value;
      KeyCiFromAt(s, key, search, q2, end);
      if !TokenKeyed(s, key, search, end) {
        QuotesInStep(s, start, search, q2);
        QuotesInStep(s, start, q2, q2 + 1);
        KeyCiFromFirst(s, key, start, q2 + 1, end, q);
      }
    }
  }

  /** `find_steam_apps_block`: the `apps` block reached through
      `UserLocalConfigStore`, `Software`, `Valve` and `Steam`, each looked
      up case-insensitively inside the one before. */
  function FindSteamAppsBlock(s: string): (r: Option<Block>)
    ensures r.Some? ==> FindBlockCi(s, "UserLocalConfigStore", 0, |s|).Some?
    ensures r.Some? ==> var root := FindBlockCi(s, "UserLocalConfigStore", 0, |s|).value;
      root.open < r.value.key < r.value.open < r.value.close < root.close
    ensures r.Some? ==> s[r.value.open] == '{' && s[r.value.close] == '}'
  {
    match FindBlockCi(s, "UserLocalConfigStore", 0, |s|)
    case None => None
    case Some(root) =>
      match FindBlockCi(s, "Software", root.open + 1, root.close)
      case None => None
      case Some(software) =>
        match FindBlockCi(s, "Valve", software.open + 1, software.close)
        case None => None
        case Some(valve) =>
          match FindBlockCi(s, "Steam", valve.open + 1, valve.close)
          case None => None
          case Some(steam) => FindBlockCi(s, "apps", steam.open + 1, steam.close)
  }
}
